=== FILE: README.md ===
# xseller-ai-automation in Dafny

A model of the pure core of the xseller AI automation backend, with proofs.
The backend turns news into social posts and short videos:

- it fetches articles from news sources, with retries;
- it stores them once each, by external id;
- it asks a language model, through a router that may hand large prompts off, to score them;
- it keeps the best ones;
- it drafts posts that a reviewer approves, edits, rejects or publishes;
- it cuts scripts into timed scenes with captions and keywords for the video renderers;
- it picks a narrator voice.

Next to the backend sit three maintenance scripts. One rewrites backend files so they reach models only through the router. One reports files that do not. One checks a machine's setup.

Every operation is a pure function over immutable values:

- A database is a value: the tables of `Store`.
- Each service call takes the database and returns the new one.
- What the code gets from outside is a parameter. This covers the clock, Python's `hash`, model replies, HTTP answers, jitter, and whether a commit succeeds.

One module per source file:

| module | source |
|---|---|
| `Store` | the news tables: articles, ranking scores, ingestion jobs |
| `Schemas` | `backend/app/schemas_news.py`: request bodies, their defaults and bounds |
| `NewsSources`, `Retry` | `backend/app/news_sources.py`: the mock and NewsAPI clients, the client factory and `retry_with_backoff` |
| `Ingest` | `backend/app/service_news_ingest.py`: `run_ingestion`, deduplication by external id, pending articles |
| `Router` | `agents/checks/router.py`: the offload decision |
| `Ranking` | `backend/app/service_news_ranking.py`: `rank_articles`, reply parsing, the latest score, the top-ranked query |
| `DailyBatch` | `backend/app/jobs/m01_daily_batch.py`: the batch job's requests and exit code |
| `ContentScraper` | `backend/app/content_scraper.py`: duplicate filtering, scoring, the top fifteen, keywords |
| `Posts` | the posts table the scheduler and the review routes share |
| `Scheduler` | `backend/app/scheduler.py`: item scoring, duplicate detection, drafts, the queue |
| `Routes` | `backend/app/routes.py`: the review endpoints over the posts table |
| `ScriptTiming`, `VideoProduction`, `VideoPro`, `Competitor`, `VideoGenerator`, `Wrap` | the script parsers and caption wrapping of the four video modules |
| `VoiceSelector` | `backend/app/voice_selector.py`: script analysis and voice ranking |
| `Guardrails`, `VerifyGuardrails` | `scripts/apply_guardrails.py`, `agents/checks/verify_guardrails.py` |
| `EnvFile` | `backend/verify_setup.py`: `.env` reading and the check's exit code |

Two modules are shared:

- `Text` models the Python string built-ins the code uses: `strip`, `lower`, `split`, `splitlines`, `in`, `startswith`, slicing, and simple regular-expression classes.
- `Sorting` models Python's stable `sort(key=..., reverse=True)`, list filtering, `dict.fromkeys` deduplication and "first n of a ranking".

## Model

| member | source | states |
|---|---|---|
| NewsSources.MockFiltered | backend/app/news_sources.py:199-201 | with no category, or an empty one, the mock serves its whole catalogue; with a category it serves only entries of that category, at most the catalogue |
| NewsSources.MockFetch | backend/app/news_sources.py:203-217 | the mock returns the first `limit` filtered entries (Python's `[:limit]`, negative limits included); row `i` has source "mock", the entry's title, URL and description as description and content, id `mock_<i>_<hash(url)>`, placeholder image `i+1`, and a publication time `i` hours before now |
| NewsSources.MockPublishedDecreasing | backend/app/news_sources.py:213 | the mock's rows are published exactly one hour apart, newest first |
| NewsSources.MockIdsDistinct | backend/app/news_sources.py:207 | no two rows of one mock fetch share an external id |
| NewsSources.BusinessEntries | backend/app/news_sources.py:162-201 | the "business" filter serves exactly the second and third catalogue entries |
| NewsSources.MockIdDependsOnFilter | backend/app/news_sources.py:204-207 | the same article gets a different mock id with and without a category filter, since the id records the position in the filtered list |
| NewsSources.NewsApiQuery | backend/app/news_sources.py:95-103 | the page size is `min(limit, 100)`; a category is sent exactly when one is given and non-empty; language "en", country "us" |
| NewsSources.NormaliseItems | backend/app/news_sources.py:117-145 | items without a title or URL are skipped; every row has source "newsapi", a non-empty title and URL and id `newsapi_<hash(url)>`; a batch with no usable item yields nothing |
| NewsSources.NormaliseKeepsUsable | backend/app/news_sources.py:118-143 | every usable item yields a row with its title and URL |
| NewsSources.NormaliseInOrder | backend/app/news_sources.py:117-145 | the rows are exactly the usable items, in their input order, one row each, every field (description, content, image, publication time) as the row for that item gives it |
| NewsSources.NewsApiAttempt | backend/app/news_sources.py:105-118 | an HTTP failure is a failed attempt with its reason; a body whose status is not "ok" fails with "NewsAPI error: " and the message or "Unknown error"; a success keeps at most `limit` rows and no more than the body's articles |
| NewsSources.NewsApiFetch | backend/app/news_sources.py:44-84 | the decorated fetch makes one to three attempts, never returns None, succeeds only on an HTTP success and then returns at most `limit` rows |
| NewsSources.GetNewsClient | backend/app/news_sources.py:238-250 | the lower-cased name "mock" gives the mock client; "newsapi" gives a NewsAPI client with the key and a ten-second timeout when a non-empty key is given, else "API key required for NewsAPI"; any other name is "Unsupported news source: " with the lower-cased name |
| NewsSources.FactoryIgnoresCase | backend/app/news_sources.py:238 | the factory's answer does not depend on the case of the source name |
| NewsSources.MockIdsDiffer | backend/app/news_sources.py:207 | two different positions of the mock catalogue get different external ids, whatever the URL hashes are |
| Retry.RetryFrom | backend/app/news_sources.py:52-63 | from a given attempt on: every call before the last one made failed; the pause after failed attempt `k` is `baseDelay * 4^(k-1)` plus that attempt's jitter; a success is returned at once; the last failure is re-raised only at attempt `maxRetries` |
| Retry.RetryWithBackoff | backend/app/news_sources.py:44-65 | with `maxRetries < 1` the loop makes no call and returns None; otherwise it makes 1 to `maxRetries` calls with one pause fewer than calls and never returns None |
| Retry.FirstSuccessReturned | backend/app/news_sources.py:53-55 | when call `n` is the first success, exactly `n` calls are made and its value is returned |
| Retry.AllFailuresRaise | backend/app/news_sources.py:56-58 | when every attempt fails, exactly `maxRetries` calls are made and the last exception is re-raised |
| Retry.SleepBounds | backend/app/news_sources.py:59-60 | each pause lies between `baseDelay * 4^k` and that plus 0.3 when the jitter is drawn from [0, 0.3] |
| Retry.FirstSuccessFrom | backend/app/news_sources.py:52-55 | from any attempt on, when every call up to `n` fails and call `n` succeeds, the loop makes exactly those calls and returns call `n`'s value |
| Store.FindArticle | backend/app/service_news_ingest.py:161-163 | `session.get(Article, id)`: the position of the first row with that id, or nothing exactly when no row has it |
| Ingest.NewRow | backend/app/service_news_ingest.py:115-125 | the stored row is pending, fetched at the run's time, and numbered by the database |
| Ingest.ExternalIdTaken | backend/app/service_news_ingest.py:106-108 | the duplicate check answers yes exactly when some stored row has the external id |
| Ingest.StoreOne | backend/app/service_news_ingest.py:104-139 | a raw article adds exactly one row when its external id is new and its commit succeeds, and nothing otherwise; after a successful commit the id is in the table; distinct external ids stay distinct |
| Ingest.StoreArticles | backend/app/service_news_ingest.py:92-141 | the table only grows at its end, by the count returned, which is at most the number of raw articles; distinct external ids stay distinct |
| Ingest.StoredRowsCopyRaws | backend/app/service_news_ingest.py:115-129 | every added row is a pending copy of a raw article whose commit succeeded, numbered in insertion order |
| Ingest.CommittedIdsPresent | backend/app/service_news_ingest.py:107-129 | every raw article whose commit succeeds ends up in the table, inserted now or found already there |
| Ingest.StoreKnownIsNoop | backend/app/service_news_ingest.py:110-112 | re-storing articles whose external ids are all present changes nothing and counts zero |
| Ingest.StoreFreshStoresAll | backend/app/service_news_ingest.py:104-141 | articles with fresh, pairwise distinct external ids whose commits succeed are all counted |
| Ingest.KeyFor | backend/app/service_news_ingest.py:60-63 | the service's key is passed exactly for the source named exactly "newsapi" |
| Ingest.FetchSource | backend/app/service_news_ingest.py:58-66 | a factory error is the source's error message; the mock source fetches the mock's rows for the limit with no category |
| Ingest.MisspelledNewsApiFails | backend/app/service_news_ingest.py:60-63 | a source spelled "NewsAPI" reaches the factory without the key and always fails with "API key required for NewsAPI" |
| Ingest.SourceStep | backend/app/service_news_ingest.py:57-74 | a failing source is recorded under its name with its message and changes nothing else; a succeeding one leaves the errors alone and only appends rows, counted in the total |
| Ingest.ProcessSources | backend/app/service_news_ingest.py:57-74 | the loop over the sources only appends rows, counts each appended row once and keeps external ids distinct |
| Ingest.FailingSourcesRecorded | backend/app/service_news_ingest.py:72-73 | every failing source ends up among the errors, and the sources after it are still processed |
| Ingest.ErrorsComeFromFailures | backend/app/service_news_ingest.py:72-73 | every error key names a source whose client construction or fetch raised |
| Ingest.JobStatus | backend/app/service_news_ingest.py:80-84 | "completed" exactly without errors; "partial_failure" with errors and something stored; "failed" with errors and nothing stored |
| Ingest.RunIngestion | backend/app/service_news_ingest.py:27-90 | the articles table only grows at its end; the job's fetched count is the number of rows added; its ranked count is zero; its status follows the errors and the count; the scores are untouched; the job is appended to the jobs table |
| Ingest.SingleSourceRun | backend/app/service_news_ingest.py:57-84 | a run over one succeeding source stores exactly what `_store_articles` stores and completes |
| Ingest.IngestTwice | backend/app/service_news_ingest.py:104-112 | a source that fetches distinct rows stores them all on a first run into an empty database, and stores none on a second run; both runs complete |
| Ingest.MockIngestTwice | backend/app/service_news_ingest.py:57-90 | ingesting the mock source with limit 5 stores five articles, and a second run stores none and completes |
| Ingest.MockFetchesFive | backend/app/news_sources.py:199-217 | the mock source with limit 5 yields five rows with distinct external ids |
| Ingest.GetPendingArticles | backend/app/service_news_ingest.py:143-159 | only pending rows of the table, latest fetch first; `min(limit, pending)` of them, all of them for a negative limit; no pending row left out was fetched later than one returned; without truncation, exactly the pending rows |
| Ingest.ErrorsOnlyGrow | backend/app/service_news_ingest.py:57-74 | once a source's error is recorded, the later sources never remove it |
| Ingest.MockReingestNotFive | backend/tests/test_news_ingest.py:64-66 | the repository's test asserts that the second mock ingestion fetches five articles; on the code it does not |
| Posts.StringArray | backend/app/models.py:52-54 | a list of strings is stored in a JSON column as an array holding the same strings in order |
| Posts.FindPost | backend/app/models.py:46 | `session.get(Post, id)`: the position of a row with that id, or nothing exactly when no row has it |
| Posts.FindPostUnique | backend/app/models.py:46 | with distinct ids (the primary key), the row found is the one holding the id |
| Posts.NextId | backend/app/models.py:46 | the id given to a new row is positive and larger than every id in use |
| Posts.AddPost | backend/app/models.py:43-75 | adding a post appends one row with a fresh id and keeps the earlier rows and the ids' distinctness |
| Posts.AddPosts | backend/app/models.py:43-75 | adding posts in turn appends them in order, each as given apart from its id, and keeps the earlier rows |
| Posts.AddPostsUnique | backend/app/models.py:46 | adding posts keeps the ids distinct |
| Ranking.SkipSpaces | backend/app/service_news_ranking.py:182 | the greedy `\s*` ends at the first character that is not white space |
| Ranking.LazyClose | backend/app/service_news_ranking.py:182 | the lazy `.*?\}\s*` followed by a closing fence stops at the first `}` that only white space separates from a closing fence, and no match exists when no `}` does |
| Ranking.FencedAt | backend/app/service_news_ranking.py:182 | a fenced match's group starts with `{` and ends with `}` |
| Ranking.FencedFrom | backend/app/service_news_ranking.py:182 | the fenced search's group starts with `{` and ends with `}`; without a "```json" in the text there is no match |
| Ranking.LastIndexOf | backend/app/service_news_ranking.py:187 | the last occurrence of a character, or nothing exactly when it does not occur |
| Ranking.BareJson | backend/app/service_news_ranking.py:187 | the greedy `\{.*\}` spans from the first `{` to the last `}` and is missing exactly when no `}` follows the first `{` |
| Ranking.ExtractJson | backend/app/service_news_ranking.py:181-191 | a fenced block is preferred and a bare object is the fallback; what is handed to `json.loads` starts with `{` and ends with `}` |
| Ranking.NumRun | backend/app/service_news_ranking.py:209 | the greedy `[0-9.]+` covers exactly the run of digits and dots |
| Ranking.NumberAt | backend/app/service_news_ranking.py:209 | the score pattern's group is a non-empty run of digits and dots |
| Ranking.ScoreMatchFrom | backend/app/service_news_ranking.py:209 | the fallback score search yields a non-empty run of digits and dots, and nothing when `"score":` does not occur |
| Ranking.QuotedAt | backend/app/service_news_ranking.py:214-217 | a quoted field's group is non-empty and holds no quote |
| Ranking.QuotedFrom | backend/app/service_news_ranking.py:214-218 | the reasoning and category searches yield a non-empty text without quotes, and nothing when the field name does not occur |
| Ranking.DecimalValue | backend/app/service_news_ranking.py:211 | `float()` of the matched digits and dots: a non-negative number, the integer for digits only, and an error exactly when there are two dots or no digit |
| Ranking.Clamp | backend/app/service_news_ranking.py:196-212 | the score is clamped into [0, 1] and unchanged inside it |
| Ranking.JsonScore | backend/app/service_news_ranking.py:195 | a missing score is 0.5, a number is taken as it is, a null or a non-scalar makes `float()` raise |
| Ranking.ParseJsonStage | backend/app/service_news_ranking.py:180-202 | the JSON path succeeds only on extracted text that parses, yields a score in [0, 1], and 0.5 when the object has no score |
| Ranking.ParseFallbackStage | backend/app/service_news_ranking.py:204-224 | the regex fallback yields a score in [0, 1], 0.5 when no score matches, and text reasoning and category |
| Ranking.ParseRankingResponse | backend/app/service_news_ranking.py:167-224 | the JSON path's answer when it succeeds, the fallback's otherwise; any answer scores in [0, 1] |
| Ranking.FencedBlockExtracted | backend/app/service_news_ranking.py:182-184 | a fenced block holding one object without backquotes is what gets parsed, whatever follows it |
| Ranking.BareObjectExtracted | backend/app/service_news_ranking.py:186-189 | with no fence, the object between the first `{` and the last `}` is what gets parsed |
| Ranking.MissingScoreKeyIsNeutral | backend/app/service_news_ranking.py:195 | valid JSON without a score key scores exactly 0.5 |
| Ranking.NegativeJsonScoreClamps | backend/app/service_news_ranking.py:195-196 | valid JSON with a negative score is clamped to 0.0 |
| Ranking.PlainReplyIsNeutral | backend/app/service_news_ranking.py:204-224 | a reply with no brace and no quote scores 0.5 with reasoning "Unable to parse reasoning" and category "other" |
| Ranking.SignedFallbackScoreIsNeutral | backend/app/service_news_ranking.py:208-212 | a reply whose only score is `-0.4` outside any JSON scores the neutral 0.5 rather than 0.0, because the fallback pattern does not accept a sign |
| Ranking.NoJsonNoMatchIsNeutral | backend/app/service_news_ranking.py:208 | with no JSON and no score match the reply scores 0.5 |
| Ranking.LatestScore | backend/app/service_news_ranking.py:259-267 | nothing exactly when the article has no score row; otherwise one of its rows, with no row of it ranked later, and the last inserted of those ranked at that time |
| Ranking.RankSingle | backend/app/service_news_ranking.py:78-123 | a row is stored exactly when the router answers without error, the reply parses, and its reasoning and category are values a text column can bind (not a JSON array or object, whose commit raises); the row is for the article, with a score in [0, 1], the next id and the current time |
| Ranking.OffloadedPromptScoresNeutral | backend/app/service_news_ranking.py:93-104 | a prompt long enough to be offloaded gets the offload status line back, which holds no JSON, so the article scores 0.5 under the offload model |
| Ranking.RankingGrowthTrans | backend/app/service_news_ranking.py:40-76 | what a ranking run may do to the database (mark articles ranked, append scores in [0, 1]) composes over successive steps |
| Ranking.Record | backend/app/service_news_ranking.py:62-69 | a successful ranking appends the row, marks the article ranked and files the score under the article's id |
| Ranking.RankStep | backend/app/service_news_ranking.py:40-74 | one step only marks articles ranked and appends scores; a missing article changes nothing; at most one router call is made; the results either stay as they were or gain or replace the requested id's entry, which belongs to that article; the id has a result afterwards exactly when it had one or its article is found and either, without force, is ranked with a stored score or gets a score from the model |
| Ranking.RankStepFiles | backend/app/service_news_ranking.py:58-64 | a step files at most one result, under the requested id, and keeps every other one |
| Ranking.RankStepWellFiled | backend/app/service_news_ranking.py:58-64 | every filed result belongs to the article it is filed under |
| Ranking.SuccessRecords | backend/app/service_news_ranking.py:61-69 | when a step asks the model and the model answers, the step records that score: the score row is appended, the article marked ranked and the result filed under the id |
| Ranking.FailureLeavesArticle | backend/app/service_news_ranking.py:62-63 | a failed model call or parse leaves the database and the results as they were |
| Ranking.RankFrom | backend/app/service_news_ranking.py:40-74 | the loop only marks articles ranked and appends scores, and files results only under requested ids; an id gets a result exactly when some step for it finds its article and either, without force, reuses a stored score of a ranked article or gets a score from the model |
| Ranking.RankArticles | backend/app/service_news_ranking.py:22-76 | `rank_articles` only marks articles ranked and appends scores in [0, 1]; jobs are untouched; every result is filed under a requested id and belongs to that article; an id gets a result exactly when its article is found and either has a stored score it may reuse or is scored by the model |
| Ranking.CachedStep | backend/app/service_news_ranking.py:48-59 | without `force_rerank`, an article that is ranked and has a score gets its latest score, with no router call and no new row |
| Ranking.CachedRunChangesNothing | backend/app/service_news_ranking.py:48-59 | without `force_rerank`, a run over ranked, scored articles changes nothing, makes no call and returns each one's latest score |
| Ranking.ResultKept | backend/app/service_news_ranking.py:37-76 | a result filed under an id not requested again stays as it is |
| Ranking.RankFromBacked | backend/app/service_news_ranking.py:56-69 | every returned score's article is marked ranked and has a score row |
| Ranking.SecondRunIsCached | backend/app/service_news_ranking.py:48-59 | after a run that ranked every requested article, a second run without `force_rerank` changes nothing, makes no router call and answers every id |
| Ranking.PairWithArticles | backend/app/service_news_ranking.py:250-257 | each score is paired with its article, scores whose article is missing are dropped, and none is dropped when every article exists |
| Ranking.PairSorted | backend/app/service_news_ranking.py:250-257 | pairing keeps the order of the scores |
| Ranking.GetTopRanked | backend/app/service_news_ranking.py:226-257 | only scores at or above the minimum, paired with their articles, ordered by score and then ranking time, latest first; the rows paired are the `min(limit, qualifying)` best qualifying rows, all of them for a negative limit, and no qualifying row left out outranks one taken |
| Ranking.TopOfSortedRows | backend/app/service_news_ranking.py:242-257 | on a table already in order whose rows all qualify, the result pairs the first `limit` rows |
| Ranking.MissingArticleShrinksTop | backend/app/service_news_ranking.py:246-255 | the limit is applied before articles are fetched: a best score whose article is missing leaves the result empty even when another qualifying score exists |
| Ranking.FencedFirst | backend/app/service_news_ranking.py:182-184 | for a reply that opens with a ```` ```json ```` fence followed by an object, what is parsed is that object up to the first closing brace the fence allows |
| Ranking.SignedHasNoJson | backend/app/service_news_ranking.py:182-191 | a reply with no braces, however it spells a score, has no JSON to parse |
| Ranking.SecondRunNotEmpty | backend/tests/test_news_ingest.py:127-129 | the repository's test asserts that ranking the same articles again returns nothing; on the code the result is not empty for any non-empty request |
| Schemas.UnknownSources | backend/app/schemas_news.py:87-88 | exactly the requested names that are neither "newsapi" nor "mock" |
| Schemas.CheckSources | backend/app/schemas_news.py:85-91 | the source list passes exactly when it is absent or every name is allowed, and otherwise one error names the unknown ones |
| Schemas.CheckLimit | backend/app/schemas_news.py:78-83 | the limit passes exactly when it is absent or between 1 and 100, and otherwise one error names it |
| Schemas.ValidateIngest | backend/app/schemas_news.py:72-91 | a request is valid exactly when both fields pass; a valid one takes the defaults `["newsapi"]` and 10 for absent fields and satisfies both constraints; an invalid one carries the errors of both fields, sources first |
| Schemas.IngestSourceEdgeCases | backend/app/schemas_news.py:74-91 | an empty list and repeated names pass, the defaults are `["newsapi"]` and 10, and "NewsAPI" is refused because case matters |
| Schemas.BothErrorsReported | backend/app/schemas_news.py:72-91 | a bad source list and a bad limit are both reported, sources first |
| Schemas.ValidateRank | backend/app/schemas_news.py:106-122 | a rank request is valid exactly when the ids are given and there are 1 to 50 of them; `force_rerank` defaults to false; a missing, empty or too long list gets its own error |
| Schemas.RankBatchBounds | backend/app/schemas_news.py:116-122 | repeated ids are accepted and kept; 50 ids pass and 51 do not |
| Text.NonBlank | backend/app/jobs/m01_daily_batch.py:133 | a string is kept exactly when it is a non-empty stripped part; each kept one is stripped |
| Text.NonBlankIsFilter | backend/app/scheduler.py:206-211 | the kept scripts are the stripped scripts that are not blank, in input order with repeats kept: the comprehension filter over the stripped list, so a subsequence of it |
| DailyBatch.ParseSources | backend/app/jobs/m01_daily_batch.py:133 | a name is parsed exactly when it is a non-empty stripped comma-separated piece of the argument; the names keep the pieces' order, are stripped and hold no comma |
| DailyBatch.ParseJoinedSources | backend/app/jobs/m01_daily_batch.py:133 | names without commas or surrounding blanks survive a round trip through the comma-separated argument |
| DailyBatch.RStripSlashes | backend/app/jobs/m01_daily_batch.py:71-105 | `rstrip('/')` removes exactly the trailing slashes: a prefix of the base, not ending in '/', followed in the base only by slashes |
| DailyBatch.Endpoint | backend/app/jobs/m01_daily_batch.py:71-105 | the endpoint is the base without trailing slashes followed by the path |
| DailyBatch.TrailingSlashesIgnored | backend/app/jobs/m01_daily_batch.py:71-105 | any number of trailing slashes on the base gives the same URL |
| DailyBatch.ExampleUrls | backend/app/jobs/m01_daily_batch.py:71-105 | "http://localhost:8000/" and "http://localhost:8000" give the ingest and rank endpoints without a doubled slash |
| DailyBatch.RunBatch | backend/app/jobs/m01_daily_batch.py:122-183 | no valid source: no request and exit 1; otherwise the ingest request comes first; the rank request is made exactly when the ingest reply carries a non-empty `article_ids`, and names those ids; the exit code is 1 exactly when a request made fails |
| DailyBatch.NoIdsNoRanking | backend/app/jobs/m01_daily_batch.py:154-158 | an ingest reply without `article_ids` skips ranking and exits 0 |
| DailyBatch.RankingGetsIngestedIds | backend/app/jobs/m01_daily_batch.py:105-165 | the rank request names exactly the ingested ids, with the minimum score and no forced re-rank |
| Router.EstimateTokens | agents/checks/router.py:26-31 | the token estimate is the character count divided by four, rounded down |
| Router.ShouldOffload | agents/checks/router.py:34-53 | a prompt is offloaded exactly when its estimate reaches `MAX_TOKENS`, or a non-zero time estimate reaches `HEAVY_TIMEOUT_SEC` |
| Router.DefaultThresholds | agents/checks/router.py:21-53 | with the default settings a prompt of 48000 characters or more is offloaded; a shorter one only with a time estimate of 90 seconds or more |
| Router.OffloadMonotone | agents/checks/router.py:45-48 | extending an offloaded prompt keeps it offloaded |
| Router.NoEstimateNoOffload | agents/checks/router.py:50 | a time estimate of None or 0 leaves the decision to the prompt length |
| Router.RouteRequest | agents/checks/router.py:105-174 | a heavy prompt returns the offload status line, marked offloaded, under the given model or `OFFLOAD_MODEL`; otherwise the reply is never marked offloaded; it is an error exactly when the direct call gives no answer; every non-error reply names a model |
| ContentScraper.FreshnessPoints | backend/app/content_scraper.py:278-288 | freshness is worth 50, 40, 25, 10 or 0; nothing without a date; 50 for a date in the future; nothing after seven days |
| ContentScraper.AuthorityPoints | backend/app/content_scraper.py:291-293 | 30 points exactly when an authoritative name occurs in the source, ignoring case, and none otherwise |
| ContentScraper.KeywordPoints | backend/app/content_scraper.py:296-298 | five points a keyword found in the lower-cased title and summary, a multiple of five capped at 30, reached exactly from six keywords |
| ContentScraper.TitlePoints | backend/app/content_scraper.py:301-311 | a non-empty title gets 10 when longer than 40 characters, 5 with a digit and 5 with a question mark; at most 20, none for an empty title |
| ContentScraper.Score | backend/app/content_scraper.py:274-313 | the score is the sum of the four parts and lies in [0, 130] |
| ContentScraper.AuthorityIgnoresCase | backend/app/content_scraper.py:292 | the authority test does not depend on the case of the source |
| ContentScraper.OpenAIIsAuthoritative | backend/app/content_scraper.py:43 | an authoritative name written as listed counts as authoritative (also line 292) |
| ContentScraper.ScoreReaches130 | backend/app/content_scraper.py:274-313 | the bound 130 is reached: a fresh, authoritative article with six keywords and a long question title holding a number |
| ContentScraper.RankArticles | backend/app/content_scraper.py:261-318 | the ranking is a permutation of the articles paired with their scores, each score in [0, 130], highest first |
| ContentScraper.RankArticlesStable | backend/app/content_scraper.py:316 | articles with equal scores keep their input order, as Python's sort is stable |
| ContentScraper.FilterFrom | backend/app/content_scraper.py:329-348 | the loop keeps a subsequence of its input, nothing whose URL or digest was already seen, and no two kept articles share a URL or a title and summary |
| ContentScraper.FilterFromCovers | backend/app/content_scraper.py:329-348 | every input article is kept, was already seen, or clashes with a kept one |
| ContentScraper.FilterDuplicates | backend/app/content_scraper.py:321-350 | the result is a subsequence of the input with no two articles sharing a URL or a title and summary, and keeps the first article |
| ContentScraper.FilterDuplicatesCovers | backend/app/content_scraper.py:321-350 | only duplicates are lost: every article is kept or clashes with a kept one |
| ContentScraper.FilterFromSnoc | backend/app/content_scraper.py:329-348 | one more article is appended to the result exactly when neither the seen-sets nor the articles kept so far hold its URL or digest |
| ContentScraper.FilterDuplicatesStep | backend/app/content_scraper.py:329-348 | article `j` is kept exactly when it clashes with no article kept from the ones before it; otherwise it is dropped |
| ContentScraper.FilterDuplicatesPrefix | backend/app/content_scraper.py:329-348 | what is kept of a prefix of the input is a prefix of what is kept of the whole, so each decision is final |
| ContentScraper.DroppedDoesNotBlock | backend/app/content_scraper.py:335-347 | a dropped article's URL never enters the seen-sets, so a later article sharing only that URL is kept |
| ContentScraper.WordEnd | backend/app/content_scraper.py:398 | a run of word characters for `\b` ends at the first non-word character |
| ContentScraper.FindAlphaWords | backend/app/content_scraper.py:398 | `\b[a-z]{4,}\b` finds only words of four or more lower-case letters |
| ContentScraper.ExtractKeywords | backend/app/content_scraper.py:395-405 | the keywords are distinct, each a listed keyword of at least four lower-case letters, at most `max_keywords` of them |
| ContentScraper.KeywordsInTextOrder | backend/app/content_scraper.py:402-405 | the keywords come in first-occurrence order; for a non-negative limit there are `min(limit, distinct relevant words)` of them, and with a large enough limit every relevant word is among them |
| ContentScraper.OmittedWordsComeLater | backend/app/content_scraper.py:405 | a relevant word the limit cuts off first occurs after every keyword kept |
| ContentScraper.ShortKeywordsNeverExtracted | backend/app/content_scraper.py:398-402 | "ai", "llm" and "gpt" are never returned |
| ContentScraper.TopArticles | backend/app/content_scraper.py:374-390 | at most fifteen articles, all from the input, by score non-increasing; exactly `min(15, unique)` of them, the best-scoring unique articles, with none left out scoring above one kept |
| ContentScraper.TopAreBest | backend/app/content_scraper.py:379-382 | the first fifteen of the ranking are as many as there are articles up to fifteen, and no article left out scores above any taken |
| Scheduler.StartScheduler | backend/app/scheduler.py:39-69 | after a start the scheduler runs; the three daily jobs are registered only when there was no scheduler, and an existing one keeps its jobs |
| Scheduler.StopScheduler | backend/app/scheduler.py:72-76 | a stop shuts down an existing scheduler and keeps its jobs, and does nothing without one |
| Scheduler.StartIdempotent | backend/app/scheduler.py:39-80 | starting twice, or again after a stop, registers nothing more; a fresh start registers three jobs at 07:30, 12:30 and 21:00 in Pacific/Auckland time |
| Scheduler.FreshnessPoints | backend/app/scheduler.py:98-100 | 50 points exactly for an item published within the last 24 hours, none otherwise |
| Scheduler.Score | backend/app/scheduler.py:95-113 | the score is 50 for freshness, 30 for a source containing an authoritative name with its case, and 5 per keyword present in the lower-cased title and summary; a multiple of five in [0, 105]; above 55 only for a fresh item |
| Scheduler.ExactNameIsAuthoritative | backend/app/scheduler.py:103-105 | the exact name "OpenAI" earns the authority points |
| Scheduler.LowerCaseSourceIsNotAuthoritative | backend/app/scheduler.py:104 | the match is case-sensitive: a source without capitals never earns the authority points |
| Scheduler.RankItems | backend/app/scheduler.py:92-116 | the ranking is a permutation of the items paired with their scores, highest first |
| Scheduler.RankItemsStable | backend/app/scheduler.py:115 | items with equal scores keep their fetch order, as Python's sort is stable |
| Scheduler.PlatformName | backend/app/scheduler.py:173 | a text post's platform is the stripped name, or "General" when that is blank |
| Scheduler.TextPosts | backend/app/scheduler.py:171-178 | an entry is produced exactly when some input entry has non-blank text, and then as that entry's platform name (or "General") and stripped text |
| Scheduler.TextPostsInOrder | backend/app/scheduler.py:171-178 | the kept entries are the entries with text, in input order with repeats kept, each in its kept form |
| Scheduler.TextDrafts | backend/app/scheduler.py:261-273 | one draft text post per kept entry, with the item's title, URL and digest, the entry's text, and the entry's platform as a one-element list |
| Scheduler.VideoDrafts | backend/app/scheduler.py:276-287 | one draft video post per kept script, with the item's title, URL and digest, for Instagram, TikTok and YouTube Shorts |
| Scheduler.DraftsFor | backend/app/scheduler.py:248-287 | the drafts saved for an item are its text posts then its scripts, all drafts of that item; a failed generation saves none |
| Scheduler.IsDuplicate | backend/app/scheduler.py:119-129 | an item is a duplicate when some post, deleted or not, has its URL or the digest of its title, URL and body |
| Scheduler.FirstMatch | backend/app/scheduler.py:123-126 | the query's first row: a row with the URL or the digest and none before it matching, or nothing exactly when no row matches |
| Scheduler.DuplicateIffFound | backend/app/scheduler.py:119-129 | the duplicate check answers yes exactly when the query finds a row |
| Scheduler.ProcessItem | backend/app/scheduler.py:237-289 | an item without a title or URL, or a duplicate of a saved post by URL or digest, adds nothing; any other item adds exactly its drafts, each a draft of that item; only draft posts are appended and ids stay distinct |
| Scheduler.ProcessItemIdempotent | backend/app/scheduler.py:244-289 | once an item's posts are saved the item is a duplicate of them, so processing it again adds nothing |
| Scheduler.ProcessItems | backend/app/scheduler.py:237-291 | the loop only appends draft posts, keeps ids distinct, and adds nothing when no item is usable |
| Scheduler.ProcessItemFresh | backend/app/scheduler.py:244-245 | the posts created for an item share neither a URL nor a digest with the posts already there |
| Scheduler.NoDuplicatePosts | backend/app/scheduler.py:237-291 | a run never creates a post sharing a URL or a digest with a post that was already there |
| Scheduler.DraftsOfItems | backend/app/scheduler.py:237-291 | every post the loop creates is a draft of one of its items |
| Scheduler.ItemsCovered | backend/app/scheduler.py:237-291 | after the loop every usable item whose generation gave copy is matched by a post with its URL or digest: it was a duplicate already or its drafts were saved |
| Scheduler.ItemsProcessed | backend/app/scheduler.py:237-291 | the loop's posts are drafts of its items, and every usable item with copy to save is covered |
| Scheduler.AllItems | backend/app/scheduler.py:220-226 | the items of the feeds that answered, in feed order; nothing when every feed failed or was empty |
| Scheduler.FetchAndGenerate | backend/app/scheduler.py:217-293 | a run only appends draft posts with distinct ids, does nothing when the feeds give no item, creates only drafts of the top twelve ranked items, and leaves each usable top item with copy covered by a post |
| Scheduler.TopSelection | backend/app/scheduler.py:233-234 | `min(12, items)` items are considered, in score order, all from the feeds: the best-scoring ones, with none left out scoring above one taken |
| Routes.Lookup | backend/app/routes.py:159-161 | the post is found exactly when a row has the id, and then it is that row; otherwise the answer is a 404 "Post not found" |
| Routes.SetField | backend/app/routes.py:168-174 | a field assignment changes only that field; platforms and tags take any JSON value; a title or body must be a string and a schedule can only be cleared by `null`, any other value failing the commit; any other key is ignored |
| Routes.FieldsAccepted | backend/app/routes.py:167-174 | the field loop succeeds exactly when every listed field of the body can be committed |
| Routes.FieldsWritten | backend/app/routes.py:167-170 | on success each listed field of the body carries the body's value and every unlisted field keeps its own |
| Routes.ApplyFields | backend/app/routes.py:167-170 | applying the allowed fields changes only the title, body, platforms, schedule and tags |
| Routes.SetRow | backend/app/routes.py:173-175 | the commit replaces the one row and leaves every other row as it was |
| Routes.UpdatePost | backend/app/routes.py:151-194 | a missing post is a 404, a rejected one a 400 "Post is deleted"; the update succeeds exactly when the post exists, is not rejected and the body's title and body are strings and its schedule `null`; then the title, body, platforms and tags given take the body's values, a given schedule is cleared, the other fields and rows keep theirs and the update time is now |
| Routes.UntouchedFields | backend/app/routes.py:168-170 | a field the body does not mention keeps its value |
| Routes.IgnoredKeys | backend/app/routes.py:167-170 | keys outside the five allowed fields make no difference to the update |
| Routes.SameFieldsSameResult | backend/app/routes.py:167-170 | two bodies that agree on the allowed fields update a post alike |
| Routes.ApprovePost | backend/app/routes.py:199-239 | a missing post is a 404 and a rejected one a 400, and nothing else fails; on success the post is approved and scheduled now when asked, else at its existing time, else one hour from now |
| Routes.ApproveTwiceKeepsSchedule | backend/app/routes.py:220-224 | approving an approved post again without asking for an immediate slot keeps its scheduled time |
| Routes.RejectPost | backend/app/routes.py:244-269 | a missing post is a 404 and an already rejected one a 400 "Post already deleted"; the rejection succeeds exactly when the post exists and is not rejected, and then marks it deleted now with its status unchanged and no other row changes |
| Routes.RejectedIsFinal | backend/app/routes.py:163-164 | a rejected post cannot be rejected again, edited, approved or published (also lines 211-212, 255-256, 309-310) |
| Routes.SameRowFound | backend/app/routes.py:159 | replacing a post's row by a row with the same id leaves the lookup finding it there |
| Routes.FirstFound | backend/app/routes.py:159 | a row holding the id means the lookup finds a post at or before it |
| Routes.DeletePost | backend/app/routes.py:274-293 | a missing post is the only failure, a 404; otherwise exactly that row is removed, whether or not it was rejected |
| Routes.DeleteRemovesOnlyThePost | backend/app/routes.py:281-286 | with distinct ids, the deleted post is gone, later lookups give 404, and every other row stays |
| Routes.PublishPost | backend/app/routes.py:298-328 | the publisher is called, and the call succeeds, exactly for a live approved post whose publishing succeeds; a live post of another status is refused with a 400 naming its status |
| Routes.ApprovedThenPublishable | backend/app/routes.py:199-239 | after an approval, publishing can only fail in the publisher itself (a 500) (also lines 312-318) |
| Routes.GetQueue | backend/app/routes.py:91-146 | a limit outside [1, 100] or a negative offset is a 422; otherwise the total counts every live row passing the filters and the page holds at most `limit` of them, newest first, from the offset on |
| Routes.Page | backend/app/routes.py:118-119 | a page is the run of at most `limit` rows starting at the offset, and is as long as the rows allow |
| Routes.PageSorted | backend/app/routes.py:118-119 | a page of newest-first rows is newest first |
| Routes.PagesFit | backend/app/routes.py:118-119 | a page of `a` rows followed by the next page of `b` rows is the page of `a + b` rows, so consecutive pages neither skip nor repeat a row |
| Routes.CountWhere | backend/app/routes.py:31-72 | a count never exceeds the rows, and is zero exactly when no row passes the filter |
| Routes.DashboardStats | backend/app/routes.py:26-86 | each count is the number of live rows with its status: draft, approved, published at or after midnight today, approved and scheduled before now, failed; the overdue posts are among the approved ones, and the draft, approved, published-today and failed counts together never exceed the rows |
| Routes.CountImplied | backend/app/routes.py:57-64 | a stricter filter counts no more rows |
| Routes.CountDisjoint4 | backend/app/routes.py:31-72 | four filters no row passes two of count no more than all rows |
| ScriptTiming.Name | backend/app/video_production.py:80 | a section's type is its label lower-cased: three or four lower-case letters |
| ScriptTiming.LabelAt | backend/app/video_production.py:75-77 | a label is reported only where Hook, Main, Why or CTA matches in any ASCII case |
| ScriptTiming.LabelAtMatches | backend/app/video_production.py:75-77 | wherever a label matches case-insensitively, it is the label reported |
| ScriptTiming.LabelAtExact | backend/app/video_production.py:75 | a label written in lower case is read as itself |
| ScriptTiming.NoLabelAtSpace | backend/app/video_production.py:75 | no label starts at white space |
| ScriptTiming.SpacesFrom | backend/app/video_production.py:75 | `\s*` consumes the whole run of white space and stops at the first non-space |
| ScriptTiming.DigitsFrom | backend/app/video_production.py:75-82 | `\d+` consumes the whole run of ASCII digits and stops at the first non-digit |
| ScriptTiming.HeaderAt | backend/app/video_production.py:75 | a header read at a position starts with a label there and ends after it, within the script |
| ScriptTiming.HeaderReadBack | backend/app/video_production.py:75-82 | a header `label (d1-d2s):` with digit strings reads back as that label and the values of the two numbers |
| ScriptTiming.FirstStop | backend/app/video_production.py:75 | the lazy body ends at the first position where a label followed by optional white space and `(` starts, or at the end of the script |
| ScriptTiming.BodyAt | backend/app/video_production.py:75 | a body is found exactly when characters are left, and it is non-empty |
| ScriptTiming.MatchAt | backend/app/video_production.py:75-83 | a match consumes at least one character and its text is stripped |
| ScriptTiming.Scan | backend/app/video_production.py:77-79 | the sections found number no more than the characters left, and every text is stripped |
| ScriptTiming.ScanAt | backend/app/video_production.py:77-79 | the same, once a match is attempted at the position |
| ScriptTiming.ScanStep | backend/app/video_production.py:77-79 | after a match the search resumes where it ended |
| ScriptTiming.ScanMiss | backend/app/video_production.py:77-79 | without a match the search moves one character on |
| ScriptTiming.Sections | backend/app/video_production.py:75-91 | a script holds no more timed sections than characters (also backend/app/video_production_pro.py:137-145) |
| ScriptTiming.SectionsOfRendered | backend/app/video_production.py:60-91 | writing sections in the documented `Label (a-bs): text` form, separated by spaces, and parsing the script gives back exactly those sections, when each text is non-empty, stripped and free of `(` |
| ScriptTiming.ScanRendered | backend/app/video_production.py:77-91 | scanning written sections from where they start finds exactly those sections |
| ScriptTiming.MatchRendered | backend/app/video_production.py:75-83 | at a written section the match is that section, and it ends where the next section's label starts |
| VideoProduction.TimedScenes | backend/app/video_production.py:79-91 | one scene for every timed section |
| VideoProduction.Timed | backend/app/video_production.py:131-136 | one timed scene for every scene the line-by-line reading collected |
| VideoProduction.ParseScript | backend/app/video_production.py:59-142 | a script with timed sections gives one scene per section |
| VideoProduction.ParseRendered | backend/app/video_production.py:75-91 | a script written as timed sections parses into those sections, in order, with the lower-cased label as type, the text, the two times, and a duration of their difference |
| VideoProduction.FallbackContiguous | backend/app/video_production.py:93-136 | without timed sections the scenes last the default three seconds each and follow one another from zero |
| VideoProduction.FallbackCount | backend/app/video_production.py:96-129 | without timed sections there are exactly as many scenes as label lines |
| VideoProduction.CollectCount | backend/app/video_production.py:100-129 | every label line opens exactly one scene, and an open scene with text is flushed at the end |
| VideoProduction.LabelNamed | backend/app/video_production.py:106-116 | the type a label line names is never empty |
| VideoProduction.PreambleIgnored | backend/app/video_production.py:119-121 | lines before the first label line are dropped |
| Text.Stripped | backend/app/video_production.py:101 | one stripped line for each line |
| VideoProduction.BodyAppended | backend/app/video_production.py:119-129 | unlabelled lines after a label line join its scene, stripped and in order |
| VideoProduction.OneScene | backend/app/video_production.py:105-129 | a label line with its body lines makes one scene: the label as type, the text after the first ':' followed by the body lines |
| VideoProduction.BaseKeyword | backend/app/video_production.py:213-231 | every scene type has a non-empty base keyword, "business" for unknown types |
| VideoProduction.FirstFound | backend/app/video_production.py:226-228 | the first listed word occurring in the text, and none exactly when no listed word occurs |
| VideoProduction.SceneKeyword | backend/app/video_production.py:210-231 | the search keyword is never empty |
| VideoProduction.SceneKeywordChoice | backend/app/video_production.py:223-231 | the keyword is the base keyword exactly when no important word occurs in the lower-cased text, and otherwise an important word that occurs, no later in the list than any other that occurs |
| VideoPro.NewlineRun | backend/app/video_production_pro.py:148 | `\n+` consumes the whole run of line ends |
| VideoPro.BreakAt | backend/app/video_production_pro.py:148 | a separator match stays within the text |
| VideoPro.SplitFrom | backend/app/video_production_pro.py:148 | splitting always gives at least one piece |
| VideoPro.Sentences | backend/app/video_production_pro.py:148-182 | splitting always gives at least one piece |
| VideoPro.SentencesClean | backend/app/video_production_pro.py:148-182 | no piece of the split holds a separator |
| VideoPro.PiecesClean | backend/app/video_production_pro.py:148 | no piece of a scan holds a separator |
| VideoPro.SentencesOfLines | backend/app/video_production_pro.py:148-182 | plain sentences written one per line split back into the same sentences |
| VideoPro.Chunks | backend/app/video_production_pro.py:158-162 | a long sentence's words come in chunks of one to ten words that, joined in order, are the words again |
| VideoPro.ChunkTexts | backend/app/video_production_pro.py:161 | one text per chunk |
| VideoPro.ChunkTextsShort | backend/app/video_production_pro.py:161-168 | a chunk's text splits back into the chunk, so it holds at most ten words |
| VideoPro.Cumulate | backend/app/video_production_pro.py:151-179 | one scene per text |
| VideoPro.CumulateTimed | backend/app/video_production_pro.py:151-202 | the scenes follow one another from the start, each lasting the same share and carrying its text's words |
| VideoPro.TextsShort | backend/app/video_production_pro.py:152-179 | every scene text holds at most ten words |
| VideoPro.PiecesTimed | backend/app/video_production_pro.py:149-179 | a section's scenes follow one another and each holds at most ten words |
| VideoPro.SectionTimed | backend/app/video_production_pro.py:139-202 | a timed section's scenes start at its start time, follow one another, last `min(3, share)` each where the share divides the section's length among the split's pieces, and hold at most ten words |
| VideoPro.AllSectionsShort | backend/app/video_production_pro.py:139-179 | no scene from a timed section lasts more than three seconds or holds more than ten words, and each ends its duration after its start |
| VideoPro.FallbackDuration | backend/app/video_production_pro.py:190 | a sentence's scene lasts 0.3 s a word, clamped to two to four seconds |
| VideoPro.FallbackTimed | backend/app/video_production_pro.py:180-202 | without timed sections every scene is a "main" scene of two to four seconds, 0.3 s a word, and the scenes follow one another from zero |
| VideoPro.ContiguousAppend | backend/app/video_production_pro.py:151-202 | scenes that follow one another, followed by scenes starting where they end, follow one another |
| VideoPro.ParseScript | backend/app/video_production_pro.py:129-205 | with timed sections every scene lasts at most three seconds and holds at most ten words; without, the scenes are "main" scenes of two to four seconds, 0.3 s a word, following one another from zero; every scene lasts at most four seconds and ends its duration after its start |
| VideoPro.WordByWordChoice | backend/app/video_production_pro.py:381 | every parsed scene lasts at most four seconds, so the word-by-word clip is chosen exactly when it is enabled and the scene has at most eight words |
| Competitor.Classify | backend/app/video_competitor_exact.py:132-154 | a line names the first section, in the order hook, demo, proof, impact, cta, whose words or leading digits it holds, and names none when it holds none of them |
| Competitor.LabelledLine | backend/app/video_competitor_exact.py:134-154 | a line naming a section makes it current and, when it holds a ':', replaces that section's text with the stripped text after the first ':', the other texts staying |
| Competitor.UnlabelledLine | backend/app/video_competitor_exact.py:155-160 | a line naming no section and holding no ':' is added, after a space, to the current section's text, or becomes it when that text is empty; with no current section, or with a ':', the line is ignored |
| Competitor.BlankLine | backend/app/video_competitor_exact.py:128-130 | blank lines change nothing |
| Competitor.Default | backend/app/video_competitor_exact.py:162-172 | every section has a non-empty default text |
| Competitor.Parse30 | backend/app/video_competitor_exact.py:102-187 | the structure always has five scenes, none with an empty text |
| Competitor.FixedTiming | backend/app/video_competitor_exact.py:115-183 | the scenes are hook, demo, proof, impact and cta, back to back from 0 to 30 seconds, whatever the script |
| Competitor.DefaultsUsed | backend/app/video_competitor_exact.py:162-172 | a section the script leaves empty gets its default and any other keeps the script's text; the hook's and the demo's defaults contain the title |
| Competitor.CapitalAt | backend/app/video_competitor_exact.py:375 | `[A-Z][a-z]+` ends after a capital and at least one lower-case letter, where the lower-case run stops |
| Competitor.NameAt | backend/app/video_competitor_exact.py:375 | a proper-noun match starts at a word start and ends at a word end, at least two characters on, and what it spans is capitalised words separated by white space |
| Competitor.ProperNouns | backend/app/video_competitor_exact.py:375 | every name found is a run of capitalised ASCII words (a capital, then lower-case letters) separated by white space: it starts with a capital, ends with a lower-case letter, and a capital only follows white space, white space only a lower-case letter or more white space |
| Competitor.LoneName | backend/app/video_competitor_exact.py:375 | a capitalised word standing alone is found, as itself |
| Competitor.TwoWordName | backend/app/video_competitor_exact.py:375 | two capitalised words separated by one space are found as one name, not as two |
| Competitor.TermsIn | backend/app/video_competitor_exact.py:379-384 | a term is taken exactly when it is listed and occurs, case aside, in the text or the title |
| Competitor.TermsInOrder | backend/app/video_competitor_exact.py:379-384 | the terms taken are the filter of the list, in list order |
| Competitor.ActionsIn | backend/app/video_competitor_exact.py:387-392 | an action word is taken exactly when it is listed and occurs in the lower-cased text |
| Competitor.ActionsInOrder | backend/app/video_competitor_exact.py:387-392 | the action words taken are the filter of the list, in list order |
| Competitor.LongWords | backend/app/video_competitor_exact.py:399 | a word is kept exactly when it is a title word longer than four characters |
| Competitor.LongWordsInOrder | backend/app/video_competitor_exact.py:399 | the words kept are the filter of the title words, in title order |
| Competitor.Pick | backend/app/video_competitor_exact.py:394-400 | one to three keywords are always returned |
| Competitor.SmartKeywords | backend/app/video_competitor_exact.py:365-400 | one to three keywords are always returned |
| Competitor.PickFallback | backend/app/video_competitor_exact.py:394-400 | with keywords the first three are returned; without, the first two title words longer than four characters; without those, "technology" and "innovation" |
| Competitor.KeywordsFallback | backend/app/video_competitor_exact.py:372-400 | the keywords are the first three of the proper nouns, technical terms and action words; without any, the first two long title words; without those, "technology" and "innovation" |
| VideoGenerator.SectionOf | backend/app/video_generator.py:121-144 | a line opens the section whose name it starts with, and none when it starts with no section name |
| VideoGenerator.Carried | backend/app/video_generator.py:123-129 | a line carries a text exactly when it holds a ':' or a ')': the stripped text after the first ':', else after the first ')' |
| VideoGenerator.Step | backend/app/video_generator.py:115-150 | the four sections stay four |
| VideoGenerator.StepSets | backend/app/video_generator.py:115-150 | a line changes only the section it opens and carries a text for, and sets it to that text |
| VideoGenerator.ReadLines | backend/app/video_generator.py:105-150 | reading gives exactly the four sections hook, main, why and cta |
| VideoGenerator.LastLineWins | backend/app/video_generator.py:114-150 | each section holds the text of the last line that sets it, and is empty when no line does |
| VideoGenerator.SectionsStripped | backend/app/video_generator.py:124-128 | every section read has no white space at either end |
| VideoGenerator.NonEmpty | backend/app/video_generator.py:153-161 | only non-empty sections are joined, at most all four |
| VideoGenerator.ParseVideoScript | backend/app/video_generator.py:97-171 | the parse has the four sections, and its full text is empty only for an empty script |
| VideoGenerator.FullTextJoins | backend/app/video_generator.py:152-167 | the full text is the non-empty sections in order joined by spaces, and the whole script only when every section is empty |
| Text.AnyContained | backend/app/voice_selector.py:85-87 | true exactly when one of the words occurs in the text |
| VoiceSelector.AnalyzeStyle | backend/app/voice_selector.py:75-119 | the script is news, technology or business exactly when one of that kind's words occurs in the lower-cased script |
| VoiceSelector.StylePriority | backend/app/voice_selector.py:89-109 | the style follows the priority news, technology, business, else neutral; a male voice is asked for exactly for news or business, and an American accent is accepted exactly when the script is not business |
| VoiceSelector.Score | backend/app/voice_selector.py:262-288 | a voice scores between 0 and 46 points |
| VoiceSelector.Reasons | backend/app/voice_selector.py:263-288 | at most one reason per scoring rule |
| VoiceSelector.Scored | backend/app/voice_selector.py:261-295 | every voice is scored once, in catalogue order |
| VoiceSelector.Recommend | backend/app/voice_selector.py:297-300 | the ranking is a permutation of the scored voices, highest score first, with equal scores in catalogue order |
| VoiceSelector.Recommendations | backend/app/voice_selector.py:250-300 | `ListsScored` with the catalogue: the list is as long as the catalogue; every catalogue voice is in it with the score the script's analysis gives it, every entry is a catalogue voice with that score, and the scores never rise down the list |
| VoiceSelector.RecommendLists | backend/app/voice_selector.py:297-300 | for any voice list, the ranking is as long as the list, names every listed voice with its score, holds nothing else, and its scores never rise |
| VoiceSelector.EachVoiceOnce | backend/app/voice_selector.py:261-300 | every voice appears in the ranking with its score |
| VoiceSelector.AccentsMatch | backend/app/voice_selector.py:109 | unless a British accent is asked for, every catalogue voice earns the accent points (also lines 273-275) |
| VoiceSelector.NeutralScript | backend/app/voice_selector.py:21-70 | a script with no news, technology or business word scores every voice 13, so the ranking keeps the catalogue's order (also lines 99-109, 261-300) |
| VoiceSelector.MaleFirst | backend/app/voice_selector.py:103-105 | for a news script without business words, every male voice of the catalogue's kind scores above every female one, whatever technology words add (also lines 262-288) |
| Guardrails.MatchEnd | scripts/apply_guardrails.py:27-34 | a denied-import match starting at a position is non-empty and lies within the text |
| Guardrails.MatchIffParts | scripts/apply_guardrails.py:27-34 | a match is exactly a word start, the keyword, at least one white-space character, the module name and a word end |
| Guardrails.Compile | scripts/apply_guardrails.py:41 | every match of a compiled pattern is non-empty and lies within the text |
| Guardrails.CompileMatches | scripts/apply_guardrails.py:41 | the compiled pattern finds the pattern's matches |
| Guardrails.SubAll | scripts/apply_guardrails.py:41 | with no match the text is left as it was |
| Guardrails.SubAllLength | scripts/apply_guardrails.py:41 | each replaced match lengthens the text by the banner's length |
| Guardrails.CountZeroIff | scripts/apply_guardrails.py:41-42 | the substitution counts nothing exactly when no match starts anywhere |
| Guardrails.FirstAt | scripts/apply_guardrails.py:41 | the first position where a match starts, with none before it |
| Guardrails.UpToFirst | scripts/apply_guardrails.py:41 | up to the first match the text is copied unchanged |
| Guardrails.SubAllHead | scripts/apply_guardrails.py:41 | a substituted text starts with the banner or with the text's own first character |
| Guardrails.FirstMatchSplit | scripts/apply_guardrails.py:41 | with a match, the result is the text up to the first match, the banner, the match itself, then the rest substituted |
| Guardrails.SubAllRematches | scripts/apply_guardrails.py:41 | a commented-out import, kept after the banner, is still a match for its pattern |
| Guardrails.StripWith | scripts/apply_guardrails.py:39-45 | when nothing is counted the text is left as it was |
| Guardrails.StripDirectClients | scripts/apply_guardrails.py:37-45 | when nothing is counted the text is left as it was |
| Guardrails.StripZeroIff | scripts/apply_guardrails.py:37-45 | nothing is stripped exactly when no denied import occurs anywhere in the text |
| Guardrails.CompiledDenied | scripts/apply_guardrails.py:41-42 | the compiled pattern finds no match exactly when the text holds no such import |
| Guardrails.StripLeavesMatch | scripts/apply_guardrails.py:37-45 | when something was stripped, the stripped text still holds a denied import |
| Guardrails.StripRepeats | scripts/apply_guardrails.py:6-45 | stripping is not run-twice safe: a text that had an import stripped has one stripped again on the next run |
| Guardrails.StripLength | scripts/apply_guardrails.py:37-45 | each stripped import lengthens the text by the banner's length |
| Guardrails.BannerEdges | scripts/apply_guardrails.py:41 | the banner starts and ends with a non-word character |
| Guardrails.EndBoundary | scripts/apply_guardrails.py:27-34 | a match ends at the end of the text or before a non-word character |
| Guardrails.RematchAt | scripts/apply_guardrails.py:27-34 | a match copied between non-word characters matches again there |
| Guardrails.AlreadyHasRouter | scripts/apply_guardrails.py:48-49 | true exactly when the text names the router module |
| Guardrails.DocQuote | scripts/apply_guardrails.py:68-69 | a docstring opens with three quote characters at the start of the stripped line |
| Guardrails.SkipComments | scripts/apply_guardrails.py:62-66 | the first line from the position that is neither a comment nor blank, every line passed over being one |
| Guardrails.FindQuote | scripts/apply_guardrails.py:71-72 | the first line from the position holding the quote, none passed over holding it |
| Guardrails.ShebangEnd | scripts/apply_guardrails.py:59-61 | the `#!` line, if any, is passed over |
| Guardrails.HeaderEnd | scripts/apply_guardrails.py:57-74 | the import goes at a line of the file or at its end |
| Guardrails.InsertRouterImport | scripts/apply_guardrails.py:52-77 | the import is added exactly when the text does not name the router; otherwise the text is left as it was; when added it is inserted whole, at the start of a line or at the end of the text |
| Guardrails.InsertedAt | scripts/apply_guardrails.py:76-77 | placing the import before a line places it at a line start of the text, or at its end |
| Guardrails.InsertionNamesRouter | scripts/apply_guardrails.py:22-76 | a text holding the import names the router |
| Guardrails.InsertNamesRouter | scripts/apply_guardrails.py:52-77 | after the insertion the text names the router |
| Guardrails.InsertIdempotent | scripts/apply_guardrails.py:6-77 | running the insertion twice adds one import: the second run changes nothing |
| Guardrails.InsertLength | scripts/apply_guardrails.py:52-77 | the insertion lengthens the text by the import, or not at all |
| Guardrails.CodeFirst | scripts/apply_guardrails.py:57-76 | a file whose first line is code gets the import as its first line |
| Guardrails.CommentsThenCode | scripts/apply_guardrails.py:62-76 | leading comment and blank lines are passed over and the import goes before the first line of code |
| Guardrails.HeaderStart | scripts/apply_guardrails.py:59-66 | after comment lines the header scan stops at the first other line |
| Guardrails.DocstringSkipped | scripts/apply_guardrails.py:67-76 | a docstring after the comments that closes on a later line is passed over: the import goes right after its closing line |
| Guardrails.HeaderAfterDocstring | scripts/apply_guardrails.py:67-74 | a docstring closing on a later line ends the header right after that line, as written and corrected alike |
| Guardrails.OneLineDocstringAsWritten | scripts/apply_guardrails.py:67-74 | as written, a one-line docstring is taken to be still open, and with no later line holding its quote the import goes at the very end of the file |
| Guardrails.HeaderEndFixed | scripts/apply_guardrails.py:67-74 | the corrected header end lies within the file |
| Guardrails.OneLineDocstringFixed | scripts/apply_guardrails.py:67-74 | corrected, the import goes right after a one-line docstring |
| Guardrails.DocstringSkippedFixed | scripts/apply_guardrails.py:67-76 | corrected, a docstring closing on a later line is still passed over up to that line |
| Guardrails.NoFinalNewlineAsWritten | scripts/apply_guardrails.py:57-77 | as written, a file of header lines whose last line has no line end gets the import glued onto that last line |
| Guardrails.InsertRouterImportFixed | scripts/apply_guardrails.py:52-77 | corrected, the import is added exactly when the router is not named, and always on a line of its own, removing it giving back the text (with a line end added to a last line that had none) |
| Guardrails.PlaceImport | scripts/apply_guardrails.py:76-77 | the corrected placement puts the import on a line of its own |
| Guardrails.AtLineStart | scripts/apply_guardrails.py:76-77 | splitting at a line start puts the import on a line of its own |
| Guardrails.InsertFixedIdempotent | scripts/apply_guardrails.py:6-77 | the corrected insertion is run-twice safe too |
| Guardrails.RewriteFile | scripts/apply_guardrails.py:98-101 | the import is added exactly when the stripped text does not name the router, and the result always names it |
| Guardrails.RewriteChanges | scripts/apply_guardrails.py:102-106 | the file is written back exactly when an import was stripped or the router import added |
| VerifyGuardrails.LStripChars | agents/checks/verify_guardrails.py:17 | the longest prefix made of the given characters is removed, and nothing more |
| VerifyGuardrails.Normalize | agents/checks/verify_guardrails.py:16-17 | the compared path always starts with "./", and a path that already does is kept as it is |
| VerifyGuardrails.NormalizeIdempotent | agents/checks/verify_guardrails.py:16-17 | normalising twice changes nothing more |
| VerifyGuardrails.ShouldScan | agents/checks/verify_guardrails.py:15-20 | a path is scanned exactly when its normalised form holds no excluded part and starts with "./" and an included directory |
| VerifyGuardrails.AnyPrefixed | agents/checks/verify_guardrails.py:20 | true exactly when the path starts with "./" and one of the directories |
| VerifyGuardrails.DotSlashOptional | agents/checks/verify_guardrails.py:16-20 | a path is scanned exactly when the same path with "./" in front is |
| VerifyGuardrails.FindIter | agents/checks/verify_guardrails.py:39 | the matches are found left to right, each a real match, none overlapping |
| VerifyGuardrails.FindIterCounts | agents/checks/verify_guardrails.py:39 | the check visits exactly as many matches as the rewriter replaces (also scripts/apply_guardrails.py:41) |
| VerifyGuardrails.LineStart | agents/checks/verify_guardrails.py:41 | the start of the line holding the match: after the last line end before it, or the start of the text |
| VerifyGuardrails.LineEnd | agents/checks/verify_guardrails.py:42-44 | the end of the line holding the match: the first line end after it, or the end of the text |
| VerifyGuardrails.NoMatchNoImport | agents/checks/verify_guardrails.py:38-49 | a text with no denied import at all has no live one |
| VerifyGuardrails.ImportLineIsLive | agents/checks/verify_guardrails.py:41-48 | an import starting a line is on a line that is not a comment, so it is reported |
| VerifyGuardrails.MentionsModel | agents/checks/verify_guardrails.py:50 | the search succeeds exactly when "complete" starts a word, or "generate", "llm" or "client" occurs anywhere, case aside |
| VerifyGuardrails.WordStartFrom | agents/checks/verify_guardrails.py:50 | true exactly when a word-initial "complete" occurs at or after the position |
| VerifyGuardrails.ImportReasons | agents/checks/verify_guardrails.py:38-49 | at most one reason per denied import, and none exactly when no denied import is live |
| VerifyGuardrails.FileReasons | agents/checks/verify_guardrails.py:37-52 | a file has no reason to fail exactly when it has no live denied import and does not mention a model without naming the router |
| VerifyGuardrails.FileOffences | agents/checks/verify_guardrails.py:26-52 | a file gives no offence exactly when it is not checked or has no reason to fail |
| VerifyGuardrails.PathReasons | agents/checks/verify_guardrails.py:48-52 | each reason is reported with the file's path |
| VerifyGuardrails.Collect | agents/checks/verify_guardrails.py:25-52 | nothing is collected exactly when no element gives anything |
| VerifyGuardrails.Offenders | agents/checks/verify_guardrails.py:23-52 | there are no offenders exactly when no file gives an offence |
| VerifyGuardrails.ExitCode | agents/checks/verify_guardrails.py:54-60 | the exit code is 0 exactly when every file is clean, and 1 otherwise |
| VerifyGuardrails.RewrittenHasRouter | agents/checks/verify_guardrails.py:50-52 | a file the rewriter has processed is never failed for a missing router import (also scripts/apply_guardrails.py:98-101) |
| EnvFile.Entry | backend/verify_setup.py:18-23 | a line sets something exactly when, stripped, it is not blank, not a comment and holds an '='; it then sets the stripped text before the first '=' to the stripped text after it, and the key holds no '=' |
| EnvFile.Entries | backend/verify_setup.py:18 | one entry per line, in order |
| EnvFile.LoadEnvFile | backend/verify_setup.py:14-24 | a missing file reads as no settings |
| EnvFile.LastEntryWins | backend/verify_setup.py:18-23 | a key is set exactly when some entry sets it, and then to the value of the last entry that does |
| EnvFile.AssignFromEntries | backend/verify_setup.py:22-23 | every value set is some entry's value for its key |
| EnvFile.LastLineWins | backend/verify_setup.py:14-24 | a key is set exactly when some line of the file sets it, to the value of the last line that does; keys and values are stripped and no key holds an '=' |
| EnvFile.IgnoredLine | backend/verify_setup.py:19-21 | a blank line or a comment changes nothing, wherever it stands |
| EnvFile.AssignmentRead | backend/verify_setup.py:19-23 | a line `key=value` with bare parts and no '=' in the key sets the key to the value |
| EnvFile.Failures | backend/verify_setup.py:37-86 | the news-key failure is reported exactly when the file has no NEWSAPI_KEY; the Notion failure exactly when neither the environment nor the file gives a non-empty key; the version failure only when the command is there and its version query fails; the dependency failure exactly when the packages do not import |
| EnvFile.ExitCode | backend/verify_setup.py:88-93 | the exit code is 0 or 1 |
| EnvFile.ExitCodeZero | backend/verify_setup.py:37-93 | the check passes exactly when the news key is set, a Notion key is given, Gemini and its version answer and the packages import; without a file it always fails |
| Wrap.WrapWords | backend/app/video_production.py:351-369 | the lines hold the words in order, none lost or added; every line fits the width or is a single over-long word; and each line is full, unable to take the first word of the next (also backend/app/video_production_pro.py:300-316) |
| Wrap.StepWraps | backend/app/video_production.py:356-366 | one turn of the loop keeps the wrapping invariant: the closed lines and the open line hold the words seen so far, fit, and are full |
| Wrap.BreakWraps | backend/app/video_production.py:359-363 | a word that makes the open line too long moves to a new line |
| Wrap.AloneWraps | backend/app/video_production.py:364-366 | a word too long for the width, alone on its line, becomes a line of its own |
| Wrap.JoinWraps | backend/app/video_production.py:357-359 | a word that fits joins the open line |
| Wrap.CloseWraps | backend/app/video_production.py:368-369 | the open line, if any, closes the wrap |
| Wrap.LongStaysLong | backend/app/video_production.py:359 | a line already past the width cannot take another word |
| Wrap.Caption | backend/app/video_production.py:351-371 | the caption is the lines joined by line breaks; it has the same words as the text; every line fits the width or is one word, and holds no line break (also backend/app/video_production_pro.py:300-318) |
| Wrap.CaptionWords | backend/app/video_production.py:371 | the caption's lines, split into words, give the words back |
| Wrap.PlainCaption | backend/app/video_production.py:350-371 | the plain caption keeps the text's words, and each of its lines is at most 25 characters or a single word |
| Wrap.BoldCaption | backend/app/video_production_pro.py:299-318 | the bold caption keeps the text's words, and each of its lines is at most 20 characters or a single word |
| Wrap.LinesBack | backend/app/video_production.py:371 | lines without a line break are what their join splits back into |
| Sorting.SortDesc | backend/app/scheduler.py:115 | the sort is a permutation of its input, ordered from the highest key down |
| Sorting.SortStable | backend/app/scheduler.py:115 | elements with the same key keep their input order, as Python's sort is stable |
| Sorting.SortOfSorted | backend/app/voice_selector.py:298 | sorting an already ordered list leaves it as it is |
| Sorting.SortPrefixIsTop | backend/app/content_scraper.py:316-318 | the first rows of the sort are the best rows: none left out outranks one taken |
| Sorting.RankByScore | backend/app/scheduler.py:114-115 | the elements paired with their scores, a permutation of the scored list, highest score first |
| Sorting.RankPrefixIsTop | backend/app/scheduler.py:115 | the first elements of a score ranking are the best ones (also line 234) |
| Sorting.Filter | backend/app/routes.py:102-111 | a filter keeps only passing elements, each no more often than in the input |
| Sorting.FilterIn | backend/app/routes.py:102-111 | an element is kept exactly when it is in the input and passes |
| Sorting.FilterSubseq | backend/app/routes.py:102-111 | the kept elements keep their input order |
| Sorting.Dedup | backend/app/content_scraper.py:405 | each element once, exactly the input's elements, in order of their first occurrence |

## Left out

- External calls are outside the model. Their outcomes are parameters:
  - the model's replies;
  - NewsAPI's HTTP answers;
  - the RSS fetch (an empty stub in the source);
  - the Gemini command;
  - the publisher;
  - the text-to-speech and stock-footage services.
- Rendering is outside the model: MoviePy, PIL and FFmpeg scene drawing.
- Parsing libraries are outside the model: feedparser, BeautifulSoup's `clean_html`, and JSON decoding. JSON decoding is a parameter from text to a value.
- APScheduler's job execution, `asyncio.gather`, `time.sleep`, logging and `print` are outside the model: they decide no result.
- `random.uniform` jitter and the clock are parameters. One `now` serves a whole run, so every row a run writes gets the same timestamp. The source's column defaults read the clock again for each row.
- SQL sessions are outside the model. A commit is atomic. The unique-constraint race is a parameter that answers "already exists".
- The SQL `ORDER BY` clauses leave the order of ties unspecified, so the model fixes one of the orders a database may return:
  - the pending-articles, top-ranked and queue queries keep ties in insertion order;
  - the latest-score query (`Ranking.LatestScore`) returns, among the rows with the greatest `ranked_at`, the one inserted last.
- A negative `LIMIT` means no limit, as in SQLite, the default database.
- Python's `hash(url)` in external ids is an abstract function. It is salted per process, so no claim is made across runs.
- The SHA-256 content hash is modelled by the hashed string itself, which assumes no collision.
- Scores, thresholds and durations are Dafny `real`. NaN, rounding and `float()` parse errors are left out.
- `IngestionJob` has no `started_at` or `completed_at`. They only record the clock.
- The ingestion response in `backend/app/schemas_news.py` has no `article_ids` field. Against the real endpoint, the batch job therefore never reaches its ranking step. The model keeps the ids as an optional part of the reply parameter.
- The ranking endpoint receives `min_score` but never uses it, so the model ignores it.
- The prompt text sent to the model is a parameter. The reply is all the ranking depends on.
- The news client's timeout is a parameter of the HTTP call and is not modelled.
- `str.splitlines` is modelled for `\n` only. Python also breaks lines at `\r`, `\r\n` and a few other separators; the model does not.
- `backend/app/content_scraper.py` puts `from __future__` after another import (lines 5-7), so Python refuses to import the file. The model follows the intended logic of its functions.
- The guardrail scripts' `os.walk` and file reading and writing are outside the model. The walk is a list of (path, text) pairs.
- The setup check's subprocess calls and package imports are `EnvFile.Machine` fields.
- Text.IsWordChar: `\w` and `\b` are modelled for ASCII letters, digits and `_`. Python's `re` treats every Unicode letter and digit as a word character, so a word next to `é` is not delimited the same way.
- Text.Lower: lower-cases ASCII letters only. Python's `str.lower` also folds other letters, for example KELVIN SIGN to `k`.
- ScriptTiming.LabelAt: IGNORECASE is modelled for ASCII letters only. So `Hoo` followed by U+212A KELVIN SIGN is not read as Hook, as Python would read it.
- ScriptTiming.DigitsFrom: `\d` is modelled as the ASCII digits. Python's `\d` also matches other Unicode decimal digits.
- ContentScraper.HasDigit: tests ASCII digits only, where Python's `\d` takes any Unicode decimal digit.
- ContentScraper.FindAlphaWords: word boundaries use the ASCII word characters of `Text.IsWordChar`.
- Competitor.LowerRun: the `[a-z]` run is taken after ASCII lower-casing only.
- Competitor.ProperNouns: states what each name found is, and `Competitor.LoneName` and `Competitor.TwoWordName` which names one or two words give; where in the text each match lies is not stated.
- NewsSources.GetNewsClient: the source name is lower-cased in ASCII only, so a name that Python lower-cases to "mock" through a non-ASCII letter is refused.
- NewsSources.NormaliseItems: its own contract gives the shape of every row; that the rows are exactly the usable items in order, with all their fields, is stated by `NewsSources.NormaliseInOrder`.
- ContentScraper.FilterFrom: its own contract does not say which of two clashing articles is kept; `ContentScraper.FilterFromSnoc` states the rule for any seen-sets: an article is appended exactly when nothing seen or kept before it shares its URL or digest.
- ContentScraper.FilterDuplicates: its own contract pins only the first article; `ContentScraper.FilterDuplicatesStep` and `ContentScraper.FilterDuplicatesPrefix` state that each later article is kept exactly when it clashes with no article kept before it.
- Text.NonBlank: its own contract states which strings are kept; their order and repeats are stated by `Text.NonBlankIsFilter`.
- Scheduler.TextPosts: its own contract states which entries are produced; their order and repeats are stated by `Scheduler.TextPostsInOrder`.
- Competitor.TermsIn: its own contract states which terms are taken; their list order is stated by `Competitor.TermsInOrder`.
- Competitor.ActionsIn: its own contract states which action words are taken; their list order is stated by `Competitor.ActionsInOrder`.
- Competitor.LongWords: its own contract states which words are kept; their title order is stated by `Competitor.LongWordsInOrder`.
- Routes.PublishPost: leaves the posts table unchanged. The publisher (`backend/app/publishing.py:49-56`) marks the post published, stamps `published_at` and writes a publish log row; that publisher is not part of this model, and its answer is a parameter.
- Routes.SetField: a non-text `title` or `body` fails the update with a 500. SQLite would coerce some such values; the model does not.
- Routes: the `LIKE` filter on the platforms column is a parameter, and a 500's detail text is a fixed string rather than the exception's message.
- VoiceSelector.MaleFirst: stated for voices whose traits are those of the catalogue (`Cataloguelike`), not for arbitrary voices.
- Guardrails.RewriteFile: models the rewriter with the insertion as written, including the two defects under Findings.
- Rendering parameters of the video modules (fonts, colours, clip sizes) are left out. Only the scene lists, durations, keywords and caption lines that feed the renderers are modelled.

## Findings

| source | as written | input that shows it | evidently intended | confidence | as-written member | corrected member |
|---|---|---|---|---|---|---|
| scripts/apply_guardrails.py:66-72 | after a docstring opens, the scan looks for the closing quote from the next line on | a file whose docstring opens and closes on one line, `"""Doc."""`, followed by code with no other `"""` | the import goes right after the one-line docstring | not executed | Guardrails.OneLineDocstringAsWritten | Guardrails.OneLineDocstringFixed |
| scripts/apply_guardrails.py:55-75 | the import line is inserted after the header lines as they are split, line ends kept | a file made only of a comment with no final line end, `# header` | the import stands on a line of its own | not executed | Guardrails.NoFinalNewlineAsWritten | Guardrails.InsertRouterImportFixed |
| backend/tests/test_news_ingest.py:64-66 | the test asserts that a second ingestion of the mock source fetches five articles | two mock ingestions with limit 5 into an empty database | the second run fetches none, as the test's own comment on the article count says | not executed | Ingest.MockReingestNotFive | Ingest.MockIngestTwice |
| backend/tests/test_news_ingest.py:127-129 | the test asserts that ranking the same articles again returns an empty result | ranking the five mock articles twice without `force_rerank` | the second run returns the stored scores and calls no model | not executed | Ranking.SecondRunNotEmpty | Ranking.SecondRunIsCached |

## Notes

- The header of `scripts/apply_guardrails.py` (line 6) says the script is safe to run many times. `Guardrails.InsertIdempotent` proves this for the router import. `Guardrails.StripRepeats` shows it fails for the stripping: the commented-out import still matches, so each run comments it out again.
- In `agents/checks/verify_guardrails.py`, the pattern `\bcomplete|generate|llm|client` applies the word boundary only to "complete". `VerifyGuardrails.MentionsModel` models it that way.

=== FILE: competitor.dfy ===
/**
  The 30-second "competitor" video: a script read into five fixed scenes
  (hook, demo, proof, impact, call to action) with fixed timing, and the
  search keywords picked for its stock footage.
 */
module Competitor {
  import opened Text
  import Sorting

  // ------------------------------------------------------------ structure

  /** The five scene types, in the order of the video. */
  const Kinds: seq<string> := ["hook", "demo", "proof", "impact", "cta"]

  /** Start of each scene, in seconds. */
  const Starts: seq<int> := [0, 3, 9, 18, 24]

  /** Length of each scene, in seconds. */
  const Durations: seq<int> := [3, 6, 9, 6, 6]

  /** Length of the whole video. */
  const TotalSeconds := 30

  datatype Scene = Scene(kind: string, text: string, duration: int, start: int, end: int)

  /** The words of a lower-cased line that make it name section `k`; a
      test of the leading digits of the section's start time is part of
      each. */
  predicate Names(k: nat, lower: string)
    requires k < 5
  {
    match k
    case 0 => HasSubstring(lower, "hook") || StartsWith(lower, "0")
    case 1 => HasSubstring(lower, "demo") || StartsWith(lower, "3") || HasSubstring(lower, "tool")
    case 2 => HasSubstring(lower, "proof") || StartsWith(lower, "9") || HasSubstring(lower, "before")
              || HasSubstring(lower, "after")
    case 3 => HasSubstring(lower, "impact") || StartsWith(lower, "18") || HasSubstring(lower, "changes")
              || HasSubstring(lower, "why")
    case 4 => HasSubstring(lower, "cta") || StartsWith(lower, "24") || HasSubstring(lower, "link")
              || HasSubstring(lower, "follow")
  }

  /** The section a line names: the first in the order hook, demo, proof,
      impact, cta whose words it holds. */
  function Classify(lower: string): (r: Option<nat>)
    ensures r.Some? ==> r.value < 5 && Names(r.value, lower)
    ensures r.Some? ==> forall j :: 0 <= j < r.value ==> !Names(j, lower)
    ensures r.None? ==> forall j :: 0 <= j < 5 ==> !Names(j, lower)
  {
    ClassifyFrom(lower, 0)
  }

  function ClassifyFrom(lower: string, k: nat): (r: Option<nat>)
    requires k <= 5
    ensures r.Some? ==> k <= r.value < 5 && Names(r.value, lower)
    ensures r.Some? ==> forall j :: k <= j < r.value ==> !Names(j, lower)
    ensures r.None? ==> forall j :: k <= j < 5 ==> !Names(j, lower)
    decreases 5 - k
  {
    if k == 5 then None
    else if Names(k, lower) then Some(k)
    else ClassifyFrom(lower, k + 1)
  }

  /** What the reading has gathered: one text per section and the section
      being read, if any. */
  datatype Reading = Reading(texts: seq<string>, current: Option<nat>)

  predicate Valid(st: Reading) {
    |st.texts| == 5 && (st.current.Some? ==> st.current.value < 5)
  }

  /** One line: a blank line changes nothing; a line naming a section
      makes it current and, when it has a ':', replaces its text with what
      follows the first ':'; any other line without ':' is added to the
      current section's text; the rest are ignored. */
  function Step(st: Reading, raw: string): (r: Reading)
    requires Valid(st)
    ensures Valid(r)
  {
    var line := Strip(raw);
    if line == "" then st
    else match Classify(Lower(line))
      case Some(k) =>
        Reading(if ':' in line then st.texts[k := Strip(After(line, ':'))] else st.texts, Some(k))
      case None =>
        if st.current.Some? && ':' !in line then
          var k := st.current.value;
          Reading(st.texts[k := if st.texts[k] != "" then st.texts[k] + " " + line else line], st.current)
        else st
  }

  function Read(lines: seq<string>, st: Reading): (r: Reading)
    requires Valid(st)
    ensures Valid(r)
    decreases |lines|
  {
    if lines == [] then st else Read(lines[1..], Step(st, lines[0]))
  }

  const Start := Reading(["", "", "", "", ""], None)

  function ReadScript(script: string): (r: Reading)
    ensures Valid(r)
  {
    Read(Split(script, '\n'), Start)
  }

  /** The text of a section left empty by the script. */
  function Default(k: nat, title: string): (r: string)
    requires k < 5
    ensures r != ""
  {
    match k
    case 0 => "CAN AI DO THIS? " + title
    case 1 => "Meet " + title
    case 2 => "10X faster results. Zero coding needed."
    case 3 => "THIS CHANGES EVERYTHING"
    case 4 => "LINK IN BIO üëá Follow for more AI tips"
  }

  /** `parse_30s_structure`. */
  function Parse30(script: string, title: string): (r: seq<Scene>)
    ensures |r| == 5
    ensures forall k :: 0 <= k < 5 ==> r[k].text != ""
  {
    var texts := ReadScript(script).texts;
    seq(5, k requires 0 <= k < 5 =>
      Scene(Kinds[k], if texts[k] != "" then texts[k] else Default(k, title),
            Durations[k], Starts[k], Starts[k] + Durations[k]))
  }

  /** Five scenes in the order hook, demo, proof, impact, cta, back to back
      from 0 to 30 seconds; the script decides only the texts. */
  lemma FixedTiming(script: string, title: string)
    ensures var r := Parse30(script, title);
            && (forall k :: 0 <= k < 5 ==> r[k].kind == Kinds[k] && r[k].end == r[k].start + r[k].duration)
            && r[0].start == 0
            && (forall k :: 0 < k < 5 ==> r[k].start == r[k - 1].end)
            && r[4].end == TotalSeconds
  {
  }

  /** A section the script leaves empty gets its default; the hook's and
      the demo's defaults hold the title. */
  lemma DefaultsUsed(script: string, title: string)
    ensures forall k :: 0 <= k < 5 ==>
              (ReadScript(script).texts[k] == "" ==> Parse30(script, title)[k].text == Default(k, title))
              && (ReadScript(script).texts[k] != "" ==> Parse30(script, title)[k].text == ReadScript(script).texts[k])
    ensures ReadScript(script).texts[0] == "" ==> Contains(Parse30(script, title)[0].text, title)
    ensures ReadScript(script).texts[1] == "" ==> Contains(Parse30(script, title)[1].text, title)
  {
    var r := Parse30(script, title);
    if ReadScript(script).texts[0] == "" {
      assert OccursAt(r[0].text, title, |"CAN AI DO THIS? "|);
    }
    if ReadScript(script).texts[1] == "" {
      assert OccursAt(r[1].text, title, |"Meet "|);
    }
  }

  /** A line naming section `k` with a ':' makes `k` current and replaces
      its text with the stripped text after the first ':'; the other texts
      stay. */
  lemma LabelledLine(st: Reading, raw: string, k: nat)
    requires Valid(st) && Strip(raw) != "" && Classify(Lower(Strip(raw))) == Some(k) && ':' in Strip(raw)
    ensures Step(st, raw).current == Some(k)
    ensures Step(st, raw).texts[k] == Strip(After(Strip(raw), ':'))
    ensures forall j :: 0 <= j < 5 && j != k ==> Step(st, raw).texts[j] == st.texts[j]
  {
  }

  /** A line naming no section and holding no ':' is added, after a space,
      to the current section's text; with no section current, or with a
      ':', it is ignored. */
  lemma UnlabelledLine(st: Reading, raw: string)
    requires Valid(st) && Strip(raw) != "" && Classify(Lower(Strip(raw))).None?
    ensures ':' in Strip(raw) || st.current.None? ==> Step(st, raw) == st
    ensures ':' !in Strip(raw) && st.current.Some? ==>
              var k := st.current.value;
              && Step(st, raw).texts[k] == (if st.texts[k] == "" then Strip(raw) else st.texts[k] + " " + Strip(raw))
              && forall j :: 0 <= j < 5 && j != k ==> Step(st, raw).texts[j] == st.texts[j]
  {
  }

  /** Blank lines change nothing. */
  lemma BlankLine(st: Reading, raw: string)
    requires Valid(st) && Strip(raw) == ""
    ensures Step(st, raw) == st
  {
  }

  // ------------------------------------------------------------ keywords

  /** Length of the run of ASCII lower-case letters from `i`. */
  function LowerRun(s: string, i: nat): (n: nat)
    requires i <= |s|
    ensures i + n <= |s|
    ensures forall j :: i <= j < i + n ==> IsAsciiLower(s[j])
    ensures i + n == |s| || !IsAsciiLower(s[i + n])
    decreases |s| - i
  {
    if i < |s| && IsAsciiLower(s[i]) then 1 + LowerRun(s, i + 1) else 0
  }

  /** Which character may follow which in `[A-Z][a-z]+(?:\s+[A-Z][a-z]+)*`:
      a capital is followed by a lower-case letter, a lower-case letter by
      another or by white space, white space by more or by a capital. */
  predicate Follows(x: char, y: char) {
    || (IsAsciiUpper(x) && IsAsciiLower(y))
    || (IsAsciiLower(x) && (IsAsciiLower(y) || IsSpace(y)))
    || (IsSpace(x) && (IsSpace(y) || IsAsciiUpper(y)))
  }

  /** `s[i..e]` is a run of capitalised ASCII words separated by white
      space: it starts with a capital, ends with a lower-case letter, and
      every character may follow the one before it. */
  predicate NameSpan(s: string, i: nat, e: nat)
    requires i <= e <= |s|
  {
    i + 2 <= e && IsAsciiUpper(s[i]) && IsAsciiLower(s[e - 1]) && Linked(s, i, e)
  }

  /** Every character of `s[a..b]` may follow the one before it. */
  predicate Linked(s: string, a: nat, b: nat)
    requires a <= b <= |s|
    decreases b - a
  {
    b - a <= 1 || (Follows(s[a], s[a + 1]) && Linked(s, a + 1, b))
  }

  lemma {:induction false} LinkedJoin(s: string, a: nat, m: nat, b: nat)
    requires a < m < b <= |s| && Linked(s, a, m) && Linked(s, m, b) && Follows(s[m - 1], s[m])
    ensures Linked(s, a, b)
    decreases m - a
  {
    if a + 1 < m {
      LinkedJoin(s, a + 1, m, b);
    }
  }

  /** A run of lower-case letters is linked. */
  lemma {:induction false} LowerLinked(s: string, a: nat, b: nat)
    requires a <= b <= |s| && forall j :: a <= j < b ==> IsAsciiLower(s[j])
    ensures Linked(s, a, b)
    decreases b - a
  {
    if b - a > 1 {
      LowerLinked(s, a + 1, b);
    }
  }

  /** White space before a linked run that starts with a capital is linked
      to it. */
  lemma {:induction false} SpacesLinked(s: string, a: nat, m: nat, b: nat)
    requires a <= m < b <= |s| && forall j :: a <= j < m ==> IsSpace(s[j])
    requires IsAsciiUpper(s[m]) && Linked(s, m, b)
    ensures Linked(s, a, b)
    decreases m - a
  {
    if a < m {
      SpacesLinked(s, a + 1, m, b);
    }
  }

  /** Linking is about the characters only, wherever they stand. */
  lemma {:induction false} LinkedShift(s: string, i: nat, a: nat, b: nat, e: nat)
    requires i <= a <= b <= e <= |s| && Linked(s, a, b)
    ensures Linked(s[i..e], a - i, b - i)
    decreases b - a
  {
    if b - a > 1 {
      LinkedShift(s, i, a + 1, b, e);
      assert s[i..e][a - i] == s[a] && s[i..e][a - i + 1] == s[a + 1];
    }
  }

  /** A whole text of capitalised ASCII words separated by white space. */
  predicate IsName(w: string) {
    NameSpan(w, 0, |w|)
  }

  lemma NameSlice(s: string, i: nat, e: nat)
    requires i <= e <= |s| && NameSpan(s, i, e)
    ensures IsName(s[i..e])
  {
    var w := s[i..e];
    assert w[0] == s[i] && w[|w| - 1] == s[e - 1];
    LinkedShift(s, i, i, e, e);
  }

  /** `[A-Z][a-z]+` at `i`, its lower-case run taken whole: where it ends. */
  function CapitalAt(s: string, i: nat): (r: Option<nat>)
    requires i <= |s|
    ensures r.Some? ==> i + 2 <= r.value <= |s| && NameSpan(s, i, r.value)
    ensures r.Some? ==> r.value == |s| || !IsAsciiLower(s[r.value])
  {
    if i < |s| && IsAsciiUpper(s[i]) && LowerRun(s, i + 1) >= 1 then
      var e := i + 1 + LowerRun(s, i + 1);
      LowerLinked(s, i + 1, e);
      Some(e)
    else None
  }

  /** The end of the longest chain `(\s+[A-Z][a-z]+)*` after a capitalised
      word ending at `e` that is followed by a word end; `None` when no
      chain length, not even the empty one, is. A shorter lower-case or
      white space run is never of use: the character after it would be a
      letter or white space where a word end or a capital is needed. */
  function ChainEnd(s: string, e: nat): (r: Option<nat>)
    requires e <= |s|
    ensures r.Some? ==> e <= r.value <= |s| && WordEndsAt(s, r.value)
    ensures r.Some? && e < r.value ==> IsSpace(s[e]) && IsAsciiLower(s[r.value - 1]) && Linked(s, e, r.value)
    decreases |s| - e
  {
    match NextCapital(s, e)
    case Some(n) =>
      var longer := ChainEnd(s, n);
      if longer.Some? then
        if n < longer.value then LinkedJoin(s, e, n, longer.value); longer
        else longer
      else if WordEndsAt(s, e) then Some(e)
      else None
    case None =>
      if WordEndsAt(s, e) then Some(e) else None
  }

  /** `\s+[A-Z][a-z]+` at `e`: where it ends. */
  function NextCapital(s: string, e: nat): (r: Option<nat>)
    requires e <= |s|
    ensures r.Some? ==> e + 3 <= r.value <= |s| && IsSpace(s[e]) && IsAsciiLower(s[r.value - 1])
    ensures r.Some? ==> Linked(s, e, r.value)
  {
    var w := SpaceRun(s, e);
    SpaceRunSpaces(s, e);
    if w >= 1 then
      var c := CapitalAt(s, e + w);
      if c.Some? then SpacesLinked(s, e, e + w, c.value); c
      else c
    else None
  }

  /** The match of `\b[A-Z][a-z]+(?:\s+[A-Z][a-z]+)*\b` at `i`, if any:
      where it ends. */
  function NameAt(s: string, i: nat): (r: Option<nat>)
    requires i <= |s|
    ensures r.Some? ==> i + 2 <= r.value <= |s| && IsAsciiUpper(s[i]) && WordEndsAt(s, r.value)
    ensures r.Some? ==> WordStartsAt(s, i) && NameSpan(s, i, r.value)
  {
    if !WordStartsAt(s, i) then None
    else match CapitalAt(s, i)
      case None => None
      case Some(e) =>
        var c := ChainEnd(s, e);
        if c.Some? && e < c.value then LinkedJoin(s, i, e, c.value); c
        else c
  }

  /** `re.findall` of that pattern from `i`: after a match the search goes
      on where it ended. Every match is a run of capitalised ASCII words
      separated by white space. */
  function ProperNouns(s: string, i: nat): (r: seq<string>)
    requires i <= |s|
    ensures forall k :: 0 <= k < |r| ==> |r[k]| >= 2 && IsAsciiUpper(r[k][0]) && IsName(r[k])
    decreases |s| - i
  {
    if i == |s| then []
    else match NameAt(s, i)
      case Some(e) =>
        var name := s[i..e];
        assert name[0] == s[i];
        NameSlice(s, i, e);
        [name] + ProperNouns(s, e)
      case None => ProperNouns(s, i + 1)
  }

  /** A capitalised ASCII word: a capital then lower-case letters. */
  predicate CapWord(w: string) {
    |w| >= 2 && IsAsciiUpper(w[0]) && forall j :: 1 <= j < |w| ==> IsAsciiLower(w[j])
  }

  /** A capitalised word standing alone is found. */
  lemma LoneName(w: string)
    requires CapWord(w)
    ensures ProperNouns(w, 0) == [w]
  {
    CapitalAtWord(w, 0, |w|);
    ChainAtEnd(w);
    assert w[0..|w|] == w;
  }

  /** Two capitalised words separated by one space are found as one name,
      not as two. */
  lemma TwoWordName(w1: string, w2: string)
    requires CapWord(w1) && CapWord(w2)
    ensures ProperNouns(w1 + " " + w2, 0) == [w1 + " " + w2]
  {
    var s := w1 + " " + w2;
    var m := |w1|;
    assert forall j :: 0 <= j < m ==> s[j] == w1[j];
    assert s[m] == ' ';
    assert forall j :: m + 1 <= j < |s| ==> s[j] == w2[j - m - 1];
    TwoWordsAt(s, m);
    assert s[0..|s|] == s;
  }

  /** The same on positions: a capitalised word up to `m`, one space at
      `m`, and a capitalised word to the end make one match. */
  lemma TwoWordsAt(s: string, m: nat)
    requires 2 <= m && m + 3 <= |s| && s[m] == ' '
    requires IsAsciiUpper(s[0]) && forall j :: 1 <= j < m ==> IsAsciiLower(s[j])
    requires IsAsciiUpper(s[m + 1]) && forall j :: m + 2 <= j < |s| ==> IsAsciiLower(s[j])
    ensures NameAt(s, 0) == Some(|s|)
  {
    CapitalAtWord(s, 0, m);
    CapitalAtWord(s, m + 1, |s|);
    assert SpaceRun(s, m + 1) == 0;
    assert NextCapital(s, m) == Some(|s|);
    ChainAtEnd(s);
  }

  /** A capital at `i` followed by lower-case letters up to `e`, where the
      run stops, is a `[A-Z][a-z]+` ending at `e`. */
  lemma CapitalAtWord(s: string, i: nat, e: nat)
    requires i + 2 <= e <= |s| && IsAsciiUpper(s[i]) && forall j :: i < j < e ==> IsAsciiLower(s[j])
    requires e == |s| || !IsAsciiLower(s[e])
    ensures CapitalAt(s, i) == Some(e)
  {
    LowerRunTo(s, i + 1, e);
  }

  /** At the end of the text the chain is empty and the word end holds. */
  lemma ChainAtEnd(s: string)
    ensures ChainEnd(s, |s|) == Some(|s|)
  {
    assert SpaceRun(s, |s|) == 0;
  }

  /** A lower-case run from `i` that reaches the end or a character that
      is not lower-case at `e` stops there. */
  lemma {:induction false} LowerRunTo(s: string, i: nat, e: nat)
    requires i <= e <= |s| && (e == |s| || !IsAsciiLower(s[e]))
    requires forall j :: i <= j < e ==> IsAsciiLower(s[j])
    ensures LowerRun(s, i) == e - i
    decreases e - i
  {
    if i < e {
      LowerRunTo(s, i + 1, e);
    }
  }

  const TechTerms: seq<string> := ["GPT", "Claude", "Gemini", "ChatGPT", "Midjourney", "DALL-E", "Stable Diffusion",
                                   "API", "model", "robot", "automation", "coding", "vision", "voice", "image"]

  const ActionWords: seq<string> := ["coding", "writing", "generating", "creating", "analyzing", "processing",
                                     "designing", "editing", "translating", "summarizing"]

  /** The term occurs, case aside, in the text or the title. */
  predicate Mentioned(term: string, text: string, title: string) {
    HasSubstring(Lower(text), Lower(term)) || HasSubstring(Lower(title), Lower(term))
  }

  /** The terms that occur, case aside, in the text or the title, in list
      order. */
  function TermsIn(terms: seq<string>, text: string, title: string): (r: seq<string>)
    ensures |r| <= |terms|
    ensures forall t :: t in r <==> t in terms && Mentioned(t, text, title)
  {
    if terms == [] then []
    else
      var t := Lower(terms[0]);
      assert terms == [terms[0]] + terms[1..];
      (if HasSubstring(Lower(text), t) || HasSubstring(Lower(title), t) then [terms[0]] else [])
        + TermsIn(terms[1..], text, title)
  }

  lemma {:induction false} TermsInOrder(terms: seq<string>, text: string, title: string)
    ensures TermsIn(terms, text, title) == Sorting.Filter(t => Mentioned(t, text, title), terms)
    decreases |terms|
  {
    if terms != [] {
      TermsInOrder(terms[1..], text, title);
    }
  }

  /** The action words that occur in the lower-cased text, in list order. */
  function ActionsIn(words: seq<string>, text: string): (r: seq<string>)
    ensures |r| <= |words|
    ensures forall w :: w in r <==> w in words && HasSubstring(Lower(text), w)
  {
    if words == [] then []
    else
      assert words == [words[0]] + words[1..];
      (if HasSubstring(Lower(text), words[0]) then [words[0]] else []) + ActionsIn(words[1..], text)
  }

  lemma {:induction false} ActionsInOrder(words: seq<string>, text: string)
    ensures ActionsIn(words, text) == Sorting.Filter(w => HasSubstring(Lower(text), w), words)
    decreases |words|
  {
    if words != [] {
      ActionsInOrder(words[1..], text);
    }
  }

  /** The words of the title longer than four characters. */
  function LongWords(ws: seq<string>): (r: seq<string>)
    ensures forall w :: w in r <==> w in ws && |w| > 4
  {
    if ws == [] then []
    else
      assert ws == [ws[0]] + ws[1..];
      (if |ws[0]| > 4 then [ws[0]] else []) + LongWords(ws[1..])
  }

  lemma {:induction false} LongWordsInOrder(ws: seq<string>)
    ensures LongWords(ws) == Sorting.Filter(w => |w| > 4, ws)
    decreases |ws|
  {
    if ws != [] {
      LongWordsInOrder(ws[1..]);
    }
  }

  /** The keywords gathered before the cut: up to three proper nouns of the
      text and title, the technical terms, the action words. */
  function Candidates(text: string, title: string): seq<string> {
    var s := text + " " + title;
    PyTake(ProperNouns(s, 0), 3) + TermsIn(TechTerms, text, title) + ActionsIn(ActionWords, text)
  }

  /** `extract_smart_keywords`. */
  function SmartKeywords(text: string, title: string): (r: seq<string>)
    ensures 1 <= |r| <= 3
  {
    Pick(Candidates(text, title), title)
  }

  /** The cut of the candidates, or the title fallbacks. */
  function Pick(kw: seq<string>, title: string): (r: seq<string>)
    ensures 1 <= |r| <= 3
  {
    if kw != [] then PyTake(kw, 3)
    else
      var tw := LongWords(Words(title));
      if tw != [] then PyTake(tw, 2) else ["technology", "innovation"]
  }

  /** The keywords are the first three candidates; without candidates, the
      first two title words longer than four characters; without those,
      "technology" and "innovation". */
  lemma KeywordsFallback(text: string, title: string)
    ensures Candidates(text, title) != [] ==> SmartKeywords(text, title) == PyTake(Candidates(text, title), 3)
    ensures Candidates(text, title) == [] && LongWords(Words(title)) != [] ==>
              SmartKeywords(text, title) == PyTake(LongWords(Words(title)), 2)
              && forall k :: 0 <= k < |SmartKeywords(text, title)| ==> |SmartKeywords(text, title)[k]| > 4
    ensures Candidates(text, title) == [] && LongWords(Words(title)) == [] ==>
              SmartKeywords(text, title) == ["technology", "innovation"]
  {
    PickFallback(Candidates(text, title), title);
  }

  lemma PickFallback(kw: seq<string>, title: string)
    ensures kw != [] ==> Pick(kw, title) == PyTake(kw, 3)
    ensures kw == [] && LongWords(Words(title)) != [] ==>
              Pick(kw, title) == PyTake(LongWords(Words(title)), 2)
              && forall k :: 0 <= k < |Pick(kw, title)| ==> |Pick(kw, title)[k]| > 4
    ensures kw == [] && LongWords(Words(title)) == [] ==> Pick(kw, title) == ["technology", "innovation"]
  {
  }
}

=== FILE: content_scraper.dfy ===
/**
  The content scraper's heuristic side: the relevance score of a scraped
  article, the stable ranking by that score, duplicate filtering by URL and
  by title-and-summary, keyword extraction, and the top-15 cut.

  Fetching and parsing the feeds is left out: the articles arrive as
  records. Publication times and the clock are integer seconds. The
  SHA-256 digest of the title and summary is modelled by the text it
  digests (two different texts are taken to have different digests).
 */
module ContentScraper {
  import opened Text
  import Sorting

  const HourSeconds := 3600
  const DaySeconds := 86400
  const TopCount := 15

  const AuthoritativeSources: seq<string> := ["OpenAI", "Google AI", "DeepMind", "MIT", "Stanford"]

  /** The relevance keywords; the thirteen entries are distinct. */
  const Keywords: seq<string> := [
    "ai", "llm", "gpt", "genai", "chatgpt", "claude",
    "artificial intelligence", "machine learning", "deep learning",
    "neural network", "transformer", "automation", "chatbot"]

  /** A scraped article; `published` is `None` when the feed gave no date. */
  datatype Scraped = Scraped(title: string, summary: string, url: string, source: string, published: Option<int>)

  // ------------------------------------------------------------------ score

  /** Points for freshness: 50 / 40 / 25 / 10 / 0 by age. A date in the
      future has a negative age and counts as very fresh. */
  function FreshnessPoints(published: Option<int>, now: int): (p: int)
    ensures p in {0, 10, 25, 40, 50}
    ensures published.None? ==> p == 0
    ensures published.Some? && published.value >= now ==> p == 50
    ensures published.Some? && now - published.value > 7 * DaySeconds ==> p == 0
  {
    if published.None? then 0
    else
      var age := now - published.value;
      if age <= 6 * HourSeconds then 50
      else if age <= 24 * HourSeconds then 40
      else if age <= 3 * DaySeconds then 25
      else if age <= 7 * DaySeconds then 10
      else 0
  }

  /** Some authoritative name occurs in the source, ignoring case. */
  predicate Authoritative(source: string) {
    exists k :: 0 <= k < |AuthoritativeSources| && Contains(Lower(Strip(source)), Lower(AuthoritativeSources[k]))
  }

  function AuthorityPoints(source: string): (p: int)
    ensures p == 0 || p == 30
    ensures p == 30 <==> Authoritative(source)
  {
    if Authoritative(source) then 30 else 0
  }

  /** The lower-cased text the keywords are looked for in. */
  function Haystack(a: Scraped): string {
    Lower(a.title + "\n" + a.summary)
  }

  /** How many keywords occur in the title or summary. */
  function KeywordHits(a: Scraped): (n: nat)
    ensures n <= |Keywords|
  {
    CountOccurring(Haystack(a), Keywords)
  }


  /** Five points a keyword, at most thirty. */
  function KeywordPoints(a: Scraped): (p: int)
    ensures 0 <= p <= 30 && p % 5 == 0
    ensures p == 30 <==> KeywordHits(a) >= 6
    ensures KeywordHits(a) == 0 ==> p == 0
  {
    var h := KeywordHits(a);
    if h * 5 < 30 then h * 5 else 30
  }

  /** Some ASCII digit in the title (`re.search(r'\d+', title)`). */
  predicate HasDigit(s: string) {
    exists k :: 0 <= k < |s| && IsAsciiDigit(s[k])
  }

  /** Bonuses for an engaging title: long, with a number, a question. */
  function TitlePoints(title: string): (p: int)
    ensures 0 <= p <= 20
    ensures title == [] ==> p == 0
    ensures p == (if |title| > 40 then 10 else 0) + (if HasDigit(title) then 5 else 0)
                 + (if '?' in title then 5 else 0)
  {
    if title == [] then 0
    else (if |title| > 40 then 10 else 0) + (if HasDigit(title) then 5 else 0) + (if '?' in title then 5 else 0)
  }

  /** The relevance score `rank_articles` gives one article. */
  function Score(a: Scraped, now: int): (s: int)
    ensures 0 <= s <= 130
    ensures s == FreshnessPoints(a.published, now) + AuthorityPoints(a.source) + KeywordPoints(a)
                 + TitlePoints(a.title)
  {
    FreshnessPoints(a.published, now) + AuthorityPoints(a.source) + KeywordPoints(a) + TitlePoints(a.title)
  }

  /** The source is compared ignoring case: lower-casing it first changes
      nothing, and each authoritative name is itself authoritative. */
  lemma AuthorityIgnoresCase(source: string)
    ensures Authoritative(Lower(source)) <==> Authoritative(source)
  {
    StripLower(source);
    LowerIdempotent(Strip(source));
  }

  /** An authoritative name is itself an authoritative source. */
  lemma OpenAIIsAuthoritative()
    ensures Authoritative("OpenAI")
  {
    var name := AuthoritativeSources[0];
    assert name == "OpenAI";
    StripNoSpaceEdges(name);
    assert OccursAt(Lower(name), Lower(name), 0);
  }

  /** Every component at its maximum: a fresh, authoritative article with
      six or more keywords and a long question title holding a number. */
  lemma ScoreReaches130(a: Scraped, now: int)
    requires a.published == Some(now) && Authoritative(a.source)
    requires KeywordHits(a) >= 6
    requires |a.title| > 40 && HasDigit(a.title) && '?' in a.title
    ensures Score(a, now) == 130
  {
  }

  // ---------------------------------------------------------------- ranking

  /** The heuristic score at time `now`, as a function of the article. */
  function ScoreAt(now: int): Scraped -> int {
    (a: Scraped) => Score(a, now)
  }

  /** `rank_articles`: the articles with their scores, highest first. */
  function RankArticles(articles: seq<Scraped>, now: int): (r: seq<(Scraped, int)>)
    ensures multiset(r) == multiset(Sorting.Scored(articles, ScoreAt(now)))
    ensures forall i :: 0 <= i < |r| ==> r[i].1 == Score(r[i].0, now) && 0 <= r[i].1 <= 130
    ensures forall i, j :: 0 <= i < j < |r| ==> r[i].1 >= r[j].1
  {
    Sorting.RankByScore(articles, ScoreAt(now))
  }

  /** Equal scores keep their input order. */
  lemma RankArticlesStable(articles: seq<Scraped>, now: int, score: int)
    ensures Sorting.WithKey(Sorting.IntKey, RankArticles(articles, now), Sorting.ByScore(score as real))
            == Sorting.WithKey(Sorting.IntKey, Sorting.Scored(articles, ScoreAt(now)), Sorting.ByScore(score as real))
  {
    Sorting.SortStable(Sorting.IntKey, Sorting.Scored(articles, ScoreAt(now)), Sorting.ByScore(score as real));
  }

  // ------------------------------------------------------------- duplicates

  /** What the content digest is taken over. */
  function ContentOf(a: Scraped): string {
    a.title + "\n" + a.summary
  }

  /** Two articles share a URL or a title-and-summary. */
  predicate Clash(a: Scraped, b: Scraped) {
    a.url == b.url || ContentOf(a) == ContentOf(b)
  }

  /** No two kept articles clash. */
  predicate NoClashes(s: seq<Scraped>) {
    forall i, j :: 0 <= i < j < |s| ==> !Clash(s[i], s[j])
  }

  /** The loop of `filter_duplicates` from the given seen-sets on. Only a
      kept article adds its URL and digest to the seen-sets. */
  function FilterFrom(articles: seq<Scraped>, seenUrls: set<string>, seenContent: set<string>)
    : (r: seq<Scraped>)
    ensures Sorting.IsSubseq(r, articles)
    ensures forall i :: 0 <= i < |r| ==> r[i].url !in seenUrls && ContentOf(r[i]) !in seenContent
    ensures NoClashes(r)
    decreases |articles|
  {
    if articles == [] then []
    else
      var a := articles[0];
      if a.url in seenUrls || ContentOf(a) in seenContent then
        var r := FilterFrom(articles[1..], seenUrls, seenContent);
        Sorting.SubseqCons(r, a, articles[1..]);
        assert articles == [a] + articles[1..];
        r
      else
        var rest := FilterFrom(articles[1..], seenUrls + {a.url}, seenContent + {ContentOf(a)});
        var r := [a] + rest;
        assert r[1..] == rest;
        assert forall j :: 1 <= j < |r| ==> r[j] == rest[j - 1];
        r
  }

  /** Every input article is kept, or was already seen, or clashes with a
      kept one. */
  lemma {:induction false} FilterFromCovers(articles: seq<Scraped>, seenUrls: set<string>,
                                            seenContent: set<string>, x: Scraped)
    requires x in articles
    ensures var r := FilterFrom(articles, seenUrls, seenContent);
            x in r || x.url in seenUrls || ContentOf(x) in seenContent || exists y :: y in r && Clash(x, y)
    decreases |articles|
  {
    var a := articles[0];
    var r := FilterFrom(articles, seenUrls, seenContent);
    if x != a {
      assert x in articles[1..];
      if a.url in seenUrls || ContentOf(a) in seenContent {
        FilterFromCovers(articles[1..], seenUrls, seenContent, x);
      } else {
        FilterFromCovers(articles[1..], seenUrls + {a.url}, seenContent + {ContentOf(a)}, x);
        assert a in r && r[1..] == FilterFrom(articles[1..], seenUrls + {a.url}, seenContent + {ContentOf(a)});
        if x.url == a.url || ContentOf(x) == ContentOf(a) {
          assert Clash(x, a);
        }
      }
    }
  }

  /** `filter_duplicates`. */
  function FilterDuplicates(articles: seq<Scraped>): (r: seq<Scraped>)
    ensures Sorting.IsSubseq(r, articles) && |r| <= |articles|
    ensures NoClashes(r)
    ensures articles != [] ==> r != [] && r[0] == articles[0]
  {
    var r := FilterFrom(articles, {}, {});
    SubseqLength(r, articles);
    r
  }

  /** Nothing is lost but duplicates: every article is kept or clashes
      with a kept one. */
  lemma FilterDuplicatesCovers(articles: seq<Scraped>, x: Scraped)
    requires x in articles
    ensures x in FilterDuplicates(articles) || exists y :: y in FilterDuplicates(articles) && Clash(x, y)
  {
    FilterFromCovers(articles, {}, {}, x);
  }

  /** The URLs and the digests of some articles. */
  function UrlsOf(s: seq<Scraped>): set<string> {
    set y | y in s :: y.url
  }

  function ContentsOf(s: seq<Scraped>): set<string> {
    set y | y in s :: ContentOf(y)
  }

  /** Appending one article to the input appends it to the output exactly
      when neither the seen-sets nor the articles kept so far hold its URL
      or digest. */
  lemma {:induction false} FilterFromSnoc(articles: seq<Scraped>, seenUrls: set<string>, seenContent: set<string>,
                                          a: Scraped)
    ensures var r := FilterFrom(articles, seenUrls, seenContent);
            FilterFrom(articles + [a], seenUrls, seenContent)
            == if a.url in seenUrls + UrlsOf(r) || ContentOf(a) in seenContent + ContentsOf(r) then r else r + [a]
    decreases |articles|
  {
    var r := FilterFrom(articles, seenUrls, seenContent);
    if articles == [] {
      FilterOne(seenUrls, seenContent, a);
      assert articles + [a] == [a];
    } else {
      var b := articles[0];
      assert (articles + [a])[0] == b && (articles + [a])[1..] == articles[1..] + [a];
      if b.url in seenUrls || ContentOf(b) in seenContent {
        FilterFromSnoc(articles[1..], seenUrls, seenContent, a);
      } else {
        var u := seenUrls + {b.url};
        var c := seenContent + {ContentOf(b)};
        FilterFromSnoc(articles[1..], u, c, a);
        var rest := FilterFrom(articles[1..], u, c);
        assert r == [b] + rest;
        SeenAfterKept(b, rest, seenUrls, seenContent);
        assert [b] + (rest + [a]) == r + [a];
      }
    }
  }

  /** A single article is kept unless the seen-sets hold its URL or digest. */
  lemma FilterOne(seenUrls: set<string>, seenContent: set<string>, a: Scraped)
    ensures FilterFrom([a], seenUrls, seenContent)
            == if a.url in seenUrls + UrlsOf([]) || ContentOf(a) in seenContent + ContentsOf([]) then [] else [a]
  {
    assert UrlsOf([]) == {} && ContentsOf([]) == {};
    assert [a][1..] == [];
  }

  /** Keeping `b` adds its URL and digest to the seen-sets. */
  lemma SeenAfterKept(b: Scraped, rest: seq<Scraped>, seenUrls: set<string>, seenContent: set<string>)
    ensures seenUrls + UrlsOf([b] + rest) == (seenUrls + {b.url}) + UrlsOf(rest)
    ensures seenContent + ContentsOf([b] + rest) == (seenContent + {ContentOf(b)}) + ContentsOf(rest)
  {
    assert UrlsOf([b] + rest) == {b.url} + UrlsOf(rest);
    assert ContentsOf([b] + rest) == {ContentOf(b)} + ContentsOf(rest);
  }

  /** One step of `filter_duplicates`: article `j` is kept exactly when it
      clashes with no article kept from the ones before it. */
  lemma FilterDuplicatesStep(articles: seq<Scraped>, j: nat)
    requires j < |articles|
    ensures var before := FilterDuplicates(articles[..j]);
            FilterDuplicates(articles[..j + 1])
            == if exists y :: y in before && Clash(articles[j], y) then before else before + [articles[j]]
  {
    var before := FilterDuplicates(articles[..j]);
    var none: set<string> := {};
    assert articles[..j + 1] == articles[..j] + [articles[j]];
    FilterFromSnoc(articles[..j], none, none, articles[j]);
    assert none + UrlsOf(before) == UrlsOf(before) && none + ContentsOf(before) == ContentsOf(before);
    if articles[j].url in UrlsOf(before) || ContentOf(articles[j]) in ContentsOf(before) {
      var y :| y in before && (y.url == articles[j].url || ContentOf(y) == ContentOf(articles[j]));
      assert Clash(articles[j], y);
    }
  }

  /** What is kept of a prefix is a prefix of what is kept of the whole:
      a decision about an article is never revised by later ones. */
  lemma {:induction false} FilterDuplicatesPrefix(articles: seq<Scraped>, j: nat)
    requires j <= |articles|
    ensures var before := FilterDuplicates(articles[..j]);
            var r := FilterDuplicates(articles);
            |before| <= |r| && r[..|before|] == before
    decreases |articles| - j
  {
    if j < |articles| {
      FilterDuplicatesPrefix(articles, j + 1);
      FilterDuplicatesStep(articles, j);
    } else {
      assert articles[..j] == articles;
    }
  }

  lemma {:induction false} SubseqLength<T>(s: seq<T>, t: seq<T>)
    requires Sorting.IsSubseq(s, t)
    ensures |s| <= |t|
    decreases |t|
  {
    if s != [] && t != [] {
      if s[0] == t[0] {
        SubseqLength(s[1..], t[1..]);
      } else {
        SubseqLength(s, t[1..]);
      }
    }
  }

  /** A dropped article does not block later ones: its URL never enters
      the seen-sets, so an article sharing only that URL is kept. */
  lemma DroppedDoesNotBlock(u1: string, u2: string, t: string, s: string, t3: string)
    requires u1 != u2 && t3 != t
    ensures var a := Scraped(t, s, u1, "", None);
            var b := Scraped(t, s, u2, "", None);
            var c := Scraped(t3, s, u2, "", None);
            FilterDuplicates([a, b, c]) == [a, c]
  {
    var a := Scraped(t, s, u1, "", None);
    var b := Scraped(t, s, u2, "", None);
    var c := Scraped(t3, s, u2, "", None);
    assert ContentOf(c) != ContentOf(a) by {
      if ContentOf(c) == ContentOf(a) {
        NewlineSplit(t3, s, t, s);
      }
    }
    assert [a, b, c][1..] == [b, c];
    assert [b, c][1..] == [c];
    assert [c][1..] == [];
    var cs := {ContentOf(a)};
    assert FilterFrom([c], {u1}, cs) == [c] + FilterFrom([], {u1, u2}, cs + {ContentOf(c)});
    assert FilterFrom([b, c], {u1}, cs) == FilterFrom([c], {u1}, cs);
    var none: set<string> := {};
    assert none + {u1} == {u1} && none + {ContentOf(a)} == cs;
    assert FilterFrom([a, b, c], none, none) == [a] + FilterFrom([b, c], none + {u1}, none + {ContentOf(a)});
  }

  /** `x + "\n" + s == y + "\n" + s` only when `x == y`. */
  lemma NewlineSplit(x: string, s: string, y: string, s2: string)
    requires s == s2 && x + "\n" + s == y + "\n" + s2
    ensures x == y
  {
    assert |x| == |y|;
    assert x == (x + "\n" + s)[..|x|];
  }

  // -------------------------------------------------------------- keywords

  /** End of the run of word characters starting at `i`. */
  function WordEnd(s: string, i: nat): (j: nat)
    requires i <= |s|
    ensures i <= j <= |s|
    ensures forall k :: i <= k < j ==> IsWordChar(s[k])
    ensures j == |s| || !IsWordChar(s[j])
    decreases |s| - i
  {
    if i < |s| && IsWordChar(s[i]) then WordEnd(s, i + 1) else i
  }

  predicate AllLower(w: string) {
    forall k :: 0 <= k < |w| ==> IsAsciiLower(w[k])
  }

  /** `re.findall(r'\b[a-z]{4,}\b', s)` from position `i`, where `i` is at
      the start of the text or just after a non-word character: the maximal
      runs of word characters that are four or more lower-case letters. */
  function FindAlphaWords(s: string, i: nat): (r: seq<string>)
    requires i <= |s|
    ensures forall k :: 0 <= k < |r| ==> |r[k]| >= 4 && AllLower(r[k])
    decreases |s| - i
  {
    if i == |s| then []
    else if !IsWordChar(s[i]) then FindAlphaWords(s, i + 1)
    else
      var e := WordEnd(s, i);
      var w := s[i..e];
      (if |w| >= 4 && AllLower(w) then [w] else []) + FindAlphaWords(s, e)
  }

  const CommonWords: set<string> := {"that", "this", "with", "from", "have", "been", "will", "there", "what", "about"}

  /** A word `extract_keywords` keeps: a listed keyword that is not a
      common word. */
  predicate Relevant(w: string) {
    w !in CommonWords && w in Keywords
  }

  /** The relevant words of `text`, in order, repeats included. */
  function RelevantWords(text: string): seq<string> {
    Sorting.Filter(Relevant, FindAlphaWords(Lower(text), 0))
  }

  /** `extract_keywords(text, max_keywords)`. */
  function ExtractKeywords(text: string, maxKeywords: int): (r: seq<string>)
    ensures Sorting.Distinct(r)
    ensures forall k :: 0 <= k < |r| ==> r[k] in Keywords && |r[k]| >= 4 && AllLower(r[k])
    ensures maxKeywords >= 0 ==> |r| <= maxKeywords
  {
    var words := FindAlphaWords(Lower(text), 0);
    var found := Sorting.Filter(Relevant, words);
    var unique := Sorting.Dedup(found);
    var r := PyTake(unique, maxKeywords);
    assert forall k :: 0 <= k < |r| ==> r[k] == unique[k];
    assert forall k :: 0 <= k < |found| ==> |found[k]| >= 4 && AllLower(found[k]) by {
      forall k | 0 <= k < |found| ensures |found[k]| >= 4 && AllLower(found[k]) {
        Sorting.FilterIn(Relevant, words, found[k]);
      }
    }
    r
  }

  /** The keywords come in the order of their first occurrence in the text,
      and with a large enough limit every relevant word is among them. */
  lemma KeywordsInTextOrder(text: string, maxKeywords: int)
    ensures Sorting.InFirstOccurrenceOrder(RelevantWords(text), ExtractKeywords(text, maxKeywords))
    ensures maxKeywords >= |Sorting.Dedup(RelevantWords(text))| ==>
              forall w :: w in RelevantWords(text) ==> w in ExtractKeywords(text, maxKeywords)
    ensures var d := Sorting.Dedup(RelevantWords(text));
            0 <= maxKeywords ==> |ExtractKeywords(text, maxKeywords)| == if maxKeywords <= |d| then maxKeywords else |d|
  {
  }

  /** A relevant word the limit cuts off first occurs after every keyword
      kept: the keywords are the first distinct relevant words found. */
  lemma OmittedWordsComeLater(text: string, maxKeywords: int, w: string)
    requires w in RelevantWords(text) && w !in ExtractKeywords(text, maxKeywords)
    ensures var words := RelevantWords(text);
            var r := ExtractKeywords(text, maxKeywords);
            forall k :: 0 <= k < |r| ==> Sorting.FirstIndex(words, r[k]) < Sorting.FirstIndex(words, w)
  {
    var words := RelevantWords(text);
    var d := Sorting.Dedup(words);
    var r := ExtractKeywords(text, maxKeywords);
    assert r == d[..|r|];
    var j :| 0 <= j < |d| && d[j] == w;
    assert forall m :: 0 <= m < |r| ==> r[m] == d[m];
    assert j >= |r|;
    forall k | 0 <= k < |r| ensures Sorting.FirstIndex(words, r[k]) < Sorting.FirstIndex(words, w) {
      assert r[k] == d[k];
    }
  }

  /** Keywords shorter than four letters can never be extracted. */
  lemma ShortKeywordsNeverExtracted(text: string, maxKeywords: int)
    ensures "ai" !in ExtractKeywords(text, maxKeywords)
    ensures "llm" !in ExtractKeywords(text, maxKeywords)
    ensures "gpt" !in ExtractKeywords(text, maxKeywords)
  {
  }

  // ---------------------------------------------------------------- top 15

  /** The last steps of `fetch_all_content`: de-duplicate, rank, keep the
      best fifteen. */
  function TopArticles(all: seq<Scraped>, now: int): (r: seq<Scraped>)
    ensures |r| <= TopCount
    ensures forall i :: 0 <= i < |r| ==> r[i] in all
    ensures forall i, j :: 0 <= i < j < |r| ==> Score(r[i], now) >= Score(r[j], now)
    ensures var unique := FilterDuplicates(all);
            && |r| == (if |unique| < TopCount then |unique| else TopCount)
            && exists top :: && Sorting.TopRows(Sorting.IntKey, Sorting.Scored(unique, ScoreAt(now)), top)
                             && r == Sorting.Firsts(top)
  {
    var top := PyTake(RankArticles(FilterDuplicates(all), now), TopCount);
    TopFacts(all, now, top);
    Sorting.Firsts(top)
  }

  lemma TopFacts(all: seq<Scraped>, now: int, top: seq<(Scraped, int)>)
    requires top == PyTake(RankArticles(FilterDuplicates(all), now), TopCount)
    ensures var r := Sorting.Firsts(top);
            && (forall i :: 0 <= i < |r| ==> r[i] in all)
            && (forall i, j :: 0 <= i < j < |r| ==> Score(r[i], now) >= Score(r[j], now))
    ensures var unique := FilterDuplicates(all);
            && |top| == (if |unique| < TopCount then |unique| else TopCount)
            && Sorting.TopRows(Sorting.IntKey, Sorting.Scored(unique, ScoreAt(now)), top)
  {
    var unique := FilterDuplicates(all);
    var ranked := RankArticles(unique, now);
    TopAreBest(unique, now, top);
    TopFromAll(all, unique, ranked, top);
    TopInOrder(ranked, now, top);
  }

  lemma TopAreBest(unique: seq<Scraped>, now: int, top: seq<(Scraped, int)>)
    requires top == PyTake(RankArticles(unique, now), TopCount)
    ensures |top| == (if |unique| < TopCount then |unique| else TopCount)
    ensures Sorting.TopRows(Sorting.IntKey, Sorting.Scored(unique, ScoreAt(now)), top)
  {
    Sorting.RankPrefixIsTop(unique, ScoreAt(now), |top|);
  }

  lemma TopFromAll(all: seq<Scraped>, unique: seq<Scraped>, ranked: seq<(Scraped, int)>, top: seq<(Scraped, int)>)
    requires Sorting.IsSubseq(unique, all)
    requires forall i :: 0 <= i < |ranked| ==> ranked[i].0 in unique
    requires |top| <= |ranked| && top == ranked[..|top|]
    ensures forall i :: 0 <= i < |top| ==> Sorting.Firsts(top)[i] in all
  {
    forall i | 0 <= i < |top| ensures Sorting.Firsts(top)[i] in all {
      assert top[i] == ranked[i];
      SubseqMember(unique, all, top[i].0);
    }
  }

  lemma TopInOrder(ranked: seq<(Scraped, int)>, now: int, top: seq<(Scraped, int)>)
    requires forall i :: 0 <= i < |ranked| ==> ranked[i].1 == Score(ranked[i].0, now)
    requires forall i, j :: 0 <= i < j < |ranked| ==> ranked[i].1 >= ranked[j].1
    requires |top| <= |ranked| && top == ranked[..|top|]
    ensures forall i, j :: 0 <= i < j < |top| ==> Score(Sorting.Firsts(top)[i], now) >= Score(Sorting.Firsts(top)[j], now)
  {
    forall i, j | 0 <= i < j < |top| ensures Score(Sorting.Firsts(top)[i], now) >= Score(Sorting.Firsts(top)[j], now) {
      assert top[i] == ranked[i] && top[j] == ranked[j];
    }
  }

  lemma {:induction false} SubseqMember<T>(s: seq<T>, t: seq<T>, x: T)
    requires Sorting.IsSubseq(s, t) && x in s
    ensures x in t
    decreases |t|
  {
    if s[0] == t[0] {
      if x != s[0] {
        assert x in s[1..];
        SubseqMember(s[1..], t[1..], x);
      }
    } else {
      SubseqMember(s, t[1..], x);
    }
  }
}

=== FILE: daily_batch.dfy ===
/**
  The daily batch job: turn the command line into an ingestion request,
  pass the ingested article ids to the ranking endpoint, and map the outcome
  to an exit code.

  The command line arrives already typed (argument parsing is left out).
  The HTTP replies are a parameter indexed by request number (0 for the
  ingestion request, 1 for the ranking request).
 */
module DailyBatch {
  import opened Text
  import Sorting

  const IngestPath := "/api/news/ingest"
  const RankPath := "/api/news/rank"
  const IngestTimeout := 300
  const RankTimeout := 600

  datatype Args = Args(baseUrl: string, sources: string, limitPerSource: int, minScore: real)

  datatype Payload =
    | IngestPayload(sources: seq<string>, limitPerSource: int)
    | RankPayload(articleIds: seq<int>, minScore: real, forceRerank: bool)

  datatype Request = Request(url: string, payload: Payload, timeout: nat)

  /** What a POST ends in. `Json` carries the `article_ids` entry of the
      body when it has one. */
  datatype Reply = HttpStatusError(code: int) | TransportError | BadJson | Json(articleIds: Option<seq<int>>)

  /** The requests the job sent, in order, and its exit code. */
  datatype BatchRun = BatchRun(requests: seq<Request>, exitCode: int)

  /** Non-empty, with no white space at either end. */
  predicate Trimmed(s: string) {
    s != [] && !IsSpace(s[0]) && !IsSpace(s[|s| - 1])
  }

  /** `[s.strip() for s in sources.split(",") if s.strip()]`. */
  function ParseSources(arg: string): (r: seq<string>)
    ensures forall k :: 0 <= k < |r| ==> Trimmed(r[k]) && ',' !in r[k]
    ensures forall x :: x in r <==> x != [] && x in Stripped(Split(arg, ','))
    ensures Sorting.IsSubseq(r, Stripped(Split(arg, ',')))
  {
    var parts := Split(arg, ',');
    SourcesKept(parts);
    NonBlank(parts)
  }

  /** What `NonBlank` keeps of comma-free parts. */
  lemma SourcesKept(parts: seq<string>)
    requires forall k :: 0 <= k < |parts| ==> ',' !in parts[k]
    ensures var r := NonBlank(parts);
            && (forall k :: 0 <= k < |r| ==> Trimmed(r[k]) && ',' !in r[k])
            && (forall x :: x in r <==> x != [] && x in Stripped(parts))
            && Sorting.IsSubseq(r, Stripped(parts))
  {
    NonBlankNoComma(parts);
    NonBlankIsFilter(parts);
  }

  lemma {:induction false} NonBlankNoComma(parts: seq<string>)
    requires forall k :: 0 <= k < |parts| ==> ',' !in parts[k]
    ensures forall k :: 0 <= k < |NonBlank(parts)| ==> ',' !in NonBlank(parts)[k]
  {
    if parts != [] {
      NonBlankNoComma(parts[1..]);
      if ',' in Strip(parts[0]) {
        StripChars(parts[0], ',');
      }
    }
  }

  /** Names without commas or surrounding blanks survive a round trip
      through the comma-separated argument. */
  lemma ParseJoinedSources(names: seq<string>)
    requires names != []
    requires forall k :: 0 <= k < |names| ==> Trimmed(names[k]) && ',' !in names[k]
    ensures ParseSources(Join(",", names)) == names
  {
    SplitJoin(names, ',');
    NonBlankOfTrimmed(names);
  }

  lemma {:induction false} NonBlankOfTrimmed(names: seq<string>)
    requires forall k :: 0 <= k < |names| ==> Trimmed(names[k])
    ensures NonBlank(names) == names
  {
    if names != [] {
      StripNoSpaceEdges(names[0]);
      NonBlankOfTrimmed(names[1..]);
    }
  }

  /** `base.rstrip('/')`. */
  function RStripSlashes(s: string): (r: string)
    ensures |r| <= |s| && r == s[..|r|]
    ensures r == [] || r[|r| - 1] != '/'
    ensures forall i :: |r| <= i < |s| ==> s[i] == '/'
  {
    if s != [] && s[|s| - 1] == '/' then RStripSlashes(s[..|s| - 1]) else s
  }

  /** `f"{base_url.rstrip('/')}{path}"`. */
  function Endpoint(baseUrl: string, path: string): (url: string)
    ensures url == RStripSlashes(baseUrl) + path
    ensures StartsWith(baseUrl, RStripSlashes(baseUrl))
  {
    RStripSlashes(baseUrl) + path
  }

  /** Any number of trailing slashes on the base gives the same URL. */
  lemma TrailingSlashesIgnored(base: string, slashes: nat, path: string)
    requires base == [] || base[|base| - 1] != '/'
    ensures Endpoint(base + seq(slashes, _ => '/'), path) == base + path
    decreases slashes
  {
    if slashes > 0 {
      assert (base + seq(slashes, _ => '/'))[..|base| + slashes - 1] == base + seq(slashes - 1, _ => '/');
      TrailingSlashesIgnored(base, slashes - 1, path);
    }
  }

  lemma ExampleUrls()
    ensures Endpoint("http://localhost:8000/", IngestPath) == "http://localhost:8000/api/news/ingest"
    ensures Endpoint("http://localhost:8000", RankPath) == "http://localhost:8000/api/news/rank"
  {
    IngestUrlExample();
    RankUrlExample();
  }

  lemma IngestUrlExample()
    ensures Endpoint("http://localhost:8000/", IngestPath) == "http://localhost:8000/api/news/ingest"
  {
    TrailingSlashesIgnored("http://localhost:8000", 1, IngestPath);
    assert "http://localhost:8000" + seq(1, _ => '/') == "http://localhost:8000/";
  }

  lemma RankUrlExample()
    ensures Endpoint("http://localhost:8000", RankPath) == "http://localhost:8000/api/news/rank"
  {
    TrailingSlashesIgnored("http://localhost:8000", 0, RankPath);
    assert "http://localhost:8000" + seq(0, _ => '/') == "http://localhost:8000";
  }

  function IngestRequestFor(args: Args, sources: seq<string>): Request {
    Request(Endpoint(args.baseUrl, IngestPath), IngestPayload(sources, args.limitPerSource), IngestTimeout)
  }

  function RankRequestFor(args: Args, ids: seq<int>): Request {
    Request(Endpoint(args.baseUrl, RankPath), RankPayload(ids, args.minScore, false), RankTimeout)
  }

  /** The request failed: raised by `raise_for_status`, the transport or
      the JSON decoder. */
  predicate Failed(reply: Reply) { !reply.Json? }

  /** `main()`. */
  function RunBatch(args: Args, replies: nat -> Reply): (r: BatchRun)
    ensures r.exitCode == 0 || r.exitCode == 1
    ensures ParseSources(args.sources) == [] <==> r.requests == []
    ensures r.requests == [] ==> r.exitCode == 1
    ensures |r.requests| >= 1 ==> r.requests[0] == IngestRequestFor(args, ParseSources(args.sources))
    ensures |r.requests| <= 2
    ensures |r.requests| == 2 <==> r.requests != [] && replies(0).Json? && replies(0).articleIds.Some?
                                    && replies(0).articleIds.value != []
    ensures |r.requests| == 2 ==> r.requests[1] == RankRequestFor(args, replies(0).articleIds.value)
    ensures r.requests != [] ==>
              (r.exitCode == 1 <==> Failed(replies(0)) || (|r.requests| == 2 && Failed(replies(1))))
  {
    var sources := ParseSources(args.sources);
    if sources == [] then BatchRun([], 1)
    else
      var ingest := IngestRequestFor(args, sources);
      match replies(0)
      case Json(ids) =>
        if ids.None? || ids.value == [] then BatchRun([ingest], 0)
        else
          var rank := RankRequestFor(args, ids.value);
          BatchRun([ingest, rank], if replies(1).Json? then 0 else 1)
      case _ => BatchRun([ingest], 1)
  }

  /** A reply shaped like the ingestion response schema carries no
      `article_ids`: ranking is skipped and the job succeeds. */
  lemma NoIdsNoRanking(args: Args, replies: nat -> Reply)
    requires ParseSources(args.sources) != [] && replies(0) == Json(None)
    ensures RunBatch(args, replies) == BatchRun([IngestRequestFor(args, ParseSources(args.sources))], 0)
  {
  }

  /** The ranking request names exactly the ingested ids and never asks
      for a forced re-rank. */
  lemma RankingGetsIngestedIds(args: Args, replies: nat -> Reply, ids: seq<int>)
    requires ParseSources(args.sources) != [] && replies(0) == Json(Some(ids)) && ids != []
    ensures |RunBatch(args, replies).requests| == 2
    ensures RunBatch(args, replies).requests[1].payload == RankPayload(ids, args.minScore, false)
  {
  }
}

=== FILE: env_file.dfy ===
/**
  The setup check's reader of `backend/.env`: each line of the file that,
  once stripped, is neither blank nor a comment and holds an '=' sets the
  key before its first '=' to the value after it, both stripped; a later
  line for the same key wins. A missing file reads as no settings. The
  check then asks for the news key and for a Notion key, and fails when a
  check fails.
 */
module EnvFile {
  import opened Text

  /** What one line of the file sets, if anything. */
  function Entry(raw: string): (r: Option<(string, string)>)
    ensures r.Some? <==> var line := Strip(raw); line != [] && !StartsWith(line, "#") && '=' in line
    ensures r.Some? ==> var line := Strip(raw);
              exists p :: 0 <= p < |line| && line[p] == '=' && '=' !in line[..p]
                          && r.value == (Strip(line[..p]), Strip(line[p + 1..]))
    ensures r.Some? ==> '=' !in r.value.0 && Bare(r.value.0) && Bare(r.value.1)
  {
    var line := Strip(raw);
    if line == [] || StartsWith(line, "#") || '=' !in line then None
    else
      var p := IndexOf(line, '=').value;
      StripSubset(line[..p], '=');
      Some((Strip(line[..p]), Strip(line[p + 1..])))
  }

  /** Stripping removes characters and adds none. */
  lemma StripSubset(s: string, c: char)
    requires c !in s
    ensures c !in Strip(s)
  {
    StripBoth(s);
  }

  /** A text with no white space at either end. */
  predicate Bare(t: string) {
    t == [] || (!IsSpace(t[0]) && !IsSpace(t[|t| - 1]))
  }

  /** The settings the entries make, applied from the first to the last. */
  function Assign(es: seq<Option<(string, string)>>): map<string, string>
    decreases |es|
  {
    if es == [] then map[]
    else
      var before := Assign(es[..|es| - 1]);
      match es[|es| - 1]
      case None => before
      case Some(kv) => before[kv.0 := kv.1]
  }

  /** What each line sets. */
  function Entries(lines: seq<string>): (r: seq<Option<(string, string)>>)
    ensures |r| == |lines| && forall i :: 0 <= i < |lines| ==> r[i] == Entry(lines[i])
  {
    seq(|lines|, i requires 0 <= i < |lines| => Entry(lines[i]))
  }

  /** The settings the lines make, read from the first line to the last. */
  function Settings(lines: seq<string>): map<string, string> {
    Assign(Entries(lines))
  }

  /** `load_env_file`: `None` stands for a file that does not exist. */
  function LoadEnvFile(file: Option<string>): (r: map<string, string>)
    ensures file.None? ==> r == map[]
  {
    match file
    case None => map[]
    case Some(text) => Settings(SplitLines(text))
  }

  // ------------------------------------------------------------- properties

  /** Entry `i` sets `key`. */
  predicate SetsKey(es: seq<Option<(string, string)>>, i: nat, key: string)
    requires i < |es|
  {
    es[i].Some? && es[i].value.0 == key
  }

  /** A key is set exactly when some entry sets it, and then to the value of
      the last entry that does. */
  lemma {:induction false} LastEntryWins(es: seq<Option<(string, string)>>, key: string)
    ensures key in Assign(es) <==> exists i :: 0 <= i < |es| && SetsKey(es, i, key)
    ensures forall i :: 0 <= i < |es| && SetsKey(es, i, key)
                        && (forall j :: i < j < |es| ==> !SetsKey(es, j, key))
                        ==> key in Assign(es) && Assign(es)[key] == es[i].value.1
    decreases |es|
  {
    if es != [] {
      var n := |es| - 1;
      var init := es[..n];
      var before := Assign(init);
      LastEntryWins(init, key);
      assert forall i :: 0 <= i < n ==> SetsKey(es, i, key) == SetsKey(init, i, key) by {
        assert forall i :: 0 <= i < n ==> es[i] == init[i];
      }
      if SetsKey(es, n, key) {
        assert Assign(es) == before[key := es[n].value.1];
      } else {
        assert key in Assign(es) <==> key in before;
        assert key in before ==> Assign(es)[key] == before[key];
      }
    }
  }

  /** Every value set is some entry's value for its key. */
  lemma {:induction false} AssignFromEntries(es: seq<Option<(string, string)>>, key: string)
    requires key in Assign(es)
    ensures exists i :: 0 <= i < |es| && es[i] == Some((key, Assign(es)[key]))
    decreases |es|
  {
    var n := |es| - 1;
    var init := es[..n];
    if es[n].Some? && es[n].value.0 == key {
      assert es[n] == Some((key, Assign(es)[key]));
    } else {
      AssignFromEntries(init, key);
      var i :| 0 <= i < n && init[i] == Some((key, Assign(init)[key]));
      assert es[i] == init[i];
    }
  }

  /** For a file's lines: a key is set exactly when some line sets it, to
      the value of the last line that does; every key and value read is
      stripped and no key holds an '='. */
  lemma LastLineWins(lines: seq<string>, key: string)
    ensures key in Settings(lines) <==> exists i :: 0 <= i < |lines| && SetsKey(Entries(lines), i, key)
    ensures forall i :: 0 <= i < |lines| && SetsKey(Entries(lines), i, key)
                        && (forall j :: i < j < |lines| ==> !SetsKey(Entries(lines), j, key))
                        ==> key in Settings(lines) && Settings(lines)[key] == Entry(lines[i]).value.1
    ensures key in Settings(lines) ==> '=' !in key && Bare(key) && Bare(Settings(lines)[key])
  {
    var es := Entries(lines);
    LastEntryWins(es, key);
    if key in Settings(lines) {
      AssignFromEntries(es, key);
      var i :| 0 <= i < |es| && es[i] == Some((key, Assign(es)[key]));
      assert Entry(lines[i]) == es[i];
    }
  }

  /** A blank line or a comment changes nothing, wherever it stands. */
  lemma IgnoredLine(lines: seq<string>, raw: string)
    requires Strip(raw) == [] || StartsWith(Strip(raw), "#")
    ensures Settings(lines + [raw]) == Settings(lines)
  {
    var es := Entries(lines + [raw]);
    assert es[..|lines|] == Entries(lines);
    assert es[|lines|] == None;
  }

  /** A line `key=value` with bare parts and no '=' in the key sets the key
      to the value. */
  lemma AssignmentRead(key: string, value: string)
    requires key != [] && !IsSpace(key[0]) && key[0] != '#' && Bare(key) && Bare(value) && '=' !in key
    ensures Entry(key + "=" + value) == Some((key, value))
  {
    var line := key + "=" + value;
    AssignmentLine(key, value);
    assert Strip(line) == line by { StripNoSpaceEdges(line); }
    assert IndexOf(line, '=') == Some(|key|) by { IndexOfAt(line, '=', |key|); }
    assert !StartsWith(line, "#") by { assert line[..1][0] == line[0]; }
    EntryAt(line, |key|);
    StripNoSpaceEdges(key);
    StripNoSpaceEdges(value);
  }

  /** The parts of a line `key=value`, found at their places. */
  lemma AssignmentLine(key: string, value: string)
    requires key != [] && !IsSpace(key[0]) && Bare(value)
    ensures var line := key + "=" + value;
            && line[0] == key[0] && !IsSpace(line[|line| - 1])
            && line[..|key|] == key && line[|key|] == '=' && line[|key| + 1..] == value
  {
    var line := key + "=" + value;
    assert line[0] == key[0];
    assert line[..|key|] == key;
    assert line[|key| + 1..] == value;
  }

  /** The entry of a stripped line that is not a comment, split at its
      first '='. */
  lemma EntryAt(line: string, p: nat)
    requires Strip(line) == line && !StartsWith(line, "#") && IndexOf(line, '=') == Some(p)
    ensures Entry(line) == Some((Strip(line[..p]), Strip(line[p + 1..])))
  {
  }

  // ------------------------------------------------------------ the checks

  /** What the check sees besides the file: the `NOTION_API_KEY` of the
      process environment, and whether the Gemini command, its version
      query and the two Python packages are there. */
  datatype Machine = Machine(notionEnv: Option<string>, geminiOnPath: bool, geminiVersion: bool,
                             depsImport: bool)

  /** The checks `main` reports on, in its order. */
  datatype Check = NewsKey | NotionKey | GeminiOnPath | GeminiVersion | Dependencies

  /** The message a failed check prints. */
  function Message(c: Check): string {
    match c
    case NewsKey => "NEWSAPI key present in backend/.env"
    case NotionKey => "Notion API key configured"
    case GeminiOnPath => "Gemini CLI available on PATH"
    case GeminiVersion => "Gemini CLI version check"
    case Dependencies => "Python dependencies (feedparser/notion-client) installed"
  }

  /** A setting Python reads as true: present and not empty. */
  predicate Truthy(env: map<string, string>, key: string) {
    key in env && env[key] != []
  }

  /** A Notion key is given, by the environment or by the file. */
  predicate NotionGiven(env: map<string, string>, m: Machine) {
    (m.notionEnv.Some? && m.notionEnv.value != []) || Truthy(env, "NOTION_API_KEY")
    || Truthy(env, "NOTION_INTERNAL_KEY")
  }

  /** The checks that fail, in `main`'s order; the version is asked only
      when the command is there. */
  function Failures(env: map<string, string>, m: Machine): (r: seq<Check>)
    ensures |r| <= 5
    ensures NewsKey in r <==> "NEWSAPI_KEY" !in env
    ensures NotionKey in r <==> !NotionGiven(env, m)
    ensures GeminiOnPath in r <==> !m.geminiOnPath
    ensures GeminiVersion in r <==> m.geminiOnPath && !m.geminiVersion
    ensures Dependencies in r <==> !m.depsImport
  {
    (if "NEWSAPI_KEY" in env then [] else [NewsKey])
    + (if NotionGiven(env, m) then [] else [NotionKey])
    + (if m.geminiOnPath then [] else [GeminiOnPath])
    + (if m.geminiOnPath && !m.geminiVersion then [GeminiVersion] else [])
    + (if m.depsImport then [] else [Dependencies])
  }

  /** `main`'s exit code. */
  function ExitCode(file: Option<string>, m: Machine): (code: int)
    ensures code == 0 || code == 1
  {
    if Failures(LoadEnvFile(file), m) == [] then 0 else 1
  }

  /** The check passes exactly when the news key is set, a Notion key is
      given, Gemini and its version answer and the packages import; without
      a file the news key is always missing. */
  lemma ExitCodeZero(file: Option<string>, m: Machine)
    ensures var env := LoadEnvFile(file);
            ExitCode(file, m) == 0 <==>
              "NEWSAPI_KEY" in env && NotionGiven(env, m) && m.geminiOnPath && m.geminiVersion && m.depsImport
    ensures file.None? ==> ExitCode(file, m) == 1
  {
    var r := Failures(LoadEnvFile(file), m);
    if r != [] {
      assert r[0] in r;
    }
  }
}

=== FILE: guardrails.dfy ===
/**
  The guardrail rewriter run over the backend's Python files: it comments
  out direct imports of the AI vendors' client libraries and adds the
  router import near the top of every file that lacks it.

  A file is its text. Lines are cut as `str.splitlines(True)` cuts them at
  '\n' (each line keeps its line end; only the last may lack one).
 */
module Guardrails {
  import opened Text

  /** The module whose name marks a file as routed. */
  const RouterModule: string := "agents.checks.router"

  /** The line the rewriter adds. */
  const RouterImport: string := "from " + RouterModule + ImportTail

  const ImportTail: string := " import should_offload, offload_to_gemini  # guardrails\n"

  // ------------------------------------------------------ direct SDK imports

  /** A denied import: `\bKW\s+MOD\b`, a keyword and a module name
      separated by white space. */
  datatype Pattern = Pattern(kw: string, mod: string)

  /** The six denied imports, in the order they are applied. */
  const DenyPatterns: seq<Pattern> := [
    Pattern("import", "openai"), Pattern("from", "openai"),
    Pattern("import", "anthropic"), Pattern("from", "anthropic"),
    Pattern("import", "google.generativeai"), Pattern("from", "google.generativeai")
  ]

  /** The comment put before each denied import; the import itself is
      kept after it, turned into a comment by the last two characters. */
  const BannerLine: string := "# removed per guardrails; use router\n"
  const Banner: string := BannerLine + "# "

  /** Where a match of `p` starting at `i` ends, if one does: a word
      boundary, the keyword, at least one white-space character, the
      module name and a word boundary. White space is taken greedily, which
      loses nothing as the module name does not start with white space. */
  function MatchEnd(s: string, i: nat, p: Pattern): (r: Option<nat>)
    requires i <= |s|
    ensures r.Some? ==> i < r.value <= |s|
  {
    if WordStartsAt(s, i) && OccursAt(s, p.kw, i) then
      var w := SpaceRun(s, i + |p.kw|);
      var j := i + |p.kw| + w;
      if w >= 1 && OccursAt(s, p.mod, j) && WordEndsAt(s, j + |p.mod|) then Some(j + |p.mod|)
      else None
    else None
  }

  /** A pattern matches somewhere in `s`. */
  predicate Denied(s: string, p: Pattern) {
    exists j :: 0 <= j < |s| && MatchEnd(s, j, p).Some?
  }

  /** A compiled pattern: where a match starting at an index ends. */
  type Matcher = (string, nat) -> Option<nat>

  /** Matches are non-empty and lie inside the text. */
  ghost predicate Advances(m: Matcher) {
    forall s: string, i: nat :: i <= |s| && m(s, i).Some? ==> i < m(s, i).value <= |s|
  }

  /** `re.compile` of a denied import. */
  function Compile(p: Pattern): (m: Matcher)
    ensures Advances(m)
  {
    (s: string, i: nat) => if i <= |s| then MatchEnd(s, i, p) else None
  }

  /** The compiled pattern finds the pattern's matches. */
  lemma CompileMatches(p: Pattern, s: string, i: nat)
    requires i <= |s|
    ensures Compile(p)(s, i) == MatchEnd(s, i, p)
  {
  }

  /** `re.subn` from `i`: the text from `i` with every match, found left to
      right and not overlapping, preceded by `b`, and how many there were. */
  function SubAll(s: string, i: nat, m: Matcher, b: string): (r: (string, nat))
    requires i <= |s| && Advances(m)
    ensures r.1 == 0 ==> r.0 == s[i..]
    decreases |s| - i
  {
    if i == |s| then ([], 0)
    else match m(s, i)
      case Some(e) =>
        var rest := SubAll(s, e, m, b);
        (b + s[i..e] + rest.0, rest.1 + 1)
      case None =>
        var rest := SubAll(s, i + 1, m, b);
        assert s[i..] == [s[i]] + s[i + 1..];
        ([s[i]] + rest.0, rest.1)
  }

  /** Each match adds the length of `b` to the text. */
  lemma {:induction false} SubAllLength(s: string, i: nat, m: Matcher, b: string)
    requires i <= |s| && Advances(m)
    ensures |SubAll(s, i, m, b).0| == |s| - i + SubAll(s, i, m, b).1 * |b|
    decreases |s| - i
  {
    if i < |s| {
      match m(s, i)
      case Some(e) =>
        SubAllLength(s, e, m, b);
        MulStep(SubAll(s, e, m, b).1, |b|);
      case None => SubAllLength(s, i + 1, m, b);
    }
  }

  lemma MulStep(c: nat, n: nat)
    ensures (c + 1) * n == c * n + n
  {
  }

  /** The substitution counts nothing exactly when no match starts at or
      after `i`. */
  lemma {:induction false} CountZeroIff(s: string, i: nat, m: Matcher, b: string)
    requires i <= |s| && Advances(m)
    ensures SubAll(s, i, m, b).1 == 0 <==> forall j :: i <= j < |s| ==> m(s, j).None?
    decreases |s| - i
  {
    if i < |s| {
      CountZeroIff(s, i + 1, m, b);
    }
  }

  /** The first index from `i` where a match starts, or the end. */
  function FirstAt(s: string, i: nat, m: Matcher): (a: nat)
    requires i <= |s|
    ensures i <= a <= |s|
    ensures a < |s| ==> m(s, a).Some?
    ensures forall j :: i <= j < a ==> m(s, j).None?
    decreases |s| - i
  {
    if i == |s| || m(s, i).Some? then i else FirstAt(s, i + 1, m)
  }

  /** Up to the first match the text is copied unchanged. */
  lemma {:induction false} UpToFirst(s: string, i: nat, m: Matcher, b: string)
    requires i <= |s| && Advances(m)
    ensures var a := FirstAt(s, i, m); SubAll(s, i, m, b).0 == s[i..a] + SubAll(s, a, m, b).0
    decreases |s| - i
  {
    var a := FirstAt(s, i, m);
    if a == i {
      assert s[i..a] == [];
    } else {
      UpToFirst(s, i + 1, m, b);
      assert s[i..a] == [s[i]] + s[i + 1..a];
    }
  }

  /** A non-empty substitution starts with `b` or with the text's own
      character. */
  lemma SubAllHead(s: string, i: nat, m: Matcher, b: string)
    requires i < |s| && Advances(m) && b != []
    ensures SubAll(s, i, m, b).0 != [] && (SubAll(s, i, m, b).0[0] == s[i] || SubAll(s, i, m, b).0[0] == b[0])
  {
  }

  /** `strip_direct_clients` over `pats`: each pattern is substituted in
      turn, a pattern with no match leaving the text as it was; the count
      adds up the matches. */
  function StripWith(txt: string, pats: seq<Pattern>): (r: (string, nat))
    ensures r.1 == 0 ==> r.0 == txt
    decreases |pats|
  {
    if pats == [] then (txt, 0)
    else
      var sub := SubAll(txt, 0, Compile(pats[0]), Banner);
      var t := if sub.1 > 0 then sub.0 else txt;
      var rest := StripWith(t, pats[1..]);
      (rest.0, sub.1 + rest.1)
  }

  /** `strip_direct_clients`. */
  function StripDirectClients(txt: string): (r: (string, nat))
    ensures r.1 == 0 ==> r.0 == txt
  {
    StripWith(txt, DenyPatterns)
  }

  /** Nothing is stripped exactly when no denied import occurs anywhere. */
  lemma {:induction false} StripZeroIff(txt: string, pats: seq<Pattern>)
    ensures StripWith(txt, pats).1 == 0 <==> forall k :: 0 <= k < |pats| ==> !Denied(txt, pats[k])
    decreases |pats|
  {
    if pats != [] {
      CountZeroIff(txt, 0, Compile(pats[0]), Banner);
      CompiledDenied(txt, pats[0]);
      StripZeroIff(txt, pats[1..]);
      assert forall k :: 1 <= k < |pats| ==> pats[k] == pats[1..][k - 1];
    }
  }

  /** The compiled pattern finds no match exactly when the pattern is not
      denied in the text. */
  lemma CompiledDenied(s: string, p: Pattern)
    ensures (forall j :: 0 <= j < |s| ==> Compile(p)(s, j).None?) <==> !Denied(s, p)
  {
    forall j | 0 <= j < |s|
      ensures Compile(p)(s, j) == MatchEnd(s, j, p)
    {
      CompileMatches(p, s, j);
    }
  }

  /** When something was stripped, the result still holds a denied
      import. */
  lemma {:induction false} StripLeavesMatch(txt: string, pats: seq<Pattern>)
    requires forall k :: 0 <= k < |pats| ==> pats[k].mod != []
    requires StripWith(txt, pats).1 >= 1
    ensures exists k :: 0 <= k < |pats| && Denied(StripWith(txt, pats).0, pats[k])
    decreases |pats|
  {
    var sub := SubAll(txt, 0, Compile(pats[0]), Banner);
    var t := if sub.1 > 0 then sub.0 else txt;
    var rest := StripWith(t, pats[1..]);
    if rest.1 >= 1 {
      StripLeavesMatch(t, pats[1..]);
      var k :| 0 <= k < |pats[1..]| && Denied(rest.0, pats[1..][k]);
      assert Denied(rest.0, pats[k + 1]);
    } else {
      BannerEdges();
      SubAllRematches(txt, pats[0], Banner);
    }
  }

  /** Stripping is not run-twice safe, whatever the file header promises:
      the commented-out import is preceded by "# ", which is a word
      boundary, so the second run matches it again and adds another
      banner. */
  lemma StripRepeats(txt: string)
    requires StripDirectClients(txt).1 >= 1
    ensures StripDirectClients(StripDirectClients(txt).0).1 >= 1
  {
    ModulesNonEmpty();
    StripLeavesMatch(txt, DenyPatterns);
    StripZeroIff(StripDirectClients(txt).0, DenyPatterns);
  }

  /** The banner starts with '#' and ends with a space: neither is a word
      character. */
  lemma BannerEdges()
    ensures Banner != [] && !IsWordChar(Banner[0]) && !IsWordChar(Banner[|Banner| - 1])
  {
    assert Banner[|Banner| - 1] == "# "[1];
    assert Banner[0] == BannerLine[0];
  }

  lemma ModulesNonEmpty()
    ensures forall k :: 0 <= k < |DenyPatterns| ==> DenyPatterns[k].mod != []
  {
  }

  /** The parts a match is made of. */
  predicate MatchParts(s: string, i: nat, p: Pattern, w: nat, e: nat)
    requires i <= |s|
  {
    && WordStartsAt(s, i) && OccursAt(s, p.kw, i)
    && i + |p.kw| <= |s| && SpaceRun(s, i + |p.kw|) == w && w >= 1
    && OccursAt(s, p.mod, i + |p.kw| + w) && e == i + |p.kw| + w + |p.mod|
    && WordEndsAt(s, e)
  }

  /** A match ending at `e` is made of its parts, and the parts make one. */
  lemma MatchIffParts(s: string, i: nat, p: Pattern, e: nat)
    requires i + |p.kw| <= |s|
    ensures MatchEnd(s, i, p) == Some(e) <==> MatchParts(s, i, p, SpaceRun(s, i + |p.kw|), e)
  {
  }

  /** White space runs as far in a copy as in the original, when the
      character ending the run is copied too. */
  lemma {:induction false} SpaceRunCopied(t: string, q: nat, s: string, a: nat, n: nat, x: nat, w: nat)
    requires q + n <= |t| && a + n <= |s| && t[q..q + n] == s[a..a + n]
    requires x + w < n && SpaceRun(s, a + x) == w
    ensures SpaceRun(t, q + x) == w
    decreases w
  {
    CharCopied(t, q, s, a, n, x);
    if w > 0 {
      SpaceRunCopied(t, q, s, a, n, x + 1, w - 1);
    }
  }

  /** A character of a copied slice. */
  lemma CharCopied(t: string, q: nat, s: string, a: nat, n: nat, x: nat)
    requires q + n <= |t| && a + n <= |s| && t[q..q + n] == s[a..a + n]
    requires x < n
    ensures t[q + x] == s[a + x]
  {
    assert t[q + x] == t[q..q + n][x];
    assert s[a + x] == s[a..a + n][x];
  }

  /** A slice of a copied slice is the same slice of the original. */
  lemma SliceCopied(t: string, q: nat, s: string, a: nat, n: nat, x: nat, y: nat)
    requires q + n <= |t| && a + n <= |s| && t[q..q + n] == s[a..a + n]
    requires x <= y <= n
    ensures t[q + x..q + y] == s[a + x..a + y]
  {
    var u, v, c := t[q + x..q + y], s[a + x..a + y], t[q..q + n];
    forall i | 0 <= i < |u|
      ensures u[i] == v[i]
    {
      assert u[i] == c[x + i];
    }
    assert u == v;
  }

  /** What occurs inside a copied slice occurs at the same place in the
      copy. */
  lemma OccursCopied(t: string, q: nat, s: string, a: nat, n: nat, x: nat, sub: string)
    requires q + n <= |t| && a + n <= |s| && t[q..q + n] == s[a..a + n]
    requires x + |sub| <= n && OccursAt(s, sub, a + x)
    ensures OccursAt(t, sub, q + x)
  {
    SliceCopied(t, q, s, a, n, x, x + |sub|);
  }

  /** A match depends only on the matched characters and their two
      neighbours: copied into `t` between non-word characters it matches
      there too. */
  lemma MatchCopied(s: string, a: nat, n: nat, w: nat, p: Pattern, t: string, q: nat)
    requires a + n <= |s| && MatchParts(s, a, p, w, a + n) && p.mod != []
    requires q + n <= |t| && t[q..q + n] == s[a..a + n]
    requires WordStartsAt(t, q) && WordEndsAt(t, q + n)
    ensures MatchParts(t, q, p, w, q + n)
  {
    PartsCopied(s, a, n, w, p.kw, p.mod, t, q);
  }

  /** The keyword, the white space run and the module, copied. */
  lemma PartsCopied(s: string, a: nat, n: nat, w: nat, kw: string, mod: string, t: string, q: nat)
    requires a + n <= |s| && q + n <= |t| && t[q..q + n] == s[a..a + n]
    requires n == |kw| + w + |mod| && mod != []
    requires OccursAt(s, kw, a) && SpaceRun(s, a + |kw|) == w && OccursAt(s, mod, a + |kw| + w)
    ensures OccursAt(t, kw, q) && SpaceRun(t, q + |kw|) == w && OccursAt(t, mod, q + |kw| + w)
  {
    OccursCopied(t, q, s, a, n, 0, kw);
    SpaceRunCopied(t, q, s, a, n, |kw|, w);
    OccursCopied(t, q, s, a, n, |kw| + w, mod);
  }

  /** A match copied into `out` at `q`, after a non-word character and
      before the end or a non-word character, matches again there. */
  lemma RematchAt(s: string, a: nat, n: nat, p: Pattern, out: string, q: nat)
    requires a + n <= |s| && MatchEnd(s, a, p) == Some(a + n) && p.mod != []
    requires q + n <= |out| && out[q..q + n] == s[a..a + n]
    requires q > 0 && !IsWordChar(out[q - 1])
    requires q + n == |out| || !IsWordChar(out[q + n])
    ensures MatchEnd(out, q, p) == Some(q + n)
  {
    MatchIffParts(s, a, p, a + n);
    MatchCopied(s, a, n, SpaceRun(s, a + |p.kw|), p, out, q);
    MatchIffParts(out, q, p, q + n);
  }

  /** A match ends at the end of the text or before a non-word
      character. */
  lemma EndBoundary(s: string, a: nat, p: Pattern, e: nat)
    requires a <= |s| && MatchEnd(s, a, p) == Some(e) && e < |s|
    ensures !IsWordChar(s[e])
  {
  }

  /** The substituted text around its first match: the text before it,
      `b`, the match, and the substitution of the rest, which starts with
      `b` or with the character after the match. */
  lemma FirstMatchSplit(s: string, m: Matcher, b: string)
    requires Advances(m) && b != [] && SubAll(s, 0, m, b).1 >= 1
    ensures var a := FirstAt(s, 0, m);
            && a < |s| && m(s, a).Some?
            && var e := m(s, a).value; var rest := SubAll(s, e, m, b).0;
            && SubAll(s, 0, m, b).0 == (s[..a] + b) + s[a..e] + rest
            && (rest == [] || (e < |s| && (rest[0] == s[e] || rest[0] == b[0])))
  {
    CountZeroIff(s, 0, m, b);
    UpToFirst(s, 0, m, b);
    var a := FirstAt(s, 0, m);
    var e := m(s, a).value;
    var rest := SubAll(s, e, m, b).0;
    assert s[0..a] == s[..a];
    assert SubAll(s, a, m, b).0 == b + s[a..e] + rest;
    RegroupSubstitute(s[..a], b, s[a..e], rest);
    if e < |s| {
      SubAllHead(s, e, m, b);
    }
  }

  /** Concatenation regrouped around the substitute. */
  lemma RegroupSubstitute(pre: string, b: string, mid: string, rest: string)
    ensures pre + (b + mid + rest) == (pre + b) + mid + rest
  {
  }

  /** The pieces of a three-part text, found at their places. */
  lemma Pieces(pre: string, mid: string, rest: string)
    requires pre != []
    ensures var out := pre + mid + rest; var q := |pre|;
            && out[q..q + |mid|] == mid && out[q - 1] == pre[q - 1]
            && (rest != [] ==> out[q + |mid|] == rest[0])
  {
  }

  /** The first match, copied after `b`, matches again when `b` ends and
      starts with non-word characters. */
  lemma SubAllRematches(s: string, p: Pattern, b: string)
    requires p.mod != [] && b != [] && !IsWordChar(b[0]) && !IsWordChar(b[|b| - 1])
    requires SubAll(s, 0, Compile(p), b).1 >= 1
    ensures Denied(SubAll(s, 0, Compile(p), b).0, p)
  {
    var m := Compile(p);
    FirstMatchSplit(s, m, b);
    var a := FirstAt(s, 0, m);
    CompileMatches(p, s, a);
    var e := m(s, a).value;
    RematchInPieces(s, a, e, p, s[..a], b, SubAll(s, e, m, b).0);
  }

  /** A match of `s`, put after `b` and followed by the character that
      followed it or by `b` again, still matches. */
  lemma RematchInPieces(s: string, a: nat, e: nat, p: Pattern, pre0: string, b: string, rest: string)
    requires a <= |s| && MatchEnd(s, a, p) == Some(e) && p.mod != []
    requires b != [] && !IsWordChar(b[0]) && !IsWordChar(b[|b| - 1])
    requires rest == [] || (e < |s| && (rest[0] == s[e] || rest[0] == b[0]))
    ensures Denied((pre0 + b) + s[a..e] + rest, p)
  {
    var pre := pre0 + b;
    var mid := s[a..e];
    var out := pre + mid + rest;
    var q := |pre|;
    Pieces(pre, mid, rest);
    assert pre[q - 1] == b[|b| - 1];
    if rest != [] && rest[0] == s[e] {
      EndBoundary(s, a, p, e);
    }
    assert mid == s[a..a + (e - a)];
    RematchAt(s, a, e - a, p, out, q);
  }

  // --------------------------------------------------------- router import

  /** `already_has_router`. */
  function AlreadyHasRouter(txt: string): (r: bool)
    ensures r <==> Contains(txt, RouterModule)
  {
    HasSubstring(txt, RouterModule)
  }

  /** A comment line or a blank line. */
  predicate CommentOrBlank(line: string) {
    StartsWith(LStrip(line), "#") || Strip(line) == ""
  }

  /** The quote that opens a docstring line, if the line opens one. */
  function DocQuote(line: string): (r: Option<string>)
    ensures r.Some? ==> |r.value| == 3 && StartsWith(LStrip(line), r.value)
  {
    var l := LStrip(line);
    if StartsWith(l, "\"\"\"") then Some("\"\"\"")
    else if StartsWith(l, "'''") then Some("'''")
    else None
  }

  /** The first line from `i` that is neither a comment nor blank. */
  function SkipComments(lines: seq<string>, i: nat): (j: nat)
    requires i <= |lines|
    ensures i <= j <= |lines|
    ensures forall k :: i <= k < j ==> CommentOrBlank(lines[k])
    ensures j == |lines| || !CommentOrBlank(lines[j])
    decreases |lines| - i
  {
    if i < |lines| && CommentOrBlank(lines[i]) then SkipComments(lines, i + 1) else i
  }

  /** The first line from `i` that holds `q`, or the end. */
  function FindQuote(lines: seq<string>, i: nat, q: string): (j: nat)
    requires i <= |lines|
    ensures i <= j <= |lines|
    ensures forall k :: i <= k < j ==> !Contains(lines[k], q)
    ensures j == |lines| || Contains(lines[j], q)
    decreases |lines| - i
  {
    if i < |lines| && !HasSubstring(lines[i], q) then FindQuote(lines, i + 1, q) else i
  }

  /** One past a `#!` first line, else 0. */
  function ShebangEnd(lines: seq<string>): (i: nat)
    ensures i <= |lines|
  {
    if lines != [] && StartsWith(lines[0], "#!") then 1 else 0
  }

  /** Where `insert_router_import` puts the import: after the `#!` line,
      the comment and blank lines that follow, and a docstring opening on
      the next line, which is taken to close on the first LATER line
      holding its quote. */
  function HeaderEnd(lines: seq<string>): (i: nat)
    ensures i <= |lines|
  {
    var c := SkipComments(lines, ShebangEnd(lines));
    if c < |lines| && DocQuote(lines[c]).Some? then
      var j := FindQuote(lines, c + 1, DocQuote(lines[c]).value);
      if j < |lines| then j + 1 else j
    else c
  }

  /** The lines with the import placed before line `i`. */
  function InsertLines(lines: seq<string>, i: nat): (r: seq<string>)
    requires i <= |lines|
  {
    lines[..i] + [RouterImport] + lines[i..]
  }

  /** `insert_router_import`: nothing when the file names the router;
      otherwise the import, as a whole line, after the header. */
  function InsertRouterImport(txt: string): (r: (string, bool))
    ensures r.1 <==> !Contains(txt, RouterModule)
    ensures !r.1 ==> r.0 == txt
    ensures r.1 ==> exists p :: 0 <= p <= |txt| && r.0 == txt[..p] + RouterImport + txt[p..]
                                && (p == 0 || p == |txt| || txt[p - 1] == '\n')
  {
    if AlreadyHasRouter(txt) then (txt, false)
    else
      var lines := SplitLinesKeepEnds(txt);
      var i := HeaderEnd(lines);
      InsertedAt(lines, i);
      (Concat(InsertLines(lines, i)), true)
  }

  /** Placing the import before line `i` places it at a line start of the
      text, or at its end. */
  lemma InsertedAt(lines: seq<string>, i: nat)
    requires i <= |lines|
    requires forall k :: 0 <= k < |lines| ==> lines[k] != []
    requires forall k :: 0 <= k < |lines| - 1 ==> lines[k][|lines[k]| - 1] == '\n'
    ensures var txt := Concat(lines); var p := |Concat(lines[..i])|;
            && p <= |txt|
            && Concat(InsertLines(lines, i)) == txt[..p] + RouterImport + txt[p..]
            && (p == 0 || p == |txt| || txt[p - 1] == '\n')
  {
    var pre := lines[..i];
    var post := lines[i..];
    assert lines == pre + post;
    ConcatAppend(pre, post);
    ConcatAppend(pre + [RouterImport], post);
    ConcatAppend(pre, [RouterImport]);
    assert Concat([RouterImport]) == RouterImport;
    var txt := Concat(lines);
    assert txt == Concat(pre) + Concat(post);
    assert txt[..|Concat(pre)|] == Concat(pre) && txt[|Concat(pre)|..] == Concat(post);
    if 0 < i < |lines| {
      ConcatLast(pre);
    } else if i == |lines| {
      assert post == [];
    }
  }

  /** A concatenation ends with its last part's last character. */
  lemma {:induction false} ConcatLast(parts: seq<string>)
    requires parts != [] && parts[|parts| - 1] != []
    ensures var c := Concat(parts); var l := parts[|parts| - 1]; c != [] && c[|c| - 1] == l[|l| - 1]
    decreases |parts|
  {
    if |parts| > 1 {
      ConcatLast(parts[1..]);
    } else {
      assert Concat(parts) == parts[0] + Concat([]);
    }
  }

  /** The import's line names the router. */
  lemma RouterNamed()
    ensures Contains(RouterImport, RouterModule)
  {
    ContainsInMiddle("from ", RouterModule, ImportTail);
  }

  /** The text with the import inserted names the router. */
  lemma InsertionNamesRouter(pre: string, post: string)
    ensures Contains(pre + RouterImport + post, RouterModule)
  {
    RouterNamed();
    ContainsPrefix(RouterImport, post, RouterModule);
    ContainsSuffix(pre, RouterImport + post, RouterModule);
    assert pre + RouterImport + post == pre + (RouterImport + post);
  }

  /** Running the insertion twice adds one import: the second run finds
      the router named and changes nothing. */
  lemma InsertIdempotent(txt: string)
    ensures var once := InsertRouterImport(txt).0; InsertRouterImport(once) == (once, false)
  {
    var r := InsertRouterImport(txt);
    if r.1 {
      var p :| 0 <= p <= |txt| && r.0 == txt[..p] + RouterImport + txt[p..];
      InsertionNamesRouter(txt[..p], txt[p..]);
    }
  }

  /** A file whose first line is code gets the import as its first line. */
  lemma CodeFirst(lines: seq<string>)
    requires lines != [] && !CommentOrBlank(lines[0]) && DocQuote(lines[0]).None?
    ensures HeaderEnd(lines) == 0
  {
    assert !StartsWith(lines[0], "#!");
  }

  /** Leading comment and blank lines are passed over; the import goes
      before the first line of code. */
  lemma CommentsThenCode(cs: seq<string>, rest: seq<string>)
    requires forall k :: 0 <= k < |cs| ==> CommentOrBlank(cs[k])
    requires rest != [] && !CommentOrBlank(rest[0]) && DocQuote(rest[0]).None?
    ensures HeaderEnd(cs + rest) == |cs|
  {
    var lines := cs + rest;
    SkipOver(lines, ShebangEnd(lines), |cs|);
  }

  /** Comment lines followed by a line of code or docstring: the header
      scan stops at that line. */
  lemma HeaderStart(cs: seq<string>, line: string, rest: seq<string>)
    requires forall k :: 0 <= k < |cs| ==> CommentOrBlank(cs[k])
    requires !CommentOrBlank(line)
    ensures var lines := cs + [line] + rest;
            SkipComments(lines, ShebangEnd(lines)) == |cs| && lines[|cs|] == line
  {
    var lines := cs + [line] + rest;
    if cs == [] {
      assert lines[0] == line;
      assert !StartsWith(line, "#!");
    }
    SkipOver(lines, ShebangEnd(lines), |cs|);
  }

  /** From `i` up to the line `j` that ends them, the comment lines are
      skipped. */
  lemma {:induction false} SkipOver(lines: seq<string>, i: nat, j: nat)
    requires i <= j < |lines|
    requires forall k :: i <= k < j ==> CommentOrBlank(lines[k])
    requires !CommentOrBlank(lines[j])
    ensures SkipComments(lines, i) == j
    decreases j - i
  {
    if i < j {
      SkipOver(lines, i + 1, j);
    }
  }

  /** A docstring opening on the first line after the comments and closing
      on a later line: the import goes right after the closing line. */
  lemma DocstringSkipped(cs: seq<string>, open: string, body: seq<string>, close: string, rest: seq<string>)
    requires forall k :: 0 <= k < |cs| ==> CommentOrBlank(cs[k])
    requires !CommentOrBlank(open) && DocQuote(open).Some?
    requires forall k :: 0 <= k < |body| ==> !Contains(body[k], DocQuote(open).value)
    requires Contains(close, DocQuote(open).value)
    ensures HeaderEnd(cs + [open] + body + [close] + rest) == |cs| + |body| + 2
  {
    var lines := cs + [open] + body + [close] + rest;
    assert lines == cs + [open] + (body + [close] + rest);
    HeaderStart(cs, open, body + [close] + rest);
    BodyPassed(cs, open, body, close, rest, DocQuote(open).value);
    HeaderAfterDocstring(lines, |cs|, |cs| + 1 + |body|);
  }

  /** A docstring opening at line `c`, after the comments, and closing on
      the later line `j`: both header scans end after line `j`. */
  lemma HeaderAfterDocstring(lines: seq<string>, c: nat, j: nat)
    requires c < j < |lines| && SkipComments(lines, ShebangEnd(lines)) == c
    requires DocQuote(lines[c]).Some? && FindQuote(lines, c + 1, DocQuote(lines[c]).value) == j
    ensures HeaderEnd(lines) == j + 1
    ensures !ClosesOnItsLine(lines[c]) ==> HeaderEndFixed(lines) == j + 1
  {
  }

  /** The first line from `i` holding `q` is `j`. */
  lemma {:induction false} QuoteFound(lines: seq<string>, i: nat, j: nat, q: string)
    requires i <= j <= |lines|
    requires forall k :: i <= k < j ==> !Contains(lines[k], q)
    requires j == |lines| || Contains(lines[j], q)
    ensures FindQuote(lines, i, q) == j
    decreases j - i
  {
    if i < j {
      QuoteFound(lines, i + 1, j, q);
    }
  }

  /** The first line after the opening one that holds `q` is `close`. */
  lemma BodyPassed(cs: seq<string>, open: string, body: seq<string>, close: string, rest: seq<string>, q: string)
    requires forall k :: 0 <= k < |body| ==> !Contains(body[k], q)
    requires Contains(close, q)
    ensures FindQuote(cs + [open] + body + [close] + rest, |cs| + 1, q) == |cs| + 1 + |body|
  {
    var lines := cs + [open] + body + [close] + rest;
    assert forall k :: |cs| + 1 <= k < |cs| + 1 + |body| ==> lines[k] == body[k - |cs| - 1];
    assert lines[|cs| + 1 + |body|] == close;
    QuoteFound(lines, |cs| + 1, |cs| + 1 + |body|, q);
  }

  // ------------------------------------------------------ one-line docstring

  /** The docstring line closes on itself: its quote occurs again after the
      opening three characters. */
  predicate ClosesOnItsLine(line: string)
    requires DocQuote(line).Some?
  {
    Contains(LStrip(line)[3..], DocQuote(line).value)
  }

  /** As written, a docstring that opens and closes on one line is taken
      to be still open: the import goes after the next line holding the
      quote, and, when no later line holds it, at the very end of the
      file, after all of its code. */
  lemma OneLineDocstringAsWritten(cs: seq<string>, doc: string, rest: seq<string>)
    requires forall k :: 0 <= k < |cs| ==> CommentOrBlank(cs[k])
    requires !CommentOrBlank(doc) && DocQuote(doc).Some? && ClosesOnItsLine(doc)
    requires forall k :: 0 <= k < |rest| ==> !Contains(rest[k], DocQuote(doc).value)
    ensures HeaderEnd(cs + [doc] + rest) == |cs| + 1 + |rest|
  {
    var lines := cs + [doc] + rest;
    HeaderStart(cs, doc, rest);
    QuoteFound(lines, |cs| + 1, |lines|, DocQuote(doc).value);
  }

  /** The header end with a docstring that closes on its opening line
      ending there. */
  function HeaderEndFixed(lines: seq<string>): (i: nat)
    ensures i <= |lines|
  {
    var c := SkipComments(lines, ShebangEnd(lines));
    if c < |lines| && DocQuote(lines[c]).Some? then
      if ClosesOnItsLine(lines[c]) then c + 1
      else
        var j := FindQuote(lines, c + 1, DocQuote(lines[c]).value);
        if j < |lines| then j + 1 else j
    else c
  }

  /** With the correction, the import goes right after a one-line
      docstring. */
  lemma OneLineDocstringFixed(cs: seq<string>, doc: string, rest: seq<string>)
    requires forall k :: 0 <= k < |cs| ==> CommentOrBlank(cs[k])
    requires !CommentOrBlank(doc) && DocQuote(doc).Some? && ClosesOnItsLine(doc)
    ensures HeaderEndFixed(cs + [doc] + rest) == |cs| + 1
  {
    HeaderStart(cs, doc, rest);
  }

  /** With the correction, a docstring that does not close on its opening
      line is still passed over up to its closing line. */
  lemma DocstringSkippedFixed(cs: seq<string>, open: string, body: seq<string>, close: string, rest: seq<string>)
    requires forall k :: 0 <= k < |cs| ==> CommentOrBlank(cs[k])
    requires !CommentOrBlank(open) && DocQuote(open).Some? && !ClosesOnItsLine(open)
    requires forall k :: 0 <= k < |body| ==> !Contains(body[k], DocQuote(open).value)
    requires Contains(close, DocQuote(open).value)
    ensures HeaderEndFixed(cs + [open] + body + [close] + rest) == |cs| + |body| + 2
  {
    var lines := cs + [open] + body + [close] + rest;
    assert lines == cs + [open] + (body + [close] + rest);
    HeaderStart(cs, open, body + [close] + rest);
    BodyPassed(cs, open, body, close, rest, DocQuote(open).value);
    HeaderAfterDocstring(lines, |cs|, |cs| + 1 + |body|);
  }

  // -------------------------------------------------------- no final newline

  /** As written, a file made only of a header whose last line has no line
      end gets the import appended to that last line: the import's text
      continues the line (a comment, so the import is commented out). */
  lemma NoFinalNewlineAsWritten(txt: string)
    requires !Contains(txt, RouterModule)
    requires txt != [] && txt[|txt| - 1] != '\n'
    requires HeaderEnd(SplitLinesKeepEnds(txt)) == |SplitLinesKeepEnds(txt)|
    ensures InsertRouterImport(txt).0 == txt + RouterImport
  {
    var lines := SplitLinesKeepEnds(txt);
    assert lines[..|lines|] == lines;
    assert InsertLines(lines, |lines|) == lines + [RouterImport];
    ConcatAppend(lines, [RouterImport]);
    assert Concat([RouterImport]) == RouterImport;
  }

  /** `out` is `txt` with the import as a line of its own between `pre`
      and `post`; taking it out gives `txt` back, or `txt` with a line end
      added when its last line had none. */
  predicate OwnLine(out: string, pre: string, post: string, txt: string) {
    && out == pre + RouterImport + post
    && (pre == [] || pre[|pre| - 1] == '\n')
    && (pre + post == txt || (post == [] && pre == txt + "\n"))
  }

  /** `insert_router_import` with both corrections: the header end above,
      and a line end added to a last line that lacks one before the import
      is placed after it. */
  function InsertRouterImportFixed(txt: string): (r: (string, bool))
    ensures r.1 <==> !Contains(txt, RouterModule)
    ensures !r.1 ==> r.0 == txt
    ensures r.1 ==> exists pre, post :: OwnLine(r.0, pre, post, txt)
  {
    if AlreadyHasRouter(txt) then (txt, false)
    else
      var lines := SplitLinesKeepEnds(txt);
      (PlaceImport(txt, lines, HeaderEndFixed(lines)), true)
  }

  /** The import placed before line `i`, on a line of its own. */
  function PlaceImport(txt: string, lines: seq<string>, i: nat): (out: string)
    requires lines == SplitLinesKeepEnds(txt) && i <= |lines|
    ensures exists pre, post :: OwnLine(out, pre, post, txt)
  {
    var p := |Concat(lines[..i])|;
    if p == |txt| && txt != [] && txt[|txt| - 1] != '\n' then
      assert OwnLine((txt + "\n") + RouterImport, txt + "\n", [], txt);
      (txt + "\n") + RouterImport
    else
      InsertedOwnLine(txt, lines, i);
      Concat(InsertLines(lines, i))
  }

  /** Placed before a line of the text, the import is a line of its own. */
  lemma InsertedOwnLine(txt: string, lines: seq<string>, i: nat)
    requires i <= |lines| && Concat(lines) == txt
    requires forall k :: 0 <= k < |lines| ==> lines[k] != []
    requires forall k :: 0 <= k < |lines| - 1 ==> lines[k][|lines[k]| - 1] == '\n'
    requires var p := |Concat(lines[..i])|; !(p == |txt| && txt != [] && txt[|txt| - 1] != '\n')
    ensures var p := |Concat(lines[..i])|;
            p <= |txt| && OwnLine(Concat(InsertLines(lines, i)), txt[..p], txt[p..], txt)
  {
    var p := |Concat(lines[..i])|;
    InsertedAt(lines, i);
    LineStartOrEnd(txt, p);
    AtLineStart(txt, p);
  }

  /** A split point at a line start or at the end of a text whose last
      line is ended is at a line start. */
  lemma LineStartOrEnd(txt: string, p: nat)
    requires p <= |txt| && (p == 0 || p == |txt| || txt[p - 1] == '\n')
    requires !(p == |txt| && txt != [] && txt[|txt| - 1] != '\n')
    ensures p == 0 || txt[p - 1] == '\n'
  {
  }

  /** Splitting at a line start places the import on a line of its own. */
  lemma AtLineStart(txt: string, p: nat)
    requires p <= |txt| && (p == 0 || txt[p - 1] == '\n')
    ensures OwnLine(txt[..p] + RouterImport + txt[p..], txt[..p], txt[p..], txt)
  {
    assert txt[..p] + txt[p..] == txt;
  }

  /** The corrected insertion is run-twice safe too. */
  lemma InsertFixedIdempotent(txt: string)
    ensures var once := InsertRouterImportFixed(txt).0; InsertRouterImportFixed(once) == (once, false)
  {
    var r := InsertRouterImportFixed(txt);
    if r.1 {
      var pre, post :| OwnLine(r.0, pre, post, txt);
      InsertionNamesRouter(pre, post);
    }
  }

  // ------------------------------------------------------------ one file

  /** What the rewriter does to one file: the text it leaves, how many
      direct imports it commented out, and whether it added the router
      import. */
  datatype FileOutcome = FileOutcome(text: string, strips: nat, added: bool)

  /** The body of the rewriter's loop for one file: the direct imports
      stripped, then the router import added. */
  function RewriteFile(txt: string): (r: FileOutcome)
    ensures r.added <==> !Contains(StripDirectClients(txt).0, RouterModule)
    ensures Contains(r.text, RouterModule)
  {
    var stripped := StripDirectClients(txt);
    var inserted := InsertRouterImport(stripped.0);
    InsertNamesRouter(stripped.0);
    FileOutcome(inserted.0, stripped.1, inserted.1)
  }

  /** After the insertion the text names the router. */
  lemma InsertNamesRouter(txt: string)
    ensures Contains(InsertRouterImport(txt).0, RouterModule)
  {
    var r := InsertRouterImport(txt);
    if r.1 {
      var p :| 0 <= p <= |txt| && r.0 == txt[..p] + RouterImport + txt[p..];
      InsertionNamesRouter(txt[..p], txt[p..]);
    }
  }

  /** The file is written back exactly when an import was stripped or the
      router import added. */
  lemma RewriteChanges(txt: string)
    ensures var r := RewriteFile(txt); r.text != txt <==> r.strips > 0 || r.added
  {
    var r := RewriteFile(txt);
    var stripped := StripDirectClients(txt);
    var inserted := InsertRouterImport(stripped.0);
    assert r == FileOutcome(inserted.0, stripped.1, inserted.1);
    StripLength(txt, DenyPatterns);
    InsertLength(stripped.0);
    BannerEdges();
    Grows(stripped.1, |Banner|);
    assert |stripped.0| >= |txt| && (stripped.1 > 0 ==> |stripped.0| > |txt|);
    if r.strips > 0 || r.added {
      assert |RouterImport| > 0;
      assert |r.text| > |txt|;
    } else {
      assert r.text == txt;
    }
  }

  /** `n` copies of a non-empty text are non-empty when `n > 0`. */
  lemma Grows(n: nat, k: nat)
    requires k > 0
    ensures n * k >= 0 && (n > 0 ==> n * k > 0)
  {
    if n > 0 {
      assert n * k == (n - 1) * k + k;
    }
  }

  /** The insertion adds the import's length, or nothing. */
  lemma InsertLength(txt: string)
    ensures |InsertRouterImport(txt).0| == |txt| + if InsertRouterImport(txt).1 then |RouterImport| else 0
  {
    var r := InsertRouterImport(txt);
    if r.1 {
      var p :| 0 <= p <= |txt| && r.0 == txt[..p] + RouterImport + txt[p..];
    }
  }

  /** Each stripped import adds the banner's length. */
  lemma {:induction false} StripLength(txt: string, pats: seq<Pattern>)
    ensures |StripWith(txt, pats).0| == |txt| + StripWith(txt, pats).1 * |Banner|
    decreases |pats|
  {
    if pats != [] {
      var m := Compile(pats[0]);
      var sub := SubAll(txt, 0, m, Banner);
      var t := if sub.1 > 0 then sub.0 else txt;
      SubAllLength(txt, 0, m, Banner);
      assert |t| == |txt| + sub.1 * |Banner|;
      StripLength(t, pats[1..]);
      Distrib(sub.1, StripWith(t, pats[1..]).1, |Banner|);
    }
  }

  lemma Distrib(x: nat, y: nat, k: nat)
    ensures (x + y) * k == x * k + y * k
  {
  }
}

=== FILE: ingest.dfy ===
/**
  `NewsIngestService`: fetch from each requested source, store the articles
  not seen before, and record the job's outcome.

  The database commit of one new row is a parameter `commit(raw)`: it
  succeeds, hits the unique constraint because another writer inserted the
  same external id first, or fails otherwise. The last two roll that one row
  back. The `NEWS_API_KEY` environment variable is a parameter.
 */
module Ingest {
  import opened Text
  import opened Store
  import NewsSources
  import Sorting
  import Retry

  datatype CommitOutcome = Committed | IntegrityConflict | OtherFailure

  /** The row `_store_articles` builds from a raw article. */
  function NewRow(id: int, raw: NewsSources.RawArticle, now: int): (a: Article)
    ensures a.status == Pending && a.fetchedAt == now && a.id == id
  {
    Article(id, raw.sourceName, raw.externalId, raw.title, raw.description, raw.content,
            raw.url, raw.imageUrl, raw.publishedAt, now, Pending)
  }

  /** Every field the raw article carries was copied into the stored row. */
  predicate CopiesRaw(a: Article, raw: NewsSources.RawArticle) {
    && a.sourceName == raw.sourceName && a.externalId == raw.externalId
    && a.title == raw.title && a.description == raw.description
    && a.content == raw.content && a.url == raw.url
    && a.imageUrl == raw.imageUrl && a.publishedAt == raw.publishedAt
  }

  /** The `select ... where external_id == ...` duplicate check. */
  function ExternalIdTaken(articles: seq<Article>, externalId: string): (r: bool)
    ensures r <==> HasExternalId(articles, externalId)
  {
    if articles == [] then false
    else if articles[0].externalId == externalId then true
    else
      assert forall k :: 1 <= k < |articles| ==> articles[k] == articles[1..][k - 1];
      ExternalIdTaken(articles[1..], externalId)
  }

  /** One iteration of the `_store_articles` loop: skip a known external id,
      otherwise add the row if its commit succeeds. */
  function StoreOne(articles: seq<Article>, raw: NewsSources.RawArticle,
                    commit: NewsSources.RawArticle -> CommitOutcome, now: int): (r: seq<Article>)
    ensures r == articles || r == articles + [NewRow(|articles| + 1, raw, now)]
    ensures |r| > |articles| <==> !HasExternalId(articles, raw.externalId) && commit(raw) == Committed
    ensures commit(raw) == Committed ==> HasExternalId(r, raw.externalId)
    ensures UniqueExternalIds(articles) ==> UniqueExternalIds(r)
  {
    if ExternalIdTaken(articles, raw.externalId) || commit(raw) != Committed then articles
    else
      var r := articles + [NewRow(|articles| + 1, raw, now)];
      assert r[|articles|].externalId == raw.externalId;
      r
  }

  datatype Stored = Stored(articles: seq<Article>, count: nat)

  /** `_store_articles(raw_articles)` on the table `articles`: the table
      afterwards and the number of rows stored. */
  function StoreArticles(articles: seq<Article>, raws: seq<NewsSources.RawArticle>,
                         commit: NewsSources.RawArticle -> CommitOutcome, now: int): (r: Stored)
    ensures |r.articles| == |articles| + r.count && r.count <= |raws|
    ensures r.articles[..|articles|] == articles
    ensures UniqueExternalIds(articles) ==> UniqueExternalIds(r.articles)
    decreases |raws|
  {
    if raws == [] then Stored(articles, 0)
    else
      var next := StoreOne(articles, raws[0], commit, now);
      var rest := StoreArticles(next, raws[1..], commit, now);
      assert rest.articles[..|articles|] == rest.articles[..|next|][..|articles|];
      Stored(rest.articles, rest.count + |next| - |articles|)
  }

  /** Every row `_store_articles` adds is a pending copy of one of the raw
      articles whose commit succeeded, numbered in insertion order. */
  lemma {:induction false} StoredRowsCopyRaws(articles: seq<Article>, raws: seq<NewsSources.RawArticle>,
                                              commit: NewsSources.RawArticle -> CommitOutcome, now: int,
                                              i: nat)
    requires |articles| <= i < |StoreArticles(articles, raws, commit, now).articles|
    ensures var a := StoreArticles(articles, raws, commit, now).articles[i];
            && a.status == Pending && a.fetchedAt == now && a.id == i + 1
            && CopiesCommitted(a, raws, commit)
    decreases |raws|
  {
    var next := StoreOne(articles, raws[0], commit, now);
    var rest := StoreArticles(next, raws[1..], commit, now);
    if i < |next| {
      assert rest.articles[i] == next[i];
      assert CopiesRaw(next[i], raws[0]);
    } else {
      StoredRowsCopyRaws(next, raws[1..], commit, now, i);
      CopiesCommittedTail(rest.articles[i], raws, commit);
    }
  }

  /** The row copies one of the raw articles whose commit succeeded. */
  predicate CopiesCommitted(a: Article, raws: seq<NewsSources.RawArticle>, commit: NewsSources.RawArticle -> CommitOutcome) {
    exists k :: 0 <= k < |raws| && CopiesRaw(a, raws[k]) && commit(raws[k]) == Committed
  }

  lemma CopiesCommittedTail(a: Article, raws: seq<NewsSources.RawArticle>, commit: NewsSources.RawArticle -> CommitOutcome)
    requires raws != [] && CopiesCommitted(a, raws[1..], commit)
    ensures CopiesCommitted(a, raws, commit)
  {
    var k :| 0 <= k < |raws[1..]| && CopiesRaw(a, raws[1..][k]) && commit(raws[1..][k]) == Committed;
    assert raws[1..][k] == raws[k + 1];
  }

  /** Every raw article whose commit succeeds ends up in the table, either
      inserted now or found there already. */
  lemma {:induction false} CommittedIdsPresent(articles: seq<Article>, raws: seq<NewsSources.RawArticle>,
                                               commit: NewsSources.RawArticle -> CommitOutcome, now: int,
                                               k: nat)
    requires k < |raws| && commit(raws[k]) == Committed
    ensures HasExternalId(StoreArticles(articles, raws, commit, now).articles, raws[k].externalId)
    decreases |raws|
  {
    var next := StoreOne(articles, raws[0], commit, now);
    var rest := StoreArticles(next, raws[1..], commit, now);
    if k == 0 {
      var m :| 0 <= m < |next| && next[m].externalId == raws[0].externalId;
      assert rest.articles[m] == rest.articles[..|next|][m];
    } else {
      assert raws[1..][k - 1] == raws[k];
      CommittedIdsPresent(next, raws[1..], commit, now, k - 1);
    }
  }

  /** Re-storing articles whose external ids are all present stores nothing. */
  lemma {:induction false} StoreKnownIsNoop(articles: seq<Article>, raws: seq<NewsSources.RawArticle>,
                                            commit: NewsSources.RawArticle -> CommitOutcome, now: int)
    requires forall k :: 0 <= k < |raws| ==> HasExternalId(articles, raws[k].externalId)
    ensures StoreArticles(articles, raws, commit, now) == Stored(articles, 0)
    decreases |raws|
  {
    if raws != [] {
      StoreKnownIsNoop(articles, raws[1..], commit, now);
    }
  }

  /** Articles with fresh, pairwise distinct external ids whose commits
      succeed are all stored, in order. */
  lemma {:induction false} StoreFreshStoresAll(articles: seq<Article>, raws: seq<NewsSources.RawArticle>,
                                               commit: NewsSources.RawArticle -> CommitOutcome, now: int)
    requires forall k :: 0 <= k < |raws| ==> !HasExternalId(articles, raws[k].externalId)
    requires forall k :: 0 <= k < |raws| ==> commit(raws[k]) == Committed
    requires forall i, j :: 0 <= i < j < |raws| ==> raws[i].externalId != raws[j].externalId
    ensures StoreArticles(articles, raws, commit, now).count == |raws|
    decreases |raws|
  {
    if raws != [] {
      var next := articles + [NewRow(|articles| + 1, raws[0], now)];
      forall k | 0 <= k < |raws| - 1 ensures !HasExternalId(next, raws[1..][k].externalId) {
        assert raws[1..][k] == raws[k + 1];
      }
      StoreFreshStoresAll(next, raws[1..], commit, now);
    }
  }

  // ---------------------------------------------------------------- sources

  /** Everything outside the service that one ingestion run sees. */
  datatype Env = Env(
    newsApiKey: string,
    replies: nat -> nat -> NewsSources.HttpReply,
    jitter: nat -> real,
    hash: string -> int,
    parseIso: string -> Option<int>,
    commit: NewsSources.RawArticle -> CommitOutcome,
    now: int)

  /** The key passed to the factory: the service's key for the exact name
      "newsapi", nothing for any other spelling. */
  function KeyFor(sourceName: string, env: Env): (k: Option<string>)
    ensures k.Some? <==> sourceName == "newsapi"
  {
    if sourceName == "newsapi" then Some(env.newsApiKey) else None
  }

  /** Client construction and fetch for the source at position `pos`: the
      raw articles, or the message of the exception raised. */
  function FetchSource(sourceName: string, pos: nat, limit: int, env: Env)
    : (r: Result<seq<NewsSources.RawArticle>>)
    ensures NewsSources.GetNewsClient(sourceName, KeyFor(sourceName, env)).Err? ==>
              r == Err(NewsSources.GetNewsClient(sourceName, KeyFor(sourceName, env)).error)
    ensures NewsSources.GetNewsClient(sourceName, KeyFor(sourceName, env)) == Ok(NewsSources.MockClient) ==>
              r == Ok(NewsSources.MockFetch(limit, None, env.hash, env.now))
  {
    match NewsSources.GetNewsClient(sourceName, KeyFor(sourceName, env))
    case Err(e) => Err(e)
    case Ok(client) =>
      if client.MockClient? then Ok(NewsSources.MockFetch(limit, None, env.hash, env.now))
      else
      var run := NewsSources.NewsApiFetch(limit, env.replies(pos), env.jitter, env.hash,
                                          env.parseIso, env.now);
      match run.result
      case Returned(rows) => Ok(rows)
      case Raised(e) => Err(e)
      case ReturnedNone => assert false; Ok([])
  }

  /** "NewsAPI" (any spelling but the exact lower-case one) reaches the
      factory without the key, so it always fails. */
  lemma MisspelledNewsApiFails(pos: nat, limit: int, env: Env)
    ensures FetchSource("NewsAPI", pos, limit, env) == Err("API key required for NewsAPI")
  {
    MixedCaseNewsApi();
  }

  lemma MixedCaseNewsApi()
    ensures "NewsAPI" != "newsapi" && Lower("NewsAPI") == "newsapi"
  {
    assert "NewsAPI"[4] != "newsapi"[4];
  }

  datatype Progress = Progress(articles: seq<Article>, total: nat, errors: map<string, string>)

  /** One iteration of the loop over sources: a failure is recorded under the
      source's name and touches nothing else. */
  function SourceStep(p: Progress, name: string, pos: nat, limit: int, env: Env): (r: Progress)
    ensures FetchSource(name, pos, limit, env).Err? ==>
              r == Progress(p.articles, p.total, p.errors[name := FetchSource(name, pos, limit, env).error])
    ensures FetchSource(name, pos, limit, env).Ok? ==> r.errors == p.errors
    ensures |r.articles| == |p.articles| + r.total - p.total && r.total >= p.total
    ensures r.articles[..|p.articles|] == p.articles
    ensures UniqueExternalIds(p.articles) ==> UniqueExternalIds(r.articles)
  {
    match FetchSource(name, pos, limit, env)
    case Err(e) => Progress(p.articles, p.total, p.errors[name := e])
    case Ok(rows) =>
      var st := StoreArticles(p.articles, rows, env.commit, env.now);
      Progress(st.articles, p.total + st.count, p.errors)
  }

  /** The loop over `sources[pos..]`. */
  function ProcessSources(p: Progress, sources: seq<string>, pos: nat, limit: int, env: Env)
    : (r: Progress)
    requires pos <= |sources|
    ensures |r.articles| == |p.articles| + r.total - p.total && r.total >= p.total
    ensures r.articles[..|p.articles|] == p.articles
    ensures UniqueExternalIds(p.articles) ==> UniqueExternalIds(r.articles)
    decreases |sources| - pos
  {
    if pos == |sources| then p
    else
      var next := SourceStep(p, sources[pos], pos, limit, env);
      var r := ProcessSources(next, sources, pos + 1, limit, env);
      assert r.articles[..|p.articles|] == r.articles[..|next.articles|][..|p.articles|];
      r
  }

  /** A source that fails is recorded, and the sources after it are still
      processed: every failing source ends up among the errors. */
  lemma {:induction false} FailingSourcesRecorded(p: Progress, sources: seq<string>, pos: nat,
                                                  limit: int, env: Env, i: nat)
    requires pos <= i < |sources| && FetchSource(sources[i], i, limit, env).Err?
    ensures sources[i] in ProcessSources(p, sources, pos, limit, env).errors
    decreases |sources| - pos
  {
    var next := SourceStep(p, sources[pos], pos, limit, env);
    if i == pos {
      ErrorsOnlyGrow(next, sources, pos + 1, limit, env, sources[i]);
    } else {
      FailingSourcesRecorded(next, sources, pos + 1, limit, env, i);
    }
  }

  lemma {:induction false} ErrorsOnlyGrow(p: Progress, sources: seq<string>, pos: nat,
                                          limit: int, env: Env, name: string)
    requires pos <= |sources| && name in p.errors
    ensures name in ProcessSources(p, sources, pos, limit, env).errors
    decreases |sources| - pos
  {
    if pos < |sources| {
      ErrorsOnlyGrow(SourceStep(p, sources[pos], pos, limit, env), sources, pos + 1, limit, env, name);
    }
  }

  /** Only failing sources are recorded: every error key names a source
      whose client or fetch raised. */
  lemma {:induction false} ErrorsComeFromFailures(p: Progress, sources: seq<string>, pos: nat,
                                                  limit: int, env: Env, name: string)
    requires pos <= |sources|
    requires name in ProcessSources(p, sources, pos, limit, env).errors
    ensures name in p.errors ||
            exists i :: pos <= i < |sources| && sources[i] == name && FetchSource(name, i, limit, env).Err?
    decreases |sources| - pos
  {
    if pos < |sources| {
      var next := SourceStep(p, sources[pos], pos, limit, env);
      ErrorsComeFromFailures(next, sources, pos + 1, limit, env, name);
      if name in next.errors && name !in p.errors {
        assert sources[pos] == name && FetchSource(name, pos, limit, env).Err?;
      }
    }
  }

  /** The job's final status from the errors and the number stored. */
  function JobStatus(hasErrors: bool, total: nat): (s: string)
    ensures s == "completed" <==> !hasErrors
    ensures s == "partial_failure" <==> hasErrors && total > 0
    ensures s == "failed" <==> hasErrors && total == 0
  {
    if hasErrors then (if total > 0 then "partial_failure" else "failed") else "completed"
  }

  /** `run_ingestion(sources, limit_per_source)`: the database afterwards and
      the job record it returns. */
  function RunIngestion(db: Db, sources: seq<string>, limit: int, env: Env): (r: (Db, IngestionJob))
    ensures |db.articles| <= |r.0.articles| && r.0.articles[..|db.articles|] == db.articles
    ensures r.1.articlesFetched == |r.0.articles| - |db.articles|
    ensures r.1.articlesRanked == 0
    ensures r.1.status == JobStatus(|r.1.errors| > 0, r.1.articlesFetched)
    ensures r.0.scores == db.scores
    ensures r.0.jobs == db.jobs + [r.1]
    ensures UniqueExternalIds(db.articles) ==> UniqueExternalIds(r.0.articles)
  {
    var p := ProcessSources(Progress(db.articles, 0, map[]), sources, 0, limit, env);
    var job := IngestionJob(|db.jobs| + 1, JobStatus(|p.errors| > 0, p.total), p.total, 0, p.errors);
    (Db(p.articles, db.scores, db.jobs + [job]), job)
  }

  /** A run over one source that fetches `rows` stores what
      `_store_articles` stores and completes without errors. */
  lemma SingleSourceRun(db: Db, name: string, limit: int, env: Env, rows: seq<NewsSources.RawArticle>)
    requires FetchSource(name, 0, limit, env) == Ok(rows)
    ensures RunIngestion(db, [name], limit, env).0.articles
              == StoreArticles(db.articles, rows, env.commit, env.now).articles
    ensures RunIngestion(db, [name], limit, env).1.articlesFetched
              == StoreArticles(db.articles, rows, env.commit, env.now).count
    ensures RunIngestion(db, [name], limit, env).1.status == "completed"
  {
    var p0 := Progress(db.articles, 0, map[]);
    var p1 := SourceStep(p0, name, 0, limit, env);
    assert ProcessSources(p0, [name], 0, limit, env) == ProcessSources(p1, [name], 1, limit, env);
  }

  /** Ingesting the mock source into an empty database stores its five
      articles; ingesting it again stores none and still completes. The
      repository's test of the second run expects five. */
  lemma MockIngestTwice(env: Env)
    requires forall raw :: env.commit(raw) == Committed
    ensures var (db1, job1) := RunIngestion(Db([], [], []), ["mock"], 5, env);
            && job1.articlesFetched == 5 && job1.status == "completed"
            && var (db2, job2) := RunIngestion(db1, ["mock"], 5, env);
               job2.articlesFetched == 0 && job2.status == "completed" && db2.articles == db1.articles
  {
    MockFetchesFive(env);
    IngestTwice("mock", 5, env, NewsSources.MockFetch(5, None, env.hash, env.now));
  }

  /** The repository's test asserts that a second ingestion of the mock
      source reports five articles fetched; on the code it reports none,
      since every article is already stored. */
  lemma MockReingestNotFive(env: Env)
    requires forall raw :: env.commit(raw) == Committed
    ensures var (db1, _) := RunIngestion(Db([], [], []), ["mock"], 5, env);
            RunIngestion(db1, ["mock"], 5, env).1.articlesFetched != 5
  {
    MockIngestTwice(env);
  }

  lemma MockFetchesFive(env: Env)
    ensures FetchSource("mock", 0, 5, env) == Ok(NewsSources.MockFetch(5, None, env.hash, env.now))
    ensures |NewsSources.MockFetch(5, None, env.hash, env.now)| == 5
    ensures forall i, j :: 0 <= i < j < 5 ==>
              NewsSources.MockFetch(5, None, env.hash, env.now)[i].externalId
                != NewsSources.MockFetch(5, None, env.hash, env.now)[j].externalId
  {
    MockClientSelected(env);
    MockServesFive(env.hash, env.now);
    NewsSources.MockIdsDistinct(5, None, env.hash, env.now);
  }

  lemma MockClientSelected(env: Env)
    ensures NewsSources.GetNewsClient("mock", KeyFor("mock", env)) == Ok(NewsSources.MockClient)
  {
    assert Lower("mock") == "mock";
  }

  lemma MockServesFive(hash: string -> int, now: int)
    ensures |NewsSources.MockFetch(5, None, hash, now)| == 5
  {
    assert |NewsSources.MockFiltered(None)| == 5;
  }

  /** A source whose rows have distinct ids, ingested into an empty
      database and then again: the first run stores every row, the second
      stores none; both complete. */
  lemma IngestTwice(name: string, limit: int, env: Env, rows: seq<NewsSources.RawArticle>)
    requires forall raw :: env.commit(raw) == Committed
    requires FetchSource(name, 0, limit, env) == Ok(rows)
    requires forall i, j :: 0 <= i < j < |rows| ==> rows[i].externalId != rows[j].externalId
    ensures var (db1, job1) := RunIngestion(Db([], [], []), [name], limit, env);
            && job1.articlesFetched == |rows| && job1.status == "completed"
            && var (db2, job2) := RunIngestion(db1, [name], limit, env);
               job2.articlesFetched == 0 && job2.status == "completed" && db2.articles == db1.articles
  {
    var empty := Db([], [], []);
    StoreFreshStoresAll([], rows, env.commit, env.now);
    SingleSourceRun(empty, name, limit, env, rows);
    var (db1, job1) := RunIngestion(empty, [name], limit, env);
    assert job1.articlesFetched == |rows|;
    forall k | 0 <= k < |rows| ensures HasExternalId(db1.articles, rows[k].externalId) {
      CommittedIdsPresent([], rows, env.commit, env.now, k);
    }
    StoreKnownIsNoop(db1.articles, rows, env.commit, env.now);
    SingleSourceRun(db1, name, limit, env, rows);
    var (db2, job2) := RunIngestion(db1, [name], limit, env);
    assert job2.articlesFetched == 0 && db2.articles == db1.articles;
  }

  // ---------------------------------------------------------------- queries

  function ByFetchedAt(a: Article): Sorting.Rank {
    Sorting.ByScore(a.fetchedAt as real)
  }

  function IsPending(a: Article): bool { a.status == Pending }

  /** `get_pending_articles(limit)`: pending rows, newest fetch first. */
  function GetPendingArticles(articles: seq<Article>, limit: int): (r: seq<Article>)
    ensures forall i :: 0 <= i < |r| ==> r[i].status == Pending && r[i] in articles
    ensures Sorting.SortedDesc(ByFetchedAt, r)
    ensures 0 <= limit ==> |r| <= limit
    ensures (limit < 0 || |Sorting.Filter(IsPending, articles)| <= limit) ==>
              multiset(r) == multiset(Sorting.Filter(IsPending, articles))
    ensures var pending := Sorting.Filter(IsPending, articles);
            && |r| == (if 0 <= limit < |pending| then limit else |pending|)
            && Sorting.TopRows(ByFetchedAt, pending, r)
  {
    var pending := Sorting.Filter(IsPending, articles);
    var sorted := Sorting.SortDesc(ByFetchedAt, pending);
    var r := SqlLimit(sorted, limit);
    Sorting.PrefixSorted(ByFetchedAt, sorted, |r|);
    Sorting.SortPrefixIsTop(ByFetchedAt, pending, |r|);
    PendingRowsFromTable(articles, sorted, r);
    assert (limit < 0 || |pending| <= limit) ==> r == sorted;
    r
  }

  lemma PendingRowsFromTable(articles: seq<Article>, sorted: seq<Article>, r: seq<Article>)
    requires multiset(sorted) == multiset(Sorting.Filter(IsPending, articles))
    requires |r| <= |sorted| && r == sorted[..|r|]
    ensures forall i :: 0 <= i < |r| ==> r[i].status == Pending && r[i] in articles
  {
    forall i | 0 <= i < |r| ensures r[i].status == Pending && r[i] in articles {
      assert r[i] == sorted[i];
      assert r[i] in multiset(Sorting.Filter(IsPending, articles));
      Sorting.FilterIn(IsPending, articles, r[i]);
    }
  }
}

=== FILE: news_sources.dfy ===
/**
  The news source clients: the NewsAPI response normalisation, the
  deterministic mock catalogue and the client factory.

  Python's `hash(url)` (randomised per process) is a parameter `hash`; the
  clock is a parameter `now` in seconds; the HTTP exchange with NewsAPI is a
  parameter giving the reply to each attempt; `datetime.fromisoformat` is a
  parameter `parseIso`.
 */
module NewsSources {
  import opened Text
  import Retry
  import Sorting

  /** `NewsArticleRaw`: one article as every client hands it to ingestion. */
  datatype RawArticle = RawArticle(
    sourceName: string,
    externalId: string,
    title: string,
    description: Option<string>,
    content: Option<string>,
    url: string,
    imageUrl: Option<string>,
    publishedAt: int)

  const HourSeconds: int := 3600

  // ------------------------------------------------------------------- mock

  datatype MockItem = MockItem(title: string, description: string, url: string, category: string)

  const MockCatalogue: seq<MockItem> := [
    MockItem("AI Breakthrough: New Model Achieves Human-Level Understanding",
             "Researchers announce a groundbreaking AI model that demonstrates unprecedented understanding of complex tasks.",
             "https://example.com/ai-breakthrough", "tech"),
    MockItem("Global Markets Rally on Strong Economic Data",
             "Stock markets worldwide see significant gains following positive economic indicators.",
             "https://example.com/markets-rally", "business"),
    MockItem("New Study Reveals Benefits of Remote Work",
             "Comprehensive research shows improved productivity and employee satisfaction with remote work arrangements.",
             "https://example.com/remote-work-study", "business"),
    MockItem("Tech Giant Announces Revolutionary Product Launch",
             "Major technology company unveils innovative product expected to transform the industry.",
             "https://example.com/product-launch", "tech"),
    MockItem("Climate Initiative Shows Promising Results",
             "New environmental program demonstrates significant impact in reducing carbon emissions.",
             "https://example.com/climate-initiative", "environment")
  ]

  /** The catalogue entries the mock serves for an optional category filter;
      an empty category string does not filter. */
  function MockFiltered(category: Option<string>): (r: seq<MockItem>)
    ensures |r| <= |MockCatalogue|
    ensures !Truthy(category) ==> r == MockCatalogue
    ensures Truthy(category) ==> forall i :: 0 <= i < |r| ==> r[i].category == category.value
  {
    if Truthy(category) then MockWithCategory(MockCatalogue, category.value) else MockCatalogue
  }

  function MockWithCategory(items: seq<MockItem>, c: string): (r: seq<MockItem>)
    ensures |r| <= |items|
    ensures forall i :: 0 <= i < |r| ==> r[i].category == c && r[i] in items
  {
    if items == [] then []
    else if items[0].category == c then [items[0]] + MockWithCategory(items[1..], c)
    else MockWithCategory(items[1..], c)
  }

  /** The mock's external id: the position in the served list and the URL hash. */
  function MockExternalId(idx: nat, urlHash: int): string {
    "mock_" + NatToString(idx) + "_" + IntToString(urlHash)
  }

  function MockImageUrl(idx: nat): string {
    "https://via.placeholder.com/400x300?text=Article+" + NatToString(idx + 1)
  }

  /** The row the mock builds for catalogue entry `it` at position `idx`. */
  function MockRow(it: MockItem, idx: nat, hash: string -> int, now: int): RawArticle {
    RawArticle("mock", MockExternalId(idx, hash(it.url)), it.title, Some(it.description),
               Some(it.description), it.url, Some(MockImageUrl(idx)), now - idx * HourSeconds)
  }

  /** `MockNewsClient.fetch_top_headlines(limit, category)`. */
  function MockFetch(limit: int, category: Option<string>, hash: string -> int, now: int)
    : (r: seq<RawArticle>)
    ensures 0 <= limit ==> |r| == if limit <= |MockFiltered(category)| then limit else |MockFiltered(category)|
    ensures limit < 0 ==> |r| == if |MockFiltered(category)| + limit >= 0 then |MockFiltered(category)| + limit else 0
    ensures forall i :: 0 <= i < |r| ==>
              && r[i].sourceName == "mock"
              && r[i].title == MockFiltered(category)[i].title
              && r[i].url == MockFiltered(category)[i].url
              && r[i].description == Some(MockFiltered(category)[i].description)
              && r[i].content == r[i].description
              && r[i].externalId == MockExternalId(i, hash(r[i].url))
              && r[i].imageUrl == Some(MockImageUrl(i))
              && r[i].publishedAt == now - i * HourSeconds
  {
    var items := PyTake(MockFiltered(category), limit);
    seq(|items|, i requires 0 <= i < |items| => MockRow(items[i], i, hash, now))
  }

  /** The mock's publication times fall by exactly one hour per position. */
  lemma MockPublishedDecreasing(limit: int, category: Option<string>, hash: string -> int,
                                now: int, i: nat, j: nat)
    requires i < j < |MockFetch(limit, category, hash, now)|
    ensures MockFetch(limit, category, hash, now)[i].publishedAt
              - MockFetch(limit, category, hash, now)[j].publishedAt == (j - i) * HourSeconds
    ensures MockFetch(limit, category, hash, now)[i].publishedAt
              > MockFetch(limit, category, hash, now)[j].publishedAt
  {
  }

  /** Two single-digit positions give two different mock ids. */
  lemma MockIdsDiffer(i: nat, j: nat, hi: int, hj: int)
    requires i < 10 && j < 10 && i != j
    ensures MockExternalId(i, hi) != MockExternalId(j, hj)
  {
    var a := MockExternalId(i, hi);
    var b := MockExternalId(j, hj);
    assert a[5] == DigitChar(i);
    assert b[5] == DigitChar(j);
  }

  /** No two rows of one mock fetch share an external id. */
  lemma MockIdsDistinct(limit: int, category: Option<string>, hash: string -> int, now: int)
    ensures forall i, j :: 0 <= i < j < |MockFetch(limit, category, hash, now)| ==>
              MockFetch(limit, category, hash, now)[i].externalId
                != MockFetch(limit, category, hash, now)[j].externalId
  {
    var r := MockFetch(limit, category, hash, now);
    assert |r| <= 5;
    forall i, j | 0 <= i < j < |r| ensures r[i].externalId != r[j].externalId {
      MockIdsDiffer(i, j, hash(r[i].url), hash(r[j].url));
    }
  }

  /** The business filter serves the second and third catalogue entries. */
  lemma BusinessEntries()
    ensures MockFiltered(Some("business")) == [MockCatalogue[1], MockCatalogue[2]]
  {
    BusinessOfFive(MockCatalogue);
  }

  /** Of five entries, the filter keeps those of the category, in order. */
  lemma BusinessOfFive(c: seq<MockItem>)
    requires |c| == 5 && c[0].category != "business" && c[1].category == "business"
    requires c[2].category == "business" && c[3].category != "business" && c[4].category != "business"
    ensures MockWithCategory(c, "business") == [c[1], c[2]]
  {
    assert c[4..][1..] == [] && c[3..][1..] == c[4..] && c[2..][1..] == c[3..];
    assert c[1..][1..] == c[2..] && c[1..] == c[0..][1..];
    assert MockWithCategory(c[3..], "business") == [];
    assert MockWithCategory(c[2..], "business") == [c[2]];
    assert MockWithCategory(c[0..], "business") == [c[1], c[2]];
  }

  /** The same article gets a different id with a category filter than
      without one: the id records the position in the filtered list. */
  lemma MockIdDependsOnFilter(hash: string -> int, now: int)
    ensures MockFetch(10, None, hash, now)[1].url == MockFetch(10, Some("business"), hash, now)[0].url
    ensures MockFetch(10, None, hash, now)[1].externalId
              != MockFetch(10, Some("business"), hash, now)[0].externalId
  {
    BusinessEntries();
    var all := MockFetch(10, None, hash, now);
    var biz := MockFetch(10, Some("business"), hash, now);
    assert |all| == 5 && |biz| == 2;
    MockIdsDiffer(1, 0, hash(all[1].url), hash(biz[0].url));
  }

  // ---------------------------------------------------------------- NewsAPI

  /** One element of the `articles` array of a NewsAPI reply; `None` stands
      for a missing key or a JSON null. */
  datatype ApiItem = ApiItem(
    title: Option<string>,
    url: Option<string>,
    description: Option<string>,
    content: Option<string>,
    urlToImage: Option<string>,
    publishedAt: Option<string>)

  /** The decoded JSON body of a NewsAPI reply. */
  datatype ApiBody = ApiBody(status: Option<string>, message: Option<string>, articles: seq<ApiItem>)

  /** One HTTP exchange: a transport or HTTP status error, or a JSON body. */
  datatype HttpReply = HttpFailed(reason: string) | HttpOk(body: ApiBody)

  /** The query string the client sends. */
  datatype Query = Query(apiKey: string, pageSize: int, language: string, country: string,
                         category: Option<string>)

  const NewsApiPageMax: int := 100

  function NewsApiQuery(apiKey: string, limit: int, category: Option<string>): (q: Query)
    ensures q.pageSize <= NewsApiPageMax && q.pageSize <= limit
    ensures q.pageSize == limit || q.pageSize == NewsApiPageMax
    ensures q.category.Some? <==> Truthy(category)
    ensures q.language == "en" && q.country == "us"
  {
    Query(apiKey, if limit <= NewsApiPageMax then limit else NewsApiPageMax, "en", "us",
          if Truthy(category) then category else None)
  }

  /** `fromisoformat(published.replace("Z", "+00:00"))`, falling back to now. */
  function PublishedAt(published: Option<string>, parseIso: string -> Option<int>, now: int): int {
    if published.None? then now
    else match parseIso(ReplaceChar(published.value, 'Z', "+00:00"))
      case Some(t) => t
      case None => now
  }

  /** An item is kept only when it has a non-empty title and URL. */
  predicate Usable(item: ApiItem) {
    Truthy(item.title) && Truthy(item.url)
  }

  /** The row built from a usable item. */
  function NormaliseItem(it: ApiItem, hash: string -> int, parseIso: string -> Option<int>, now: int): RawArticle
    requires Usable(it)
  {
    RawArticle("newsapi", "newsapi_" + IntToString(hash(it.url.value)), it.title.value,
               it.description, it.content, it.url.value, it.urlToImage,
               PublishedAt(it.publishedAt, parseIso, now))
  }

  /** The normalisation loop of `fetch_top_headlines`: unusable items are
      skipped, the others become rows in order. */
  function NormaliseItems(items: seq<ApiItem>, hash: string -> int, parseIso: string -> Option<int>,
                          now: int): (r: seq<RawArticle>)
    ensures |r| <= |items|
    ensures forall i :: 0 <= i < |r| ==>
              r[i].sourceName == "newsapi" && r[i].title != "" && r[i].url != ""
              && r[i].externalId == "newsapi_" + IntToString(hash(r[i].url))
    ensures (forall i :: 0 <= i < |items| ==> !Usable(items[i])) ==> r == []
  {
    if items == [] then []
    else
      var rest := NormaliseItems(items[1..], hash, parseIso, now);
      if !Usable(items[0]) then
        assert forall i :: 1 <= i < |items| ==> items[1..][i - 1] == items[i];
        rest
      else
        [NormaliseItem(items[0], hash, parseIso, now)] + rest
  }

  /** `rows` are the items of `kept`, each normalised, in the same order. */
  predicate RowsOf(rows: seq<RawArticle>, kept: seq<ApiItem>, hash: string -> int,
                   parseIso: string -> Option<int>, now: int)
  {
    |rows| == |kept| &&
    forall i :: 0 <= i < |rows| ==> Usable(kept[i]) && rows[i] == NormaliseItem(kept[i], hash, parseIso, now)
  }

  lemma NormalisedCons(x: ApiItem, kept: seq<ApiItem>, rest: seq<RawArticle>, hash: string -> int,
                       parseIso: string -> Option<int>, now: int)
    requires Usable(x) && RowsOf(rest, kept, hash, parseIso, now)
    ensures RowsOf([NormaliseItem(x, hash, parseIso, now)] + rest, [x] + kept, hash, parseIso, now)
  {
    var r := [NormaliseItem(x, hash, parseIso, now)] + rest;
    var k := [x] + kept;
    forall i | 0 <= i < |r|
      ensures Usable(k[i]) && r[i] == NormaliseItem(k[i], hash, parseIso, now)
    {
      if i > 0 {
        assert r[i] == rest[i - 1] && k[i] == kept[i - 1];
      }
    }
  }

  /** The rows are the usable items, in their order, each normalised: one
      row per usable item, carrying its description, content, image and
      publication time as `NormaliseItem` builds them. */
  lemma {:induction false} NormaliseInOrder(items: seq<ApiItem>, hash: string -> int,
                                            parseIso: string -> Option<int>, now: int)
    ensures RowsOf(NormaliseItems(items, hash, parseIso, now), Sorting.Filter(Usable, items), hash, parseIso, now)
    decreases |items|
  {
    if items != [] {
      NormaliseInOrder(items[1..], hash, parseIso, now);
      assert items == [items[0]] + items[1..];
      var kept := Sorting.Filter(Usable, items[1..]);
      var rest := NormaliseItems(items[1..], hash, parseIso, now);
      if Usable(items[0]) {
        assert Sorting.Filter(Usable, items) == [items[0]] + kept;
        assert NormaliseItems(items, hash, parseIso, now) == [NormaliseItem(items[0], hash, parseIso, now)] + rest;
        NormalisedCons(items[0], kept, rest, hash, parseIso, now);
      } else {
        assert Sorting.Filter(Usable, items) == kept;
        assert NormaliseItems(items, hash, parseIso, now) == rest;
      }
    }
  }

  /** Some row of `rows` carries this URL and title. */
  predicate HasRow(rows: seq<RawArticle>, url: string, title: string)
  {
    exists i :: 0 <= i < |rows| && rows[i].url == url && rows[i].title == title
  }

  lemma HasRowCons(x: RawArticle, rows: seq<RawArticle>, url: string, title: string)
    requires HasRow(rows, url, title)
    ensures HasRow([x] + rows, url, title)
  {
    var i :| 0 <= i < |rows| && rows[i].url == url && rows[i].title == title;
    assert ([x] + rows)[i + 1] == rows[i];
  }

  /** Every usable item yields a row with its title and URL. */
  lemma {:induction false} NormaliseKeepsUsable(items: seq<ApiItem>, hash: string -> int,
                                                parseIso: string -> Option<int>, now: int, k: nat)
    requires k < |items| && Usable(items[k])
    ensures HasRow(NormaliseItems(items, hash, parseIso, now), items[k].url.value, items[k].title.value)
    decreases |items|
  {
    var r := NormaliseItems(items, hash, parseIso, now);
    if k == 0 {
      assert r[0] == NormaliseItem(items[0], hash, parseIso, now);
    } else {
      var rest := NormaliseItems(items[1..], hash, parseIso, now);
      assert items[1..][k - 1] == items[k];
      NormaliseKeepsUsable(items[1..], hash, parseIso, now, k - 1);
      if Usable(items[0]) {
        HasRowCons(NormaliseItem(items[0], hash, parseIso, now), rest, items[k].url.value, items[k].title.value);
      }
    }
  }

  /** One attempt of `NewsAPIClient.fetch_top_headlines`: an HTTP failure or
      a status other than "ok" raises; otherwise at most `limit` items are
      normalised. */
  function NewsApiAttempt(reply: HttpReply, limit: int, hash: string -> int,
                          parseIso: string -> Option<int>, now: int)
    : (r: Retry.Attempt<seq<RawArticle>>)
    ensures reply.HttpFailed? ==> r == Retry.Failure(reply.reason)
    ensures reply.HttpOk? && reply.body.status != Some("ok") ==>
              r == Retry.Failure("NewsAPI error: " + reply.body.message.GetOr("Unknown error"))
    ensures r.Success? ==> reply.HttpOk? && reply.body.status == Some("ok")
    ensures r.Success? && 0 <= limit ==> |r.value| <= limit
    ensures r.Success? ==> |r.value| <= |reply.body.articles|
  {
    match reply
    case HttpFailed(reason) => Retry.Failure(reason)
    case HttpOk(body) =>
      if body.status != Some("ok") then
        Retry.Failure("NewsAPI error: " + body.message.GetOr("Unknown error"))
      else
        Retry.Success(NormaliseItems(PyTake(body.articles, limit), hash, parseIso, now))
  }

  /** The decorated method: up to three attempts with back-off. */
  function NewsApiFetch(limit: int, replies: nat -> HttpReply, jitter: nat -> real,
                        hash: string -> int, parseIso: string -> Option<int>, now: int)
    : (r: Retry.RetryRun<seq<RawArticle>>)
    ensures 1 <= r.calls <= Retry.DefaultMaxRetries && !r.result.ReturnedNone?
    ensures r.result.Returned? ==> replies(r.calls).HttpOk?
    ensures r.result.Returned? && 0 <= limit ==> |r.result.value| <= limit
  {
    Retry.RetryWithBackoff(Retry.DefaultMaxRetries, Retry.DefaultBaseDelay,
                           k => NewsApiAttempt(replies(k), limit, hash, parseIso, now), jitter)
  }

  // ---------------------------------------------------------------- factory

  datatype Client = NewsApiClient(apiKey: string, timeout: int) | MockClient

  const DefaultTimeout: int := 10

  /** `get_news_client(source_name, api_key)`. */
  function GetNewsClient(sourceName: string, apiKey: Option<string>): (r: Result<Client>)
    ensures r.Ok? <==> Lower(sourceName) == "mock" || (Lower(sourceName) == "newsapi" && Truthy(apiKey))
    ensures r.Ok? && Lower(sourceName) == "mock" ==> r.value == MockClient
    ensures r.Ok? && Lower(sourceName) == "newsapi" ==>
              r.value == NewsApiClient(apiKey.value, DefaultTimeout)
    ensures Lower(sourceName) == "newsapi" && !Truthy(apiKey) ==>
              r == Err("API key required for NewsAPI")
    ensures Lower(sourceName) != "newsapi" && Lower(sourceName) != "mock" ==>
              r == Err("Unsupported news source: " + Lower(sourceName))
  {
    var name := Lower(sourceName);
    if name == "newsapi" then
      if !Truthy(apiKey) then Err("API key required for NewsAPI")
      else Ok(NewsApiClient(apiKey.value, DefaultTimeout))
    else if name == "mock" then Ok(MockClient)
    else Err("Unsupported news source: " + name)
  }

  /** The factory ignores case: "NewsAPI" and "MOCK" select the same
      clients as their lower-case spellings. */
  lemma FactoryIgnoresCase(sourceName: string, apiKey: Option<string>)
    ensures GetNewsClient(sourceName, apiKey) == GetNewsClient(Lower(sourceName), apiKey)
  {
    LowerIdempotent(sourceName);
  }
}

=== FILE: posts.dfy ===
/**
  The `posts` table shared by the content scheduler and the review routes.

  Times are integer seconds. A post is soft-deleted when `deletedAt` is
  set. The table is a sequence of rows with distinct ids, in insertion
  order; a new row gets the next id after the largest one in use.
 */
module Posts {
  import opened Text

  /** A JSON value, as a JSON column stores it and a request body carries
      it. */
  datatype JsonValue =
    | JNull
    | JBool(b: bool)
    | JNumber(n: real)
    | JString(s: string)
    | JArray(items: seq<JsonValue>)
    | JObject(members: seq<(string, JsonValue)>)

  /** A list of strings as a JSON array. */
  function StringArray(xs: seq<string>): (r: JsonValue)
    ensures r.JArray? && |r.items| == |xs|
    ensures forall i :: 0 <= i < |xs| ==> r.items[i] == JString(xs[i])
  {
    JArray(seq(|xs|, i requires 0 <= i < |xs| => JString(xs[i])))
  }

  /** A row of the `posts` table. `kind` is "text" or "video"; `status`
      is "draft", "approved", "published" or "failed". */
  datatype Post = Post(
    id: int,
    kind: string,
    title: string,
    body: string,
    sourceUrl: Option<string>,
    contentHash: Option<string>,
    tags: JsonValue,
    platforms: JsonValue,
    status: string,
    scheduledAt: Option<int>,
    publishedAt: Option<int>,
    createdAt: int,
    updatedAt: int,
    deletedAt: Option<int>)

  type Table = seq<Post>

  /** `post.deleted_at` is truthy: the post is soft-deleted. */
  predicate Deleted(p: Post) {
    p.deletedAt.Some?
  }

  predicate UniqueIds(t: Table) {
    forall i, j :: 0 <= i < j < |t| ==> t[i].id != t[j].id
  }

  /** `session.get(Post, id)`: the row holding `id`. */
  function FindPost(t: Table, id: int): (r: Option<nat>)
    ensures r.None? <==> forall i :: 0 <= i < |t| ==> t[i].id != id
    ensures r.Some? ==> r.value < |t| && t[r.value].id == id
  {
    if t == [] then None
    else if t[0].id == id then Some(0)
    else match FindPost(t[1..], id)
      case None => None
      case Some(k) => Some(k + 1)
  }

  /** With distinct ids, the row found is the only one holding `id`. */
  lemma FindPostUnique(t: Table, id: int, i: nat)
    requires UniqueIds(t) && i < |t| && t[i].id == id
    ensures FindPost(t, id) == Some(i)
  {
  }

  /** The id the database gives the next row: one past the largest in use. */
  function NextId(t: Table): (n: int)
    ensures n >= 1
    ensures forall i :: 0 <= i < |t| ==> t[i].id < n
  {
    if t == [] then 1
    else
      var rest := NextId(t[1..]);
      if t[0].id + 1 > rest then t[0].id + 1 else rest
  }

  /** A freshly created post: the defaults of the table's columns. */
  function NewPost(kind: string, title: string, body: string, sourceUrl: string, contentHash: string,
                   tags: seq<string>, platforms: seq<string>, now: int): Post
  {
    Post(0, kind, title, body, Some(sourceUrl), Some(contentHash), StringArray(tags), StringArray(platforms),
         "draft", None, None, now, now, None)
  }

  /** `session.add(post)` followed by a commit: the row is appended with the
      next id. */
  function AddPost(t: Table, p: Post): (r: Table)
    ensures |r| == |t| + 1 && r[..|t|] == t
    ensures r[|t|] == p.(id := NextId(t))
    ensures UniqueIds(t) ==> UniqueIds(r)
  {
    t + [p.(id := NextId(t))]
  }

  /** `AddPost` for each post in turn. */
  function AddPosts(t: Table, ps: seq<Post>): (r: Table)
    ensures |r| == |t| + |ps| && r[..|t|] == t
    ensures forall k :: 0 <= k < |ps| ==> r[|t| + k] == ps[k].(id := r[|t| + k].id)
    decreases |ps|
  {
    if ps == [] then t
    else
      var t1 := AddPost(t, ps[0]);
      var r := AddPosts(t1, ps[1..]);
      assert r[..|t|] == r[..|t1|][..|t|];
      assert forall k :: 1 <= k < |ps| ==> ps[k] == ps[1..][k - 1] && r[|t| + k] == r[|t1| + (k - 1)];
      r
  }

  /** Adding posts keeps the ids distinct. */
  lemma {:induction false} AddPostsUnique(t: Table, ps: seq<Post>)
    ensures UniqueIds(t) ==> UniqueIds(AddPosts(t, ps))
    decreases |ps|
  {
    if ps != [] {
      AddPostsUnique(AddPost(t, ps[0]), ps[1..]);
    }
  }
}

=== FILE: ranking.dfy ===
/**
  `NewsRankingService`: score articles with the language model through the
  router, parse the model's free-text answer into a score in [0, 1], skip
  articles already ranked, and query the best-scored articles.

  The ranking prompt, the router settings, the offload request ids, the
  outcome of each direct model call, `json.loads` and `float()` on a string
  are parameters. Calls to the router are numbered from 0 in the order the
  service makes them.
 */
module Ranking {
  import opened Text
  import opened Store
  import Sorting
  import Router

  // ------------------------------------------------- regular-expression scans

  /** The end of the run of white space starting at `i` (a greedy `\s*`). */
  function SkipSpaces(s: string, i: nat): (j: nat)
    requires i <= |s|
    ensures i <= j <= |s|
    ensures forall k :: i <= k < j ==> IsSpace(s[k])
    ensures j == |s| || !IsSpace(s[j])
    decreases |s| - i
  {
    if i < |s| && IsSpace(s[i]) then SkipSpaces(s, i + 1) else i
  }

  const Fence := "```"
  const FenceJson := "```json"

  /** `}` at `e` can end a fenced match: only white space stands between it
      and a closing fence. */
  predicate ClosesFence(s: string, e: int) {
    0 <= e < |s| && s[e] == '}' && OccursAt(s, Fence, SkipSpaces(s, e + 1))
  }

  /** The lazy `.*?\}\s*```` : the first `}` from `e` on that closes the fence. */
  function LazyClose(s: string, e: nat): (r: Option<nat>)
    requires e <= |s|
    ensures r.Some? ==> e <= r.value < |s| && ClosesFence(s, r.value)
    ensures r.Some? ==> forall k :: e <= k < r.value ==> !ClosesFence(s, k)
    ensures r.None? ==> forall k :: e <= k < |s| ==> !ClosesFence(s, k)
    decreases |s| - e
  {
    if e == |s| then None
    else if ClosesFence(s, e) then Some(e)
    else LazyClose(s, e + 1)
  }

  /** The group `(\{.*?\})` of a fenced match starting at `p`, if one does. */
  function FencedAt(s: string, p: nat): (r: Option<string>)
    requires p + |FenceJson| <= |s|
    ensures r.Some? ==> |r.value| >= 2 && r.value[0] == '{' && r.value[|r.value| - 1] == '}'
  {
    var q := SkipSpaces(s, p + |FenceJson|);
    if q < |s| && s[q] == '{' then
      match LazyClose(s, q + 1)
      case Some(e) => Some(s[q..e + 1])
      case None => None
    else None
  }

  /** `re.search(r'```json\s*(\{.*?\})\s*```', s, re.DOTALL)` from position `p`. */
  function FencedFrom(s: string, p: nat): (r: Option<string>)
    requires p <= |s|
    ensures r.Some? ==> |r.value| >= 2 && r.value[0] == '{' && r.value[|r.value| - 1] == '}'
    ensures (forall k :: p <= k < |s| ==> !OccursAt(s, FenceJson, k)) ==> r.None?
    decreases |s| - p
  {
    if p + |FenceJson| > |s| then None
    else if OccursAt(s, FenceJson, p) && FencedAt(s, p).Some? then FencedAt(s, p)
    else FencedFrom(s, p + 1)
  }

  /** Position of the last occurrence of `c`. */
  function LastIndexOf(s: string, c: char): (r: Option<nat>)
    ensures r.None? <==> c !in s
    ensures r.Some? ==> r.value < |s| && s[r.value] == c && c !in s[r.value + 1..]
  {
    if s == [] then None
    else if s[|s| - 1] == c then Some(|s| - 1)
    else
      assert forall k :: 0 <= k < |s| - 1 ==> s[k] == s[..|s| - 1][k];
      LastIndexOf(s[..|s| - 1], c)
  }

  /** `re.search(r'\{.*\}', s, re.DOTALL)`: from the first `{` to the last `}`. */
  function BareJson(s: string): (r: Option<string>)
    ensures r.Some? ==> |r.value| >= 2 && r.value[0] == '{' && r.value[|r.value| - 1] == '}'
    ensures r.None? <==> '{' !in s || '}' !in s[IndexOf(s, '{').value + 1..]
  {
    match IndexOf(s, '{')
    case None => None
    case Some(q) =>
      match LastIndexOf(s, '}')
      case None => None
      case Some(e) =>
        if e > q then Some(s[q..e + 1]) else None
  }

  /** The JSON text the service hands to `json.loads`: a fenced block is
      preferred, a bare `{...}` is the fallback. */
  function ExtractJson(s: string): (r: Option<string>)
    ensures FencedFrom(s, 0).Some? ==> r == FencedFrom(s, 0)
    ensures FencedFrom(s, 0).None? ==> r == BareJson(s)
    ensures r.Some? ==> r.value[0] == '{' && r.value[|r.value| - 1] == '}'
  {
    if FencedFrom(s, 0).Some? then FencedFrom(s, 0) else BareJson(s)
  }

  // ------------------------------------------------------- fallback patterns

  predicate IsNumChar(c: char) { IsAsciiDigit(c) || c == '.' }

  /** The end of the run of `[0-9.]` characters starting at `i`. */
  function NumRun(s: string, i: nat): (j: nat)
    requires i <= |s|
    ensures i <= j <= |s|
    ensures forall k :: i <= k < j ==> IsNumChar(s[k])
    ensures j == |s| || !IsNumChar(s[j])
    decreases |s| - i
  {
    if i < |s| && IsNumChar(s[i]) then NumRun(s, i + 1) else i
  }

  const ScoreLabel := "\"score\":"

  /** The group of `"score":\s*([0-9.]+)` when a match starts at `p`. */
  function NumberAt(s: string, p: nat): (r: Option<string>)
    requires OccursAt(s, ScoreLabel, p)
    ensures r.Some? ==> r.value != [] && forall k :: 0 <= k < |r.value| ==> IsNumChar(r.value[k])
  {
    var q := SkipSpaces(s, p + |ScoreLabel|);
    var e := NumRun(s, q);
    if e > q then Some(s[q..e]) else None
  }

  /** `re.search(r'"score":\s*([0-9.]+)', s)` from position `p`. */
  function ScoreMatchFrom(s: string, p: nat): (r: Option<string>)
    requires p <= |s|
    ensures r.Some? ==> r.value != [] && forall k :: 0 <= k < |r.value| ==> IsNumChar(r.value[k])
    ensures (forall k :: p <= k < |s| ==> !OccursAt(s, ScoreLabel, k)) ==> r.None?
    decreases |s| - p
  {
    if p + |ScoreLabel| > |s| then None
    else if OccursAt(s, ScoreLabel, p) && NumberAt(s, p).Some? then NumberAt(s, p)
    else ScoreMatchFrom(s, p + 1)
  }

  /** The group of `"<field>":\s*"([^"]+)"` when a match starts at `p`. */
  function QuotedAt(s: string, field: string, p: nat): (r: Option<string>)
    requires OccursAt(s, field, p)
    ensures r.Some? ==> r.value != [] && '"' !in r.value
  {
    var q := SkipSpaces(s, p + |field|);
    if q < |s| && s[q] == '"' then
      match IndexOf(s[q + 1..], '"')
      case Some(k) => if k > 0 then Some(s[q + 1..][..k]) else None
      case None => None
    else None
  }

  /** `re.search(r'"<field>":\s*"([^"]+)"', s)` from position `p`. */
  function QuotedFrom(s: string, field: string, p: nat): (r: Option<string>)
    requires p <= |s|
    ensures r.Some? ==> r.value != [] && '"' !in r.value
    ensures (forall k :: p <= k < |s| ==> !OccursAt(s, field, k)) ==> r.None?
    decreases |s| - p
  {
    if p == |s| || p + |field| > |s| then None
    else if OccursAt(s, field, p) && QuotedAt(s, field, p).Some? then QuotedAt(s, field, p)
    else QuotedFrom(s, field, p + 1)
  }

  function Pow10(n: nat): (p: real)
    ensures p >= 1.0
  {
    if n == 0 then 1.0 else 10.0 * Pow10(n - 1)
  }

  lemma DotFreeIsDigits(t: string)
    requires forall k :: 0 <= k < |t| ==> IsNumChar(t[k])
    requires '.' !in t
    ensures forall k :: 0 <= k < |t| ==> IsAsciiDigit(t[k])
  {
    forall k | 0 <= k < |t| ensures IsAsciiDigit(t[k]) {
      assert t[k] in t;
    }
  }

  /** Python's `float()` of a string of digits and dots: at most one dot and
      at least one digit, otherwise `ValueError` (`None`). */
  function DecimalValue(t: string): (r: Option<real>)
    requires forall k :: 0 <= k < |t| ==> IsNumChar(t[k])
    ensures r.Some? ==> r.value >= 0.0
    ensures t != [] && (forall k :: 0 <= k < |t| ==> IsAsciiDigit(t[k])) ==> r == Some(DigitsValue(t) as real)
    ensures r.None? <==> (exists i, j :: 0 <= i < j < |t| && t[i] == '.' && t[j] == '.')
                         || forall k :: 0 <= k < |t| ==> t[k] == '.'
  {
    match IndexOf(t, '.')
    case None => if t == [] then None else DotFreeIsDigits(t); Some(DigitsValue(t) as real)
    case Some(k) =>
      var whole := t[..k];
      var frac := t[k + 1..];
      if '.' in frac then
        var m :| 0 <= m < |frac| && frac[m] == '.';
        assert t[k + 1 + m] == '.';
        None
      else if whole == [] && frac == [] then None
      else
        assert forall i :: 0 <= i < |t| && i != k ==> t[i] != '.' by {
          forall i | 0 <= i < |t| && i != k ensures t[i] != '.' {
            if i < k { assert t[i] in whole; } else { assert t[i] == frac[i - k - 1]; }
          }
        }
        assert |t| >= 2 && (t[0] != '.' || t[1] != '.');
        DotFreeIsDigits(whole);
        DotFreeIsDigits(frac);
        Some(DigitsValue(whole) as real + DigitsValue(frac) as real / Pow10(|frac|))
  }

  /** `max(0.0, min(1.0, x))`. */
  function Clamp(x: real): (r: real)
    ensures 0.0 <= r <= 1.0
    ensures 0.0 <= x <= 1.0 ==> r == x
    ensures x < 0.0 ==> r == 0.0
    ensures x > 1.0 ==> r == 1.0
  {
    if x < 0.0 then 0.0 else if x > 1.0 then 1.0 else x
  }

  // ---------------------------------------------------------- the two stages

  datatype Verdict = Verdict(score: real, reasoning: JsonValue, category: JsonValue)

  const NeutralScore: real := 0.5

  /** `float(data.get("score", 0.5))`; `None` when `float()` raises. */
  function JsonScore(data: map<string, JsonValue>, parseFloat: string -> Option<real>): (r: Option<real>)
    ensures "score" !in data ==> r == Some(NeutralScore)
    ensures "score" in data && data["score"].JNum? ==> r == Some(data["score"].num)
    ensures "score" in data && (data["score"].JNull? || data["score"].JOther?) ==> r.None?
  {
    if "score" !in data then Some(NeutralScore)
    else match data["score"]
      case JNum(n) => Some(n)
      case JBool(b) => Some(if b then 1.0 else 0.0)
      case JStr(t) => parseFloat(t)
      case JNull => None
      case JOther => None
  }

  function GetOrDefault(data: map<string, JsonValue>, key: string, default: string): JsonValue {
    if key in data then data[key] else JStr(default)
  }

  /** The `try` block; `None` when anything in it raises. */
  function ParseJsonStage(s: string, parseJson: string -> Option<map<string, JsonValue>>,
                          parseFloat: string -> Option<real>): (r: Option<Verdict>)
    ensures r.Some? ==> 0.0 <= r.value.score <= 1.0
    ensures r.Some? ==> ExtractJson(s).Some? && parseJson(ExtractJson(s).value).Some?
    ensures r.Some? && "score" !in parseJson(ExtractJson(s).value).value ==> r.value.score == NeutralScore
  {
    match ExtractJson(s)
    case None => None
    case Some(js) =>
      match parseJson(js)
      case None => None
      case Some(data) =>
        match JsonScore(data, parseFloat)
        case None => None
        case Some(x) =>
          Some(Verdict(Clamp(x), GetOrDefault(data, "reasoning", "No reasoning provided"),
                       GetOrDefault(data, "category", "other")))
  }

  /** The `except` block; `None` when `float()` of the matched digits raises. */
  function ParseFallbackStage(s: string): (r: Option<Verdict>)
    ensures r.Some? ==> 0.0 <= r.value.score <= 1.0
    ensures ScoreMatchFrom(s, 0).None? ==> r.Some? && r.value.score == NeutralScore
    ensures r.Some? ==> r.value.reasoning.JStr? && r.value.category.JStr?
  {
    var reasoning := match QuotedFrom(s, "\"reasoning\":", 0)
      case Some(t) => t
      case None => "Unable to parse reasoning";
    var category := match QuotedFrom(s, "\"category\":", 0)
      case Some(t) => t
      case None => "other";
    match ScoreMatchFrom(s, 0)
    case None => Some(Verdict(NeutralScore, JStr(reasoning), JStr(category)))
    case Some(digits) =>
      match DecimalValue(digits)
      case None => None
      case Some(x) => Some(Verdict(Clamp(x), JStr(reasoning), JStr(category)))
  }

  /** `_parse_ranking_response`; `None` when it raises. */
  function ParseRankingResponse(s: string, parseJson: string -> Option<map<string, JsonValue>>,
                                parseFloat: string -> Option<real>): (r: Option<Verdict>)
    ensures r.Some? ==> 0.0 <= r.value.score <= 1.0
    ensures ParseJsonStage(s, parseJson, parseFloat).Some? ==> r == ParseJsonStage(s, parseJson, parseFloat)
    ensures ParseJsonStage(s, parseJson, parseFloat).None? ==> r == ParseFallbackStage(s)
  {
    var first := ParseJsonStage(s, parseJson, parseFloat);
    if first.Some? then first else ParseFallbackStage(s)
  }

  // ------------------------------------------------------ parsing properties

  /** A fenced block that holds one JSON object and no backquote is what the
      service parses, whatever follows it. */
  lemma FencedBlockExtracted(ws1: string, obj: string, ws2: string, post: string)
    requires forall k :: 0 <= k < |ws1| ==> IsSpace(ws1[k])
    requires forall k :: 0 <= k < |ws2| ==> IsSpace(ws2[k])
    requires |obj| >= 2 && obj[0] == '{' && obj[|obj| - 1] == '}' && '`' !in obj
    ensures ExtractJson(FenceJson + ws1 + obj + ws2 + Fence + post) == Some(obj)
  {
    var s := FenceJson + ws1 + obj + ws2 + Fence + post;
    FenceLayout(s, ws1, obj, ws2, post);
    FencedIn(s, |FenceJson| + |ws1|, obj, |FenceJson| + |ws1| + |obj| + |ws2|);
  }

  /** Where the pieces of a fenced block sit in the whole text. */
  lemma FenceLayout(s: string, ws1: string, obj: string, ws2: string, post: string)
    requires forall k :: 0 <= k < |ws1| ==> IsSpace(ws1[k])
    requires forall k :: 0 <= k < |ws2| ==> IsSpace(ws2[k])
    requires s == FenceJson + ws1 + obj + ws2 + Fence + post
    ensures OccursAt(s, FenceJson, 0)
    ensures forall k :: |FenceJson| <= k < |FenceJson| + |ws1| ==> IsSpace(s[k])
    ensures |FenceJson| + |ws1| + |obj| <= |s|
    ensures s[|FenceJson| + |ws1|..|FenceJson| + |ws1| + |obj|] == obj
    ensures forall k :: |FenceJson| + |ws1| + |obj| <= k < |FenceJson| + |ws1| + |obj| + |ws2| ==> IsSpace(s[k])
    ensures OccursAt(s, Fence, |FenceJson| + |ws1| + |obj| + |ws2|)
  {
    assert s[..|FenceJson|] == FenceJson;
    assert forall k :: |FenceJson| <= k < |FenceJson| + |ws1| ==> s[k] == ws1[k - |FenceJson|];
    var q := |FenceJson| + |ws1|;
    assert s[q..q + |obj|] == obj;
    assert forall k :: q + |obj| <= k < q + |obj| + |ws2| ==> s[k] == ws2[k - q - |obj|];
    assert s[q + |obj| + |ws2|..q + |obj| + |ws2| + 3] == Fence;
  }

  /** A fence at the start, white space, an object without backquotes, white
      space and the closing fence: the object is the JSON text extracted. */
  lemma FencedIn(s: string, q: nat, obj: string, f: nat)
    requires |obj| >= 2 && obj[0] == '{' && obj[|obj| - 1] == '}' && '`' !in obj
    requires OccursAt(s, FenceJson, 0) && |FenceJson| <= q && q + |obj| <= f && OccursAt(s, Fence, f)
    requires forall k :: |FenceJson| <= k < q ==> IsSpace(s[k])
    requires s[q..q + |obj|] == obj
    requires forall k :: q + |obj| <= k < f ==> IsSpace(s[k])
    ensures ExtractJson(s) == Some(obj)
  {
    assert s[q] == obj[0];
    assert s[f] == Fence[0];
    SkipSpacesOver(s, |FenceJson|, q);
    SkipSpacesOver(s, q + |obj|, f);
    assert s[q + |obj| - 1] == obj[|obj| - 1];
    assert ClosesFence(s, q + |obj| - 1);
    NoCloseInside(s, q, obj);
    LazyCloseFinds(s, q + 1, q + |obj| - 1);
    FencedFirst(s, q, q + |obj| - 1);
  }

  /** Inside an object without backquotes no `}` closes the fence. */
  lemma NoCloseInside(s: string, q: nat, obj: string)
    requires |obj| >= 2 && obj[|obj| - 1] == '}' && '`' !in obj
    requires q + |obj| <= |s| && s[q..q + |obj|] == obj
    ensures forall k :: q + 1 <= k < q + |obj| - 1 ==> !ClosesFence(s, k)
  {
    forall k | q + 1 <= k < q + |obj| - 1 ensures !ClosesFence(s, k) {
      if s[k] == '}' {
        assert !IsSpace(s[q + |obj| - 1]) by {
          assert s[q + |obj| - 1] == obj[|obj| - 1];
        }
        var j := SkipSpaces(s, k + 1);
        assert j <= q + |obj| - 1;
        assert s[j] == obj[j - q];
      }
    }
  }

  /** A fence at the very start whose object is closed at `e` is the JSON
      text extracted. */
  lemma FencedFirst(s: string, q: nat, e: nat)
    requires |FenceJson| <= |s| && OccursAt(s, FenceJson, 0)
    requires SkipSpaces(s, |FenceJson|) == q && q < |s| && s[q] == '{'
    requires LazyClose(s, q + 1) == Some(e)
    ensures ExtractJson(s) == Some(s[q..e + 1])
  {
    FencedAtStart(s, q, e);
    assert FencedFrom(s, 0) == FencedAt(s, 0);
  }

  lemma FencedAtStart(s: string, q: nat, e: nat)
    requires |FenceJson| <= |s|
    requires SkipSpaces(s, |FenceJson|) == q && q < |s| && s[q] == '{'
    requires LazyClose(s, q + 1) == Some(e)
    ensures FencedAt(s, 0) == Some(s[q..e + 1])
  {
    assert SkipSpaces(s, 0 + |FenceJson|) == q;
  }

  lemma SkipSpacesOver(s: string, i: nat, j: nat)
    requires i <= j < |s| && !IsSpace(s[j])
    requires forall k :: i <= k < j ==> IsSpace(s[k])
    ensures SkipSpaces(s, i) == j
    decreases j - i
  {
    if i < j {
      SkipSpacesOver(s, i + 1, j);
    }
  }

  lemma {:induction false} LazyCloseFinds(s: string, from: nat, e: nat)
    requires from <= e && ClosesFence(s, e)
    requires forall k :: from <= k < e ==> !ClosesFence(s, k)
    ensures LazyClose(s, from) == Some(e)
    decreases e - from
  {
    if from < e {
      LazyCloseFinds(s, from + 1, e);
    }
  }

  /** With no fenced block, the object between the first `{` and the last
      `}` is parsed. */
  lemma BareObjectExtracted(pre: string, obj: string, post: string)
    requires '`' !in pre + obj + post
    requires '{' !in pre && '}' !in post
    requires |obj| >= 2 && obj[0] == '{' && obj[|obj| - 1] == '}'
    ensures ExtractJson(pre + obj + post) == Some(obj)
  {
    var s := pre + obj + post;
    NoFenceWithoutBackquote(s);
    assert IndexOf(s, '{') == Some(|pre|) by {
      assert s[|pre|] == '{';
      assert s[..|pre|] == pre;
    }
    var e := |pre| + |obj| - 1;
    assert s[e] == '}';
    assert s[e + 1..] == post;
    LastIndexOfUnique(s, '}', e);
  }

  lemma NoFenceWithoutBackquote(s: string)
    requires '`' !in s
    ensures FencedFrom(s, 0).None?
  {
    forall k | 0 <= k < |s| ensures !OccursAt(s, FenceJson, k) {
      if k + |FenceJson| <= |s| {
        assert s[k..k + |FenceJson|][0] == s[k];
        assert s[k] in s;
      }
    }
  }

  lemma LastIndexOfUnique(s: string, c: char, e: nat)
    requires e < |s| && s[e] == c && c !in s[e + 1..]
    ensures LastIndexOf(s, c) == Some(e)
  {
  }

  /** Valid JSON without a `score` key scores exactly 0.5. */
  lemma MissingScoreKeyIsNeutral(s: string, parseJson: string -> Option<map<string, JsonValue>>,
                                 parseFloat: string -> Option<real>)
    requires ExtractJson(s).Some? && parseJson(ExtractJson(s).value).Some?
    requires "score" !in parseJson(ExtractJson(s).value).value
    ensures ParseRankingResponse(s, parseJson, parseFloat).Some?
    ensures ParseRankingResponse(s, parseJson, parseFloat).value.score == NeutralScore
  {
  }

  /** Valid JSON with a negative number clamps to 0.0. */
  lemma NegativeJsonScoreClamps(s: string, parseJson: string -> Option<map<string, JsonValue>>,
                                parseFloat: string -> Option<real>, x: real)
    requires ExtractJson(s).Some? && parseJson(ExtractJson(s).value).Some?
    requires var data := parseJson(ExtractJson(s).value).value;
             "score" in data && data["score"] == JNum(x) && x < 0.0
    ensures ParseRankingResponse(s, parseJson, parseFloat).Some?
    ensures ParseRankingResponse(s, parseJson, parseFloat).value.score == 0.0
  {
  }

  /** No `{` and no `"` in the text. */
  predicate NoJsonSyntax(s: string) {
    forall k :: 0 <= k < |s| ==> s[k] != '{' && s[k] != '"'
  }

  lemma NoJsonSyntaxAppend(a: string, b: string)
    requires NoJsonSyntax(a) && NoJsonSyntax(b)
    ensures NoJsonSyntax(a + b)
  {
    forall k | 0 <= k < |a + b| ensures (a + b)[k] != '{' && (a + b)[k] != '"' {
      if k >= |a| {
        assert (a + b)[k] == b[k - |a|];
      }
    }
  }

  lemma {:induction false} NoBraceNoFence(s: string, p: nat)
    requires p <= |s| && '{' !in s
    ensures FencedFrom(s, p).None?
    decreases |s| - p
  {
    if p + |FenceJson| <= |s| {
      var q := SkipSpaces(s, p + |FenceJson|);
      assert q < |s| ==> s[q] in s;
      NoBraceNoFence(s, p + 1);
    }
  }

  lemma NoQuoteNoField(s: string, field: string)
    requires field != [] && field[0] == '"' && '"' !in s
    ensures forall k :: 0 <= k < |s| ==> !OccursAt(s, field, k)
  {
    forall k | 0 <= k < |s| ensures !OccursAt(s, field, k) {
      assert s[k] in s;
    }
  }

  /** A reply with no brace and no quote holds neither JSON nor a
      recognisable field: it scores the neutral 0.5 with the fallback
      reasoning and category. */
  lemma PlainReplyIsNeutral(s: string, parseJson: string -> Option<map<string, JsonValue>>,
                            parseFloat: string -> Option<real>)
    requires NoJsonSyntax(s)
    ensures ParseRankingResponse(s, parseJson, parseFloat)
              == Some(Verdict(NeutralScore, JStr("Unable to parse reasoning"), JStr("other")))
  {
    assert '{' !in s && '"' !in s;
    NoBraceNoFence(s, 0);
    assert BareJson(s).None?;
    NoQuoteNoField(s, ScoreLabel);
    NoQuoteNoField(s, "\"reasoning\":");
    NoQuoteNoField(s, "\"category\":");
  }

  /** When the JSON stage fails, a signed score is not a match for the
      unsigned pattern, so `"score": -0.4` gives the neutral 0.5 rather
      than 0.0. */
  lemma SignedFallbackScoreIsNeutral(pre: string, post: string,
                                     parseJson: string -> Option<map<string, JsonValue>>,
                                     parseFloat: string -> Option<real>)
    requires NoJsonSyntax(pre) && NoJsonSyntax(post)
    ensures ParseRankingResponse(pre + "\"score\": -0.4" + post, parseJson, parseFloat).Some?
    ensures ParseRankingResponse(pre + "\"score\": -0.4" + post, parseJson, parseFloat).value.score
              == NeutralScore
  {
    var s := pre + "\"score\": -0.4" + post;
    SignedHasNoJson(pre, post);
    SignedHasNoScoreMatch(pre, post);
    NoJsonNoMatchIsNeutral(s, parseJson, parseFloat);
  }

  /** Without a brace there is no JSON to extract. */
  lemma SignedHasNoJson(pre: string, post: string)
    requires NoJsonSyntax(pre) && NoJsonSyntax(post)
    ensures ExtractJson(pre + "\"score\": -0.4" + post).None?
  {
    var mid := "\"score\": -0.4";
    var s := pre + mid + post;
    assert '{' !in s by {
      forall k | 0 <= k < |s| ensures s[k] != '{' {
        if k < |pre| { assert s[k] == pre[k]; }
        else if k < |pre| + 13 { assert s[k] == mid[k - |pre|]; }
        else { assert s[k] == post[k - |pre| - 13]; }
      }
    }
    NoBraceNoFence(s, 0);
    assert BareJson(s).None?;
  }

  /** The only `"score":` is followed by a minus sign, which the unsigned
      pattern does not accept. */
  lemma SignedHasNoScoreMatch(pre: string, post: string)
    requires NoJsonSyntax(pre) && NoJsonSyntax(post)
    ensures ScoreMatchFrom(pre + "\"score\": -0.4" + post, 0).None?
  {
    var mid := "\"score\": -0.4";
    var s := pre + mid + post;
    assert s[|pre|..|pre| + 13] == mid;
    assert s[|pre| + 8] == ' ' && s[|pre| + 9] == '-';
    forall k | 0 <= k < |s| && OccursAt(s, ScoreLabel, k) ensures k == |pre| {
      QuoteOnlyAt(pre, post, k);
    }
    assert OccursAt(s, ScoreLabel, |pre|);
    SkipSpacesOver(s, |pre| + |ScoreLabel|, |pre| + 9);
    assert NumberAt(s, |pre|).None?;
    NoScoreMatchFrom(s, 0, |pre|);
  }

  /** With no JSON and no score match the reply scores the neutral 0.5. */
  lemma NoJsonNoMatchIsNeutral(s: string, parseJson: string -> Option<map<string, JsonValue>>,
                               parseFloat: string -> Option<real>)
    requires ExtractJson(s).None? && ScoreMatchFrom(s, 0).None?
    ensures ParseRankingResponse(s, parseJson, parseFloat).Some?
    ensures ParseRankingResponse(s, parseJson, parseFloat).value.score == NeutralScore
  {
  }

  lemma QuoteOnlyAt(pre: string, post: string, k: nat)
    requires NoJsonSyntax(pre) && NoJsonSyntax(post)
    requires OccursAt(pre + "\"score\": -0.4" + post, ScoreLabel, k)
    ensures k == |pre|
  {
    var mid := "\"score\": -0.4";
    var s := pre + mid + post;
    assert s[k..k + 8] == ScoreLabel;
    assert s[k] == '"' && s[k + 6] == '"';
  }

  lemma {:induction false} NoScoreMatchFrom(s: string, p: nat, only: nat)
    requires p <= |s|
    requires forall k :: 0 <= k < |s| && OccursAt(s, ScoreLabel, k) ==> k == only
    requires OccursAt(s, ScoreLabel, only) ==> NumberAt(s, only).None?
    ensures ScoreMatchFrom(s, p).None?
    decreases |s| - p
  {
    if p + |ScoreLabel| <= |s| {
      NoScoreMatchFrom(s, p + 1, only);
    }
  }

  // ---------------------------------------------------------------- queries

  /** Some score row belongs to the article. */
  predicate HasScoreFor(scores: seq<RankingScore>, articleId: int) {
    exists k :: 0 <= k < |scores| && scores[k].articleId == articleId
  }

  /** `get_latest_score_for_article`: the row with the latest `ranked_at`
      (equal times go to the row inserted last). */
  function LatestScore(scores: seq<RankingScore>, articleId: int): (r: Option<RankingScore>)
    ensures r.None? <==> !HasScoreFor(scores, articleId)
    ensures r.Some? ==> r.value in scores && r.value.articleId == articleId
    ensures r.Some? ==> forall k :: 0 <= k < |scores| && scores[k].articleId == articleId ==>
                          scores[k].rankedAt <= r.value.rankedAt
    ensures r.Some? ==> LaterTied(scores, articleId, r.value)
  {
    if scores == [] then None
    else
      var last := scores[|scores| - 1];
      var init := scores[..|scores| - 1];
      var before := LatestScore(init, articleId);
      assert forall k :: 0 <= k < |init| ==> init[k] == scores[k];
      if last.articleId != articleId || (before.Some? && before.value.rankedAt > last.rankedAt) then
        assert before.Some? ==> LaterTied(scores, articleId, before.value) by {
          if before.Some? {
            TiedExtends(init, last, articleId, before.value);
            assert init + [last] == scores;
          }
        }
        before
      else
        assert LaterTied(scores, articleId, last) by {
          assert scores[|scores| - 1] == last;
        }
        Some(last)
  }

  /** A row ranked later than the candidate, or of another article, keeps
      the candidate the last of the latest. */
  lemma TiedExtends(init: seq<RankingScore>, last: RankingScore, articleId: int, x: RankingScore)
    requires LaterTied(init, articleId, x)
    requires last.articleId != articleId || last.rankedAt < x.rankedAt
    ensures LaterTied(init + [last], articleId, x)
  {
    var i :| 0 <= i < |init| && init[i] == x &&
             forall k :: i < k < |init| && init[k].articleId == articleId ==> init[k].rankedAt < x.rankedAt;
    assert (init + [last])[i] == x;
  }

  /** `x` is a row of `scores` after which no row of the article is ranked
      at the same time or later. */
  predicate LaterTied(scores: seq<RankingScore>, articleId: int, x: RankingScore) {
    exists i :: 0 <= i < |scores| && scores[i] == x &&
      forall k :: i < k < |scores| && scores[k].articleId == articleId ==> scores[k].rankedAt < x.rankedAt
  }

  // ----------------------------------------------------------------- ranking

  /** Everything outside the service that a ranking run sees. */
  datatype RankEnv = RankEnv(
    prompt: Article -> string,
    cfg: Router.RouterConfig,
    requestId: nat -> string,
    direct: nat -> Router.DirectCall,
    parseJson: string -> Option<map<string, JsonValue>>,
    parseFloat: string -> Option<real>,
    now: int)

  /** A value the text columns `reasoning` and `category` can hold: the
      database driver cannot bind a JSON array or object there, so the
      commit raises. */
  predicate Bindable(v: JsonValue) {
    !v.JOther?
  }

  /** `_rank_single_article` as router call number `call`: the new score
      row, or `None` on a router error, when parsing raises, or when the
      commit raises because the reasoning or category is not bindable. */
  function RankSingle(article: Article, scores: seq<RankingScore>, call: nat, env: RankEnv)
    : (r: Option<RankingScore>)
    ensures r.Some? ==> r.value.articleId == article.id && 0.0 <= r.value.score <= 1.0
    ensures r.Some? ==> r.value.id == |scores| + 1 && r.value.rankedAt == env.now
    ensures r.Some? ==> Bindable(r.value.reasoning) && Bindable(r.value.category)
    ensures var reply := Router.RouteRequest(env.prompt(article), None, env.cfg, env.requestId(call),
                                             env.direct(call));
            var parsed := ParseRankingResponse(reply.content, env.parseJson, env.parseFloat);
            r.Some? <==> !reply.error && parsed.Some?
                         && Bindable(parsed.value.reasoning) && Bindable(parsed.value.category)
  {
    var reply := Router.RouteRequest(env.prompt(article), None, env.cfg, env.requestId(call),
                                     env.direct(call));
    if reply.error then None
    else
      match ParseRankingResponse(reply.content, env.parseJson, env.parseFloat)
      case None => None
      case Some(v) =>
        if !Bindable(v.reasoning) || !Bindable(v.category) then None
        else
          Some(RankingScore(|scores| + 1, article.id, v.score, v.reasoning, v.category,
                            reply.model.GetOr(Router.DirectModel), env.now))
  }

  /** The fixed part of the offload status line holds no brace and no quote. */
  lemma OffloadHeadPlain()
    ensures NoJsonSyntax("Offloaded to Gemini \U{2014} check docs/LAST_OFFLOAD.json (request_id: ")
  {
    OffloadWordsPlain();
    OffloadPathPlain();
    OffloadIdLabelPlain();
    NoJsonSyntaxAppend("Offloaded to Gemini \U{2014} check", " docs/LAST_OFFLOAD.json");
    NoJsonSyntaxAppend("Offloaded to Gemini \U{2014} check docs/LAST_OFFLOAD.json", " (request_id: ");
  }

  lemma OffloadWordsPlain()
    ensures NoJsonSyntax("Offloaded to Gemini \U{2014} check")
  {
  }

  lemma OffloadPathPlain()
    ensures NoJsonSyntax(" docs/LAST_OFFLOAD.json")
  {
  }

  lemma OffloadIdLabelPlain()
    ensures NoJsonSyntax(" (request_id: ")
  {
  }

  /** A prompt long enough to be offloaded comes back as the offload status
      line, which holds no JSON and no score: when the request id is a hex
      digest the article is scored 0.5 under the offload model. */
  lemma OffloadedPromptScoresNeutral(article: Article, scores: seq<RankingScore>, call: nat, env: RankEnv)
    requires Router.ShouldOffload(env.prompt(article), None, env.cfg)
    requires forall k :: 0 <= k < |env.requestId(call)| ==>
               IsAsciiDigit(env.requestId(call)[k]) || 'a' <= env.requestId(call)[k] <= 'f'
    ensures RankSingle(article, scores, call, env).Some?
    ensures RankSingle(article, scores, call, env).value.score == NeutralScore
    ensures RankSingle(article, scores, call, env).value.modelUsed == env.cfg.offloadModel
  {
    var id := env.requestId(call);
    OffloadHeadPlain();
    assert NoJsonSyntax(id);
    assert NoJsonSyntax(")");
    NoJsonSyntaxAppend("Offloaded to Gemini \U{2014} check docs/LAST_OFFLOAD.json (request_id: ", id);
    NoJsonSyntaxAppend("Offloaded to Gemini \U{2014} check docs/LAST_OFFLOAD.json (request_id: " + id, ")");
    PlainReplyIsNeutral(Router.OffloadMessage(id), env.parseJson, env.parseFloat);
  }

  /** The state threaded through the `rank_articles` loop. */
  datatype RankState = RankState(db: Db, results: map<int, RankingScore>, calls: nat)

  /** The article rows differ at most in a status set to "ranked". */
  predicate OnlyMarkedRanked(before: seq<Article>, after: seq<Article>) {
    |after| == |before| &&
    forall k :: 0 <= k < |before| ==> after[k] == before[k] || after[k] == before[k].(status := Ranked)
  }

  /** What a ranking run may do to the database: mark articles ranked and
      append score rows in [0, 1]; jobs are untouched. */
  predicate RankingGrowth(before: Db, after: Db) {
    && OnlyMarkedRanked(before.articles, after.articles)
    && |before.scores| <= |after.scores| && after.scores[..|before.scores|] == before.scores
    && (forall k :: |before.scores| <= k < |after.scores| ==> 0.0 <= after.scores[k].score <= 1.0)
    && after.jobs == before.jobs
  }

  lemma {:induction false} RankingGrowthTrans(a: Db, b: Db, c: Db)
    requires RankingGrowth(a, b) && RankingGrowth(b, c)
    ensures RankingGrowth(a, c)
  {
    assert c.scores[..|a.scores|] == c.scores[..|b.scores|][..|a.scores|];
    forall k | 0 <= k < |a.articles|
      ensures c.articles[k] == a.articles[k] || c.articles[k] == a.articles[k].(status := Ranked)
    {
      assert b.articles[k] == a.articles[k] || b.articles[k] == a.articles[k].(status := Ranked);
    }
    forall k | |a.scores| <= k < |c.scores| ensures 0.0 <= c.scores[k].score <= 1.0 {
      if k < |b.scores| {
        assert c.scores[k] == c.scores[..|b.scores|][k] == b.scores[k];
      }
    }
  }

  /** Every returned score belongs to the article it is filed under. */
  predicate ResultsWellFiled(results: map<int, RankingScore>) {
    forall id :: id in results ==> results[id].articleId == id
  }

  /** A successful ranking of the article at position `k`: the row is
      appended, the article marked ranked, the score filed under its id. */
  function Record(st: RankState, k: nat, sc: RankingScore): (r: RankState)
    requires k < |st.db.articles| && 0.0 <= sc.score <= 1.0
    ensures RankingGrowth(st.db, r.db)
    ensures r.db.scores == st.db.scores + [sc]
    ensures r.db.articles[k].status == Ranked
    ensures r.results == st.results[st.db.articles[k].id := sc] && r.calls == st.calls + 1
  {
    var a := st.db.articles[k];
    var r := RankState(Db(st.db.articles[k := a.(status := Ranked)], st.db.scores + [sc], st.db.jobs),
                       st.results[a.id := sc], st.calls + 1);
    assert r.db.scores[..|st.db.scores|] == st.db.scores;
    r
  }

  /** One iteration of the `rank_articles` loop. */
  function RankStep(st: RankState, id: int, force: bool, env: RankEnv): (r: RankState)
    ensures RankingGrowth(st.db, r.db)
    ensures FindArticle(st.db.articles, id).None? ==> r == st
    ensures r.calls <= st.calls + 1
    ensures r.results == st.results
            || (id in r.results && r.results == st.results[id := r.results[id]] && r.results[id].articleId == id)
    ensures id in r.results <==> id in st.results || Answered(st, id, force, env)
  {
    match FindArticle(st.db.articles, id)
    case None => assert RankingGrowth(st.db, st.db) by { assert st.db.scores[..|st.db.scores|] == st.db.scores; } st
    case Some(k) =>
      var a := st.db.articles[k];
      var latest := LatestScore(st.db.scores, id);
      if !force && a.status == Ranked && latest.Some? then
        assert st.db.scores[..|st.db.scores|] == st.db.scores;
        RankState(st.db, st.results[id := latest.value], st.calls)
      else
        match RankSingle(a, st.db.scores, st.calls, env)
        case None =>
          assert st.db.scores[..|st.db.scores|] == st.db.scores;
          RankState(st.db, st.results, st.calls + 1)
        case Some(sc) => Record(st, k, sc)
  }

  /** A step files at most one result, under the requested id, and keeps
      every other one. */
  lemma RankStepFiles(st: RankState, id: int, force: bool, env: RankEnv)
    ensures var r := RankStep(st, id, force, env);
            && r.results.Keys <= st.results.Keys + {id}
            && st.results.Keys <= r.results.Keys
            && (forall other :: other in st.results && other != id ==> r.results[other] == st.results[other])
  {
  }

  /** A result a step files is the requested article's. */
  lemma RankStepWellFiled(st: RankState, id: int, force: bool, env: RankEnv)
    ensures ResultsWellFiled(st.results) ==> ResultsWellFiled(RankStep(st, id, force, env).results)
  {
  }

  /** A failed model call or parse leaves the article as it was and files
      nothing new under its id. */
  lemma FailureLeavesArticle(st: RankState, id: int, force: bool, env: RankEnv)
    requires FindArticle(st.db.articles, id).Some?
    requires var a := st.db.articles[FindArticle(st.db.articles, id).value];
             (force || a.status != Ranked || !HasScoreFor(st.db.scores, id))
             && RankSingle(a, st.db.scores, st.calls, env).None?
    ensures RankStep(st, id, force, env) == st.(calls := st.calls + 1)
  {
  }

  /** The step for `id` answers it: the article is found and either it is
      ranked with a stored score while `force_rerank` is off, or the model
      call is parsed into a score. */
  predicate Answered(st: RankState, id: int, force: bool, env: RankEnv) {
    match FindArticle(st.db.articles, id)
    case None => false
    case Some(k) =>
      var a := st.db.articles[k];
      (!force && a.status == Ranked && HasScoreFor(st.db.scores, id))
      || RankSingle(a, st.db.scores, st.calls, env).Some?
  }

  /** A found article that is not answered from its stored score and whose
      model call succeeds is recorded: the row appended, the article marked
      ranked, the score filed under its id. */
  lemma SuccessRecords(st: RankState, id: int, force: bool, env: RankEnv)
    requires FindArticle(st.db.articles, id).Some?
    requires var a := st.db.articles[FindArticle(st.db.articles, id).value];
             (force || a.status != Ranked || !HasScoreFor(st.db.scores, id))
             && RankSingle(a, st.db.scores, st.calls, env).Some?
    ensures var k := FindArticle(st.db.articles, id).value;
            RankStep(st, id, force, env) == Record(st, k, RankSingle(st.db.articles[k], st.db.scores, st.calls, env).value)
  {
  }

  /** The loop over `ids[i..]`. */
  function RankFrom(st: RankState, ids: seq<int>, i: nat, force: bool, env: RankEnv): (r: RankState)
    requires i <= |ids|
    ensures RankingGrowth(st.db, r.db)
    ensures forall key :: key in r.results ==> key in st.results || key in ids[i..]
    ensures ResultsWellFiled(st.results) ==> ResultsWellFiled(r.results)
    ensures forall key :: key in r.results <==>
              key in st.results || exists j :: i <= j < |ids| && ids[j] == key && AnsweredAt(st, ids, i, j, force, env)
    decreases |ids| - i
  {
    if i == |ids| then
      assert st.db.scores[..|st.db.scores|] == st.db.scores;
      st
    else
      var next := RankStep(st, ids[i], force, env);
      RankStepFiles(st, ids[i], force, env);
      RankStepWellFiled(st, ids[i], force, env);
      var r := RankFrom(next, ids, i + 1, force, env);
      RankingGrowthTrans(st.db, next.db, r.db);
      ResultsAfterStep(st, ids, i, force, env, next, r.results);
      r
  }

  /** The state the loop started at `i` from `st` is in when it reaches
      position `j`. */
  function StateBefore(st: RankState, ids: seq<int>, i: nat, j: nat, force: bool, env: RankEnv): RankState
    requires i <= j <= |ids|
    decreases j - i
  {
    if i == j then st else StateBefore(RankStep(st, ids[i], force, env), ids, i + 1, j, force, env)
  }

  /** The step for `ids[j]`, reached from `st` at `i`, answers it. */
  predicate AnsweredAt(st: RankState, ids: seq<int>, i: nat, j: nat, force: bool, env: RankEnv)
    requires i <= j < |ids|
  {
    Answered(StateBefore(st, ids, i, j, force, env), ids[j], force, env)
  }

  /** What the rest of the loop answers after the first step, told from
      before it. */
  lemma ResultsAfterStep(st: RankState, ids: seq<int>, i: nat, force: bool, env: RankEnv,
                         next: RankState, rr: map<int, RankingScore>)
    requires i < |ids| && next == RankStep(st, ids[i], force, env)
    requires forall key :: key in rr <==>
               key in next.results || exists j :: i + 1 <= j < |ids| && ids[j] == key && AnsweredAt(next, ids, i + 1, j, force, env)
    ensures forall key :: key in rr <==>
              key in st.results || exists j :: i <= j < |ids| && ids[j] == key && AnsweredAt(st, ids, i, j, force, env)
  {
    RankStepFiles(st, ids[i], force, env);
    assert AnsweredAt(st, ids, i, i, force, env) == Answered(st, ids[i], force, env);
    assert forall j :: i < j < |ids| ==> AnsweredAt(st, ids, i, j, force, env) == AnsweredAt(next, ids, i + 1, j, force, env);
  }

  /** `rank_articles(article_ids, force_rerank)`: the database afterwards,
      the scores returned by article id, and the number of router calls. */
  function RankArticles(db: Db, ids: seq<int>, force: bool, env: RankEnv): (r: RankState)
    ensures RankingGrowth(db, r.db)
    ensures forall key :: key in r.results ==> key in ids
    ensures ResultsWellFiled(r.results)
    ensures forall key :: key in r.results <==>
              exists j :: 0 <= j < |ids| && ids[j] == key && AnsweredAt(RankState(db, map[], 0), ids, 0, j, force, env)
  {
    RankFrom(RankState(db, map[], 0), ids, 0, force, env)
  }

  /** The article with this id is marked ranked and has a score. */
  predicate RankedWithScore(db: Db, id: int) {
    && FindArticle(db.articles, id).Some?
    && db.articles[FindArticle(db.articles, id).value].status == Ranked
    && HasScoreFor(db.scores, id)
  }

  /** Without `force_rerank`, an article that is ranked and has a score is
      answered from its latest score: no router call, no new row. */
  lemma CachedStep(st: RankState, id: int, env: RankEnv)
    requires RankedWithScore(st.db, id)
    ensures RankStep(st, id, false, env) ==
              RankState(st.db, st.results[id := LatestScore(st.db.scores, id).value], st.calls)
  {
  }

  /** Idempotency: when every requested article is ranked and has a score,
      a run without `force_rerank` makes no router call, changes nothing in
      the database and returns each article's latest score. */
  lemma {:induction false} CachedRunChangesNothing(st: RankState, ids: seq<int>, i: nat, env: RankEnv)
    requires i <= |ids|
    requires forall j :: i <= j < |ids| ==> RankedWithScore(st.db, ids[j])
    ensures RankFrom(st, ids, i, false, env).db == st.db
    ensures RankFrom(st, ids, i, false, env).calls == st.calls
    ensures forall j :: i <= j < |ids| ==>
              ids[j] in RankFrom(st, ids, i, false, env).results &&
              LatestScore(st.db.scores, ids[j]) == Some(RankFrom(st, ids, i, false, env).results[ids[j]])
    decreases |ids| - i
  {
    if i < |ids| {
      var next := RankStep(st, ids[i], false, env);
      CachedStep(st, ids[i], env);
      CachedRunChangesNothing(next, ids, i + 1, env);
      var r := RankFrom(next, ids, i + 1, false, env);
      if ids[i] !in ids[i + 1..] {
        ResultKept(next, ids, i + 1, false, env, ids[i]);
      } else {
        var m :| i + 1 <= m < |ids| && ids[m] == ids[i];
      }
    }
  }

  /** A result filed under an id that is not requested again stays. */
  lemma {:induction false} ResultKept(st: RankState, ids: seq<int>, i: nat, force: bool, env: RankEnv, id: int)
    requires i <= |ids| && id in st.results && id !in ids[i..]
    ensures id in RankFrom(st, ids, i, force, env).results
    ensures RankFrom(st, ids, i, force, env).results[id] == st.results[id]
    decreases |ids| - i
  {
    if i < |ids| {
      assert ids[i] != id;
      assert id !in ids[i + 1..];
      RankStepFiles(st, ids[i], force, env);
      ResultKept(RankStep(st, ids[i], force, env), ids, i + 1, force, env, id);
    }
  }

  /** Marking articles ranked does not move any id. */
  lemma {:induction false} FindUnderMarking(a: seq<Article>, b: seq<Article>, id: int)
    requires OnlyMarkedRanked(a, b)
    ensures FindArticle(b, id) == FindArticle(a, id)
  {
    if a != [] {
      assert b[0] == a[0] || b[0] == a[0].(status := Ranked);
      assert OnlyMarkedRanked(a[1..], b[1..]) by {
        forall k | 0 <= k < |a[1..]|
          ensures b[1..][k] == a[1..][k] || b[1..][k] == a[1..][k].(status := Ranked)
        {
          assert b[k + 1] == a[k + 1] || b[k + 1] == a[k + 1].(status := Ranked);
        }
      }
      FindUnderMarking(a[1..], b[1..], id);
    }
  }

  lemma RankedWithScoreKept(a: Db, b: Db, id: int)
    requires RankingGrowth(a, b) && RankedWithScore(a, id)
    ensures RankedWithScore(b, id)
  {
    FindUnderMarking(a.articles, b.articles, id);
    var k :| 0 <= k < |a.scores| && a.scores[k].articleId == id;
    assert b.scores[k] == b.scores[..|a.scores|][k];
  }

  /** Every returned score's article is ranked and has a score row. */
  predicate ResultsBacked(db: Db, results: map<int, RankingScore>) {
    forall key :: key in results ==> RankedWithScore(db, key)
  }

  lemma RankStepBacked(st: RankState, id: int, force: bool, env: RankEnv)
    requires ResultsBacked(st.db, st.results)
    ensures ResultsBacked(RankStep(st, id, force, env).db, RankStep(st, id, force, env).results)
  {
    match FindArticle(st.db.articles, id)
    case None =>
    case Some(k) =>
      var a := st.db.articles[k];
      var latest := LatestScore(st.db.scores, id);
      if !force && a.status == Ranked && latest.Some? {
        BackedReuse(st.db, st.results, id, latest.value);
      } else {
        match RankSingle(a, st.db.scores, st.calls, env)
        case None =>
        case Some(sc) => RecordBacked(st, k, sc);
      }
  }

  /** Answering from the stored score keeps every result backed. */
  lemma BackedReuse(db: Db, results: map<int, RankingScore>, id: int, sc: RankingScore)
    requires ResultsBacked(db, results)
    requires FindArticle(db.articles, id).Some? && db.articles[FindArticle(db.articles, id).value].status == Ranked
    requires HasScoreFor(db.scores, id)
    ensures ResultsBacked(db, results[id := sc])
  {
  }

  /** Recording a new score for the article at `k` keeps every result
      backed, the new one included. */
  lemma RecordBacked(st: RankState, k: nat, sc: RankingScore)
    requires ResultsBacked(st.db, st.results)
    requires k < |st.db.articles| && 0.0 <= sc.score <= 1.0
    requires FindArticle(st.db.articles, st.db.articles[k].id) == Some(k)
    requires sc.articleId == st.db.articles[k].id
    ensures ResultsBacked(Record(st, k, sc).db, Record(st, k, sc).results)
  {
    var r := Record(st, k, sc);
    var id := st.db.articles[k].id;
    forall key | key in r.results ensures RankedWithScore(r.db, key) {
      if key == id {
        FindUnderMarking(st.db.articles, r.db.articles, id);
        assert r.db.scores[|st.db.scores|] == sc;
      } else {
        RankedWithScoreKept(st.db, r.db, key);
      }
    }
  }

  lemma {:induction false} RankFromBacked(st: RankState, ids: seq<int>, i: nat, force: bool, env: RankEnv)
    requires i <= |ids| && ResultsBacked(st.db, st.results)
    ensures ResultsBacked(RankFrom(st, ids, i, force, env).db, RankFrom(st, ids, i, force, env).results)
    decreases |ids| - i
  {
    if i < |ids| {
      RankStepBacked(st, ids[i], force, env);
      RankFromBacked(RankStep(st, ids[i], force, env), ids, i + 1, force, env);
    }
  }

  /** Ranking the same articles again without `force_rerank`, once each of
      them got a score, calls no model, changes nothing in the database and
      returns a score for every one of them. The repository's test of this
      case expects an empty result on the second run. */
  lemma SecondRunIsCached(db: Db, ids: seq<int>, force: bool, env: RankEnv, env2: RankEnv)
    requires forall j :: 0 <= j < |ids| ==> ids[j] in RankArticles(db, ids, force, env).results
    ensures var first := RankArticles(db, ids, force, env);
            var second := RankArticles(first.db, ids, false, env2);
            second.db == first.db && second.calls == 0
            && forall j :: 0 <= j < |ids| ==> ids[j] in second.results
  {
    var first := RankArticles(db, ids, force, env);
    RankFromBacked(RankState(db, map[], 0), ids, 0, force, env);
    CachedRunChangesNothing(RankState(first.db, map[], 0), ids, 0, env2);
  }

  /** The repository's test asserts that the second ranking of the same
      articles returns nothing; on the code it returns the stored score of
      every one of them, so for any article at all the result is not
      empty. */
  lemma SecondRunNotEmpty(db: Db, ids: seq<int>, force: bool, env: RankEnv, env2: RankEnv)
    requires ids != []
    requires forall j :: 0 <= j < |ids| ==> ids[j] in RankArticles(db, ids, force, env).results
    ensures RankArticles(RankArticles(db, ids, force, env).db, ids, false, env2).results != map[]
  {
    SecondRunIsCached(db, ids, force, env, env2);
    assert ids[0] in RankArticles(RankArticles(db, ids, force, env).db, ids, false, env2).results;
  }

  // ----------------------------------------------------------- top articles

  function ScoreKey(s: RankingScore): Sorting.Rank {
    Sorting.Rank(s.score, s.rankedAt as real)
  }

  function PairKey(p: (Article, RankingScore)): Sorting.Rank {
    ScoreKey(p.1)
  }

  /** The article fetched for each score; scores whose article is missing
      are dropped. */
  function PairWithArticles(articles: seq<Article>, scores: seq<RankingScore>)
    : (r: seq<(Article, RankingScore)>)
    ensures |r| <= |scores|
    ensures forall i :: 0 <= i < |r| ==> r[i].1 in scores && r[i].0 in articles
                                         && r[i].0.id == r[i].1.articleId
    ensures (forall i :: 0 <= i < |scores| ==> FindArticle(articles, scores[i].articleId).Some?) ==>
              |r| == |scores|
  {
    if scores == [] then []
    else
      var rest := PairWithArticles(articles, scores[1..]);
      assert forall i :: 0 <= i < |rest| ==> rest[i].1 in scores;
      assert (forall i :: 0 <= i < |scores| ==> FindArticle(articles, scores[i].articleId).Some?) ==>
             (forall i :: 0 <= i < |scores[1..]| ==> FindArticle(articles, scores[1..][i].articleId).Some?);
      match FindArticle(articles, scores[0].articleId)
      case None => rest
      case Some(k) => [(articles[k], scores[0])] + rest
  }

  /** Pairing keeps the order of the scores. */
  lemma {:induction false} PairSorted(articles: seq<Article>, scores: seq<RankingScore>)
    requires Sorting.SortedDesc(ScoreKey, scores)
    ensures Sorting.SortedDesc(PairKey, PairWithArticles(articles, scores))
    decreases |scores|
  {
    if scores != [] {
      var rest := PairWithArticles(articles, scores[1..]);
      PairSorted(articles, scores[1..]);
      match FindArticle(articles, scores[0].articleId)
      case None =>
      case Some(k) =>
        assert forall i :: 0 <= i < |rest| ==> rest[i].1 in scores[1..];
        ConsSorted(scores, (articles[k], scores[0]), rest);
    }
  }

  lemma ConsSorted(scores: seq<RankingScore>, head: (Article, RankingScore), rest: seq<(Article, RankingScore)>)
    requires scores != [] && head.1 == scores[0] && Sorting.SortedDesc(ScoreKey, scores)
    requires Sorting.SortedDesc(PairKey, rest)
    requires forall i :: 0 <= i < |rest| ==> rest[i].1 in scores[1..]
    ensures Sorting.SortedDesc(PairKey, [head] + rest)
  {
    var r := [head] + rest;
    forall i, j | 0 <= i < j < |r| ensures !Sorting.Outranks(PairKey(r[j]), PairKey(r[i])) {
      if i == 0 {
        var x := rest[j - 1].1;
        var m :| 0 <= m < |scores[1..]| && scores[1..][m] == x;
        assert scores[m + 1] == x;
      } else {
        assert r[i] == rest[i - 1] && r[j] == rest[j - 1];
      }
    }
  }

  lemma TopRowsQualify(db: Db, minScore: real, sorted: seq<RankingScore>, top: seq<RankingScore>)
    requires multiset(sorted) == multiset(Qualifying(db, minScore))
    requires |top| <= |sorted| && top == sorted[..|top|]
    ensures forall i :: 0 <= i < |top| ==> top[i].score >= minScore && top[i] in db.scores
  {
    var above := Sorting.Filter((s: RankingScore) => s.score >= minScore, db.scores);
    forall i | 0 <= i < |top| ensures top[i].score >= minScore && top[i] in db.scores {
      assert top[i] == sorted[i] && top[i] in multiset(above);
      Sorting.FilterIn((s: RankingScore) => s.score >= minScore, db.scores, top[i]);
    }
  }

  /** The score rows at or above the minimum, in table order. */
  function Qualifying(db: Db, minScore: real): seq<RankingScore> {
    Sorting.Filter((s: RankingScore) => s.score >= minScore, db.scores)
  }

  /** `get_top_ranked_articles(limit, min_score)`: the best `limit` of the
      qualifying score rows (all of them for a negative limit), paired with
      their articles. */
  function GetTopRanked(db: Db, limit: int, minScore: real): (r: seq<(Article, RankingScore)>)
    ensures forall i :: 0 <= i < |r| ==> r[i].1.score >= minScore && r[i].1 in db.scores
                                         && r[i].0 in db.articles && r[i].0.id == r[i].1.articleId
    ensures Sorting.SortedDesc(PairKey, r)
    ensures 0 <= limit ==> |r| <= limit
    ensures exists top :: && Sorting.TopRows(ScoreKey, Qualifying(db, minScore), top)
                          && |top| == (if 0 <= limit < |Qualifying(db, minScore)| then limit else |Qualifying(db, minScore)|)
                          && r == PairWithArticles(db.articles, top)
  {
    var above := Qualifying(db, minScore);
    var sorted := Sorting.SortDesc(ScoreKey, above);
    var top := SqlLimit(sorted, limit);
    Sorting.PrefixSorted(ScoreKey, sorted, |top|);
    Sorting.SortPrefixIsTop(ScoreKey, above, |top|);
    TopRowsQualify(db, minScore, sorted, top);
    PairSorted(db.articles, top);
    PairWithArticles(db.articles, top)
  }

  /** When every score row qualifies and the rows are already in rank
      order, the top rows are the first `limit` of them, paired with their
      articles. */
  lemma TopOfSortedRows(db: Db, limit: int, minScore: real)
    requires Sorting.SortedDesc(ScoreKey, db.scores)
    requires forall i :: 0 <= i < |db.scores| ==> db.scores[i].score >= minScore
    ensures GetTopRanked(db, limit, minScore) == PairWithArticles(db.articles, SqlLimit(db.scores, limit))
  {
    var p := (s: RankingScore) => s.score >= minScore;
    Sorting.FilterAll(p, db.scores);
    Sorting.SortOfSorted(ScoreKey, db.scores);
  }

  /** A score whose article is gone still takes a place under the limit and
      is dropped afterwards, so fewer than `limit` rows can come back while
      more qualifying scores exist. */
  lemma MissingArticleShrinksTop(a: Article, s1: RankingScore, s2: RankingScore, minScore: real)
    requires s1.articleId != a.id && s2.articleId == a.id
    requires s1.score > s2.score >= minScore
    ensures GetTopRanked(Db([a], [s1, s2], []), 1, minScore) == []
  {
    TwoRowsSorted(s1, s2);
    TopOfSortedRows(Db([a], [s1, s2], []), 1, minScore);
    FirstOfTwo(s1, s2);
    MissingArticleDropped(a, s1);
  }

  lemma TwoRowsSorted(s1: RankingScore, s2: RankingScore)
    requires s1.score > s2.score
    ensures Sorting.SortedDesc(ScoreKey, [s1, s2])
  {
    assert !Sorting.Outranks(ScoreKey(s2), ScoreKey(s1));
  }

  lemma FirstOfTwo(s1: RankingScore, s2: RankingScore)
    ensures SqlLimit([s1, s2], 1) == [s1]
  {
    assert [s1, s2][..1] == [s1];
  }

  lemma MissingArticleDropped(a: Article, s1: RankingScore)
    requires s1.articleId != a.id
    ensures PairWithArticles([a], [s1]) == []
  {
    assert FindArticle([a], s1.articleId).None?;
  }
}

=== FILE: retry.dfy ===
/**
  The `retry_with_backoff(max_retries, base_delay)` decorator of the news
  source clients: call the wrapped function up to `max_retries` times, return
  the first success, re-raise the last failure, and sleep
  `base_delay * 4^(attempt-1) + jitter` between attempts.

  The wrapped call is a parameter `call(attempt)` giving the outcome of the
  attempt with that 1-based number; the `random.uniform(0, 0.3)` jitter is a
  parameter `jitter(attempt)`. Sleeping is recorded, not performed.
 */
module Retry {

  datatype Attempt<T> = Success(value: T) | Failure(error: string)

  /** What the decorated function does in the end: return a value, raise the
      last exception, or fall out of the loop and return `None`. */
  datatype RetryResult<T> = Returned(value: T) | Raised(error: string) | ReturnedNone

  /** `calls` attempts were made, with `sleeps[k]` slept after attempt `k + 1`. */
  datatype RetryRun<T> = RetryRun(calls: nat, sleeps: seq<real>, result: RetryResult<T>)

  const DefaultMaxRetries: int := 3
  const DefaultBaseDelay: real := 0.5
  const MaxJitter: real := 0.3

  function Pow4(n: nat): (p: real)
    ensures p >= 1.0
  {
    if n == 0 then 1.0 else 4.0 * Pow4(n - 1)
  }

  /** The pause before the retry that follows failed attempt `n + 1`, without jitter. */
  function Backoff(baseDelay: real, n: nat): real {
    baseDelay * Pow4(n)
  }

  /** The loop from `attempt` on. */
  function RetryFrom<T>(maxRetries: int, baseDelay: real, call: nat -> Attempt<T>,
                        jitter: nat -> real, attempt: nat): (r: RetryRun<T>)
    requires attempt >= 1
    ensures attempt > maxRetries ==> r == RetryRun(0, [], ReturnedNone)
    ensures attempt <= maxRetries ==> 1 <= r.calls <= maxRetries - attempt + 1
    ensures attempt <= maxRetries ==> |r.sleeps| == r.calls - 1 && !r.result.ReturnedNone?
    ensures forall k :: 0 <= k < |r.sleeps| ==>
              r.sleeps[k] == Backoff(baseDelay, attempt - 1 + k) + jitter(attempt + k)
    ensures forall k :: attempt <= k < attempt + r.calls - 1 ==> call(k).Failure?
    ensures r.result.Returned? ==> call(attempt + r.calls - 1) == Success(r.result.value)
    ensures r.result.Raised? ==>
              attempt + r.calls - 1 == maxRetries && call(maxRetries) == Failure(r.result.error)
    decreases maxRetries - attempt
  {
    if attempt > maxRetries then RetryRun(0, [], ReturnedNone)
    else match call(attempt)
      case Success(v) => RetryRun(1, [], Returned(v))
      case Failure(e) =>
        if attempt == maxRetries then RetryRun(1, [], Raised(e))
        else
          var rest := RetryFrom(maxRetries, baseDelay, call, jitter, attempt + 1);
          var pause := Backoff(baseDelay, attempt - 1) + jitter(attempt);
          RetryRun(rest.calls + 1, [pause] + rest.sleeps, rest.result)
  }

  /** The decorated call. */
  function RetryWithBackoff<T>(maxRetries: int, baseDelay: real, call: nat -> Attempt<T>,
                               jitter: nat -> real): (r: RetryRun<T>)
    ensures maxRetries < 1 ==> r.calls == 0 && r.result == ReturnedNone
    ensures maxRetries >= 1 ==> 1 <= r.calls <= maxRetries && |r.sleeps| == r.calls - 1
    ensures maxRetries >= 1 ==> !r.result.ReturnedNone?
    ensures forall k :: 0 <= k < |r.sleeps| ==>
              r.sleeps[k] == Backoff(baseDelay, k) + jitter(k + 1)
  {
    RetryFrom(maxRetries, baseDelay, call, jitter, 1)
  }

  /** The first success is returned at once: the call that succeeded is the
      last one made, and every earlier one failed. */
  lemma FirstSuccessReturned<T>(maxRetries: int, baseDelay: real, call: nat -> Attempt<T>,
                                jitter: nat -> real, n: nat)
    requires 1 <= n <= maxRetries && call(n).Success?
    requires forall k :: 1 <= k < n ==> call(k).Failure?
    ensures RetryWithBackoff(maxRetries, baseDelay, call, jitter).calls == n
    ensures RetryWithBackoff(maxRetries, baseDelay, call, jitter).result == Returned(call(n).value)
  {
    FirstSuccessFrom(maxRetries, baseDelay, call, jitter, 1, n);
  }

  lemma {:induction false} FirstSuccessFrom<T>(maxRetries: int, baseDelay: real,
                                               call: nat -> Attempt<T>, jitter: nat -> real,
                                               attempt: nat, n: nat)
    requires 1 <= attempt <= n <= maxRetries && call(n).Success?
    requires forall k :: attempt <= k < n ==> call(k).Failure?
    ensures RetryFrom(maxRetries, baseDelay, call, jitter, attempt).calls == n - attempt + 1
    ensures RetryFrom(maxRetries, baseDelay, call, jitter, attempt).result == Returned(call(n).value)
    decreases n - attempt
  {
    if attempt < n {
      FirstSuccessFrom(maxRetries, baseDelay, call, jitter, attempt + 1, n);
    }
  }

  /** When every attempt fails the last exception is re-raised, after exactly
      `maxRetries` calls and `maxRetries - 1` sleeps. */
  lemma AllFailuresRaise<T>(maxRetries: int, baseDelay: real, call: nat -> Attempt<T>,
                            jitter: nat -> real)
    requires maxRetries >= 1
    requires forall k :: 1 <= k <= maxRetries ==> call(k).Failure?
    ensures RetryWithBackoff(maxRetries, baseDelay, call, jitter).calls == maxRetries
    ensures RetryWithBackoff(maxRetries, baseDelay, call, jitter).result
              == Raised(call(maxRetries).error)
  {
    var r := RetryWithBackoff(maxRetries, baseDelay, call, jitter);
    assert call(r.calls).Failure?;
  }

  /** The pause before attempt `k + 2` lies between `baseDelay * 4^k` and
      `baseDelay * 4^k + 0.3` when that attempt's jitter is drawn from [0, 0.3]. */
  lemma {:induction false} SleepBounds<T>(maxRetries: int, baseDelay: real, call: nat -> Attempt<T>,
                       jitter: nat -> real, k: nat)
    requires 0.0 <= jitter(k + 1) <= MaxJitter
    requires k < |RetryWithBackoff(maxRetries, baseDelay, call, jitter).sleeps|
    ensures Backoff(baseDelay, k)
              <= RetryWithBackoff(maxRetries, baseDelay, call, jitter).sleeps[k]
              <= Backoff(baseDelay, k) + MaxJitter
  {
  }
}

=== FILE: router.dfy ===
/**
  The LLM router: a characters-per-token estimate, the decision to offload a
  heavy prompt to the background workflow, and the reply `route_request`
  gives.

  The three settings read from the environment are a `RouterConfig`; the
  offload request id (an MD5 digest of the prompt and the clock) and the
  outcome of the direct model call are parameters.
 */
module Router {
  import opened Text

  datatype RouterConfig = RouterConfig(maxTokens: int, heavyTimeoutSec: int, offloadModel: string)

  const DefaultConfig := RouterConfig(12000, 90, "gemini-1.5-pro-latest")
  const DirectModel := "gemini-1.5-flash"

  /** `estimate_tokens`: about four characters per token, rounded down. */
  function EstimateTokens(text: string): (n: nat)
    ensures 4 * n <= |text| < 4 * n + 4
  {
    |text| / 4
  }

  /** `should_offload(prompt, est_sec)`. A missing or zero time estimate is
      falsy and never offloads by itself. */
  function ShouldOffload(prompt: string, estSec: Option<int>, cfg: RouterConfig): (b: bool)
    ensures b <==> EstimateTokens(prompt) >= cfg.maxTokens
                   || (estSec.Some? && estSec.value != 0 && estSec.value >= cfg.heavyTimeoutSec)
  {
    if EstimateTokens(prompt) >= cfg.maxTokens then true
    else if estSec.Some? && estSec.value != 0 && estSec.value >= cfg.heavyTimeoutSec then true
    else false
  }

  /** With the default settings: a prompt of at least 48000 characters is
      offloaded, and a time estimate offloads at 90 seconds or more. */
  lemma DefaultThresholds(prompt: string, estSec: Option<int>)
    ensures |prompt| >= 48000 ==> ShouldOffload(prompt, estSec, DefaultConfig)
    ensures |prompt| < 48000 ==>
              (ShouldOffload(prompt, estSec, DefaultConfig) <==> estSec.Some? && estSec.value >= 90)
  {
  }

  /** Extending a prompt that is offloaded keeps it offloaded. */
  lemma OffloadMonotone(prompt: string, extra: string, estSec: Option<int>, cfg: RouterConfig)
    requires ShouldOffload(prompt, estSec, cfg)
    ensures ShouldOffload(prompt + extra, estSec, cfg)
  {
    assert EstimateTokens(prompt) <= EstimateTokens(prompt + extra);
  }

  /** A time estimate of `None` or 0 leaves the decision to the prompt length. */
  lemma NoEstimateNoOffload(prompt: string, cfg: RouterConfig)
    ensures ShouldOffload(prompt, None, cfg) == ShouldOffload(prompt, Some(0), cfg)
    ensures ShouldOffload(prompt, None, cfg) <==> EstimateTokens(prompt) >= cfg.maxTokens
  {
  }

  /** The status line `offload_to_gemini` returns. */
  function OffloadMessage(requestId: string): string {
    "Offloaded to Gemini \U{2014} check docs/LAST_OFFLOAD.json (request_id: " + requestId + ")"
  }

  /** What the direct model call ends in. */
  datatype DirectCall = NoApiKey | SdkMissing | CallFailed(reason: string) | Answered(text: string)

  /** The dictionary `route_request` returns; absent keys are `None`. */
  datatype LlmReply = LlmReply(content: string, offloaded: Option<bool>, model: Option<string>, error: bool)

  /** The error text for a direct call that gave no answer. */
  function FailureText(direct: DirectCall): string
    requires !direct.Answered?
  {
    match direct
    case NoApiKey => "Error: GEMINI_API_KEY not set"
    case SdkMissing => "Error: google-generativeai not installed. Install with: pip install google-generativeai"
    case CallFailed(reason) => "Error calling LLM: " + reason
  }

  /** `route_request(prompt, model)`; no time estimate is passed on. */
  function RouteRequest(prompt: string, model: Option<string>, cfg: RouterConfig,
                        requestId: string, direct: DirectCall): (r: LlmReply)
    ensures ShouldOffload(prompt, None, cfg) ==>
              r == LlmReply(OffloadMessage(requestId), Some(true),
                            Some(if Truthy(model) then model.value else cfg.offloadModel), false)
    ensures !ShouldOffload(prompt, None, cfg) ==> r.offloaded != Some(true)
    ensures r.error <==> !ShouldOffload(prompt, None, cfg) && !direct.Answered?
    ensures !r.error ==> r.model.Some?
  {
    if ShouldOffload(prompt, None, cfg) then
      LlmReply(OffloadMessage(requestId), Some(true),
               Some(if Truthy(model) then model.value else cfg.offloadModel), false)
    else
      match direct
      case Answered(text) =>
        LlmReply(text, Some(false), Some(if Truthy(model) then model.value else DirectModel), false)
      case _ => LlmReply(FailureText(direct), None, None, true)
  }
}

=== FILE: routes.dfy ===
/**
  The review endpoints over the `posts` table: editing a post, approving
  and scheduling it, rejecting it (a soft delete), deleting it, the check
  before publishing, the paged content queue and the dashboard counts.

  A request either gives the new table and a reply value or fails with an
  HTTP status and a detail message. The clock is the parameter `now`, the
  publishing call is a parameter, and so is the database's match of the
  stored platform list against `LIKE '%platform%'`. A value of a type the
  column cannot store makes the commit fail, which the endpoint reports
  as a 500 error.
 */
module Routes {
  import opened Text
  import Sorting
  import opened Posts

  datatype Outcome<+T> = Done(value: T) | HttpError(status: int, detail: string)

  const HourSeconds := 3600

  /** The post with the id, or the 404 every endpoint gives first. */
  function Lookup(t: Table, id: int): (r: Outcome<nat>)
    ensures r.Done? <==> exists i :: 0 <= i < |t| && t[i].id == id
    ensures r.Done? ==> r.value < |t| && t[r.value].id == id
    ensures r.HttpError? ==> r == HttpError(404, "Post not found")
  {
    match FindPost(t, id)
    case None => HttpError(404, "Post not found")
    case Some(i) => Done(i)
  }

  // ------------------------------------------------------------------ update

  const UpdatableFields: seq<string> := ["title", "body", "platforms", "scheduled_at", "tags"]

  /** `setattr(post, field, value)` for an updatable field, or `None` when
      the commit of the value fails: the JSON columns `platforms` and `tags`
      store any JSON value; `title` and `body` take a string; the schedule
      column binds only a date-time object, which a JSON body cannot carry,
      so only `null` clears it and every other value fails. */
  function SetField(p: Post, field: string, v: JsonValue): (r: Option<Post>)
    ensures r.Some? ==> r.value == p.(title := r.value.title, body := r.value.body, platforms := r.value.platforms,
                                     scheduledAt := r.value.scheduledAt, tags := r.value.tags)
    ensures field == "platforms" ==> r == Some(p.(platforms := v))
    ensures field == "tags" ==> r == Some(p.(tags := v))
    ensures field == "scheduled_at" ==> (r.Some? <==> v.JNull?) && (r.Some? ==> r.value.scheduledAt.None?)
    ensures field == "title" ==> (r.Some? <==> v.JString?) && (r.Some? ==> r.value.title == v.s)
    ensures field == "body" ==> (r.Some? <==> v.JString?) && (r.Some? ==> r.value.body == v.s)
    ensures field !in UpdatableFields ==> r == Some(p)
    ensures r.Some? <==> Settable(field, v)
  {
    if field == "title" then (if v.JString? then Some(p.(title := v.s)) else None)
    else if field == "body" then (if v.JString? then Some(p.(body := v.s)) else None)
    else if field == "platforms" then Some(p.(platforms := v))
    else if field == "scheduled_at" then (if v.JNull? then Some(p.(scheduledAt := None)) else None)
    else if field == "tags" then Some(p.(tags := v))
    else Some(p)
  }

  /** Whether the commit of `v` into the column `field` succeeds. */
  predicate Settable(field: string, v: JsonValue) {
    && (field == "title" ==> v.JString?)
    && (field == "body" ==> v.JString?)
    && (field == "scheduled_at" ==> v.JNull?)
  }

  /** Every field of the body that the update writes can be committed. */
  predicate Accepted(data: map<string, JsonValue>) {
    forall f :: f in UpdatableFields && f in data ==> Settable(f, data[f])
  }

  /** The loop over the allowed fields that the body holds. */
  function ApplyFields(p: Post, data: map<string, JsonValue>, fields: seq<string>): (r: Option<Post>)
    ensures r.Some? ==> r.value == p.(title := r.value.title, body := r.value.body, platforms := r.value.platforms,
                                     scheduledAt := r.value.scheduledAt, tags := r.value.tags)
    decreases |fields|
  {
    if fields == [] then Some(p)
    else if fields[0] in data then
      match SetField(p, fields[0], data[fields[0]])
      case None => None
      case Some(p1) => ApplyFields(p1, data, fields[1..])
    else ApplyFields(p, data, fields[1..])
  }

  /** `t` with row `i` replaced. */
  function SetRow(t: Table, i: nat, p: Post): (r: Table)
    requires i < |t|
    ensures |r| == |t| && r[i] == p
    ensures forall j :: 0 <= j < |t| && j != i ==> r[j] == t[j]
  {
    t[i := p]
  }

  /** `update_post`: only the title, body, platforms, schedule and tags can
      change; every other key of the body is ignored. */
  function UpdatePost(t: Table, id: int, data: map<string, JsonValue>, now: int): (r: Outcome<(Table, Post)>)
    ensures Lookup(t, id).HttpError? ==> r == HttpError(404, "Post not found")
    ensures Lookup(t, id).Done? && Deleted(t[Lookup(t, id).value]) ==> r == HttpError(400, "Post is deleted")
    ensures r.Done? ==>
              var i := Lookup(t, id).value;
              var p := r.value.1;
              && !Deleted(t[i])
              && r.value.0 == SetRow(t, i, p)
              && p == t[i].(title := p.title, body := p.body, platforms := p.platforms,
                            scheduledAt := p.scheduledAt, tags := p.tags, updatedAt := now)
              && ("title" !in data ==> p.title == t[i].title)
              && ("body" !in data ==> p.body == t[i].body)
              && ("platforms" !in data ==> p.platforms == t[i].platforms)
              && ("scheduled_at" !in data ==> p.scheduledAt == t[i].scheduledAt)
              && ("tags" !in data ==> p.tags == t[i].tags)
              && ("title" in data ==> data["title"] == JString(p.title))
              && ("body" in data ==> data["body"] == JString(p.body))
              && ("platforms" in data ==> p.platforms == data["platforms"])
              && ("tags" in data ==> p.tags == data["tags"])
              && ("scheduled_at" in data ==> p.scheduledAt.None?)
    ensures r.Done? <==> Lookup(t, id).Done? && !Deleted(t[Lookup(t, id).value]) && Accepted(data)
    ensures r.HttpError? ==> r.status in {400, 404, 500}
  {
    match Lookup(t, id)
    case HttpError(s, d) => HttpError(s, d)
    case Done(i) =>
      if Deleted(t[i]) then HttpError(400, "Post is deleted")
      else
        FieldsAccepted(t[i], data, UpdatableFields);
        UpdatableListed(data);
        match ApplyFields(t[i], data, UpdatableFields)
        case None => HttpError(500, "Error updating post")
        case Some(p) =>
          FieldsWritten(t[i], data, UpdatableFields);
          UntouchedFields(t[i], data, UpdatableFields);
          var p1 := p.(updatedAt := now);
          Done((SetRow(t, i, p1), p1))
  }

  /** A field the body does not mention keeps its value. */
  lemma {:induction false} UntouchedFields(p: Post, data: map<string, JsonValue>, fields: seq<string>)
    requires ApplyFields(p, data, fields).Some?
    ensures var q := ApplyFields(p, data, fields).value;
            && ("title" !in data ==> q.title == p.title)
            && ("body" !in data ==> q.body == p.body)
            && ("platforms" !in data ==> q.platforms == p.platforms)
            && ("scheduled_at" !in data ==> q.scheduledAt == p.scheduledAt)
            && ("tags" !in data ==> q.tags == p.tags)
    decreases |fields|
  {
    if fields != [] {
      if fields[0] in data {
        var p1 := SetField(p, fields[0], data[fields[0]]).value;
        UntouchedFields(p1, data, fields[1..]);
      } else {
        UntouchedFields(p, data, fields[1..]);
      }
    }
  }

  /** The loop succeeds exactly when every listed field of the body can be
      committed. */
  lemma {:induction false} FieldsAccepted(p: Post, data: map<string, JsonValue>, fields: seq<string>)
    ensures ApplyFields(p, data, fields).Some?
            <==> forall k :: 0 <= k < |fields| && fields[k] in data ==> Settable(fields[k], data[fields[k]])
    decreases |fields|
  {
    if fields != [] {
      var rest := fields[1..];
      assert forall k :: 1 <= k < |fields| ==> fields[k] == rest[k - 1];
      if fields[0] in data {
        var p1 := SetField(p, fields[0], data[fields[0]]);
        if p1.Some? {
          FieldsAccepted(p1.value, data, rest);
        }
      } else {
        FieldsAccepted(p, data, rest);
      }
    }
  }

  /** On success each listed field that the body holds carries the body's
      value, and every field not listed keeps its own. */
  lemma {:induction false} FieldsWritten(p: Post, data: map<string, JsonValue>, fields: seq<string>)
    requires ApplyFields(p, data, fields).Some?
    ensures var q := ApplyFields(p, data, fields).value;
            && ("title" in fields && "title" in data ==> data["title"] == JString(q.title))
            && ("body" in fields && "body" in data ==> data["body"] == JString(q.body))
            && ("platforms" in fields && "platforms" in data ==> q.platforms == data["platforms"])
            && ("tags" in fields && "tags" in data ==> q.tags == data["tags"])
            && ("scheduled_at" in fields && "scheduled_at" in data ==> q.scheduledAt.None?)
            && ("title" !in fields ==> q.title == p.title)
            && ("body" !in fields ==> q.body == p.body)
            && ("platforms" !in fields ==> q.platforms == p.platforms)
            && ("tags" !in fields ==> q.tags == p.tags)
            && ("scheduled_at" !in fields ==> q.scheduledAt == p.scheduledAt)
    decreases |fields|
  {
    if fields != [] {
      var rest := fields[1..];
      assert forall f :: f in fields <==> f == fields[0] || f in rest;
      if fields[0] in data {
        var p1 := SetField(p, fields[0], data[fields[0]]).value;
        FieldsWritten(p1, data, rest);
      } else {
        FieldsWritten(p, data, rest);
      }
    }
  }

  lemma UpdatableListed(data: map<string, JsonValue>)
    ensures Accepted(data) <==> forall k :: 0 <= k < |UpdatableFields| && UpdatableFields[k] in data
                                   ==> Settable(UpdatableFields[k], data[UpdatableFields[k]])
    ensures "title" in UpdatableFields && "body" in UpdatableFields && "platforms" in UpdatableFields
            && "tags" in UpdatableFields && "scheduled_at" in UpdatableFields
  {
    assert forall f :: f in UpdatableFields <==> exists k :: 0 <= k < |UpdatableFields| && UpdatableFields[k] == f;
  }

  /** Keys outside the five updatable fields make no difference. */
  lemma IgnoredKeys(t: Table, id: int, data: map<string, JsonValue>, now: int)
    ensures UpdatePost(t, id, data, now)
            == UpdatePost(t, id, map k | k in data && k in UpdatableFields :: data[k], now)
  {
    var kept := map k | k in data && k in UpdatableFields :: data[k];
    if Lookup(t, id).Done? {
      var p := t[Lookup(t, id).value];
      SameFieldsSameResult(p, data, kept, UpdatableFields);
    }
  }

  lemma {:induction false} SameFieldsSameResult(p: Post, d1: map<string, JsonValue>, d2: map<string, JsonValue>,
                                                fields: seq<string>)
    requires forall f :: f in fields ==> (f in d1 <==> f in d2) && (f in d1 ==> d1[f] == d2[f])
    ensures ApplyFields(p, d1, fields) == ApplyFields(p, d2, fields)
    decreases |fields|
  {
    if fields != [] {
      assert fields[0] in fields;
      assert forall f :: f in fields[1..] ==> f in fields;
      if fields[0] in d1 {
        var p1 := SetField(p, fields[0], d1[fields[0]]);
        if p1.Some? {
          SameFieldsSameResult(p1.value, d1, d2, fields[1..]);
        }
      } else {
        SameFieldsSameResult(p, d1, d2, fields[1..]);
      }
    }
  }

  // ---------------------------------------------------------------- approve

  /** `approve_post`: the post becomes approved; it is scheduled now when
      asked to be, keeps a schedule it has, and otherwise goes out in an
      hour. `scheduleImmediately` is the truth value of the body's
      `schedule_immediately` entry (false when absent). The reply is the
      new schedule. */
  function ApprovePost(t: Table, id: int, scheduleImmediately: bool, now: int): (r: Outcome<(Table, int)>)
    ensures Lookup(t, id).HttpError? ==> r == HttpError(404, "Post not found")
    ensures Lookup(t, id).Done? && Deleted(t[Lookup(t, id).value]) ==> r == HttpError(400, "Post is deleted")
    ensures r.Done? ==>
              var i := Lookup(t, id).value;
              var prev := t[i];
              && !Deleted(prev)
              && r.value.1 == (if scheduleImmediately then now
                               else if prev.scheduledAt.Some? then prev.scheduledAt.value
                               else now + HourSeconds)
              && r.value.0 == SetRow(t, i, prev.(status := "approved", scheduledAt := Some(r.value.1),
                                                  updatedAt := now))
    ensures r.HttpError? <==> Lookup(t, id).HttpError? || Deleted(t[Lookup(t, id).value])
  {
    match Lookup(t, id)
    case HttpError(s, d) => HttpError(s, d)
    case Done(i) =>
      var p := t[i];
      if Deleted(p) then HttpError(400, "Post is deleted")
      else
        var when := if scheduleImmediately then now
                    else if p.scheduledAt.None? then now + HourSeconds
                    else p.scheduledAt.value;
        Done((SetRow(t, i, p.(status := "approved", scheduledAt := Some(when), updatedAt := now)), when))
  }

  /** Approving is idempotent on the schedule: approving an approved post
      again without asking for an immediate slot keeps its time. */
  lemma ApproveTwiceKeepsSchedule(t: Table, id: int, scheduleImmediately: bool, now: int, later: int)
    requires ApprovePost(t, id, scheduleImmediately, now).Done?
    ensures var (t1, when) := ApprovePost(t, id, scheduleImmediately, now).value;
            ApprovePost(t1, id, false, later).Done?
            && ApprovePost(t1, id, false, later).value.1 == when
  {
    var i := Lookup(t, id).value;
    var t1 := ApprovePost(t, id, scheduleImmediately, now).value.0;
    SameRowFound(t, t1, id, i);
  }

  // ----------------------------------------------------------------- reject

  /** `reject_post`: a soft delete; the status is left as it was. */
  function RejectPost(t: Table, id: int, now: int): (r: Outcome<Table>)
    ensures Lookup(t, id).HttpError? ==> r == HttpError(404, "Post not found")
    ensures Lookup(t, id).Done? && Deleted(t[Lookup(t, id).value]) ==> r == HttpError(400, "Post already deleted")
    ensures r.Done? ==>
              var i := Lookup(t, id).value;
              r.value == SetRow(t, i, t[i].(deletedAt := Some(now), updatedAt := now))
              && r.value[i].status == t[i].status && Deleted(r.value[i])
    ensures r.Done? <==> Lookup(t, id).Done? && !Deleted(t[Lookup(t, id).value])
  {
    match Lookup(t, id)
    case HttpError(s, d) => HttpError(s, d)
    case Done(i) =>
      if Deleted(t[i]) then HttpError(400, "Post already deleted")
      else Done(SetRow(t, i, t[i].(deletedAt := Some(now), updatedAt := now)))
  }

  /** A rejected post cannot be rejected again, edited, approved or
      published. */
  lemma RejectedIsFinal(t: Table, id: int, now: int, later: int, data: map<string, JsonValue>,
                        publish: Post -> Result<string>)
    requires RejectPost(t, id, now).Done?
    ensures var t1 := RejectPost(t, id, now).value;
            && RejectPost(t1, id, later) == HttpError(400, "Post already deleted")
            && UpdatePost(t1, id, data, later) == HttpError(400, "Post is deleted")
            && ApprovePost(t1, id, true, later) == HttpError(400, "Post is deleted")
            && PublishPost(t1, id, publish) == HttpError(400, "Post is deleted")
  {
    var i := Lookup(t, id).value;
    var t1 := RejectPost(t, id, now).value;
    SameRowFound(t, t1, id, i);
  }

  /** Replacing row `i` by a row with the same id leaves the lookup of that
      id at `i`. */
  lemma SameRowFound(t: Table, t1: Table, id: int, i: nat)
    requires Lookup(t, id) == Done(i) && |t1| == |t| && t1[i].id == id
    requires forall j :: 0 <= j < |t| && j != i ==> t1[j] == t[j]
    ensures Lookup(t1, id) == Done(i)
  {
    var j := FindPost(t1, id).value;
    if j < i {
      assert t1[j] == t[j];
      FirstFound(t, id, j);
    } else if i < j {
      FirstFound(t1, id, i);
    }
  }

  lemma {:induction false} FirstFound(t: Table, id: int, j: nat)
    requires j < |t| && t[j].id == id
    ensures FindPost(t, id).Some? && FindPost(t, id).value <= j
  {
    if j > 0 && t[0].id != id {
      FirstFound(t[1..], id, j - 1);
    }
  }

  // ----------------------------------------------------------------- delete

  /** `delete_post`: a hard delete, whether or not the post was rejected. */
  function DeletePost(t: Table, id: int): (r: Outcome<Table>)
    ensures r.HttpError? <==> Lookup(t, id).HttpError?
    ensures r.HttpError? ==> r == HttpError(404, "Post not found")
    ensures r.Done? ==> var i := Lookup(t, id).value; r.value == t[..i] + t[i + 1..]
    ensures r.Done? ==> |r.value| == |t| - 1
  {
    match Lookup(t, id)
    case HttpError(s, d) => HttpError(s, d)
    case Done(i) => Done(t[..i] + t[i + 1..])
  }

  /** With distinct ids, the deleted post is gone and every other row stays,
      in order. */
  lemma DeleteRemovesOnlyThePost(t: Table, id: int)
    requires UniqueIds(t) && DeletePost(t, id).Done?
    ensures var r := DeletePost(t, id).value;
            && (forall j :: 0 <= j < |r| ==> r[j].id != id)
            && (forall p :: p in t && p.id != id ==> p in r)
            && UniqueIds(r)
            && Lookup(r, id) == HttpError(404, "Post not found")
  {
    var i := Lookup(t, id).value;
    var r := DeletePost(t, id).value;
    forall j | 0 <= j < |r| ensures r[j].id != id {
      if j < i { assert r[j] == t[j]; } else { assert r[j] == t[j + 1]; }
    }
    forall p | p in t && p.id != id ensures p in r {
      var j :| 0 <= j < |t| && t[j] == p;
      if j < i { assert r[j] == p; } else { assert j != i && r[j - 1] == p; }
    }
  }

  // ---------------------------------------------------------------- publish

  /** `publish_post_endpoint`: only a live, approved post is handed to the
      publisher; a publisher failure is a 500. */
  function PublishPost(t: Table, id: int, publish: Post -> Result<string>): (r: Outcome<string>)
    ensures r.Done? <==> Lookup(t, id).Done? && !Deleted(t[Lookup(t, id).value])
                         && t[Lookup(t, id).value].status == "approved" && publish(t[Lookup(t, id).value]).Ok?
    ensures r.Done? ==> r.value == publish(t[Lookup(t, id).value]).value
    ensures (Lookup(t, id).Done? && !Deleted(t[Lookup(t, id).value]) && t[Lookup(t, id).value].status != "approved")
              ==> r == HttpError(400, "Post status must be 'approved', got '" + t[Lookup(t, id).value].status + "'")
  {
    match Lookup(t, id)
    case HttpError(s, d) => HttpError(s, d)
    case Done(i) =>
      var p := t[i];
      if Deleted(p) then HttpError(400, "Post is deleted")
      else if p.status != "approved" then HttpError(400, "Post status must be 'approved', got '" + p.status + "'")
      else match publish(p)
        case Ok(result) => Done(result)
        case Err(e) => HttpError(500, "Error publishing post: " + e)
  }

  /** An approval is what makes a live post publishable. */
  lemma ApprovedThenPublishable(t: Table, id: int, now: int, publish: Post -> Result<string>)
    requires ApprovePost(t, id, false, now).Done?
    ensures var t1 := ApprovePost(t, id, false, now).value.0;
            PublishPost(t1, id, publish).HttpError? ==> PublishPost(t1, id, publish).status == 500
  {
    var i := Lookup(t, id).value;
    var t1 := ApprovePost(t, id, false, now).value.0;
    SameRowFound(t, t1, id, i);
  }

  // ------------------------------------------------------------------ queue

  const DefaultQueueLimit := 20
  const MaxQueueLimit := 100

  /** A page of the queue and the number of posts before paging. */
  datatype QueuePage = QueuePage(posts: seq<Post>, total: nat)

  function CreatedKey(p: Post): Sorting.Rank {
    Sorting.ByScore(p.createdAt as real)
  }

  /** The rows the queue's filters keep: not deleted, the status when one
      is given, and a platform match when a platform is given. */
  predicate InQueue(p: Post, status: Option<string>, platform: Option<string>, likePlatform: JsonValue -> bool) {
    && !Deleted(p)
    && (Truthy(status) ==> p.status == status.value)
    && (Truthy(platform) ==> likePlatform(p.platforms))
  }

  /** `get_queue`. The limit must lie in [1, 100] and the offset must not
      be negative, or the request is refused with 422. */
  function GetQueue(t: Table, status: Option<string>, platform: Option<string>, likePlatform: JsonValue -> bool,
                    limit: int, offset: int): (r: Outcome<QueuePage>)
    ensures r.Done? <==> 1 <= limit <= MaxQueueLimit && offset >= 0
    ensures r.HttpError? ==> r.status == 422
    ensures r.Done? ==>
              var matching := Sorting.Filter((p: Post) => InQueue(p, status, platform, likePlatform), t);
              && r.value.total == |matching|
              && |r.value.posts| <= limit
              && (forall k :: 0 <= k < |r.value.posts| ==> InQueue(r.value.posts[k], status, platform, likePlatform))
              && Sorting.SortedDesc(CreatedKey, r.value.posts)
              && r.value.posts == Page(Sorting.SortDesc(CreatedKey, matching), offset, limit)
  {
    if !(1 <= limit <= MaxQueueLimit) || offset < 0 then HttpError(422, "Unprocessable query parameter")
    else
      var matching := Sorting.Filter((p: Post) => InQueue(p, status, platform, likePlatform), t);
      var ordered := Sorting.SortDesc(CreatedKey, matching);
      var page := Page(ordered, offset, limit);
      PageSorted(ordered, offset, limit);
      forall k | 0 <= k < |page| ensures InQueue(page[k], status, platform, likePlatform) {
        assert page[k] == ordered[offset + k];
        assert ordered[offset + k] in multiset(matching);
      }
      Done(QueuePage(page, |matching|))
  }

  /** `LIMIT limit OFFSET offset`. */
  function Page<T>(s: seq<T>, offset: nat, limit: nat): (r: seq<T>)
    ensures |r| <= limit
    ensures offset <= |s| ==> |r| == if |s| - offset < limit then |s| - offset else limit
    ensures forall k :: 0 <= k < |r| ==> offset + k < |s| && r[k] == s[offset + k]
  {
    if offset >= |s| then []
    else if |s| - offset <= limit then s[offset..]
    else s[offset..offset + limit]
  }

  lemma PageSorted(s: seq<Post>, offset: nat, limit: nat)
    requires Sorting.SortedDesc(CreatedKey, s)
    ensures Sorting.SortedDesc(CreatedKey, Page(s, offset, limit))
  {
    var r := Page(s, offset, limit);
    forall i, j | 0 <= i < j < |r| ensures !Sorting.Outranks(CreatedKey(r[j]), CreatedKey(r[i])) {
      assert r[i] == s[offset + i] && r[j] == s[offset + j];
    }
  }

  /** Consecutive pages fit together: the page at `offset` of size `a`
      followed by the page after it of size `b` is the page of size
      `a + b`. */
  lemma PagesFit<T>(s: seq<T>, offset: nat, a: nat, b: nat)
    ensures Page(s, offset, a) + Page(s, offset + a, b) == Page(s, offset, a + b)
  {
    var left := Page(s, offset, a);
    var right := Page(s, offset + a, b);
    var whole := Page(s, offset, a + b);
    if offset + a <= |s| {
      assert |left| == a;
      forall k | 0 <= k < |whole| ensures (left + right)[k] == whole[k] {
        if k >= a { assert (left + right)[k] == right[k - a]; }
      }
    }
  }

  // ------------------------------------------------------------- dashboard

  /** The counts of `get_dashboard_stats`; deleted posts never count. */
  datatype QueueStats = QueueStats(draft: nat, approved: nat, publishedToday: nat, overdue: nat, failed: nat)

  predicate IsDraft(p: Post) {
    !Deleted(p) && p.status == "draft"
  }

  predicate IsApproved(p: Post) {
    !Deleted(p) && p.status == "approved"
  }

  /** Published at or after `todayStart`; a missing publication time never
      compares as later in SQL. */
  predicate PublishedSince(p: Post, todayStart: int) {
    !Deleted(p) && p.status == "published" && p.publishedAt.Some? && p.publishedAt.value >= todayStart
  }

  predicate Overdue(p: Post, now: int) {
    !Deleted(p) && p.status == "approved" && p.scheduledAt.Some? && p.scheduledAt.value < now
  }

  predicate IsFailed(p: Post) {
    !Deleted(p) && p.status == "failed"
  }

  /** `SELECT count(*) ... WHERE f`: the number of rows passing the filter. */
  function CountWhere(t: Table, f: Post -> bool): (n: nat)
    ensures n <= |t|
    ensures n == 0 <==> forall p :: p in t ==> !f(p)
  {
    var kept := Sorting.Filter(f, t);
    assert forall p :: p in kept <==> p in t && f(p) by {
      forall p ensures p in kept <==> p in t && f(p) {
        Sorting.FilterIn(f, t, p);
      }
    }
    assert kept != [] ==> kept[0] in kept;
    |kept|
  }

  /** `todayStart` is midnight of the current UTC day. */
  function DashboardStats(t: Table, now: int, todayStart: int): (r: QueueStats)
    ensures r.draft == CountWhere(t, IsDraft) && r.approved == CountWhere(t, IsApproved)
    ensures r.publishedToday == CountWhere(t, (p: Post) => PublishedSince(p, todayStart))
    ensures r.overdue == CountWhere(t, (p: Post) => Overdue(p, now))
    ensures r.failed == CountWhere(t, IsFailed)
    ensures r.overdue <= r.approved <= |t|
    ensures r.draft + r.approved + r.publishedToday + r.failed <= |t|
  {
    var today := (p: Post) => PublishedSince(p, todayStart);
    var overdue := (p: Post) => Overdue(p, now);
    CountImplied(t, overdue, IsApproved);
    CountDisjoint4(t, IsDraft, IsApproved, today, IsFailed);
    QueueStats(CountWhere(t, IsDraft), CountWhere(t, IsApproved), CountWhere(t, today), CountWhere(t, overdue),
               CountWhere(t, IsFailed))
  }

  /** A stricter filter keeps no more rows. */
  lemma {:induction false} CountImplied(t: Table, f: Post -> bool, g: Post -> bool)
    requires forall p :: f(p) ==> g(p)
    ensures CountWhere(t, f) <= CountWhere(t, g)
    decreases |t|
  {
    if t != [] {
      CountImplied(t[1..], f, g);
    }
  }

  /** Four filters no row passes two of count at most all the rows. */
  lemma {:induction false} CountDisjoint4(t: Table, a: Post -> bool, b: Post -> bool, c: Post -> bool, d: Post -> bool)
    requires forall p :: (a(p) ==> !b(p) && !c(p) && !d(p)) && (b(p) ==> !c(p) && !d(p)) && (c(p) ==> !d(p))
    ensures CountWhere(t, a) + CountWhere(t, b) + CountWhere(t, c) + CountWhere(t, d) <= |t|
    decreases |t|
  {
    if t != [] {
      CountDisjoint4(t[1..], a, b, c, d);
    }
  }
}

=== FILE: scheduler.dfy ===
/**
  The content scheduler: three daily cron jobs, and the job itself, which
  ranks the fetched news items by a heuristic score, takes the best twelve,
  skips items already turned into posts, and stores the generated text
  posts and video scripts as drafts.

  The feeds, the clock and the generated copy are parameters: a feed gives
  its items or fails, and the generator gives, for an item, the decoded
  text-post entries (platform and text, already converted with `str`) and
  video scripts, or fails as a whole. A JSON reply that does not decode is
  an empty list. The SHA-256 digest of the content is modelled by the text
  it digests.
 */
module Scheduler {
  import opened Text
  import Sorting
  import opened Posts

  // --------------------------------------------------------------- cron jobs

  const Timezone := "Pacific/Auckland"

  /** A job run every day at `hour:minute` in `Timezone`. */
  datatype CronJob = CronJob(name: string, hour: nat, minute: nat, timezone: string)

  const DailyJobs: seq<CronJob> := [
    CronJob("fetch_generate_0730", 7, 30, Timezone),
    CronJob("fetch_generate_1230", 12, 30, Timezone),
    CronJob("fetch_generate_2100", 21, 0, Timezone)]

  /** The module-level scheduler: `None` until the first start. */
  datatype SchedulerState = SchedulerState(jobs: seq<CronJob>, running: bool)

  /** `start_scheduler()`. The jobs are registered only when there is no
      scheduler yet; an existing one is only restarted. */
  function StartScheduler(s: Option<SchedulerState>): (r: Option<SchedulerState>)
    ensures r.Some? && r.value.running
    ensures s.None? ==> r.value.jobs == DailyJobs
    ensures s.Some? ==> r.value.jobs == s.value.jobs
  {
    if s.None? then Some(SchedulerState(DailyJobs, true))
    else Some(s.value.(running := true))
  }

  /** `stop_scheduler()`: a running scheduler is shut down; the jobs stay. */
  function StopScheduler(s: Option<SchedulerState>): (r: Option<SchedulerState>)
    ensures r.Some? <==> s.Some?
    ensures r.Some? ==> !r.value.running && r.value.jobs == s.value.jobs
  {
    if s.Some? && s.value.running then Some(s.value.(running := false)) else s
  }

  /** `is_running()`. */
  predicate IsRunning(s: Option<SchedulerState>) {
    s.Some? && s.value.running
  }

  /** Starting twice registers nothing more: three jobs at 07:30, 12:30 and
      21:00 in Auckland time, whatever the number of starts and stops. */
  lemma StartIdempotent(s: Option<SchedulerState>)
    ensures StartScheduler(StartScheduler(s)) == StartScheduler(s)
    ensures StartScheduler(StopScheduler(StartScheduler(s))) == StartScheduler(s)
    ensures IsRunning(StartScheduler(s)) && !IsRunning(StopScheduler(StartScheduler(s)))
    ensures s.None? ==>
              (|StartScheduler(s).value.jobs| == 3
               && (forall k :: 0 <= k < 3 ==> StartScheduler(s).value.jobs[k].timezone == Timezone)
               && StartScheduler(s).value.jobs[0].hour == 7 && StartScheduler(s).value.jobs[0].minute == 30
               && StartScheduler(s).value.jobs[1].hour == 12 && StartScheduler(s).value.jobs[1].minute == 30
               && StartScheduler(s).value.jobs[2].hour == 21 && StartScheduler(s).value.jobs[2].minute == 0)
  {
  }

  // ----------------------------------------------------------------- scoring

  const HourSeconds := 3600
  const AuthoritativeSources: seq<string> := ["OpenAI", "Google AI", "DeepMind"]
  const Keywords: seq<string> := ["ai", "llm", "genai", "artificial intelligence", "machine learning"]

  /** A fetched news item; a field is `None` when the item has no such key. */
  datatype FeedItem = FeedItem(title: Option<string>, summary: Option<string>, url: Option<string>,
                               source: Option<string>, published: Option<int>)

  function FreshnessPoints(published: Option<int>, now: int): (p: int)
    ensures p == 0 || p == 50
    ensures p == 50 <==> published.Some? && now - published.value <= 24 * HourSeconds
  {
    if published.Some? && now - published.value <= 24 * HourSeconds then 50 else 0
  }

  /** An authoritative name occurs in the stripped source; case matters. */
  predicate Authoritative(source: Option<string>) {
    exists k :: 0 <= k < |AuthoritativeSources| && Contains(Strip(source.GetOr("")), AuthoritativeSources[k])
  }

  /** The lower-cased title and summary, one per line. */
  function Haystack(a: FeedItem): string {
    Lower(a.title.GetOr("") + "\n" + a.summary.GetOr(""))
  }

  /** The score `rank_articles` gives one item: fifty for the last day,
      thirty for an authoritative source, five per keyword present. */
  function Score(a: FeedItem, now: int): (s: int)
    ensures 0 <= s <= 105 && s % 5 == 0
    ensures FreshnessPoints(a.published, now) == 50 ==> s >= 50
    ensures s > 55 ==> FreshnessPoints(a.published, now) == 50
    ensures s == FreshnessPoints(a.published, now) + (if Authoritative(a.source) then 30 else 0)
                 + 5 * CountOccurring(Haystack(a), Keywords)
  {
    var n := CountOccurring(Haystack(a), Keywords);
    var units := (if FreshnessPoints(a.published, now) == 50 then 10 else 0)
                 + (if Authoritative(a.source) then 6 else 0) + n;
    FiveTimes(units);
    5 * units
  }

  lemma FiveTimes(u: int)
    ensures (5 * u) % 5 == 0
  {
  }

  /** The source is matched with case: the exact name earns the points. */
  lemma ExactNameIsAuthoritative()
    ensures Authoritative(Some("OpenAI"))
  {
    StripNoSpaceEdges("OpenAI");
    assert OccursAt("OpenAI", AuthoritativeSources[0], 0);
  }

  /** Case matters: a source without capital letters (a lower-cased name,
      say) never earns the authority points, since every authoritative
      name starts with a capital. */
  lemma LowerCaseSourceIsNotAuthoritative(source: string)
    requires forall i :: 0 <= i < |source| ==> !IsAsciiUpper(source[i])
    ensures !Authoritative(Some(source))
  {
    assert IsAsciiUpper(AuthoritativeSources[0][0]);
    assert IsAsciiUpper(AuthoritativeSources[1][0]);
    assert IsAsciiUpper(AuthoritativeSources[2][0]);
    forall k | 0 <= k < |AuthoritativeSources| ensures !Contains(Strip(source), AuthoritativeSources[k]) {
      CapitalNotContained(source, AuthoritativeSources[k]);
    }
  }

  lemma CapitalNotContained(source: string, name: string)
    requires forall i :: 0 <= i < |source| ==> !IsAsciiUpper(source[i])
    requires name != [] && IsAsciiUpper(name[0])
    ensures !Contains(Strip(source), name)
  {
    var t := Strip(source);
    forall i | 0 <= i <= |t| - |name| ensures !OccursAt(t, name, i) {
      StripChars(source, t[i]);
      assert t[i..i + |name|][0] == t[i] && !IsAsciiUpper(t[i]);
    }
  }

  /** The score at time `now`, as a function of the item. */
  function ScoreAt(now: int): FeedItem -> int {
    (a: FeedItem) => Score(a, now)
  }

  /** `rank_articles`: the items with their scores, highest first. */
  function RankItems(items: seq<FeedItem>, now: int): (r: seq<(FeedItem, int)>)
    ensures multiset(r) == multiset(Sorting.Scored(items, ScoreAt(now)))
    ensures forall i :: 0 <= i < |r| ==> r[i].1 == Score(r[i].0, now) && r[i].0 in items
    ensures forall i, j :: 0 <= i < j < |r| ==> r[i].1 >= r[j].1
  {
    Sorting.RankByScore(items, ScoreAt(now))
  }

  /** Items with equal scores keep their fetch order. */
  lemma RankItemsStable(items: seq<FeedItem>, now: int, score: int)
    ensures Sorting.WithKey(Sorting.IntKey, RankItems(items, now), Sorting.ByScore(score as real))
            == Sorting.WithKey(Sorting.IntKey, Sorting.Scored(items, ScoreAt(now)), Sorting.ByScore(score as real))
  {
    Sorting.SortStable(Sorting.IntKey, Sorting.Scored(items, ScoreAt(now)), Sorting.ByScore(score as real));
  }

  // ------------------------------------------------------------ duplicates

  /** What the content digest is taken over: title, URL and summary. */
  function ContentKey(title: string, url: string, body: string): string {
    title + "\n" + url + "\n" + body
  }

  /** `check_duplicate(url, title, body)`: some post, deleted or not, has
      the URL or the content digest. */
  predicate IsDuplicate(t: Table, url: string, title: string, body: string) {
    exists i :: 0 <= i < |t| && (t[i].sourceUrl == Some(url) || t[i].contentHash == Some(ContentKey(title, url, body)))
  }

  /** A row of the duplicate query: same URL or same digest. */
  predicate Matches(p: Post, url: string, key: string) {
    p.sourceUrl == Some(url) || p.contentHash == Some(key)
  }

  /** `select(Post).where(url or hash).first()`, scanning the table from
      row `i`: the first matching row, or none. */
  function FirstMatch(t: Table, url: string, key: string, i: nat): (r: Option<nat>)
    requires i <= |t|
    ensures r.Some? ==> i <= r.value < |t| && Matches(t[r.value], url, key)
    ensures r.Some? ==> forall j :: i <= j < r.value ==> !Matches(t[j], url, key)
    ensures r.None? ==> forall j :: i <= j < |t| ==> !Matches(t[j], url, key)
    decreases |t| - i
  {
    if i == |t| then None
    else if Matches(t[i], url, key) then Some(i)
    else FirstMatch(t, url, key, i + 1)
  }

  /** `check_duplicate` answers yes exactly when the query finds a row. */
  lemma DuplicateIffFound(t: Table, url: string, title: string, body: string)
    ensures IsDuplicate(t, url, title, body) <==> FirstMatch(t, url, ContentKey(title, url, body), 0).Some?
  {
    var key := ContentKey(title, url, body);
    var r := FirstMatch(t, url, key, 0);
    if r.Some? {
      assert Matches(t[r.value], url, key);
    }
  }

  // -------------------------------------------------------------- generation

  /** What generating copy for one item gives. */
  datatype Generated =
    | GenerationFailed
    | Generated(textItems: seq<(string, string)>, scripts: seq<string>)

  /** The platform a text post is filed under: the stripped name, or
      "General" when that is blank. */
  function PlatformName(raw: string): (p: string)
    ensures p != ""
    ensures Strip(raw) != "" ==> p == Strip(raw)
  {
    if Strip(raw) == "" then "General" else Strip(raw)
  }

  /** An entry whose stripped text is not blank. */
  predicate HasText(e: (string, string)) {
    Strip(e.1) != ""
  }

  /** The kept form of an entry: its platform name and its stripped text. */
  function TextEntry(e: (string, string)): (string, string) {
    (PlatformName(e.0), Strip(e.1))
  }

  /** The text posts `generate_text_post` keeps: those whose stripped text
      is not blank, with their platform name. */
  function TextPosts(items: seq<(string, string)>): (r: seq<(string, string)>)
    ensures |r| <= |items|
    ensures forall k :: 0 <= k < |r| ==> r[k].0 != "" && r[k].1 != ""
    ensures forall x :: x in r <==> exists j :: 0 <= j < |items| && HasText(items[j]) && TextEntry(items[j]) == x
  {
    if items == [] then []
    else
      var rest := TextPosts(items[1..]);
      assert forall j :: 1 <= j < |items| ==> items[j] == items[1..][j - 1];
      assert forall j :: 0 <= j < |items[1..]| ==> items[1..][j] == items[j + 1];
      if Strip(items[0].1) == "" then rest
      else [(PlatformName(items[0].0), Strip(items[0].1))] + rest
  }

  /** The kept entries are the entries with text, in their order, each in
      its kept form. */
  lemma {:induction false} TextPostsInOrder(items: seq<(string, string)>)
    ensures TextPosts(items) == Sorting.Map(TextEntry, Sorting.Filter(HasText, items))
    decreases |items|
  {
    if items != [] {
      TextPostsInOrder(items[1..]);
      assert items == [items[0]] + items[1..];
      if HasText(items[0]) {
        Sorting.MapCons(TextEntry, items[0], Sorting.Filter(HasText, items[1..]));
      }
    }
  }

  const VideoPlatforms: seq<string> := ["Instagram", "TikTok", "YouTube Shorts"]

  /** The item is usable: both a title and a URL. */
  predicate Usable(item: FeedItem) {
    item.title.GetOr("") != "" && item.url.GetOr("") != ""
  }

  /** The digest key of an item's title, URL and summary. */
  function ItemKey(item: FeedItem): string {
    ContentKey(item.title.GetOr(""), item.url.GetOr(""), item.summary.GetOr(""))
  }

  /** `p` is a draft saved for `item` at time `now`. */
  predicate DraftOf(p: Post, item: FeedItem, now: int) {
    && p.status == "draft" && (p.kind == "text" || p.kind == "video")
    && p.title == item.title.GetOr("") && p.sourceUrl == item.url
    && p.contentHash == Some(ItemKey(item))
    && p.deletedAt.None? && p.scheduledAt.None? && p.createdAt == now
  }

  /** One text post per kept entry, filed under the entry's platform and
      tagged with the item's source ("news" when it has none). */
  function TextDrafts(item: FeedItem, texts: seq<(string, string)>, now: int): (r: seq<Post>)
    requires Usable(item)
    ensures |r| == |texts|
    ensures forall k :: 0 <= k < |r| ==>
              DraftOf(r[k], item, now) && r[k].kind == "text" && r[k].body == texts[k].1
              && r[k].platforms == StringArray([texts[k].0])
  {
    if texts == [] then []
    else
      [NewPost("text", item.title.value, texts[0].1, item.url.value, ItemKey(item),
               [item.source.GetOr("news")], [texts[0].0], now)]
      + TextDrafts(item, texts[1..], now)
  }

  /** One video post per kept script, for the three short-video platforms. */
  function VideoDrafts(item: FeedItem, scripts: seq<string>, now: int): (r: seq<Post>)
    requires Usable(item)
    ensures |r| == |scripts|
    ensures forall k :: 0 <= k < |r| ==>
              DraftOf(r[k], item, now) && r[k].kind == "video" && r[k].body == scripts[k]
              && r[k].platforms == StringArray(VideoPlatforms)
  {
    if scripts == [] then []
    else
      [NewPost("video", item.title.value, scripts[0], item.url.value, ItemKey(item),
               [item.source.GetOr("news"), "script"], VideoPlatforms, now)]
      + VideoDrafts(item, scripts[1..], now)
  }

  /** The draft posts saved for one item: its text posts, then its video
      scripts; nothing when generation failed. */
  function DraftsFor(item: FeedItem, g: Generated, now: int): (r: seq<Post>)
    requires Usable(item)
    ensures forall k :: 0 <= k < |r| ==> DraftOf(r[k], item, now)
    ensures g.GenerationFailed? ==> r == []
    ensures g.Generated? ==> |r| == |TextPosts(g.textItems)| + |NonBlank(g.scripts)|
  {
    match g
    case GenerationFailed => []
    case Generated(textItems, scripts) =>
      TextDrafts(item, TextPosts(textItems), now) + VideoDrafts(item, NonBlank(scripts), now)
  }

  // ------------------------------------------------------------------- job

  const TopCount := 12

  /** A post the job may create: a draft text or video post with a title
      and a source URL. */
  predicate NewDraft(p: Post) {
    && p.status == "draft" && (p.kind == "text" || p.kind == "video")
    && p.title != "" && p.sourceUrl.Some? && p.sourceUrl.value != ""
  }

  /** The posts created for one item; none when it lacks a title or a URL
      or is a duplicate. */
  function ProcessItem(item: FeedItem, t: Table, gen: FeedItem -> Generated, now: int): (r: Table)
    ensures |r| >= |t| && r[..|t|] == t
    ensures UniqueIds(t) ==> UniqueIds(r)
    ensures forall k :: |t| <= k < |r| ==> NewDraft(r[k]) && DraftOf(r[k], item, now)
    ensures !Usable(item) || IsDuplicate(t, item.url.value, item.title.value, item.summary.GetOr("")) ==> r == t
    ensures Usable(item) && !IsDuplicate(t, item.url.value, item.title.value, item.summary.GetOr("")) ==>
              r == AddPosts(t, DraftsFor(item, gen(item), now))
  {
    if !Usable(item) then t
    else if IsDuplicate(t, item.url.value, item.title.value, item.summary.GetOr("")) then t
    else
      var ds := DraftsFor(item, gen(item), now);
      var r := AddPosts(t, ds);
      AddPostsUnique(t, ds);
      assert forall k :: |t| <= k < |r| ==> r[k] == ds[k - |t|].(id := r[k].id);
      assert forall k :: |t| <= k < |r| ==> DraftOf(r[k], item, now);
      r
  }

  /** Processing an item twice is processing it once: once its posts are
      saved, the item is a duplicate of them. */
  lemma ProcessItemIdempotent(item: FeedItem, t: Table, gen: FeedItem -> Generated, now: int)
    ensures var r := ProcessItem(item, t, gen, now);
            (r != t ==> IsDuplicate(r, item.url.value, item.title.value, item.summary.GetOr("")))
            && ProcessItem(item, r, gen, now) == r
  {
    var r := ProcessItem(item, t, gen, now);
    if r != t {
      var ds := DraftsFor(item, gen(item), now);
      assert r[|t|] == ds[0].(id := r[|t|].id);
      assert DraftOf(ds[0], item, now);
      assert r[|t|].sourceUrl == Some(item.url.value);
    }
  }

  /** The loop over the top items; each item's posts are committed before
      the next item is checked for duplicates. */
  function ProcessItems(items: seq<FeedItem>, t: Table, gen: FeedItem -> Generated, now: int): (r: Table)
    ensures |r| >= |t| && r[..|t|] == t
    ensures UniqueIds(t) ==> UniqueIds(r)
    ensures forall k :: |t| <= k < |r| ==> NewDraft(r[k])
    ensures (forall j :: 0 <= j < |items| ==> !Usable(items[j])) ==> r == t
    decreases |items|
  {
    if items == [] then t
    else
      var t1 := ProcessItem(items[0], t, gen, now);
      var r := ProcessItems(items[1..], t1, gen, now);
      assert r[..|t|] == r[..|t1|][..|t|];
      assert forall k :: |t| <= k < |r| ==> NewDraft(r[k]) by {
        forall k | |t| <= k < |r| ensures NewDraft(r[k]) {
          if k < |t1| {
            assert r[k] == r[..|t1|][k];
          }
        }
      }
      r
  }

  /** `p` is a draft saved for one of the items at time `now`. */
  predicate DraftOfOne(p: Post, items: seq<FeedItem>, now: int) {
    exists j :: 0 <= j < |items| && DraftOf(p, items[j], now)
  }

  /** Every post the loop creates is a draft of one of its items. */
  lemma {:induction false} DraftsOfItems(items: seq<FeedItem>, t: Table, gen: FeedItem -> Generated, now: int)
    ensures var r := ProcessItems(items, t, gen, now);
            forall k :: |t| <= k < |r| ==> DraftOfOne(r[k], items, now)
    decreases |items|
  {
    if items != [] {
      var t1 := ProcessItem(items[0], t, gen, now);
      var r := ProcessItems(items, t, gen, now);
      DraftsOfItems(items[1..], t1, gen, now);
      assert r == ProcessItems(items[1..], t1, gen, now);
      forall k | |t| <= k < |r| ensures DraftOfOne(r[k], items, now) {
        if k < |t1| {
          assert r[k] == r[..|t1|][k] == t1[k];
          assert DraftOf(r[k], items[0], now);
        } else {
          assert DraftOfOne(r[k], items[1..], now);
          var j :| 0 <= j < |items[1..]| && DraftOf(r[k], items[1..][j], now);
          assert items[1..][j] == items[j + 1];
        }
      }
    }
  }

  /** A duplicate stays a duplicate when rows are appended. */
  lemma DuplicateKept(t: Table, r: Table, url: string, title: string, body: string)
    requires |r| >= |t| && r[..|t|] == t && IsDuplicate(t, url, title, body)
    ensures IsDuplicate(r, url, title, body)
  {
    var i :| 0 <= i < |t| && (t[i].sourceUrl == Some(url) || t[i].contentHash == Some(ContentKey(title, url, body)));
    assert r[i] == r[..|t|][i];
  }

  /** The table covers the item: the item is unusable, or generating copy
      for it gave nothing to save, or a post has its URL or digest. */
  predicate Covered(t: Table, item: FeedItem, gen: FeedItem -> Generated, now: int) {
    Usable(item) && DraftsFor(item, gen(item), now) != [] ==>
      IsDuplicate(t, item.url.value, item.title.value, item.summary.GetOr(""))
  }

  /** After the loop every usable item is covered by the table: it was a
      duplicate already, or its drafts were saved, unless generating copy
      for it gave nothing to save. */
  lemma {:induction false} ItemsCovered(items: seq<FeedItem>, t: Table, gen: FeedItem -> Generated, now: int)
    ensures var r := ProcessItems(items, t, gen, now);
            forall j :: 0 <= j < |items| ==> Covered(r, items[j], gen, now)
    decreases |items|
  {
    if items != [] {
      var item := items[0];
      var t1 := ProcessItem(item, t, gen, now);
      var r := ProcessItems(items, t, gen, now);
      ItemsCovered(items[1..], t1, gen, now);
      assert r == ProcessItems(items[1..], t1, gen, now);
      forall j | 0 <= j < |items| ensures Covered(r, items[j], gen, now) {
        if j == 0 {
          ItemCoveredAfter(item, t, r, gen, now);
        } else {
          assert items[j] == items[1..][j - 1];
        }
      }
    }
  }

  /** Once an item is processed, every later table covers it. */
  lemma ItemCoveredAfter(item: FeedItem, t: Table, r: Table, gen: FeedItem -> Generated, now: int)
    requires var t1 := ProcessItem(item, t, gen, now); |r| >= |t1| && r[..|t1|] == t1
    ensures Covered(r, item, gen, now)
  {
    var t1 := ProcessItem(item, t, gen, now);
    if Usable(item) && DraftsFor(item, gen(item), now) != [] {
      if IsDuplicate(t, item.url.value, item.title.value, item.summary.GetOr("")) {
        DuplicateKept(t, t1, item.url.value, item.title.value, item.summary.GetOr(""));
      } else {
        ProcessItemIdempotent(item, t, gen, now);
      }
      DuplicateKept(t1, r, item.url.value, item.title.value, item.summary.GetOr(""));
    }
  }

  /** The posts created for a fresh item share neither a URL nor a digest
      with the posts already there. */
  lemma ProcessItemFresh(item: FeedItem, t: Table, gen: FeedItem -> Generated, now: int)
    ensures var r := ProcessItem(item, t, gen, now);
            forall i, k :: 0 <= i < |t| <= k < |r| ==>
              t[i].sourceUrl != r[k].sourceUrl && t[i].contentHash != r[k].contentHash
  {
    var r := ProcessItem(item, t, gen, now);
    if r != t {
      assert !IsDuplicate(t, item.url.value, item.title.value, item.summary.GetOr(""));
      var ds := DraftsFor(item, gen(item), now);
      forall i, k | 0 <= i < |t| <= k < |r|
        ensures t[i].sourceUrl != r[k].sourceUrl && t[i].contentHash != r[k].contentHash
      {
        assert r[k] == ds[k - |t|].(id := r[k].id);
        assert DraftOf(ds[k - |t|], item, now);
      }
    }
  }

  /** A post is only created for an item no earlier post duplicates: the
      new posts never share a URL or a digest with the posts that were
      already there. */
  lemma {:induction false} NoDuplicatePosts(items: seq<FeedItem>, t: Table, gen: FeedItem -> Generated, now: int)
    ensures var r := ProcessItems(items, t, gen, now);
            forall i, k :: 0 <= i < |t| <= k < |r| ==>
              t[i].sourceUrl != r[k].sourceUrl && t[i].contentHash != r[k].contentHash
    decreases |items|
  {
    if items != [] {
      var t1 := ProcessItem(items[0], t, gen, now);
      var r := ProcessItems(items, t, gen, now);
      ProcessItemFresh(items[0], t, gen, now);
      NoDuplicatePosts(items[1..], t1, gen, now);
      assert r == ProcessItems(items[1..], t1, gen, now);
      forall i, k | 0 <= i < |t| <= k < |r|
        ensures t[i].sourceUrl != r[k].sourceUrl && t[i].contentHash != r[k].contentHash
      {
        assert t1[i] == t1[..|t|][i] == t[i];
        if k < |t1| {
          assert r[k] == r[..|t1|][k] == t1[k];
        }
      }
    }
  }

  /** `fetch_and_generate_content()`: a failing feed is skipped; with no
      items at all nothing happens. */
  function FetchAndGenerate(feeds: seq<Result<seq<FeedItem>>>, t: Table, gen: FeedItem -> Generated, now: int)
    : (r: Table)
    ensures |r| >= |t| && r[..|t|] == t
    ensures UniqueIds(t) ==> UniqueIds(r)
    ensures forall k :: |t| <= k < |r| ==> NewDraft(r[k])
    ensures AllItems(feeds) == [] ==> r == t
    ensures var top := TopItems(AllItems(feeds), now);
            && (forall k :: |t| <= k < |r| ==> DraftOfOne(r[k], top, now))
            && (forall j :: 0 <= j < |top| ==> Covered(r, top[j], gen, now))
  {
    var all := AllItems(feeds);
    if all == [] then t
    else
      var top := TopItems(all, now);
      ItemsProcessed(top, t, gen, now);
      ProcessItems(top, t, gen, now)
  }

  /** The loop's posts are drafts of its items, and every usable item with
      copy to save is covered once it is done. */
  lemma ItemsProcessed(items: seq<FeedItem>, t: Table, gen: FeedItem -> Generated, now: int)
    ensures var r := ProcessItems(items, t, gen, now);
            && (forall k :: |t| <= k < |r| ==> DraftOfOne(r[k], items, now))
            && (forall j :: 0 <= j < |items| ==> Covered(r, items[j], gen, now))
  {
    DraftsOfItems(items, t, gen, now);
    ItemsCovered(items, t, gen, now);
  }

  /** The items the job processes: the first twelve of the ranking. */
  function TopItems(all: seq<FeedItem>, now: int): (r: seq<FeedItem>)
    ensures all == [] ==> r == []
  {
    Sorting.Firsts(PyTake(RankItems(all, now), TopCount))
  }

  /** The items of the feeds that answered, in feed order. */
  function AllItems(feeds: seq<Result<seq<FeedItem>>>): (r: seq<FeedItem>)
    ensures (forall f :: 0 <= f < |feeds| ==> feeds[f].Err? || feeds[f].value == []) ==> r == []
  {
    if feeds == [] then []
    else (if feeds[0].Ok? then feeds[0].value else []) + AllItems(feeds[1..])
  }

  /** At most twelve items are considered: the best-scoring ones, in score
      order; no item left out scores above one taken. */
  lemma TopSelection(all: seq<FeedItem>, now: int)
    ensures var top := PyTake(RankItems(all, now), TopCount);
            && |top| == (if |all| < TopCount then |all| else TopCount)
            && Sorting.TopRows(Sorting.IntKey, Sorting.Scored(all, ScoreAt(now)), top)
            && (forall i, j :: 0 <= i < j < |top| ==> Score(top[i].0, now) >= Score(top[j].0, now))
            && (forall i :: 0 <= i < |top| ==> top[i].0 in all)
  {
    var ranked := RankItems(all, now);
    var top := PyTake(ranked, TopCount);
    TopIsPrefix(all, now, ranked, top);
  }

  /** A prefix of the ranking holds the best items, in score order. */
  lemma TopIsPrefix(all: seq<FeedItem>, now: int, ranked: seq<(FeedItem, int)>, top: seq<(FeedItem, int)>)
    requires ranked == RankItems(all, now) && |top| <= |ranked| && top == ranked[..|top|]
    ensures Sorting.TopRows(Sorting.IntKey, Sorting.Scored(all, ScoreAt(now)), top)
    ensures forall i, j :: 0 <= i < j < |top| ==> Score(top[i].0, now) >= Score(top[j].0, now)
    ensures forall i :: 0 <= i < |top| ==> top[i].0 in all
  {
    assert |ranked| == |all| by {
      assert |multiset(ranked)| == |multiset(Sorting.Scored(all, ScoreAt(now)))|;
    }
    Sorting.RankPrefixIsTop(all, ScoreAt(now), |top|);
    assert forall i :: 0 <= i < |top| ==> top[i] == ranked[i];
  }
}

=== FILE: schemas.dfy ===
/**
  The request bodies of the news endpoints and their validation: which
  fields may be left out (and what they default to), the bounds on the
  ingestion limit, the allowed source names, and the size of a ranking
  batch. A field left out of the request body is `None`.
 */
module Schemas {
  import opened Text

  const AllowedSources: set<string> := {"newsapi", "mock"}
  const DefaultSources: seq<string> := ["newsapi"]
  const DefaultLimit := 10
  const MinLimit := 1
  const MaxLimit := 100
  const MaxRankBatch := 50

  /** Why a request body is rejected. */
  datatype SchemaError =
    | InvalidSources(invalid: set<string>)
    | LimitOutOfRange(given: int)
    | MissingArticleIds
    | EmptyArticleIds
    | TooManyArticleIds(count: nat)

  /** A checked request, or every field error found. */
  datatype Validated<T> = Valid(value: T) | Invalid(errors: seq<SchemaError>)

  datatype IngestRequest = IngestRequest(sources: seq<string>, limitPerSource: int)
  datatype RankRequest = RankRequest(articleIds: seq<int>, forceRerank: bool)

  /** The names in `sources` that are not allowed (`set(v) - allowed`). */
  function UnknownSources(sources: seq<string>): (bad: set<string>)
    ensures forall s :: s in bad <==> s in sources && s !in AllowedSources
  {
    set s | s in sources && s !in AllowedSources
  }

  /** The `sources` validator; a default is not validated, and needs not be. */
  function CheckSources(sources: Option<seq<string>>): (errs: seq<SchemaError>)
    ensures errs == [] <==> sources.None? || forall s :: s in sources.value ==> s in AllowedSources
    ensures errs != [] ==> errs == [InvalidSources(UnknownSources(sources.value))]
  {
    if sources.None? then []
    else
      var bad := UnknownSources(sources.value);
      if bad == {} then [] else [InvalidSources(bad)]
  }

  /** The `ge=1, le=100` bounds of `limit_per_source`. */
  function CheckLimit(limit: Option<int>): (errs: seq<SchemaError>)
    ensures errs == [] <==> limit.None? || MinLimit <= limit.value <= MaxLimit
    ensures errs != [] ==> errs == [LimitOutOfRange(limit.value)]
  {
    if limit.Some? && !(MinLimit <= limit.value <= MaxLimit) then [LimitOutOfRange(limit.value)] else []
  }

  /** `IngestRequest(**body)`: both fields are checked and every error is
      reported. */
  function ValidateIngest(sources: Option<seq<string>>, limit: Option<int>): (r: Validated<IngestRequest>)
    ensures r.Valid? <==> (sources.None? || forall s :: s in sources.value ==> s in AllowedSources)
                          && (limit.None? || MinLimit <= limit.value <= MaxLimit)
    ensures r.Valid? ==> r.value.sources == sources.GetOr(DefaultSources)
                         && r.value.limitPerSource == limit.GetOr(DefaultLimit)
    ensures r.Invalid? ==> r.errors == CheckSources(sources) + CheckLimit(limit)
    ensures r.Valid? ==> forall s :: s in r.value.sources ==> s in AllowedSources
    ensures r.Valid? ==> MinLimit <= r.value.limitPerSource <= MaxLimit
  {
    var errs := CheckSources(sources) + CheckLimit(limit);
    if errs == [] then Valid(IngestRequest(sources.GetOr(DefaultSources), limit.GetOr(DefaultLimit)))
    else Invalid(errs)
  }

  /** An empty source list and repeated sources pass validation; only an
      unknown name is refused, and case matters. */
  lemma IngestSourceEdgeCases()
    ensures ValidateIngest(Some([]), None) == Valid(IngestRequest([], DefaultLimit))
    ensures ValidateIngest(Some(["mock", "mock"]), Some(5)) == Valid(IngestRequest(["mock", "mock"], 5))
    ensures ValidateIngest(None, None) == Valid(IngestRequest(["newsapi"], 10))
    ensures ValidateIngest(Some(["NewsAPI"]), None) == Invalid([InvalidSources({"NewsAPI"})])
  {
    assert UnknownSources(["NewsAPI"]) == {"NewsAPI"} by {
      assert "NewsAPI" != "newsapi" by { assert "NewsAPI"[0] != "newsapi"[0]; }
    }
  }

  /** A bad source list and a bad limit are both reported, sources first. */
  lemma BothErrorsReported()
    ensures ValidateIngest(Some(["rss"]), Some(0)) == Invalid([InvalidSources({"rss"}), LimitOutOfRange(0)])
  {
    assert UnknownSources(["rss"]) == {"rss"};
  }

  /** `RankRequest(**body)`; `article_ids` has no default. */
  function ValidateRank(articleIds: Option<seq<int>>, force: Option<bool>): (r: Validated<RankRequest>)
    ensures r.Valid? <==> articleIds.Some? && 1 <= |articleIds.value| <= MaxRankBatch
    ensures r.Valid? ==> r.value == RankRequest(articleIds.value, force.GetOr(false))
    ensures articleIds.None? ==> r == Invalid([MissingArticleIds])
    ensures articleIds == Some([]) ==> r == Invalid([EmptyArticleIds])
    ensures articleIds.Some? && |articleIds.value| > MaxRankBatch ==>
              r == Invalid([TooManyArticleIds(|articleIds.value|)])
  {
    match articleIds
    case None => Invalid([MissingArticleIds])
    case Some(ids) =>
      if ids == [] then Invalid([EmptyArticleIds])
      else if |ids| > MaxRankBatch then Invalid([TooManyArticleIds(|ids|)])
      else Valid(RankRequest(ids, force.GetOr(false)))
  }

  /** Repeated ids are accepted and kept; 50 ids pass and 51 do not. */
  lemma RankBatchBounds(id: int)
    ensures ValidateRank(Some([id, id]), None) == Valid(RankRequest([id, id], false))
    ensures ValidateRank(Some(seq(50, _ => id)), Some(true)).Valid?
    ensures ValidateRank(Some(seq(51, _ => id)), None) == Invalid([TooManyArticleIds(51)])
  {
  }
}

=== FILE: script_timing.dfy ===
/**
  The timed script sections both video parsers look for first: a label
  (Hook, Main, Why or CTA, in any ASCII case), optional white space, then
  `(a-b)` or `(a-bs)` and a colon; the section's text runs lazily up to the
  next label followed by optional white space and `(`, or to the end of the
  script.

  `Sections` is `re.finditer` of that pattern, with the IGNORECASE and
  DOTALL flags, written out as a scan: at each position the match is tried,
  and after a match the scan continues where it ended.
 */
module ScriptTiming {
  import opened Text

  /** The four section labels. */
  datatype Kind = Hook | Main | Why | Cta

  /** A label as the lower-cased first group spells it. */
  function Name(k: Kind): (r: string)
    ensures 3 <= |r| <= 4
    ensures forall j :: 0 <= j < |r| ==> IsAsciiLower(r[j])
  {
    match k
    case Hook => "hook"
    case Main => "main"
    case Why => "why"
    case Cta => "cta"
  }

  /** The label whose name starts with the lower-case letter `c`. */
  function KindOf(c: char): Option<Kind> {
    if c == 'h' then Some(Hook)
    else if c == 'm' then Some(Main)
    else if c == 'w' then Some(Why)
    else if c == 'c' then Some(Cta)
    else None
  }

  /** One `(label, a, b, text)` match; `text` is the stripped fourth group.
      Nothing requires `end >= start`. */
  datatype TimedSection = TimedSection(kind: Kind, start: nat, end: nat, text: string)

  /** `name` (lower case) matches case-insensitively at position `i`. */
  predicate LabelMatchesAt(s: string, i: nat, name: string) {
    i + |name| <= |s| && forall k :: 0 <= k < |name| ==> LowerChar(s[i + k]) == name[k]
  }

  /** The alternative `Hook|Main|Why|CTA` at position `i`. The four labels
      start with different letters, so the first letter picks the only one
      that can match. */
  function LabelAt(s: string, i: nat): (r: Option<Kind>)
    ensures r.Some? ==> LabelMatchesAt(s, i, Name(r.value))
  {
    if i >= |s| then None
    else
      match KindOf(LowerChar(s[i]))
      case None => None
      case Some(k) => if LabelMatchesAt(s, i, Name(k)) then Some(k) else None
  }

  /** Whichever label matches at `i` is the one `LabelAt` reports. */
  lemma LabelAtMatches(s: string, i: nat, k: Kind)
    requires LabelMatchesAt(s, i, Name(k))
    ensures LabelAt(s, i) == Some(k)
  {
    assert LowerChar(s[i + 0]) == Name(k)[0];
    assert KindOf(Name(k)[0]) == Some(k) by {
      match k
      case Hook =>
      case Main =>
      case Why =>
      case Cta =>
    }
  }

  /** Every character a label matches is a non-space. */
  lemma LabelNotSpace(s: string, i: nat, k: Kind)
    requires LabelMatchesAt(s, i, Name(k))
    ensures forall m :: i <= m < i + |Name(k)| ==> !IsSpace(s[m])
  {
    var name := Name(k);
    forall m | i <= m < i + |name| ensures !IsSpace(s[m]) {
      var j := m - i;
      assert LowerChar(s[i + j]) == name[j];
      assert IsAsciiLower(name[j]);
      LowerCharSpace(s[m]);
    }
  }

  /** `\s*` from `i`: the end of the run of white space. */
  function SpacesFrom(s: string, i: nat): (j: nat)
    requires i <= |s|
    ensures i <= j <= |s|
    ensures forall m {:trigger IsSpace(s[m])} :: i <= m < j ==> IsSpace(s[m])
    ensures j == |s| || !IsSpace(s[j])
    decreases |s| - i
  {
    if i < |s| && IsSpace(s[i]) then SpacesFrom(s, i + 1) else i
  }

  /** `\d*` from `i` (ASCII digits). */
  function DigitsFrom(s: string, i: nat): (j: nat)
    requires i <= |s|
    ensures i <= j <= |s|
    ensures forall m {:trigger IsAsciiDigit(s[m])} :: i <= m < j ==> IsAsciiDigit(s[m])
    ensures j == |s| || !IsAsciiDigit(s[j])
    decreases |s| - i
  {
    if i < |s| && IsAsciiDigit(s[i]) then DigitsFrom(s, i + 1) else i
  }

  /** The header `label \s* ( a - b s? ) :` at `i`: the label, the two
      numbers and the position after the colon. */
  datatype Header = Header(kind: Kind, start: nat, end: nat, after: nat)

  function HeaderAt(s: string, i: nat): (r: Option<Header>)
    ensures r.Some? ==> i < r.value.after <= |s| && LabelAt(s, i) == Some(r.value.kind)
  {
    match LabelAt(s, i)
    case None => None
    case Some(k) => ParenAt(s, k, SpacesFrom(s, i + |Name(k)|))
  }

  /** `\( \d+` from `a`. */
  function ParenAt(s: string, k: Kind, a: nat): (r: Option<Header>)
    requires a <= |s|
    ensures r.Some? ==> a < r.value.after <= |s| && r.value.kind == k
  {
    if a < |s| && s[a] == '(' then RangeAt(s, k, a + 1, DigitsFrom(s, a + 1)) else None
  }

  /** The first number is `s[lo..b]`; then `- \d+`. */
  function RangeAt(s: string, k: Kind, lo: nat, b: nat): (r: Option<Header>)
    requires lo <= b <= |s| && forall m :: lo <= m < b ==> IsAsciiDigit(s[m])
    ensures r.Some? ==> b < r.value.after <= |s| && r.value.kind == k
  {
    if lo < b < |s| && s[b] == '-' then CloseAt(s, k, DigitsValue(s[lo..b]), b + 1, DigitsFrom(s, b + 1))
    else None
  }

  /** The second number is `s[lo..c]`; then `s? \) :`. */
  function CloseAt(s: string, k: Kind, start: nat, lo: nat, c: nat): (r: Option<Header>)
    requires lo <= c <= |s| && forall m :: lo <= m < c ==> IsAsciiDigit(s[m])
    ensures r.Some? ==> c < r.value.after <= |s| && r.value.kind == k
  {
    if c == lo then None
    else
      var d := if c < |s| && (s[c] == 's' || s[c] == 'S') then c + 1 else c;
      if d + 1 < |s| && s[d] == ')' && s[d + 1] == ':' then Some(Header(k, start, DigitsValue(s[lo..c]), d + 2))
      else None
  }

  /** The lookahead `(?:Hook|Main|Why|CTA)\s*\(` at `e`. */
  predicate NextLabelAt(s: string, e: nat) {
    e <= |s| &&
    match LabelAt(s, e)
    case None => false
    case Some(k) =>
      var j := SpacesFrom(s, e + |Name(k)|);
      j < |s| && s[j] == '('
  }

  /** The least `e' >= e` where the lookahead or the end of the text holds. */
  function FirstStop(s: string, e: nat): (r: nat)
    requires e <= |s|
    ensures e <= r <= |s|
    ensures r == |s| || NextLabelAt(s, r)
    ensures forall m :: e <= m < r ==> !NextLabelAt(s, m)
    decreases |s| - e
  {
    if e == |s| || NextLabelAt(s, e) then e else FirstStop(s, e + 1)
  }

  /** `\s*(.+?)` followed by the lookahead, from position `p`: the bounds of
      the fourth group. When only white space is left, `\s*` gives one
      character back to the group. */
  function BodyAt(s: string, p: nat): (r: Option<(nat, nat)>)
    requires p <= |s|
    ensures r.Some? ==> p <= r.value.0 < r.value.1 <= |s|
    ensures r.None? <==> p == |s|
  {
    var q := SpacesFrom(s, p);
    if q < |s| then Some((q, FirstStop(s, q + 1)))
    else if q > p then Some((q - 1, q))
    else None
  }

  /** No white space at either end. */
  predicate Trimmed(t: string) {
    t == [] || (!IsSpace(t[0]) && !IsSpace(t[|t| - 1]))
  }

  /** The match attempted at position `i`, with the position it ends at. */
  function MatchAt(s: string, i: nat): (r: Option<(TimedSection, nat)>)
    ensures r.Some? ==> i < r.value.1 <= |s| && Trimmed(r.value.0.text)
  {
    match HeaderAt(s, i)
    case None => None
    case Some(h) =>
      match BodyAt(s, h.after)
      case None => None
      case Some((q, e)) => Some((TimedSection(h.kind, h.start, h.end, Strip(s[q..e])), e))
  }

  /** `re.finditer` from position `pos`. Every match uses up at least one
      character. */
  function Scan(s: string, pos: nat): (r: seq<TimedSection>)
    requires pos <= |s|
    ensures |r| <= |s| - pos
    ensures AllTrimmed(r)
    decreases |s| - pos, 1
  {
    if pos == |s| then [] else ScanAt(s, pos)
  }

  /** The scan once a match is attempted at `pos`: on success the search
      goes on where the match ended, otherwise one character further. */
  function ScanAt(s: string, pos: nat): (r: seq<TimedSection>)
    requires pos < |s|
    ensures |r| <= |s| - pos
    ensures AllTrimmed(r)
    decreases |s| - pos, 0
  {
    match MatchAt(s, pos)
    case Some((sec, e)) => TrimmedCons(sec, Scan(s, e)); [sec] + Scan(s, e)
    case None => Scan(s, pos + 1)
  }

  function Sections(script: string): (r: seq<TimedSection>)
    ensures |r| <= |script|
  {
    Scan(script, 0)
  }

  /** Every section's text is stripped. */
  predicate AllTrimmed(secs: seq<TimedSection>) {
    forall k :: 0 <= k < |secs| ==> Trimmed(secs[k].text)
  }

  lemma TrimmedCons(sec: TimedSection, rest: seq<TimedSection>)
    requires Trimmed(sec.text) && AllTrimmed(rest)
    ensures AllTrimmed([sec] + rest)
  {
    assert forall k :: 1 <= k < |rest| + 1 ==> ([sec] + rest)[k] == rest[k - 1];
  }

  /** A match at `i` is the first section found from `i`. */
  lemma ScanStep(s: string, i: nat, sec: TimedSection, e: nat)
    requires i < |s| && MatchAt(s, i) == Some((sec, e))
    ensures Scan(s, i) == [sec] + Scan(s, e)
  {
    assert Scan(s, i) == ScanAt(s, i);
  }

  /** Without a match at `i` the search moves one character on. */
  lemma ScanMiss(s: string, i: nat)
    requires i < |s| && MatchAt(s, i).None?
    ensures Scan(s, i) == Scan(s, i + 1)
  {
    assert Scan(s, i) == ScanAt(s, i);
  }

  // ------------------------------------------------------------- round trip

  /** The script line a section is written as: `label (a-bs): text`. */
  function Render(sec: TimedSection): string {
    Name(sec.kind) + " (" + NatToString(sec.start) + "-" + NatToString(sec.end) + "s): " + sec.text
  }

  /** Sections written one after another, separated by single spaces. */
  function RenderAll(secs: seq<TimedSection>): string {
    if secs == [] then "" else Render(secs[0]) + (Gap(secs[1..]) + RenderAll(secs[1..]))
  }

  /** The space written before the sections that follow, if any do. */
  function Gap(rest: seq<TimedSection>): string {
    if rest == [] then "" else " "
  }

  /** A section that reads back as itself: non-empty, stripped text with no
      `(` in it. */
  predicate Renderable(sec: TimedSection) {
    sec.text != [] && Trimmed(sec.text) && '(' !in sec.text
  }

  /** Writing sections out and scanning them gives the sections back. */
  lemma {:induction false} SectionsOfRendered(secs: seq<TimedSection>)
    requires forall k :: 0 <= k < |secs| ==> Renderable(secs[k])
    ensures Sections(RenderAll(secs)) == secs
  {
    assert RenderAll(secs) == [] + RenderAll(secs);
    ScanRendered(RenderAll(secs), [], secs);
  }

  /** Scanning a script made of `pre` and then written sections, from the
      end of `pre`, finds the sections. */
  lemma {:induction false} ScanRendered(s: string, pre: string, secs: seq<TimedSection>)
    requires forall k :: 0 <= k < |secs| ==> Renderable(secs[k])
    requires s == pre + RenderAll(secs)
    ensures |pre| <= |s| && Scan(s, |pre|) == secs
    decreases |secs|
  {
    if secs != [] {
      ScanFirstRest(s, pre, secs[0], secs[1..]);
      Regroup(pre, Render(secs[0]), Gap(secs[1..]), RenderAll(secs[1..]));
      ScanRendered(s, pre + Render(secs[0]) + Gap(secs[1..]), secs[1..]);
      ScanCons(s, |pre|, |pre + Render(secs[0]) + Gap(secs[1..])|, secs);
    }
  }

  lemma Regroup(p: string, a: string, b: string, c: string)
    ensures p + (a + (b + c)) == p + a + b + c
  {
  }

  lemma ScanCons(s: string, i: nat, j: nat, secs: seq<TimedSection>)
    requires i <= j <= |s| && secs != []
    requires Scan(s, i) == [secs[0]] + Scan(s, j) && Scan(s, j) == secs[1..]
    ensures Scan(s, i) == secs
  {
    assert secs == [secs[0]] + secs[1..];
  }

  /** A script that spells `P + (A + (B + C))` holds `A` after `P`, and
      `B + C` after that. */
  lemma PrefixSplit(s: string, P: string, A: string, B: string, C: string)
    requires s == P + (A + (B + C))
    ensures |P| + |A| + |B| <= |s|
    ensures s[|P|..|P| + |A|] == A
    ensures s[|P| + |A|..] == B + C
  {
    assert s[|P|..|P| + |A|] == (A + (B + C))[..|A|];
    assert s[|P| + |A|..] == (A + (B + C))[|A|..];
  }

  /** The first written section is found first, and the scan goes on where
      the remaining ones start. */
  lemma ScanFirstRest(s: string, pre: string, sec: TimedSection, rest: seq<TimedSection>)
    requires Renderable(sec)
    requires s == pre + (Render(sec) + (Gap(rest) + RenderAll(rest)))
    ensures |pre| < |pre + Render(sec) + Gap(rest)| <= |s|
    ensures Scan(s, |pre|) == [sec] + Scan(s, |pre + Render(sec) + Gap(rest)|)
  {
    PrefixSplit(s, pre, Render(sec), Gap(rest), RenderAll(rest));
    AfterText(s, |pre| + |Render(sec)|, rest);
    ScanFirst(s, |pre|, |pre| + |Render(sec)|, |pre| + |Render(sec)| + |Gap(rest)|, sec);
    assert |pre + Render(sec) + Gap(rest)| == |pre| + |Render(sec)| + |Gap(rest)|;
  }

  /** Scanning from a written section finds it first. */
  lemma ScanFirst(s: string, i: nat, r: nat, e: nat, sec: TimedSection)
    requires Renderable(sec)
    requires r == i + |Render(sec)| && r <= |s| && s[i..r] == Render(sec)
    requires TextEnds(s, r, e)
    ensures i < e <= |s| && Scan(s, i) == [sec] + Scan(s, e)
  {
    MatchRendered(s, i, r, e, sec);
    ScanStep(s, i, sec, e);
  }

  /** A rendered run of sections opens with the first one's label and
      ` (`. */
  lemma RenderedStart(secs: seq<TimedSection>)
    requires secs != []
    ensures |RenderAll(secs)| >= |Name(secs[0].kind)| + 2
    ensures forall j :: 0 <= j < |Name(secs[0].kind)| ==> RenderAll(secs)[j] == Name(secs[0].kind)[j]
    ensures RenderAll(secs)[|Name(secs[0].kind)|] == ' ' && RenderAll(secs)[|Name(secs[0].kind)| + 1] == '('
  {
    RenderSplit(secs[0]);
    HeaderOfAt(Name(secs[0].kind), NatToString(secs[0].start), NatToString(secs[0].end));
    PrefixChars(HeaderText(secs[0]), secs[0].text, Gap(secs[1..]) + RenderAll(secs[1..]), |Name(secs[0].kind)| + 2);
  }

  /** The first characters of `h + x + y`, for a prefix shorter than `h`. */
  lemma PrefixChars(h: string, x: string, y: string, k: nat)
    requires k <= |h|
    ensures forall j :: 0 <= j < k ==> (h + x + y)[j] == h[j]
  {
  }

  /** The header a section is written with. */
  function HeaderText(sec: TimedSection): string {
    HeaderOf(Name(sec.kind), NatToString(sec.start), NatToString(sec.end))
  }

  function HeaderOf(name: string, d1: string, d2: string): string {
    name + " (" + d1 + "-" + d2 + "s): "
  }

  predicate AllDigits(d: string) {
    d != [] && forall k :: 0 <= k < |d| ==> IsAsciiDigit(d[k])
  }

  /** A written header reads back as the section's label and numbers, and
      the match goes on after its colon. */
  lemma HeaderRendered(s: string, i: nat, sec: TimedSection, q: nat)
    requires q == i + |HeaderText(sec)| && q <= |s| && Spells(s, i, HeaderText(sec))
    ensures HeaderAt(s, i) == Some(Header(sec.kind, sec.start, sec.end, q - 1))
  {
    DigitsOfNat(sec.start);
    DigitsOfNat(sec.end);
    HeaderReadBack(s, i, sec.kind, NatToString(sec.start), NatToString(sec.end),
      Header(sec.kind, sec.start, sec.end, q - 1));
  }

  /** A header spelled with any two digit strings reads back as their
      values. */
  lemma HeaderReadBack(s: string, i: nat, k: Kind, d1: string, d2: string, hd: Header)
    requires AllDigits(d1) && AllDigits(d2)
    requires i + |HeaderOf(Name(k), d1, d2)| <= |s| && Spells(s, i, HeaderOf(Name(k), d1, d2))
    requires hd == Header(k, DigitsValue(d1), DigitsValue(d2), i + |HeaderOf(Name(k), d1, d2)| - 1)
    ensures HeaderAt(s, i) == Some(hd)
  {
    HeaderSpelled(s, i, Name(k), d1, d2, i + |Name(k)| + 1, i + |Name(k)| + 2 + |d1|, i + |Name(k)| + 3 + |d1| + |d2|);
    HeaderChars(s, i, k, d1, d2, i + |Name(k)| + 1, i + |Name(k)| + 2 + |d1|, i + |Name(k)| + 3 + |d1| + |d2|, hd);
  }

  /** The characters of a written header, read off the slice holding it. */
  lemma HeaderSpelled(s: string, i: nat, n: string, d1: string, d2: string, a: nat, b: nat, c: nat)
    requires AllDigits(d1) && AllDigits(d2)
    requires a == i + |n| + 1 && b == a + 1 + |d1| && c == b + 1 + |d2|
    requires i + |HeaderOf(n, d1, d2)| <= |s| && Spells(s, i, HeaderOf(n, d1, d2))
    ensures |HeaderOf(n, d1, d2)| == |n| + |d1| + |d2| + 7
    ensures a + 1 < b && b + 1 < c && c + 2 < |s|
    ensures forall j :: 0 <= j < |n| ==> s[i + j] == n[j]
    ensures s[a - 1] == ' ' && s[a] == '(' && s[b] == '-' && s[c] == 's' && s[c + 1] == ')' && s[c + 2] == ':'
    ensures forall m :: a + 1 <= m < b ==> IsAsciiDigit(s[m])
    ensures forall m :: b + 1 <= m < c ==> IsAsciiDigit(s[m])
    ensures s[a + 1..b] == d1 && s[b + 1..c] == d2
  {
    HeaderOfAt(n, d1, d2);
    SpellsChars(s, i, HeaderOf(n, d1, d2));
    HeaderMarks(s, i, n, d1, d2, HeaderOf(n, d1, d2));
    HeaderNumbers(s, i, n, d1, d2, HeaderOf(n, d1, d2));
  }

  /** The label and the punctuation of a header spelled at `i`. */
  lemma HeaderMarks(s: string, i: nat, n: string, d1: string, d2: string, h: string)
    requires |h| == |n| + |d1| + |d2| + 7 && i + |h| <= |s|
    requires forall j :: 0 <= j < |h| ==> s[i + j] == h[j]
    requires forall j :: 0 <= j < |n| ==> h[j] == n[j]
    requires h[|n|] == ' ' && h[|n| + 1] == '(' && h[|n| + 2 + |d1|] == '-'
    requires h[|n| + 3 + |d1| + |d2|] == 's' && h[|n| + 4 + |d1| + |d2|] == ')' && h[|n| + 5 + |d1| + |d2|] == ':'
    ensures forall j :: 0 <= j < |n| ==> s[i + j] == n[j]
    ensures s[i + |n|] == ' ' && s[i + |n| + 1] == '(' && s[i + |n| + 2 + |d1|] == '-'
    ensures s[i + |n| + 3 + |d1| + |d2|] == 's' && s[i + |n| + 4 + |d1| + |d2|] == ')'
    ensures s[i + |n| + 5 + |d1| + |d2|] == ':'
  {
    assert s[i + |n|] == h[|n|];
    assert s[i + (|n| + 1)] == h[|n| + 1];
    assert s[i + (|n| + 2 + |d1|)] == h[|n| + 2 + |d1|];
    assert s[i + (|n| + 3 + |d1| + |d2|)] == h[|n| + 3 + |d1| + |d2|];
    assert s[i + (|n| + 4 + |d1| + |d2|)] == h[|n| + 4 + |d1| + |d2|];
    assert s[i + (|n| + 5 + |d1| + |d2|)] == h[|n| + 5 + |d1| + |d2|];
  }

  /** The two numbers of a header spelled at `i`. */
  lemma HeaderNumbers(s: string, i: nat, n: string, d1: string, d2: string, h: string)
    requires AllDigits(d1) && AllDigits(d2)
    requires |h| == |n| + |d1| + |d2| + 7 && i + |h| <= |s|
    requires forall j :: 0 <= j < |h| ==> s[i + j] == h[j]
    requires forall j :: 0 <= j < |d1| ==> h[|n| + 2 + j] == d1[j]
    requires forall j :: 0 <= j < |d2| ==> h[|n| + 3 + |d1| + j] == d2[j]
    ensures s[i + |n| + 2..i + |n| + 2 + |d1|] == d1
    ensures s[i + |n| + 3 + |d1|..i + |n| + 3 + |d1| + |d2|] == d2
    ensures forall m :: i + |n| + 2 <= m < i + |n| + 2 + |d1| ==> IsAsciiDigit(s[m])
    ensures forall m :: i + |n| + 3 + |d1| <= m < i + |n| + 3 + |d1| + |d2| ==> IsAsciiDigit(s[m])
  {
    forall j | 0 <= j < |d1| ensures s[i + |n| + 2 + j] == d1[j] {
      assert s[i + (|n| + 2 + j)] == h[|n| + 2 + j];
    }
    forall j | 0 <= j < |d2| ensures s[i + |n| + 3 + |d1| + j] == d2[j] {
      assert s[i + (|n| + 3 + |d1| + j)] == h[|n| + 3 + |d1| + j];
    }
    CharsSlice(s, i + |n| + 2, d1);
    CharsSlice(s, i + |n| + 3 + |d1|, d2);
    SliceDigits(s, i + |n| + 2, d1);
    SliceDigits(s, i + |n| + 3 + |d1|, d2);
  }

  /** Where each piece of a header sits in its text. */
  lemma HeaderOfAt(n: string, d1: string, d2: string)
    ensures |HeaderOf(n, d1, d2)| == |n| + |d1| + |d2| + 7
    ensures forall j :: 0 <= j < |n| ==> HeaderOf(n, d1, d2)[j] == n[j]
    ensures HeaderOf(n, d1, d2)[|n|] == ' ' && HeaderOf(n, d1, d2)[|n| + 1] == '('
    ensures forall j :: 0 <= j < |d1| ==> HeaderOf(n, d1, d2)[|n| + 2 + j] == d1[j]
    ensures HeaderOf(n, d1, d2)[|n| + 2 + |d1|] == '-'
    ensures forall j :: 0 <= j < |d2| ==> HeaderOf(n, d1, d2)[|n| + 3 + |d1| + j] == d2[j]
    ensures HeaderOf(n, d1, d2)[|n| + 3 + |d1| + |d2|] == 's'
    ensures HeaderOf(n, d1, d2)[|n| + 4 + |d1| + |d2|] == ')'
    ensures HeaderOf(n, d1, d2)[|n| + 5 + |d1| + |d2|] == ':'
  {
  }

  /** A slice agreeing with `w` character by character spells `w`. */
  lemma CharsSlice(s: string, x: nat, w: string)
    requires x + |w| <= |s| && forall j :: 0 <= j < |w| ==> s[x + j] == w[j]
    ensures s[x..x + |w|] == w
  {
    forall j | 0 <= j < |w| ensures s[x..x + |w|][j] == w[j] {
      assert s[x..x + |w|][j] == s[x + j];
    }
  }

  /** `s` spells `w` from position `i` on. */
  predicate Spells(s: string, i: nat, w: string)
    decreases |w|
  {
    if |w| == 0 then i <= |s| else i < |s| && s[i] == w[0] && Spells(s, i + 1, w[1..])
  }

  lemma {:induction false} SliceSpells(s: string, i: nat, w: string)
    requires i + |w| <= |s| && s[i..i + |w|] == w
    ensures Spells(s, i, w)
    decreases |w|
  {
    if |w| > 0 {
      assert s[i] == s[i..i + |w|][0];
      assert s[i + 1..i + 1 + |w[1..]|] == s[i..i + |w|][1..];
      SliceSpells(s, i + 1, w[1..]);
    }
  }

  lemma {:induction false} SpellsChars(s: string, i: nat, w: string)
    requires Spells(s, i, w)
    ensures i + |w| <= |s|
    ensures forall j :: 0 <= j < |w| ==> s[i + j] == w[j]
    decreases |w|
  {
    if |w| > 0 {
      SpellsChars(s, i + 1, w[1..]);
      assert forall j :: 1 <= j < |w| ==> s[i + j] == s[(i + 1) + (j - 1)] && w[j] == w[1..][j - 1];
    }
  }

  lemma SliceChars(s: string, x: nat, w: string)
    requires x + |w| <= |s| && s[x..x + |w|] == w
    ensures forall k :: 0 <= k < |w| ==> s[x + k] == w[k]
  {
    forall k | 0 <= k < |w| ensures s[x + k] == w[k] {
      assert s[x + k] == s[x..x + |w|][k];
    }
  }

  lemma SliceDigits(s: string, x: nat, d: string)
    requires AllDigits(d) && x + |d| <= |s| && s[x..x + |d|] == d
    ensures forall m :: x <= m < x + |d| ==> IsAsciiDigit(s[m])
  {
    forall m | x <= m < x + |d| ensures IsAsciiDigit(s[m]) {
      assert s[m] == s[x..x + |d|][m - x];
    }
  }

  /** A slice that spells `A + B` splits into a slice spelling `A` and one
      spelling `B`. */
  lemma SliceSplit(s: string, x: nat, y: nat, A: string, B: string)
    requires x <= y <= |s| && s[x..y] == A + B
    ensures x + |A| <= y && s[x..x + |A|] == A && s[x + |A|..y] == B
  {
    assert s[x..x + |A|] == s[x..y][..|A|];
    assert s[x + |A|..y] == s[x..y][|A|..];
  }

  /** The header read from its characters: a label, one space, `(`, two
      digit runs around `-`, and `s):`. */
  lemma HeaderChars(s: string, i: nat, k: Kind, d1: string, d2: string, a: nat, b: nat, c: nat, hd: Header)
    requires a == i + |Name(k)| + 1 && a + 1 < b && b + 1 < c && c + 2 < |s|
    requires forall j :: 0 <= j < |Name(k)| ==> s[i + j] == Name(k)[j]
    requires s[a - 1] == ' ' && s[a] == '(' && s[b] == '-' && s[c] == 's' && s[c + 1] == ')' && s[c + 2] == ':'
    requires forall m :: a + 1 <= m < b ==> IsAsciiDigit(s[m])
    requires forall m :: b + 1 <= m < c ==> IsAsciiDigit(s[m])
    requires AllDigits(d1) && AllDigits(d2) && s[a + 1..b] == d1 && s[b + 1..c] == d2
    requires hd == Header(k, DigitsValue(d1), DigitsValue(d2), c + 3)
    ensures HeaderAt(s, i) == Some(hd)
  {
    LabelStep(s, i, k);
    RangeStep(s, k, a, b, c, d1, d2);
    ParenStep(s, k, a, b, Header(k, DigitsValue(d1), DigitsValue(d2), c + 3));
    HeaderStep(s, i, k, a, Some(Header(k, DigitsValue(d1), DigitsValue(d2), c + 3)));
  }

  /** The label and the single space after it. */
  lemma LabelStep(s: string, i: nat, k: Kind)
    requires i + |Name(k)| + 1 < |s|
    requires forall j :: 0 <= j < |Name(k)| ==> s[i + j] == Name(k)[j]
    requires s[i + |Name(k)|] == ' ' && s[i + |Name(k)| + 1] == '('
    ensures LabelAt(s, i) == Some(k) && SpacesFrom(s, i + |Name(k)|) == i + |Name(k)| + 1
  {
    LabelAtExact(s, i, k);
    assert SpacesFrom(s, i + |Name(k)| + 1) == i + |Name(k)| + 1;
  }

  /** The two numbers and the closing `s):`. */
  lemma RangeStep(s: string, k: Kind, a: nat, b: nat, c: nat, d1: string, d2: string)
    requires a + 1 < b && b + 1 < c && c + 2 < |s|
    requires forall m :: a + 1 <= m < b ==> IsAsciiDigit(s[m])
    requires forall m :: b + 1 <= m < c ==> IsAsciiDigit(s[m])
    requires s[b] == '-' && s[c] == 's' && s[c + 1] == ')' && s[c + 2] == ':'
    requires AllDigits(d1) && AllDigits(d2) && s[a + 1..b] == d1 && s[b + 1..c] == d2
    ensures DigitsFrom(s, a + 1) == b
    ensures RangeAt(s, k, a + 1, b) == Some(Header(k, DigitsValue(d1), DigitsValue(d2), c + 3))
  {
    DigitsRun(s, a + 1, b);
    DigitsRun(s, b + 1, c);
  }

  lemma ParenStep(s: string, k: Kind, a: nat, b: nat, hd: Header)
    requires a < |s| && s[a] == '(' && DigitsFrom(s, a + 1) == b && RangeAt(s, k, a + 1, b) == Some(hd)
    ensures ParenAt(s, k, a) == Some(hd)
  {
  }

  lemma HeaderStep(s: string, i: nat, k: Kind, a: nat, x: Option<Header>)
    requires i + |Name(k)| <= a <= |s| && LabelAt(s, i) == Some(k) && SpacesFrom(s, i + |Name(k)|) == a
    requires ParenAt(s, k, a) == x
    ensures HeaderAt(s, i) == x
  {
  }

  /** A label written in lower case is read as itself. */
  lemma LabelAtExact(s: string, i: nat, k: Kind)
    requires i + |Name(k)| <= |s|
    requires forall j :: 0 <= j < |Name(k)| ==> s[i + j] == Name(k)[j]
    ensures LabelAt(s, i) == Some(k)
  {
    var n := Name(k);
    forall j | 0 <= j < |n| ensures LowerChar(s[i + j]) == n[j] {
      assert IsAsciiLower(n[j]);
    }
    LabelAtMatches(s, i, k);
  }

  /** What follows a written section's text at `t`, with `e` the end of
      the group: either the end of the script, or one space and the next
      section's label, which the lookahead finds. */
  predicate TextEnds(s: string, t: nat, e: nat) {
    || (e == t == |s|)
    || NextAfterSpace(s, t, e)
  }

  /** One space at `t`, then at `e` a label the lookahead finds. */
  predicate NextAfterSpace(s: string, t: nat, e: nat) {
    e == t + 1 < |s| && s[t] == ' ' && IsAsciiLower(s[e]) && NextLabelAt(s, e)
  }

  /** After the colon of a written section: one space, then the text. The
      group is the text, with the separating space when one follows. */
  lemma BodyRendered(s: string, p: nat, q: nat, t: nat, text: string, e: nat)
    requires text != [] && Trimmed(text) && '(' !in text
    requires q == p + 1 && t == q + |text| && t <= |s|
    requires s[p] == ' ' && s[q..t] == text
    requires TextEnds(s, t, e)
    ensures BodyAt(s, p) == Some((q, e))
  {
    assert s[q] == s[q..t][0];
    GroupEnd(s, q, text, e);
    BodyStep(s, p, e);
  }

  /** The lazy group ends where `TextEnds` says. */
  lemma GroupEnd(s: string, q: nat, text: string, e: nat)
    requires text != [] && '(' !in text && !IsSpace(text[|text| - 1])
    requires q + |text| <= |s| && s[q..q + |text|] == text
    requires TextEnds(s, q + |text|, e)
    ensures FirstStop(s, q + 1) == e
  {
    NoStopInText(s, q, text, e);
    StopAfterText(s, q + |text|, e);
    StopsSkip(s, q + 1, q + |text|);
  }

  /** One space after the colon, then a non-space: the group starts after
      the space. */
  lemma BodyStep(s: string, p: nat, e: nat)
    requires p + 1 < |s| && s[p] == ' ' && !IsSpace(s[p + 1])
    requires FirstStop(s, p + 2) == e
    ensures BodyAt(s, p) == Some((p + 1, e))
  {
    assert SpacesFrom(s, p + 1) == p + 1;
  }

  /** Stripped, the group is the text again. */
  lemma GroupStripped(s: string, q: nat, t: nat, text: string, e: nat)
    requires text != [] && Trimmed(text)
    requires q <= t <= |s| && s[q..t] == text
    requires TextEnds(s, t, e)
    ensures Strip(s[q..e]) == text
  {
    if e == t {
      StripNoSpaceEdges(text);
    } else {
      SliceThenSpace(s, q, t, text);
      StripTrailingSpace(text);
    }
  }

  /** The lookahead search from the end of a text stops where `TextEnds`
      says: at the end of the script, or just past the separating space,
      since a space is never where the lookahead holds. */
  lemma StopAfterText(s: string, t: nat, e: nat)
    requires TextEnds(s, t, e)
    ensures FirstStop(s, t) == e
  {
    if e != t {
      assert NextAfterSpace(s, t, e);
      NoLabelAtSpace(s, t);
    }
  }

  lemma SliceThenSpace(s: string, q: nat, t: nat, text: string)
    requires q <= t < |s| && s[q..t] == text && s[t] == ' '
    ensures s[q..t + 1] == text + " "
  {
    assert s[q..t + 1] == s[q..t] + [s[t]];
  }

  /** The text of a written section is followed by `Gap(rest)` and the
      remaining sections. */
  lemma AfterText(s: string, t: nat, rest: seq<TimedSection>)
    requires t <= |s| && s[t..] == Gap(rest) + RenderAll(rest)
    ensures TextEnds(s, t, t + |Gap(rest)|)
  {
    if rest != [] {
      SuffixSplit(s, t, Gap(rest), RenderAll(rest));
      assert s[t] == s[t..t + |Gap(rest)|][0];
      NextSectionStops(s, t + |Gap(rest)|, rest);
    } else {
      assert |s[t..]| == 0;
    }
  }

  /** The match at a written section: its header, and a body that stops at
      the next section's label (or at the end). */
  lemma MatchRendered(s: string, i: nat, r: nat, e: nat, sec: TimedSection)
    requires Renderable(sec)
    requires r == i + |Render(sec)| && r <= |s| && s[i..r] == Render(sec)
    requires TextEnds(s, r, e)
    ensures MatchAt(s, i) == Some((sec, e))
  {
    RenderedSlice(s, i, r, sec);
    MatchParts(s, i, r, e, sec, i + |HeaderText(sec)|);
  }

  /** The same, from the header's slice and the text's slice. */
  lemma MatchParts(s: string, i: nat, r: nat, e: nat, sec: TimedSection, q: nat)
    requires Renderable(sec)
    requires q == i + |HeaderText(sec)| && |HeaderText(sec)| >= 8 && r == q + |sec.text| && r <= |s|
    requires Spells(s, i, HeaderText(sec))
    requires s[q - 1] == ' '
    requires s[q..r] == sec.text
    requires TextEnds(s, r, e)
    ensures MatchAt(s, i) == Some((sec, e))
  {
    var p := q - 1;
    assert HeaderAt(s, i) == Some(Header(sec.kind, sec.start, sec.end, p)) by {
      HeaderRendered(s, i, sec, q);
    }
    MatchAfterHeader(s, i, sec.kind, sec.start, sec.end, p, q, r, e, sec.text);
  }

  /** The match once the header is known to be read: the group runs from
      after the space to the end `TextEnds` gives. */
  lemma MatchAfterHeader(s: string, i: nat, k: Kind, a: nat, b: nat, p: nat, q: nat, t: nat, e: nat, text: string)
    requires HeaderAt(s, i) == Some(Header(k, a, b, p))
    requires text != [] && Trimmed(text) && '(' !in text
    requires q == p + 1 && t == q + |text| && t <= |s|
    requires s[p] == ' ' && s[q..t] == text
    requires TextEnds(s, t, e)
    ensures MatchAt(s, i) == Some((TimedSection(k, a, b, text), e))
  {
    BodyRendered(s, p, q, t, text, e);
    GroupStripped(s, q, t, text, e);
    MatchStep(s, i, k, a, b, p, q, e, text);
  }

  /** The slice holding a written section holds its header, ending in a
      space, and then its text. */
  lemma RenderedSlice(s: string, i: nat, r: nat, sec: TimedSection)
    requires i <= r <= |s| && s[i..r] == Render(sec)
    ensures |HeaderText(sec)| >= 8 && r == i + |HeaderText(sec)| + |sec.text|
    ensures Spells(s, i, HeaderText(sec))
    ensures s[i + |HeaderText(sec)|..r] == sec.text
    ensures s[i + |HeaderText(sec)| - 1] == ' '
  {
    RenderSplit(sec);
    SliceSplit(s, i, r, HeaderText(sec), sec.text);
    assert s[i + |HeaderText(sec)| - 1] == s[i..i + |HeaderText(sec)|][|HeaderText(sec)| - 1];
    SliceSpells(s, i, HeaderText(sec));
  }

  /** A written section is its header followed by its text; the header
      ends with the space after the colon. */
  lemma RenderSplit(sec: TimedSection)
    ensures Render(sec) == HeaderText(sec) + sec.text
    ensures |HeaderText(sec)| >= 8 && HeaderText(sec)[|HeaderText(sec)| - 1] == ' '
  {
  }

  /** A suffix that spells `A + B` splits into `A` and a suffix spelling `B`. */
  lemma SuffixSplit(s: string, x: nat, A: string, B: string)
    requires x <= |s| && s[x..] == A + B
    ensures x + |A| <= |s| && s[x..x + |A|] == A && s[x + |A|..] == B
  {
    assert s[x..x + |A|] == s[x..][..|A|];
    assert s[x + |A|..] == s[x..][|A|..];
  }

  /** The match assembled from a header and the group after it. */
  lemma MatchStep(s: string, i: nat, k: Kind, a: nat, b: nat, p: nat, q: nat, e: nat, text: string)
    requires HeaderAt(s, i) == Some(Header(k, a, b, p)) && p <= q <= e <= |s|
    requires BodyAt(s, p) == Some((q, e)) && Strip(s[q..e]) == text
    ensures MatchAt(s, i) == Some((TimedSection(k, a, b, text), e))
  {
  }

  /** A run of digits that ends at a non-digit is what `\d*` reads. */
  lemma DigitsRun(s: string, lo: nat, hi: nat)
    requires lo <= hi < |s| && !IsAsciiDigit(s[hi])
    requires forall m :: lo <= m < hi ==> IsAsciiDigit(s[m])
    ensures DigitsFrom(s, lo) == hi
    decreases hi - lo
  {
    if lo < hi {
      DigitsRun(s, lo + 1, hi);
    }
  }

  lemma NoLabelAtSpace(s: string, e: nat)
    requires e < |s| && IsSpace(s[e])
    ensures LabelAt(s, e).None?
  {
    LowerCharSpace(s[e]);
  }

  /** `FirstStop` passes over positions where nothing stops it. */
  lemma {:induction false} StopsSkip(s: string, lo: nat, hi: nat)
    requires lo <= hi <= |s|
    requires forall m :: lo <= m < hi ==> !NextLabelAt(s, m)
    ensures FirstStop(s, lo) == FirstStop(s, hi)
    decreases hi - lo
  {
    if lo < hi {
      StopsSkip(s, lo + 1, hi);
    }
  }

  /** The next written section's label is followed by ` (`, so the
      lookahead holds there. */
  lemma NextSectionStops(s: string, e: nat, rest: seq<TimedSection>)
    requires rest != []
    requires e <= |s| && s[e..] == RenderAll(rest)
    ensures NextLabelAt(s, e) && e < |s| && IsAsciiLower(s[e])
  {
    NextSectionChars(s, e, rest);
    LabelThenParen(s, e, rest[0].kind);
  }

  /** The characters a written run of sections starts with. */
  lemma NextSectionChars(s: string, e: nat, rest: seq<TimedSection>)
    requires rest != []
    requires e <= |s| && s[e..] == RenderAll(rest)
    ensures e + |Name(rest[0].kind)| + 2 <= |s|
    ensures forall j :: 0 <= j < |Name(rest[0].kind)| ==> s[e + j] == Name(rest[0].kind)[j]
    ensures s[e + |Name(rest[0].kind)|] == ' ' && s[e + |Name(rest[0].kind)| + 1] == '('
  {
    RenderedStart(rest);
    SuffixChars(s, e, RenderAll(rest));
    LabelChars(s, e, RenderAll(rest), Name(rest[0].kind));
  }

  /** A suffix that spells `w`, character by character. */
  lemma SuffixChars(s: string, e: nat, w: string)
    requires e <= |s| && s[e..] == w
    ensures |s| == e + |w|
    ensures forall j :: 0 <= j < |w| ==> s[e + j] == w[j]
  {
    forall j | 0 <= j < |w| ensures s[e + j] == w[j] {
      assert s[e + j] == s[e..][j];
    }
  }

  /** Characters that spell a label and ` (`. */
  lemma LabelChars(s: string, e: nat, w: string, n: string)
    requires |w| >= |n| + 2 && e + |w| <= |s|
    requires forall j :: 0 <= j < |w| ==> s[e + j] == w[j]
    requires forall j :: 0 <= j < |n| ==> w[j] == n[j]
    requires w[|n|] == ' ' && w[|n| + 1] == '('
    ensures e + |n| + 2 <= |s|
    ensures forall j :: 0 <= j < |n| ==> s[e + j] == n[j]
    ensures s[e + |n|] == ' ' && s[e + |n| + 1] == '('
  {
    assert s[e + (|n| + 1)] == w[|n| + 1];
  }

  /** A label followed by ` (` satisfies the lookahead. */
  lemma LabelThenParen(s: string, e: nat, k: Kind)
    requires e + |Name(k)| + 2 <= |s|
    requires forall j :: 0 <= j < |Name(k)| ==> s[e + j] == Name(k)[j]
    requires s[e + |Name(k)|] == ' ' && s[e + |Name(k)| + 1] == '('
    ensures NextLabelAt(s, e) && e < |s| && IsAsciiLower(s[e])
  {
    LabelStep(s, e, k);
    assert s[e + 0] == Name(k)[0];
  }

  /** Inside a section's text the lookahead never holds: a label there is
      followed, after any white space, by a text character or the next
      section's label, and neither is `(`. */
  lemma NoStopInText(s: string, q: nat, text: string, e: nat)
    requires text != [] && '(' !in text && !IsSpace(text[|text| - 1])
    requires q + |text| <= |s| && s[q..q + |text|] == text
    requires TextEnds(s, q + |text|, e)
    ensures forall m :: q + 1 <= m < q + |text| ==> !NextLabelAt(s, m)
  {
    TextChars(s, q, text);
    forall m | q + 1 <= m < q + |text| ensures !NextLabelAt(s, m) {
      NoStopAt(s, q, q + |text|, e, m);
    }
  }

  /** The characters of a text with no `(` that does not end in white
      space. */
  lemma TextChars(s: string, q: nat, text: string)
    requires text != [] && '(' !in text && !IsSpace(text[|text| - 1])
    requires q + |text| <= |s| && s[q..q + |text|] == text
    ensures forall m :: q <= m < q + |text| ==> s[m] != '('
    ensures !IsSpace(s[q + |text| - 1])
  {
    forall m | q <= m < q + |text| ensures s[m] != '(' {
      assert s[m] == text[m - q];
    }
    assert s[q + |text| - 1] == text[|text| - 1];
  }

  /** The lookahead fails at a position `m` inside the text `s[q..t]`. */
  lemma NoStopAt(s: string, q: nat, t: nat, e: nat, m: nat)
    requires q < m < t <= |s|
    requires forall x :: q <= x < t ==> s[x] != '('
    requires !IsSpace(s[t - 1]) && TextEnds(s, t, e)
    ensures !NextLabelAt(s, m)
  {
    if LabelAt(s, m).Some? {
      LabelNotSpace(s, m, LabelAt(s, m).value);
      assert m + |Name(LabelAt(s, m).value)| <= t by {
        if e > t {
          assert IsSpace(s[t]);
        }
      }
      SpacesEnd(s, q, t, e, m + |Name(LabelAt(s, m).value)|);
    }
  }

  /** After a label inside the text, `\s*` stops before a text character,
      at the next section's label, or at the end: never at `(`. */
  lemma SpacesEnd(s: string, q: nat, t: nat, e: nat, x: nat)
    requires q < x <= t <= |s|
    requires forall y :: q <= y < t ==> s[y] != '('
    requires !IsSpace(s[t - 1]) && TextEnds(s, t, e)
    ensures SpacesFrom(s, x) == |s| || s[SpacesFrom(s, x)] != '('
  {
    if x < t {
      assert SpacesFrom(s, x) < t;
    }
    if x == t && e > t {
      assert SpacesFrom(s, t + 1) == e;
    }
  }

  /** Stripping a stripped text followed by one space gives the text. */
  lemma StripTrailingSpace(text: string)
    requires text != [] && !IsSpace(text[0]) && !IsSpace(text[|text| - 1])
    ensures Strip(text + " ") == text
  {
    var s := text + " ";
    assert Strip(s) == RStrip(s);
    assert s[..|s| - 1] == text;
    assert RStrip(s) == RStrip(text) == text;
  }
}

=== FILE: sorting.dfy ===
/**
  Python's `sorted(xs, key=..., reverse=True)` and list comprehensions with an
  `if`: a stable descending sort by a two-level sort key, and filtering.
  Every ranking in the application (by heuristic score, by model score then
  time, by creation or fetch time) is an instance of `SortDesc`.
 */
module Sorting {

  /** A sort key compared lexicographically: `primary`, then `secondary`. */
  datatype Rank = Rank(primary: real, secondary: real)

  /** `a` comes strictly before `b` in a descending order. */
  predicate Outranks(a: Rank, b: Rank) {
    a.primary > b.primary || (a.primary == b.primary && a.secondary > b.secondary)
  }

  /** A key made of a single number (ties keep their input order). */
  function ByScore(score: real): Rank {
    Rank(score, 0.0)
  }

  lemma OutranksTotal(a: Rank, b: Rank)
    ensures a == b || Outranks(a, b) || Outranks(b, a)
    ensures !(Outranks(a, b) && Outranks(b, a))
  {
  }

  /** Non-increasing by key: no element outranks an element before it. */
  predicate SortedDesc<T>(key: T -> Rank, s: seq<T>) {
    forall i, j :: 0 <= i < j < |s| ==> !Outranks(key(s[j]), key(s[i]))
  }

  /** The elements of `s` whose key is `k`, in order. */
  function WithKey<T>(key: T -> Rank, s: seq<T>, k: Rank): (r: seq<T>)
    ensures |r| <= |s|
  {
    if s == [] then []
    else if key(s[0]) == k then [s[0]] + WithKey(key, s[1..], k)
    else WithKey(key, s[1..], k)
  }

  /** `x` placed after the leading elements of `ys` that strictly outrank it. */
  function Insert<T>(key: T -> Rank, x: T, ys: seq<T>): (r: seq<T>)
    ensures multiset(r) == multiset(ys) + multiset{x}
    ensures |r| == |ys| + 1
  {
    if ys == [] || !Outranks(key(ys[0]), key(x)) then [x] + ys
    else
      assert ys == [ys[0]] + ys[1..];
      [ys[0]] + Insert(key, x, ys[1..])
  }

  lemma {:induction false} InsertSorted<T>(key: T -> Rank, x: T, ys: seq<T>)
    requires SortedDesc(key, ys)
    ensures SortedDesc(key, Insert(key, x, ys))
    decreases |ys|
  {
    if ys == [] || !Outranks(key(ys[0]), key(x)) {
      var r := [x] + ys;
      forall i, j | 0 <= i < j < |r| ensures !Outranks(key(r[j]), key(r[i])) {
        if i == 0 {
          // x does not fall behind ys[0], which no later element outranks
          OutranksTotal(key(ys[0]), key(x));
          OutranksTotal(key(ys[j - 1]), key(ys[0]));
        }
      }
    } else {
      var tail := ys[1..];
      InsertSorted(key, x, tail);
      var ins := Insert(key, x, tail);
      var r := [ys[0]] + ins;
      assert multiset(ins) == multiset(tail) + multiset{x};
      forall i, j | 0 <= i < j < |r| ensures !Outranks(key(r[j]), key(r[i])) {
        if i == 0 {
          var e := r[j];
          assert e in multiset(ins);
          assert e == x || e in multiset(tail);
          if e != x {
            var m :| 0 <= m < |tail| && tail[m] == e;
            assert ys[m + 1] == e;
          }
        }
      }
    }
  }

  /** Inserting `x` in front of the elements that outrank it keeps the
      relative order of every key class, with `x` first in its own. */
  lemma {:induction false} InsertWithKey<T>(key: T -> Rank, x: T, ys: seq<T>, k: Rank)
    ensures WithKey(key, Insert(key, x, ys), k) == WithKey(key, [x] + ys, k)
    decreases |ys|
  {
    if ys == [] || !Outranks(key(ys[0]), key(x)) {
    } else {
      InsertWithKey(key, x, ys[1..], k);
      assert ([x] + ys)[1..] == ys;
      assert ([x] + ys[1..])[1..] == ys[1..];
      assert ([ys[0]] + Insert(key, x, ys[1..]))[1..] == Insert(key, x, ys[1..]);
      if key(x) == k {
        assert key(ys[0]) != k;
      }
    }
  }

  /** `sorted(xs, key=key, reverse=True)`. */
  function SortDesc<T>(key: T -> Rank, xs: seq<T>): (r: seq<T>)
    ensures multiset(r) == multiset(xs)
    ensures |r| == |xs|
    ensures SortedDesc(key, r)
  {
    if xs == [] then []
    else
      assert xs == [xs[0]] + xs[1..];
      var rest := SortDesc(key, xs[1..]);
      InsertSorted(key, xs[0], rest);
      Insert(key, xs[0], rest)
  }

  /** Stability: for every key, the elements with that key appear in the
      output in the same order as in the input. */
  lemma {:induction false} SortStable<T>(key: T -> Rank, xs: seq<T>, k: Rank)
    ensures WithKey(key, SortDesc(key, xs), k) == WithKey(key, xs, k)
    decreases |xs|
  {
    if xs != [] {
      var rest := SortDesc(key, xs[1..]);
      SortStable(key, xs[1..], k);
      InsertWithKey(key, xs[0], rest, k);
      assert ([xs[0]] + rest)[1..] == rest;
      assert xs == [xs[0]] + xs[1..];
    }
  }

  /** The sort of an already sorted sequence is that sequence. */
  lemma {:induction false} SortOfSorted<T>(key: T -> Rank, xs: seq<T>)
    requires SortedDesc(key, xs)
    ensures SortDesc(key, xs) == xs
    decreases |xs|
  {
    if xs != [] {
      assert SortedDesc(key, xs[1..]);
      SortOfSorted(key, xs[1..]);
      if |xs| > 1 {
        assert !Outranks(key(xs[1]), key(xs[0]));
      }
    }
  }

  lemma PrefixSorted<T>(key: T -> Rank, s: seq<T>, n: nat)
    requires n <= |s| && SortedDesc(key, s)
    ensures SortedDesc(key, s[..n])
  {
    forall i, j | 0 <= i < j < n ensures !Outranks(key(s[..n][j]), key(s[..n][i])) {
      assert s[..n][i] == s[i] && s[..n][j] == s[j];
    }
  }

  /** `top` holds the best rows of `xs` in rank order: it is sorted, it is
      drawn from `xs`, and no row of `xs` left out of it outranks a row
      kept. */
  ghost predicate TopRows<T(!new)>(key: T -> Rank, xs: seq<T>, top: seq<T>) {
    && SortedDesc(key, top)
    && multiset(top) <= multiset(xs)
    && forall x, i :: 0 <= i < |top| && multiset(top)[x] < multiset(xs)[x] ==> !Outranks(key(x), key(top[i]))
  }

  /** The first `m` rows of the sort are the best `m` rows. */
  lemma SortPrefixIsTop<T(!new)>(key: T -> Rank, xs: seq<T>, m: nat)
    requires m <= |xs|
    ensures TopRows(key, xs, SortDesc(key, xs)[..m])
  {
    var s := SortDesc(key, xs);
    PrefixSorted(key, s, m);
    SplitMultiset(s, m);
    forall x, i | 0 <= i < m && multiset(s[..m])[x] < multiset(xs)[x]
      ensures !Outranks(key(x), key(s[..m][i]))
    {
      assert x in multiset(s[m..]);
      LeftOutRanksLower(key, s, m, x, i);
    }
  }

  lemma SplitMultiset<T>(s: seq<T>, m: nat)
    requires m <= |s|
    ensures multiset(s) == multiset(s[..m]) + multiset(s[m..])
  {
    assert s == s[..m] + s[m..];
  }

  /** In a sorted sequence, a row after the first `m` ranks no higher than
      any of them. */
  lemma LeftOutRanksLower<T>(key: T -> Rank, s: seq<T>, m: nat, x: T, i: nat)
    requires SortedDesc(key, s) && i < m <= |s| && x in s[m..]
    ensures !Outranks(key(x), key(s[..m][i]))
  {
    var j :| 0 <= j < |s[m..]| && s[m..][j] == x;
    assert s[m + j] == x && s[..m][i] == s[i];
  }

  // ---------------------------------------------------------- score rankings

  /** `[(x, score(x)) for x in xs]`. */
  function Scored<T>(xs: seq<T>, score: T -> int): (r: seq<(T, int)>)
    ensures |r| == |xs|
    ensures forall i :: 0 <= i < |r| ==> r[i] == (xs[i], score(xs[i]))
  {
    seq(|xs|, i requires 0 <= i < |xs| => (xs[i], score(xs[i])))
  }

  /** A pair ranked by its integer score; equal scores keep their order. */
  function IntKey<T>(p: (T, int)): Rank {
    ByScore(p.1 as real)
  }

  /** The elements paired with their scores, highest score first. */
  function RankByScore<T>(xs: seq<T>, score: T -> int): (r: seq<(T, int)>)
    ensures multiset(r) == multiset(Scored(xs, score)) && |r| == |xs|
    ensures SortedDesc(IntKey, r)
    ensures forall i :: 0 <= i < |r| ==> r[i].1 == score(r[i].0) && r[i].0 in xs
    ensures forall i, j :: 0 <= i < j < |r| ==> r[i].1 >= r[j].1
  {
    var r := SortDesc(IntKey, Scored(xs, score));
    forall i | 0 <= i < |r| ensures r[i].1 == score(r[i].0) && r[i].0 in xs {
      assert r[i] in multiset(Scored(xs, score));
      var k :| 0 <= k < |xs| && Scored(xs, score)[k] == r[i];
    }
    forall i, j | 0 <= i < j < |r| ensures r[i].1 >= r[j].1 {
      assert !Outranks(IntKey(r[j]), IntKey(r[i]));
    }
    r
  }

  /** The first `m` elements of a score ranking are the `m` best. */
  lemma RankPrefixIsTop<T(!new)>(xs: seq<T>, score: T -> int, m: nat)
    requires m <= |xs|
    ensures TopRows(IntKey, Scored(xs, score), RankByScore(xs, score)[..m])
  {
    SortPrefixIsTop(IntKey, Scored(xs, score), m);
  }

  /** `[x for x, _ in pairs]`. */
  function Firsts<T, U>(ps: seq<(T, U)>): (r: seq<T>)
    ensures |r| == |ps| && forall k :: 0 <= k < |r| ==> r[k] == ps[k].0
  {
    seq(|ps|, k requires 0 <= k < |ps| => ps[k].0)
  }

  // ---------------------------------------------------------------- filtering

  /** `[f(x) for x in xs]`. */
  function Map<T, U>(f: T -> U, xs: seq<T>): (r: seq<U>)
    ensures |r| == |xs| && forall k :: 0 <= k < |r| ==> r[k] == f(xs[k])
  {
    seq(|xs|, k requires 0 <= k < |xs| => f(xs[k]))
  }

  lemma MapCons<T, U>(f: T -> U, x: T, xs: seq<T>)
    ensures Map(f, [x] + xs) == [f(x)] + Map(f, xs)
  {
    assert forall k :: 1 <= k < |xs| + 1 ==> ([x] + xs)[k] == xs[k - 1];
  }

  /** `[x for x in xs if p(x)]`. */
  function Filter<T>(p: T -> bool, xs: seq<T>): (r: seq<T>)
    ensures |r| <= |xs|
    ensures forall i :: 0 <= i < |r| ==> p(r[i])
    ensures multiset(r) <= multiset(xs)
  {
    if xs == [] then []
    else
      assert xs == [xs[0]] + xs[1..];
      if p(xs[0]) then [xs[0]] + Filter(p, xs[1..]) else Filter(p, xs[1..])
  }

  lemma {:induction false} FilterKeeps<T>(p: T -> bool, xs: seq<T>, x: T)
    requires x in xs && p(x)
    ensures x in Filter(p, xs)
    decreases |xs|
  {
    if xs[0] != x {
      assert x in xs[1..];
      FilterKeeps(p, xs[1..], x);
    }
  }

  /** A filter every element passes changes nothing. */
  lemma {:induction false} FilterAll<T>(p: T -> bool, xs: seq<T>)
    requires forall i :: 0 <= i < |xs| ==> p(xs[i])
    ensures Filter(p, xs) == xs
    decreases |xs|
  {
    if xs != [] {
      assert p(xs[0]);
      FilterAll(p, xs[1..]);
    }
  }

  lemma FilterIn<T>(p: T -> bool, xs: seq<T>, x: T)
    ensures x in Filter(p, xs) <==> x in xs && p(x)
  {
    if x in xs && p(x) {
      FilterKeeps(p, xs, x);
    }
    if x in Filter(p, xs) {
      assert x in multiset(Filter(p, xs));
    }
  }

  /** `s` is obtained from `t` by deleting elements. */
  predicate IsSubseq<T(==)>(s: seq<T>, t: seq<T>)
    decreases |t|
  {
    if s == [] then true
    else if t == [] then false
    else if s[0] == t[0] then IsSubseq(s[1..], t[1..])
    else IsSubseq(s, t[1..])
  }

  lemma {:induction false} FilterSubseq<T>(p: T -> bool, xs: seq<T>)
    ensures IsSubseq(Filter(p, xs), xs)
    decreases |xs|
  {
    if xs != [] {
      FilterSubseq(p, xs[1..]);
      if !p(xs[0]) {
        SubseqCons(Filter(p, xs[1..]), xs[0], xs[1..]);
      }
    }
  }

  lemma {:induction false} SubseqCons<T>(s: seq<T>, x: T, t: seq<T>)
    requires IsSubseq(s, t)
    ensures IsSubseq(s, [x] + t)
    decreases |t|, 1
  {
    if s != [] && s[0] != x {
      assert ([x] + t)[1..] == t;
    } else if s != [] {
      assert ([x] + t)[1..] == t;
      SubseqTail(s, t);
    }
  }

  /** Dropping the first element of a subsequence keeps it a subsequence. */
  lemma {:induction false} SubseqTail<T>(s: seq<T>, t: seq<T>)
    requires s != [] && IsSubseq(s, t)
    ensures IsSubseq(s[1..], t)
    decreases |t|, 0
  {
    if s[0] != t[0] {
      SubseqTail(s, t[1..]);
      SubseqCons(s[1..], t[0], t[1..]);
      assert t == [t[0]] + t[1..];
    } else {
      SubseqCons(s[1..], t[0], t[1..]);
      assert t == [t[0]] + t[1..];
    }
  }

  // ------------------------------------------------------ first occurrences

  /** No element appears twice. */
  predicate Distinct<T(==)>(s: seq<T>) {
    forall i, j :: 0 <= i < j < |s| ==> s[i] != s[j]
  }

  /** Position of the first occurrence of `x` (`xs.index(x)`). */
  function FirstIndex<T(==)>(xs: seq<T>, x: T): (i: nat)
    requires x in xs
    ensures i < |xs| && xs[i] == x && x !in xs[..i]
  {
    if xs[0] == x then 0
    else
      var k := FirstIndex(xs[1..], x);
      assert xs[..k + 1] == [xs[0]] + xs[1..][..k];
      k + 1
  }

  /** The first occurrence is the only position holding `x` with no `x`
      before it. */
  lemma FirstIndexUnique<T>(xs: seq<T>, x: T, i: nat)
    requires i < |xs| && xs[i] == x && x !in xs[..i]
    ensures FirstIndex(xs, x) == i
  {
  }

  lemma FirstIndexInPrefix<T>(xs: seq<T>, n: nat, x: T)
    requires n <= |xs| && x in xs[..n]
    ensures FirstIndex(xs, x) == FirstIndex(xs[..n], x)
  {
    var i := FirstIndex(xs[..n], x);
    assert xs[..n][..i] == xs[..i];
    FirstIndexUnique(xs, x, i);
  }

  /** The elements of `r` come from `xs`, ordered by where they first
      occur in `xs`. */
  predicate InFirstOccurrenceOrder<T(==)>(xs: seq<T>, r: seq<T>) {
    && (forall i :: 0 <= i < |r| ==> r[i] in xs)
    && (forall i, j :: 0 <= i < j < |r| ==> FirstIndex(xs, r[i]) < FirstIndex(xs, r[j]))
  }

  /** `list(dict.fromkeys(xs))`: each element once, at its first occurrence. */
  function Dedup<T(==,!new)>(xs: seq<T>): (r: seq<T>)
    ensures forall x :: x in r <==> x in xs
    ensures Distinct(r)
    ensures InFirstOccurrenceOrder(xs, r)
    ensures |r| <= |xs|
    decreases |xs|
  {
    if xs == [] then []
    else
      var init := xs[..|xs| - 1];
      var last := xs[|xs| - 1];
      var rest := Dedup(init);
      assert xs == init + [last];
      DedupOrder(xs, rest);
      if last in rest then rest
      else
        var r := rest + [last];
        assert FirstIndex(xs, last) == |xs| - 1;
        r
  }

  lemma DedupOrder<T>(xs: seq<T>, rest: seq<T>)
    requires xs != []
    requires InFirstOccurrenceOrder(xs[..|xs| - 1], rest)
    ensures InFirstOccurrenceOrder(xs, rest)
    ensures forall i :: 0 <= i < |rest| ==> FirstIndex(xs, rest[i]) < |xs| - 1
  {
    forall i | 0 <= i < |rest|
      ensures rest[i] in xs && FirstIndex(xs, rest[i]) == FirstIndex(xs[..|xs| - 1], rest[i])
    {
      FirstIndexInPrefix(xs, |xs| - 1, rest[i]);
    }
  }
}

=== FILE: store.dfy ===
/**
  The news tables (`Article`, `RankingScore`, `IngestionJob`) as immutable
  rows held in sequences; a database is the three tables together. Ids are
  assigned by the database on insert, one more than the number of rows (no
  row is ever deleted from these tables).
 */
module Store {
  import opened Text

  /** A JSON value as `json.loads` hands it over; objects and arrays are not
      looked into. */
  datatype JsonValue = JNum(num: real) | JStr(str: string) | JBool(b: bool) | JNull | JOther

  datatype Article = Article(
    id: int,
    sourceName: string,
    externalId: string,
    title: string,
    description: Option<string>,
    content: Option<string>,
    url: string,
    imageUrl: Option<string>,
    publishedAt: int,
    fetchedAt: int,
    status: string)

  /** One model verdict on one article. `reasoning` and `category` keep
      the JSON value the model produced; a ranking run only stores values
      the text columns can bind (`Ranking.Bindable`). */
  datatype RankingScore = RankingScore(
    id: int,
    articleId: int,
    score: real,
    reasoning: JsonValue,
    category: JsonValue,
    modelUsed: string,
    rankedAt: int)

  datatype IngestionJob = IngestionJob(
    id: int,
    status: string,
    articlesFetched: nat,
    articlesRanked: nat,
    errors: map<string, string>)

  datatype Db = Db(articles: seq<Article>, scores: seq<RankingScore>, jobs: seq<IngestionJob>)

  const Pending := "pending"
  const Ranked := "ranked"

  /** Position of the first article with the given id (`session.get`). */
  function FindArticle(articles: seq<Article>, id: int): (r: Option<nat>)
    ensures r.None? <==> forall k :: 0 <= k < |articles| ==> articles[k].id != id
    ensures r.Some? ==> r.value < |articles| && articles[r.value].id == id
  {
    if articles == [] then None
    else if articles[0].id == id then Some(0)
    else match FindArticle(articles[1..], id)
      case None => None
      case Some(k) => Some(k + 1)
  }

  /** Some stored article has this external id. */
  predicate HasExternalId(articles: seq<Article>, externalId: string) {
    exists k :: 0 <= k < |articles| && articles[k].externalId == externalId
  }

  /** No two stored articles share an external id. */
  predicate UniqueExternalIds(articles: seq<Article>) {
    forall i, j :: 0 <= i < j < |articles| ==> articles[i].externalId != articles[j].externalId
  }
}

=== FILE: text.dfy ===
/**
  String and sequence primitives with the semantics of the Python built-ins the
  application relies on: `str.isspace`, `strip`, `lower` (ASCII letters only),
  `split`, `splitlines`, `in`, `startswith`, slicing with a possibly negative
  bound, and `join`.
 */
module Text {
  import Sorting

  datatype Option<+T> = None | Some(value: T)
  {
    function GetOr(default: T): T {
      if Some? then value else default
    }
  }

  /** The outcome of an operation that may raise: a value, or the exception's
      message. */
  datatype Result<+T> = Ok(value: T) | Err(error: string)

  /** Python truthiness of an optional string: present and non-empty. */
  predicate Truthy(s: Option<string>) {
    s.Some? && s.value != ""
  }

  /** Python's `str.isspace` for a single character (the Unicode White_Space
      characters plus the ASCII separators 0x1C-0x1F). */
  predicate IsSpace(c: char) {
    || c == ' ' || c == '\t' || c == '\n' || c == '\r'
    || c == '\U{000B}' || c == '\U{000C}'
    || ('\U{001C}' <= c <= '\U{001F}')
    || c == '\U{0085}' || c == '\U{00A0}' || c == '\U{1680}'
    || ('\U{2000}' <= c <= '\U{200A}')
    || c == '\U{2028}' || c == '\U{2029}' || c == '\U{202F}' || c == '\U{205F}' || c == '\U{3000}'
  }

  predicate IsAsciiUpper(c: char) { 'A' <= c <= 'Z' }
  predicate IsAsciiLower(c: char) { 'a' <= c <= 'z' }
  predicate IsAsciiDigit(c: char) { '0' <= c <= '9' }

  /** A character matched by the regular-expression class `\w` (ASCII subset). */
  predicate IsWordChar(c: char) {
    IsAsciiUpper(c) || IsAsciiLower(c) || IsAsciiDigit(c) || c == '_'
  }

  /** `\b` before a word character at `i`: nothing or a non-word
      character comes before it. */
  predicate WordStartsAt(s: string, i: nat)
    requires i <= |s|
  {
    i == 0 || !IsWordChar(s[i - 1])
  }

  /** `\b` after a word character ending at `e`: the end of the text or a
      non-word character follows. */
  predicate WordEndsAt(s: string, e: nat)
    requires e <= |s|
  {
    e == |s| || !IsWordChar(s[e])
  }

  function LowerChar(c: char): (r: char)
    ensures IsAsciiUpper(c) ==> IsAsciiLower(r)
    ensures !IsAsciiUpper(c) ==> r == c
    ensures !IsAsciiUpper(r)
  {
    if IsAsciiUpper(c) then (c as int + 32) as char else c
  }

  /** `s.lower()` restricted to ASCII letters. */
  function Lower(s: string): (r: string)
    ensures |r| == |s|
    ensures forall i :: 0 <= i < |s| ==> r[i] == LowerChar(s[i])
  {
    if s == [] then [] else [LowerChar(s[0])] + Lower(s[1..])
  }

  predicate StartsWith(s: string, prefix: string) {
    |prefix| <= |s| && s[..|prefix|] == prefix
  }

  /** Python's `s.startswith(prefixes)` for a tuple of prefixes. */
  function StartsWithAny(s: string, prefixes: seq<string>): (r: bool)
    ensures r <==> exists k :: 0 <= k < |prefixes| && StartsWith(s, prefixes[k])
  {
    if prefixes == [] then false
    else StartsWith(s, prefixes[0]) || StartsWithAny(s, prefixes[1..])
  }

  predicate EndsWith(s: string, suffix: string) {
    |suffix| <= |s| && s[|s| - |suffix|..] == suffix
  }

  /** `sub` occurs in `s` starting at index `i`. */
  predicate OccursAt(s: string, sub: string, i: int) {
    0 <= i <= |s| - |sub| && s[i..i + |sub|] == sub
  }

  /** Python's `sub in s`. */
  predicate Contains(s: string, sub: string) {
    exists i | 0 <= i <= |s| - |sub| :: OccursAt(s, sub, i)
  }

  /** `Contains`, decided by a left-to-right scan. */
  function ContainsFrom(s: string, sub: string, i: nat): (r: bool)
    requires i <= |s|
    ensures r <==> exists j :: i <= j && OccursAt(s, sub, j)
    decreases |s| - i
  {
    if i + |sub| > |s| then false
    else if s[i..i + |sub|] == sub then assert OccursAt(s, sub, i); true
    else ContainsFrom(s, sub, i + 1)
  }

  function HasSubstring(s: string, sub: string): (r: bool)
    ensures r <==> Contains(s, sub)
  {
    ContainsFrom(s, sub, 0)
  }

  /** Python's `any(part in s for part in parts)`. */
  function AnyContained(s: string, parts: seq<string>): (r: bool)
    ensures r <==> exists k :: 0 <= k < |parts| && Contains(s, parts[k])
  {
    if parts == [] then false else HasSubstring(s, parts[0]) || AnyContained(s, parts[1..])
  }

  lemma ContainsInMiddle(a: string, b: string, c: string)
    ensures Contains(a + b + c, b)
  {
    assert OccursAt(a + b + c, b, |a|);
  }

  lemma ContainsPrefix(s: string, t: string, sub: string)
    requires Contains(s, sub)
    ensures Contains(s + t, sub)
  {
    var i :| 0 <= i <= |s| - |sub| && OccursAt(s, sub, i);
    assert (s + t)[i..i + |sub|] == s[i..i + |sub|];
    assert OccursAt(s + t, sub, i);
  }

  lemma ContainsSuffix(s: string, t: string, sub: string)
    requires Contains(t, sub)
    ensures Contains(s + t, sub)
  {
    var i :| 0 <= i <= |t| - |sub| && OccursAt(t, sub, i);
    assert (s + t)[|s| + i..|s| + i + |sub|] == t[i..i + |sub|];
    assert OccursAt(s + t, sub, |s| + i);
  }

  /** How many of `words` occur in `text`. */
  function CountOccurring(text: string, words: seq<string>): (n: nat)
    ensures n <= |words|
    ensures n == 0 <==> forall k :: 0 <= k < |words| ==> !Contains(text, words[k])
  {
    if words == [] then 0
    else (if Contains(text, words[0]) then 1 else 0) + CountOccurring(text, words[1..])
  }

  /** Index of the first occurrence of `c`, as `s.find(c)` minus the -1 case. */
  function IndexOf(s: string, c: char): (r: Option<nat>)
    ensures r.None? <==> c !in s
    ensures r.Some? ==> r.value < |s| && s[r.value] == c && c !in s[..r.value]
  {
    if s == [] then None
    else if s[0] == c then Some(0)
    else match IndexOf(s[1..], c)
      case None => None
      case Some(k) => assert s[..k + 1] == [s[0]] + s[1..][..k]; Some(k + 1)
  }

  /** The text after the first occurrence of `c`: `s.split(c, 1)[1]`. */
  function After(s: string, c: char): (r: string)
    requires c in s
    ensures exists k :: 0 <= k < |s| && s[k] == c && c !in s[..k] && r == s[k + 1..]
  {
    var k := IndexOf(s, c).value; s[k + 1..]
  }

  /** The text before the first occurrence of `c`, or all of `s`: `s.split(c)[0]`. */
  function Before(s: string, c: char): (r: string)
    ensures c !in r
    ensures c !in s ==> r == s
    ensures c in s ==> |r| < |s| && s[|r|] == c && r == s[..|r|]
  {
    match IndexOf(s, c)
    case None => s
    case Some(k) => s[..k]
  }

  // ---------------------------------------------------------------- stripping

  function LStrip(s: string): (r: string)
    ensures |r| <= |s| && r == s[|s| - |r|..]
    ensures r == [] || !IsSpace(r[0])
    ensures forall i :: 0 <= i < |s| - |r| ==> IsSpace(s[i])
  {
    if s != [] && IsSpace(s[0]) then
      var r := LStrip(s[1..]);
      assert s[|s| - |r|..] == s[1..][|s| - 1 - |r|..];
      assert forall i :: 1 <= i < |s| - |r| ==> s[i] == s[1..][i - 1];
      r
    else s
  }

  function RStrip(s: string): (r: string)
    ensures |r| <= |s| && r == s[..|r|]
    ensures r == [] || !IsSpace(r[|r| - 1])
    ensures forall i :: |r| <= i < |s| ==> IsSpace(s[i])
  {
    if s != [] && IsSpace(s[|s| - 1]) then RStrip(s[..|s| - 1]) else s
  }

  /** Python's `s.strip()`: the leading white space goes, then `RStrip`
      takes the trailing white space off. */
  function Strip(s: string): (r: string)
    ensures r == [] || (!IsSpace(r[0]) && !IsSpace(r[|r| - 1]))
    decreases |s|
  {
    if s != [] && IsSpace(s[0]) then Strip(s[1..]) else RStrip(s)
  }

  /** `Strip` is `RStrip` after `LStrip`. */
  lemma {:induction false} StripBoth(s: string)
    ensures Strip(s) == RStrip(LStrip(s))
    decreases |s|
  {
    if s != [] && IsSpace(s[0]) {
      StripBoth(s[1..]);
    }
  }

  lemma StripNoSpaceEdges(s: string)
    requires s == [] || (!IsSpace(s[0]) && !IsSpace(s[|s| - 1]))
    ensures Strip(s) == s
  {
  }

  /** The stripped strings. */
  function Stripped(lines: seq<string>): (r: seq<string>)
    ensures |r| == |lines|
  {
    seq(|lines|, k requires 0 <= k < |lines| => Strip(lines[k]))
  }

  predicate NonEmpty(s: string) {
    s != []
  }

  /** `[s.strip() for s in parts if s.strip()]`: the parts that are not
      blank, stripped. */
  function NonBlank(parts: seq<string>): (r: seq<string>)
    ensures |r| <= |parts|
    ensures forall k :: 0 <= k < |r| ==> r[k] != [] && !IsSpace(r[k][0]) && !IsSpace(r[k][|r[k]| - 1])
    ensures forall x :: x in r <==> x != [] && x in Stripped(parts)
  {
    if parts == [] then []
    else
      var head := Strip(parts[0]);
      var rest := NonBlank(parts[1..]);
      assert Stripped(parts) == [head] + Stripped(parts[1..]);
      if head == [] then rest
      else
        assert forall k :: 1 <= k < |rest| + 1 ==> ([head] + rest)[k] == rest[k - 1];
        [head] + rest
  }

  /** `NonBlank` keeps exactly the non-empty stripped parts, each where it
      stood: it is the filter of the stripped parts, so a subsequence of them. */
  lemma {:induction false} NonBlankIsFilter(parts: seq<string>)
    ensures NonBlank(parts) == Sorting.Filter(NonEmpty, Stripped(parts))
    ensures Sorting.IsSubseq(NonBlank(parts), Stripped(parts))
    decreases |parts|
  {
    if parts != [] {
      NonBlankIsFilter(parts[1..]);
      assert Stripped(parts)[1..] == Stripped(parts[1..]);
    }
    Sorting.FilterSubseq(NonEmpty, Stripped(parts));
  }

  /** Lower-casing turns no character into white space and none out of it. */
  lemma LowerCharSpace(c: char)
    ensures IsSpace(LowerChar(c)) <==> IsSpace(c)
  {
  }

  lemma {:induction false} LStripLower(s: string)
    ensures LStrip(Lower(s)) == Lower(LStrip(s))
    decreases |s|
  {
    if s != [] {
      LowerCharSpace(s[0]);
      assert Lower(s)[1..] == Lower(s[1..]);
      LStripLower(s[1..]);
    }
  }

  lemma {:induction false} RStripLower(s: string)
    ensures RStrip(Lower(s)) == Lower(RStrip(s))
    decreases |s|
  {
    if s != [] {
      LowerCharSpace(s[|s| - 1]);
      assert Lower(s)[..|s| - 1] == Lower(s[..|s| - 1]);
      RStripLower(s[..|s| - 1]);
    }
  }

  /** Stripping and lower-casing commute. */
  lemma StripLower(s: string)
    ensures Strip(Lower(s)) == Lower(Strip(s))
  {
    StripBoth(s);
    StripBoth(Lower(s));
    LStripLower(s);
    RStripLower(LStrip(s));
  }

  /** Lower-casing twice is lower-casing once. */
  lemma LowerIdempotent(s: string)
    ensures Lower(Lower(s)) == Lower(s)
  {
  }

  /** Every character that `Strip` keeps is one of the input's. */
  lemma {:induction false} StripChars(s: string, c: char)
    requires c in Strip(s)
    ensures c in s
    decreases |s|
  {
    if s != [] && IsSpace(s[0]) {
      StripChars(s[1..], c);
      var j :| 0 <= j < |s[1..]| && s[1..][j] == c;
      assert s[j + 1] == c;
    } else {
      var r := RStrip(s);
      var j :| 0 <= j < |r| && r[j] == c;
      assert s[j] == c;
    }
  }

  lemma RStripEmpty(s: string)
    requires RStrip(s) == []
    ensures forall i :: 0 <= i < |s| ==> IsSpace(s[i])
  {
  }

  /** Python's `s.replace(c, t)` for a one-character pattern. */
  function ReplaceChar(s: string, c: char, t: string): (r: string)
    ensures c !in t ==> c !in r
    ensures c !in s ==> r == s
  {
    if s == [] then ""
    else (if s[0] == c then t else [s[0]]) + ReplaceChar(s[1..], c, t)
  }

  // ---------------------------------------------------------------- splitting

  /** Python's `s.split(sep)` for a one-character separator. */
  function Split(s: string, sep: char): (r: seq<string>)
    ensures |r| >= 1
    ensures forall k :: 0 <= k < |r| ==> sep !in r[k]
    decreases |s|
  {
    match IndexOf(s, sep)
    case None => [s]
    case Some(i) => [s[..i]] + Split(s[i + 1..], sep)
  }

  /** Python's `sep.join(parts)`. */
  function Join(sep: string, parts: seq<string>): string {
    if parts == [] then ""
    else if |parts| == 1 then parts[0]
    else parts[0] + sep + Join(sep, parts[1..])
  }

  lemma {:induction false} JoinSplit(s: string, sep: char)
    ensures Join([sep], Split(s, sep)) == s
    decreases |s|
  {
    match IndexOf(s, sep)
    case None =>
    case Some(i) =>
      var rest := Split(s[i + 1..], sep);
      JoinSplit(s[i + 1..], sep);
      assert Split(s, sep) == [s[..i]] + rest;
      assert s == s[..i] + [sep] + s[i + 1..];
  }

  /** Splitting a join of separator-free parts gives the parts back. */
  lemma {:induction false} SplitJoin(parts: seq<string>, sep: char)
    requires |parts| >= 1 && forall k :: 0 <= k < |parts| ==> sep !in parts[k]
    ensures Split(Join([sep], parts), sep) == parts
    decreases |parts|
  {
    if |parts| > 1 {
      var s := Join([sep], parts);
      var p := parts[0];
      var rest := Join([sep], parts[1..]);
      assert s == p + [sep] + rest;
      assert s[..|p|] == p && s[|p| + 1..] == rest;
      IndexOfAt(s, sep, |p|);
      SplitJoin(parts[1..], sep);
      assert Split(s, sep) == [p] + Split(rest, sep);
    }
  }

  /** The first occurrence is the one with no earlier occurrence. */
  lemma IndexOfAt(s: string, c: char, i: nat)
    requires i < |s| && s[i] == c && c !in s[..i]
    ensures IndexOf(s, c) == Some(i)
  {
    var r := IndexOf(s, c).value;
    forall m | 0 <= m < i ensures s[m] != c {
      assert s[..i][m] == s[m];
    }
    forall m | 0 <= m < r ensures s[m] != c {
      assert s[..r][m] == s[m];
    }
  }

  /** Python's `s.splitlines()` for '\n' line ends: like `Split(s, '\n')`
      except that a final line end does not open one more (empty) line. */
  function SplitLines(s: string): (r: seq<string>)
    ensures forall k :: 0 <= k < |r| ==> '\n' !in r[k]
  {
    if s == [] then []
    else if s[|s| - 1] == '\n' then Split(s[..|s| - 1], '\n')
    else Split(s, '\n')
  }

  /** Python's `s.splitlines(True)` for '\n' line ends: every piece keeps its
      line end, so the pieces concatenate back to `s`. */
  function SplitLinesKeepEnds(s: string): (r: seq<string>)
    ensures forall k :: 0 <= k < |r| ==> r[k] != []
    ensures forall k :: 0 <= k < |r| - 1 ==> r[k][|r[k]| - 1] == '\n'
    ensures forall k :: 0 <= k < |r| ==> '\n' !in r[k][..|r[k]| - 1]
    ensures Concat(r) == s
    decreases |s|
  {
    match IndexOf(s, '\n')
    case None => if s == [] then [] else [s]
    case Some(i) =>
      var line := s[..i + 1];
      var rest := SplitLinesKeepEnds(s[i + 1..]);
      assert line[..i] == s[..i];
      assert s == line + s[i + 1..];
      assert ([line] + rest)[1..] == rest;
      assert forall k :: 1 <= k < 1 + |rest| ==> ([line] + rest)[k] == rest[k - 1];
      [line] + rest
  }

  function Concat(parts: seq<string>): string {
    if parts == [] then "" else parts[0] + Concat(parts[1..])
  }

  lemma ConcatAppend(a: seq<string>, b: seq<string>)
    ensures Concat(a + b) == Concat(a) + Concat(b)
  {
    if a == [] {
      assert a + b == b;
    } else {
      assert (a + b)[1..] == a[1..] + b;
    }
  }

  // -------------------------------------------------------------------- words

  /** Length of the run of non-space characters at the front of `s`. */
  function WordLength(s: string): (n: nat)
    ensures n <= |s|
    ensures forall i :: 0 <= i < n ==> !IsSpace(s[i])
    ensures n == |s| || IsSpace(s[n])
  {
    if s == [] || IsSpace(s[0]) then 0 else 1 + WordLength(s[1..])
  }

  predicate IsWord(w: string) {
    w != [] && forall i :: 0 <= i < |w| ==> !IsSpace(w[i])
  }

  /** Python's `s.split()`: the maximal runs of non-space characters. */
  function Words(s: string): (r: seq<string>)
    ensures forall k :: 0 <= k < |r| ==> IsWord(r[k])
    decreases |s|
  {
    if s == [] then []
    else if IsSpace(s[0]) then Words(s[1..])
    else
      var n := WordLength(s);
      [s[..n]] + Words(s[n..])
  }

  /** Length of the run of white space from `i`. */
  function SpaceRun(s: string, i: nat): (n: nat)
    requires i <= |s|
    ensures i + n <= |s|
    decreases |s| - i
  {
    if i < |s| && IsSpace(s[i]) then 1 + SpaceRun(s, i + 1) else 0
  }

  /** The run is white space and stops at the end or at a character that
      is not. */
  lemma {:induction false} SpaceRunSpaces(s: string, i: nat)
    requires i <= |s|
    ensures forall j :: i <= j < i + SpaceRun(s, i) ==> IsSpace(s[j])
    ensures i + SpaceRun(s, i) == |s| || !IsSpace(s[i + SpaceRun(s, i)])
    decreases |s| - i
  {
    if i < |s| && IsSpace(s[i]) {
      SpaceRunSpaces(s, i + 1);
    }
  }

  /** A word followed by white space or nothing is one run. */
  lemma {:induction false} WordLengthOf(w: string, t: string)
    requires forall i :: 0 <= i < |w| ==> !IsSpace(w[i])
    requires t == [] || IsSpace(t[0])
    ensures WordLength(w + t) == |w|
    decreases |w|
  {
    if w == [] {
      assert w + t == t;
    } else {
      assert (w + t)[0] == w[0] && (w + t)[1..] == w[1..] + t;
      WordLengthOf(w[1..], t);
    }
  }

  lemma WordsOfWord(w: string)
    requires IsWord(w)
    ensures Words(w) == [w]
  {
    WordLengthOf(w, []);
    assert w + [] == w;
    assert w[|w|..] == [];
  }

  lemma WordsCons(w: string, rest: string)
    requires IsWord(w)
    ensures Words(w + " " + rest) == [w] + Words(rest)
  {
    var s := w + " " + rest;
    assert s == w + (" " + rest);
    WordLengthOf(w, " " + rest);
    assert s[..|w|] == w && s[|w|..] == " " + rest;
    assert (" " + rest)[1..] == rest;
  }

  /** Splitting words joined by single spaces gives the words back. */
  lemma {:induction false} WordsJoin(ws: seq<string>)
    requires forall k :: 0 <= k < |ws| ==> IsWord(ws[k])
    ensures Words(Join(" ", ws)) == ws
    decreases |ws|
  {
    if |ws| == 1 {
      WordsOfWord(ws[0]);
    } else if |ws| > 1 {
      WordsCons(ws[0], Join(" ", ws[1..]));
      WordsJoin(ws[1..]);
    }
  }

  // ---------------------------------------------------------------- sequences

  /** Python's `xs[:n]`, where a negative `n` counts from the end. */
  function PyTake<T>(xs: seq<T>, n: int): (r: seq<T>)
    ensures 0 <= n ==> |r| == if n <= |xs| then n else |xs|
    ensures n < 0 ==> |r| == if |xs| + n >= 0 then |xs| + n else 0
    ensures r == xs[..|r|]
  {
    if n >= 0 then (if n <= |xs| then xs[..n] else xs)
    else if |xs| + n >= 0 then xs[..|xs| + n] else []
  }

  /** SQL `LIMIT n` as SQLite reads it: a negative limit means no limit. */
  function SqlLimit<T>(xs: seq<T>, n: int): (r: seq<T>)
    ensures n < 0 ==> r == xs
    ensures 0 <= n ==> |r| == if n <= |xs| then n else |xs|
    ensures r == xs[..|r|]
  {
    if n < 0 then xs else PyTake(xs, n)
  }

  // ------------------------------------------------------------------ numbers

  function DigitChar(d: nat): (c: char)
    requires d < 10
    ensures IsAsciiDigit(c)
  {
    ('0' as int + d) as char
  }

  /** Python's `str(n)` for a natural number. */
  function NatToString(n: nat): (s: string)
    ensures |s| >= 1
    ensures forall i :: 0 <= i < |s| ==> IsAsciiDigit(s[i])
    ensures n < 10 ==> s == [DigitChar(n)]
  {
    if n < 10 then [DigitChar(n)] else NatToString(n / 10) + [DigitChar(n % 10)]
  }

  /** Python's `str(i)` for any integer. */
  function IntToString(i: int): (s: string)
    ensures |s| >= 1
    ensures s[0] == '-' <==> i < 0
  {
    if i >= 0 then NatToString(i) else "-" + NatToString(-i)
  }

  /** Value of a non-empty string of ASCII digits, as `int(s)`. */
  function DigitsValue(s: string): (v: nat)
    requires forall i :: 0 <= i < |s| ==> IsAsciiDigit(s[i])
  {
    if s == [] then 0
    else
      assert IsAsciiDigit(s[|s| - 1]);
      DigitsValue(s[..|s| - 1]) * 10 + (s[|s| - 1] as int - '0' as int)
  }

  lemma {:induction false} DigitsOfNat(n: nat)
    ensures DigitsValue(NatToString(n)) == n
  {
    if n >= 10 {
      var s := NatToString(n);
      DigitsOfNat(n / 10);
      assert s[..|s| - 1] == NatToString(n / 10);
    }
  }
}

=== FILE: verify_guardrails.dfy ===
/**
  The guardrail check run over the repository's Python files: a file under
  one of the scanned directories fails when it imports a vendor's AI client
  on a line that is not a comment, or when it mentions completion,
  generation, an LLM or a client without naming the router. The check
  fails, with exit code 1, when any file does.
 */
module VerifyGuardrails {
  import opened Text
  import Guardrails

  /** The directories scanned, and the path parts that exclude a
      directory. */
  const Include: seq<string> := ["runners/", "agents/", "backend/", "scripts/"]
  const Exclude: seq<string> := ["/tests/", "/node_modules/", "/vendor/", "/.venv/", "/docs/"]

  /** The imports this check denies: only the `import` forms. */
  const DenyImports: seq<Guardrails.Pattern> := [
    Guardrails.Pattern("import", "openai"),
    Guardrails.Pattern("import", "anthropic"),
    Guardrails.Pattern("import", "google.generativeai")
  ]

  /** The router's module name, the same one the rewriter adds. */
  const RouterHint: string := Guardrails.RouterModule

  // ------------------------------------------------------------------ paths

  /** `s.lstrip(chars)`: the leading characters that are among `chars`
      removed. */
  function LStripChars(s: string, chars: string): (r: string)
    ensures |r| <= |s| && r == s[|s| - |r|..]
    ensures r == [] || r[0] !in chars
    ensures forall i :: 0 <= i < |s| - |r| ==> s[i] in chars
  {
    if s != [] && s[0] in chars then LStripChars(s[1..], chars) else s
  }

  /** The path as `should_scan` compares it: kept when it starts with
      "./", otherwise its leading dots and slashes replaced by "./". */
  function Normalize(path: string): (r: string)
    ensures StartsWith(r, "./")
    ensures StartsWith(path, "./") ==> r == path
  {
    if StartsWith(path, "./") then path else "./" + LStripChars(path, "./")
  }

  /** `should_scan`. */
  function ShouldScan(path: string): (r: bool)
    ensures r <==> (forall k :: 0 <= k < |Exclude| ==> !Contains(Normalize(path), Exclude[k]))
                   && exists k :: 0 <= k < |Include| && StartsWith(Normalize(path), "./" + Include[k])
  {
    var p := Normalize(path);
    !AnyContained(p, Exclude) && AnyPrefixed(p, Include)
  }

  function AnyPrefixed(s: string, dirs: seq<string>): (r: bool)
    ensures r <==> exists k :: 0 <= k < |dirs| && StartsWith(s, "./" + dirs[k])
  {
    if dirs == [] then false else StartsWith(s, "./" + dirs[0]) || AnyPrefixed(s, dirs[1..])
  }

  /** Normalizing twice changes nothing more. */
  lemma NormalizeIdempotent(path: string)
    ensures Normalize(Normalize(path)) == Normalize(path)
  {
  }

  /** A path without the leading "./" is scanned as if it had one. */
  lemma DotSlashOptional(path: string)
    requires path == [] || path[0] !in "./"
    ensures Normalize(path) == Normalize("./" + path)
    ensures ShouldScan(path) == ShouldScan("./" + path)
  {
    assert path == [] || path[0] != '.';
    assert LStripChars(path, "./") == path;
    assert StartsWith("./" + path, "./");
  }

  // ---------------------------------------------------------------- matches

  /** `re.finditer` from `i`: the matches found left to right, not
      overlapping, as (start, end) pairs. */
  function FindIter(s: string, i: nat, m: Guardrails.Matcher): (r: seq<(nat, nat)>)
    requires i <= |s| && Guardrails.Advances(m)
    ensures forall k :: 0 <= k < |r| ==> i <= r[k].0 < r[k].1 <= |s| && m(s, r[k].0) == Some(r[k].1)
    ensures forall k :: 0 <= k < |r| - 1 ==> r[k].1 <= r[k + 1].0
    decreases |s| - i
  {
    if i == |s| then []
    else match m(s, i)
      case Some(e) => [(i, e)] + FindIter(s, e, m)
      case None => FindIter(s, i + 1, m)
  }

  /** `finditer` visits exactly the matches `subn` replaces: as many, and
      none when no match starts anywhere. */
  lemma {:induction false} FindIterCounts(s: string, i: nat, m: Guardrails.Matcher, b: string)
    requires i <= |s| && Guardrails.Advances(m)
    ensures |FindIter(s, i, m)| == Guardrails.SubAll(s, i, m, b).1
    decreases |s| - i
  {
    if i < |s| {
      match m(s, i)
      case Some(e) => FindIterCounts(s, e, m, b);
      case None => FindIterCounts(s, i + 1, m, b);
    }
  }

  /** Where the line holding index `a` starts: one past the last line end
      before `a`, or 0 (`text.rfind('\n', 0, a) + 1`). */
  function LineStart(s: string, a: nat): (ls: nat)
    requires a <= |s|
    ensures ls <= a && (ls == 0 || s[ls - 1] == '\n')
    ensures forall k :: ls <= k < a ==> s[k] != '\n'
  {
    if a == 0 || s[a - 1] == '\n' then a else LineStart(s, a - 1)
  }

  /** Where the line holding index `e` ends: the first line end from `e`,
      or the end of the text (`text.find('\n', e)`, -1 read as the end). */
  function LineEnd(s: string, e: nat): (le: nat)
    requires e <= |s|
    ensures e <= le <= |s| && (le == |s| || s[le] == '\n')
    ensures forall k :: e <= k < le ==> s[k] != '\n'
    decreases |s| - e
  {
    if e == |s| || s[e] == '\n' then e else LineEnd(s, e + 1)
  }

  /** The match from `a` to `e` lies on a line that is not a comment. */
  predicate Live(s: string, a: nat, e: nat)
    requires a <= e <= |s|
  {
    !StartsWith(LStrip(s[LineStart(s, a)..LineEnd(s, e)]), "#")
  }

  /** Some match of `ms` lies on a line that is not a comment. */
  predicate AnyLive(s: string, ms: seq<(nat, nat)>)
    requires forall k :: 0 <= k < |ms| ==> ms[k].0 <= ms[k].1 <= |s|
  {
    exists k :: 0 <= k < |ms| && Live(s, ms[k].0, ms[k].1)
  }

  /** The pattern occurs in the text on a line that is not a comment. */
  function LiveImport(text: string, p: Guardrails.Pattern): bool {
    AnyLive(text, FindIter(text, 0, Guardrails.Compile(p)))
  }

  /** A file with no denied import at all has no live one. */
  lemma NoMatchNoImport(text: string, p: Guardrails.Pattern)
    requires !Guardrails.Denied(text, p)
    ensures !LiveImport(text, p)
  {
    var m := Guardrails.Compile(p);
    Guardrails.CompiledDenied(text, p);
    Guardrails.CountZeroIff(text, 0, m, "");
    FindIterCounts(text, 0, m, "");
  }

  /** A denied import on a line of its own, with nothing but white space
      before it, is live. */
  lemma ImportLineIsLive(text: string, a: nat, e: nat)
    requires a <= e <= |text| && (a == 0 || text[a - 1] == '\n') && a < |text| && text[a] == 'i'
    ensures Live(text, a, e)
  {
    assert LineStart(text, a) == a;
    var line := text[a..LineEnd(text, e)];
    assert LStrip(line) == line by {
      assert line[0] == 'i';
    }
    assert !StartsWith(line, "#") by {
      assert line[0] == 'i';
    }
  }

  // ----------------------------------------------------------- router words

  /** `re.search(r"\bcomplete|generate|llm|client", text, re.I)`: the word
      boundary binds to the first alternative only, so "complete" must
      start a word while the other three may occur anywhere. */
  function MentionsModel(text: string): (r: bool)
    ensures r <==> (exists i :: 0 <= i <= |text| && WordStartsAt(text, i) && OccursAt(Lower(text), "complete", i))
                   || Contains(Lower(text), "generate") || Contains(Lower(text), "llm")
                   || Contains(Lower(text), "client")
  {
    var l := Lower(text);
    WordStartFrom(text, l, 0)
    || HasSubstring(l, "generate") || HasSubstring(l, "llm") || HasSubstring(l, "client")
  }

  /** A word-initial "complete" at or after `i`. */
  function WordStartFrom(text: string, l: string, i: nat): (r: bool)
    requires |l| == |text| && i <= |text|
    ensures r <==> exists j :: i <= j <= |text| && WordStartsAt(text, j) && OccursAt(l, "complete", j)
    decreases |text| - i
  {
    if WordStartsAt(text, i) && OccursAt(l, "complete", i) then true
    else if i == |text| then false
    else WordStartFrom(text, l, i + 1)
  }

  /** The file mentions a model client without naming the router. */
  predicate RouterMissing(text: string) {
    MentionsModel(text) && !HasSubstring(text, RouterHint)
  }

  // ------------------------------------------------------------------ files

  /** A file the walk meets: its directory, its name and its text. */
  datatype SourceFile = SourceFile(root: string, name: string, text: string)

  /** The directory as `main` hands it to `should_scan`: backslashes made
      slashes, and a final slash. */
  function RootNorm(root: string): string {
    ReplaceChar(root, '\\', "/") + "/"
  }

  /** A file the check reads: under a scanned directory and a Python
      file. */
  predicate Checked(f: SourceFile) {
    ShouldScan(RootNorm(f.root)) && EndsWith(f.name, ".py")
  }

  /** The reasons one file fails: one per denied import that occurs on a
      live line, then the missing router. */
  function FileReasons(f: SourceFile): (r: seq<string>)
    ensures r == [] <==> (forall k :: 0 <= k < |DenyImports| ==> !LiveImport(f.text, DenyImports[k]))
                         && !RouterMissing(f.text)
  {
    ImportReasons(f.text, DenyImports) + (if RouterMissing(f.text) then ["Missing router import"] else [])
  }

  function ImportReasons(text: string, pats: seq<Guardrails.Pattern>): (r: seq<string>)
    ensures |r| <= |pats|
    ensures r == [] <==> forall k :: 0 <= k < |pats| ==> !LiveImport(text, pats[k])
  {
    if pats == [] then []
    else
      var rest := ImportReasons(text, pats[1..]);
      assert forall k :: 1 <= k < |pats| ==> pats[k] == pats[1..][k - 1];
      (if LiveImport(text, pats[0]) then ["Direct AI client import"] else []) + rest
  }

  /** A file the check passes: not read, or read and without reasons. */
  predicate Clean(f: SourceFile) {
    !Checked(f) || FileReasons(f) == []
  }

  /** One file's offences, as (path, reason) pairs. */
  function FileOffences(f: SourceFile): (r: seq<(string, string)>)
    ensures r == [] <==> Clean(f)
  {
    if Checked(f) then PathReasons(f.root + "/" + f.name, FileReasons(f)) else []
  }

  /** Every offence found, as (path, reason) pairs, in walk order. */
  function Offenders(files: seq<SourceFile>): (r: seq<(string, string)>)
    ensures r == [] <==> forall k :: 0 <= k < |files| ==> FileOffences(files[k]) == []
  {
    Collect(files, FileOffences)
  }

  /** What `f` gives for each element, joined in order. */
  function Collect<T, U>(xs: seq<T>, f: T -> seq<U>): (r: seq<U>)
    ensures r == [] <==> forall k :: 0 <= k < |xs| ==> f(xs[k]) == []
  {
    if xs == [] then [] else f(xs[0]) + Collect(xs[1..], f)
  }

  function PathReasons(path: string, reasons: seq<string>): (r: seq<(string, string)>)
    ensures |r| == |reasons|
    ensures forall k :: 0 <= k < |r| ==> r[k] == (path, reasons[k])
  {
    seq(|reasons|, k requires 0 <= k < |reasons| => (path, reasons[k]))
  }

  /** `main`'s exit code. */
  function ExitCode(files: seq<SourceFile>): (code: int)
    ensures code == 0 || code == 1
    ensures code == 0 <==> forall k :: 0 <= k < |files| ==> Clean(files[k])
  {
    if Offenders(files) != [] then 1 else 0
  }

  /** A file the rewriter has processed is never failed for a missing
      router import. */
  lemma RewrittenHasRouter(txt: string)
    ensures !RouterMissing(Guardrails.RewriteFile(txt).text)
  {
  }
}

=== FILE: video_generator.dfy ===
/**
  The first video generator's script reader: a script is read line by line
  for the four sections hook, main, why and cta, and the spoken text is
  the sections found, joined by spaces, or the whole script when none is.
 */
module VideoGenerator {
  import opened Text

  /** The section names, in the order the spoken text joins them. */
  const SectionNames: seq<string> := ["hook", "main", "why", "cta"]

  /** The sections read and the spoken text. */
  datatype Parsed = Parsed(texts: seq<string>, fullText: string)

  /** The section a (stripped, lower-cased) line opens: the first name it
      starts with. No name is a prefix of another, so at most one fits. */
  function SectionOf(lower: string): (r: Option<nat>)
    ensures r.Some? ==> r.value < 4 && StartsWith(lower, SectionNames[r.value])
    ensures r.None? ==> forall k :: 0 <= k < 4 ==> !StartsWith(lower, SectionNames[k])
  {
    if StartsWith(lower, "hook") then Some(0)
    else if StartsWith(lower, "main") then Some(1)
    else if StartsWith(lower, "why") then Some(2)
    else if StartsWith(lower, "cta") then Some(3)
    else None
  }

  /** The text a section line carries: what follows its first ':', or, with
      no ':', what follows its first ')', stripped; a line with neither
      carries nothing. */
  function Carried(line: string): (r: Option<string>)
    ensures r.Some? <==> ':' in line || ')' in line
  {
    if ':' in line then Some(Strip(After(line, ':')))
    else if ')' in line then Some(Strip(After(line, ')')))
    else None
  }

  /** What line `raw` says about section `k`: the text it sets, if any. */
  function Sets(raw: string, k: nat): Option<string> {
    var part := Strip(raw);
    if part != "" && SectionOf(Lower(part)) == Some(k) then Carried(part) else None
  }

  /** One turn of the loop: a line naming a section and carrying a text
      sets that section; every other line changes nothing. */
  function Step(texts: seq<string>, raw: string): (r: seq<string>)
    requires |texts| == 4
    ensures |r| == 4
  {
    var part := Strip(raw);
    if part == "" then texts
    else match SectionOf(Lower(part))
      case None => texts
      case Some(k) =>
        match Carried(part)
        case None => texts
        case Some(t) => texts[k := t]
  }

  /** The sections after the lines, read in order from four empty ones. */
  function ReadLines(lines: seq<string>): (r: seq<string>)
    ensures |r| == 4
    decreases |lines|
  {
    if lines == [] then ["", "", "", ""]
    else Step(ReadLines(lines[..|lines| - 1]), lines[|lines| - 1])
  }

  /** The sections that are not empty, in order. */
  function NonEmpty(texts: seq<string>): (r: seq<string>)
    ensures |r| <= |texts|
    ensures forall k :: 0 <= k < |r| ==> r[k] != ""
  {
    if texts == [] then []
    else (if texts[0] != "" then [texts[0]] else []) + NonEmpty(texts[1..])
  }

  /** `parse_video_script`. */
  function ParseVideoScript(script: string): (r: Parsed)
    ensures |r.texts| == 4
    ensures r.fullText != "" || script == ""
  {
    var texts := ReadLines(Split(script, '\n'));
    var joined := Strip(Join(" ", NonEmpty(texts)));
    Parsed(texts, if joined != "" then joined else script)
  }

  // ------------------------------------------------------------- properties

  /** The text the last line setting section `k` sets. */
  function LastSet(lines: seq<string>, k: nat): Option<string>
    decreases |lines|
  {
    if lines == [] then None
    else match Sets(lines[|lines| - 1], k)
      case Some(t) => Some(t)
      case None => LastSet(lines[..|lines| - 1], k)
  }

  /** A line changes only the section it sets. */
  lemma StepSets(texts: seq<string>, raw: string, k: nat)
    requires |texts| == 4 && k < 4
    ensures Step(texts, raw)[k] == match Sets(raw, k) case Some(t) => t case None => texts[k]
  {
  }

  /** Each section holds the text of the last line that sets it, and is
      empty when no line does: a later line for a section overwrites an
      earlier one. */
  lemma {:induction false} LastLineWins(lines: seq<string>, k: nat)
    requires k < 4
    ensures ReadLines(lines)[k] == match LastSet(lines, k) case Some(t) => t case None => ""
    decreases |lines|
  {
    if lines != [] {
      LastLineWins(lines[..|lines| - 1], k);
      StepSets(ReadLines(lines[..|lines| - 1]), lines[|lines| - 1], k);
    }
  }

  /** A text with no white space at either end. */
  predicate Bare(t: string) {
    t == "" || (!IsSpace(t[0]) && !IsSpace(t[|t| - 1]))
  }

  predicate AllBare(ts: seq<string>) {
    forall k :: 0 <= k < |ts| ==> Bare(ts[k])
  }

  lemma ConsBare(t: string, ts: seq<string>)
    requires Bare(t) && AllBare(ts)
    ensures AllBare([t] + ts)
  {
    assert forall k :: 1 <= k < |[t] + ts| ==> ([t] + ts)[k] == ts[k - 1];
  }

  /** Every section read is stripped. */
  lemma {:induction false} SectionsStripped(lines: seq<string>, k: nat)
    requires k < 4
    ensures Bare(ReadLines(lines)[k])
    decreases |lines|
  {
    if lines != [] {
      SectionsStripped(lines[..|lines| - 1], k);
      StepSets(ReadLines(lines[..|lines| - 1]), lines[|lines| - 1], k);
    }
  }

  /** Stripped, non-empty parts joined by spaces start and end with a
      non-space character. */
  lemma {:induction false} JoinEdges(parts: seq<string>)
    requires AllBare(parts) && forall k :: 0 <= k < |parts| ==> parts[k] != ""
    ensures Bare(Join(" ", parts))
    decreases |parts|
  {
    if |parts| > 1 {
      JoinEdges(parts[1..]);
      var rest := Join(" ", parts[1..]);
      assert rest != "" by { JoinNonEmpty(parts[1..]); }
      assert Join(" ", parts) == parts[0] + " " + rest;
    }
  }

  lemma JoinNonEmpty(parts: seq<string>)
    requires parts != [] && parts[0] != ""
    ensures Join(" ", parts) != ""
  {
  }

  /** The non-empty sections are stripped sections. */
  lemma {:induction false} NonEmptyStripped(texts: seq<string>)
    requires AllBare(texts)
    ensures AllBare(NonEmpty(texts))
    decreases |texts|
  {
    if texts != [] {
      assert AllBare(texts[1..]);
      NonEmptyStripped(texts[1..]);
      if texts[0] != "" {
        ConsBare(texts[0], NonEmpty(texts[1..]));
      }
    }
  }

  /** The spoken text is the non-empty sections in the order hook, main,
      why, cta joined by single spaces, with nothing stripped off; only
      when every section is empty is it the whole script. */
  lemma FullTextJoins(script: string)
    ensures var r := ParseVideoScript(script);
            && (NonEmpty(r.texts) != [] ==> r.fullText == Join(" ", NonEmpty(r.texts)))
            && (NonEmpty(r.texts) == [] ==> r.fullText == script)
  {
    var lines := Split(script, '\n');
    var texts := ReadLines(lines);
    forall k | 0 <= k < 4
      ensures Bare(texts[k])
    {
      SectionsStripped(lines, k);
    }
    NonEmptyStripped(texts);
    var ne := NonEmpty(texts);
    JoinEdges(ne);
    StripNoSpaceEdges(Join(" ", ne));
    if ne != [] {
      JoinNonEmpty(ne);
    }
  }
}

=== FILE: video_pro.dfy ===
/**
  The bold ("rapid-fire") video renderer's script parser and its choice
  of the word-by-word layout.

  Timed sections are cut into sentences; each sentence, or each ten-word
  chunk of a longer one, becomes a scene. Every scene of a section lasts
  the section's length shared among its sentence pieces, at most three
  seconds, and the scenes follow one another from the section's start.
  Without timed sections the whole script is cut into sentences, each a
  "main" scene of two to four seconds, back to back from zero.

  Sentences are split where a '.', '!' or '?' is followed by white space
  (the mark and the whole run of white space are the separator) or at a
  run of line ends. Times are `real` seconds; the factor 0.3 is the exact
  decimal.
 */
module VideoPro {
  import opened Text
  import ScriptTiming
  import Wrap

  /** Longest chunk of a long sentence, in words. */
  const ChunkWords: nat := 10

  /** Longest scene of a timed section, in seconds. */
  const MaxTimedDuration: real := 3.0

  /** A scene: type, text, start, duration, the text's words, end. */
  datatype Scene = Scene(kind: string, text: string, start: real, duration: real, words: seq<string>, end: real)

  // ------------------------------------------------------- sentence split

  predicate IsStop(c: char) {
    c == '.' || c == '!' || c == '?'
  }

  /** Length of the run of line ends from `i`. */
  function NewlineRun(s: string, i: nat): (n: nat)
    requires i <= |s|
    ensures i + n <= |s|
    ensures forall j :: i <= j < i + n ==> s[j] == '\n'
    ensures i + n == |s| || s[i + n] != '\n'
    decreases |s| - i
  {
    if i < |s| && s[i] == '\n' then 1 + NewlineRun(s, i + 1) else 0
  }

  /** The length of the separator `[.!?]\s+|\n+` matching at `i`, or 0. */
  function BreakAt(s: string, i: nat): (n: nat)
    requires i < |s|
    ensures i + n <= |s|
  {
    if IsStop(s[i]) && i + 1 < |s| && IsSpace(s[i + 1]) then 1 + SpaceRun(s, i + 1)
    else if s[i] == '\n' then NewlineRun(s, i)
    else 0
  }

  /** The scan of `re.split`: the piece open since `start`, at `i`. */
  function SplitFrom(s: string, start: nat, i: nat): (r: seq<string>)
    requires start <= i <= |s|
    ensures |r| >= 1
    decreases |s| - i
  {
    if i == |s| then [s[start..]]
    else
      var n := BreakAt(s, i);
      if n == 0 then SplitFrom(s, start, i + 1) else [s[start..i]] + SplitFrom(s, i + n, i + n)
  }

  /** `re.split(r'[.!?]\s+|\n+', s)`. */
  function Sentences(s: string): (r: seq<string>)
    ensures |r| >= 1
  {
    SplitFrom(s, 0, 0)
  }

  /** A piece with no separator in it. */
  predicate Clean(p: string) {
    forall j :: 0 <= j < |p| ==> p[j] != '\n' && (IsStop(p[j]) && j + 1 < |p| ==> !IsSpace(p[j + 1]))
  }

  /** No piece holds a separator. */
  lemma {:induction false} PiecesClean(s: string, start: nat, i: nat)
    requires start <= i <= |s|
    requires forall j :: start <= j < i ==> BreakAt(s, j) == 0
    ensures forall k :: 0 <= k < |SplitFrom(s, start, i)| ==> Clean(SplitFrom(s, start, i)[k])
    decreases |s| - i
  {
    if i == |s| {
      SliceClean(s, start, i);
    } else if BreakAt(s, i) == 0 {
      PiecesClean(s, start, i + 1);
    } else {
      SliceClean(s, start, i);
      PiecesClean(s, i + BreakAt(s, i), i + BreakAt(s, i));
    }
  }

  /** A stretch with no separator starting in it, ending where one starts
      or at the end, is clean. */
  lemma SliceClean(s: string, start: nat, i: nat)
    requires start <= i <= |s|
    requires forall j :: start <= j < i ==> BreakAt(s, j) == 0
    requires i < |s| ==> BreakAt(s, i) > 0
    ensures Clean(s[start..i])
  {
    var p := s[start..i];
    forall j | 0 <= j < |p|
      ensures p[j] != '\n' && (IsStop(p[j]) && j + 1 < |p| ==> !IsSpace(p[j + 1]))
    {
      assert p[j] == s[start + j];
      assert BreakAt(s, start + j) == 0;
      if j + 1 < |p| {
        assert p[j + 1] == s[start + j + 1];
      }
    }
  }

  lemma SentencesClean(s: string)
    ensures forall k :: 0 <= k < |Sentences(s)| ==> Clean(Sentences(s)[k])
  {
    PiecesClean(s, 0, 0);
  }

  /** A sentence the split gives back unchanged when written on its own
      line: non-empty, clean, and not ending in a stop mark. */
  predicate Plain(x: string) {
    x != [] && Clean(x) && !IsStop(x[|x| - 1])
  }

  /** Scanning across a clean stretch finds nothing. */
  lemma {:induction false} ScanQuiet(s: string, start: nat, i: nat, e: nat)
    requires start <= i <= e <= |s|
    requires forall j :: i <= j < e ==> BreakAt(s, j) == 0
    ensures SplitFrom(s, start, i) == SplitFrom(s, start, e)
    decreases e - i
  {
    if i < e {
      ScanQuiet(s, start, i + 1, e);
    }
  }

  /** Inside a plain sentence written into `s` at `a`, no separator
      starts, provided the character after it is a line end or nothing. */
  lemma PlainQuiet(s: string, a: nat, x: string)
    requires Plain(x) && a + |x| <= |s| && s[a..a + |x|] == x
    ensures forall j :: a <= j < a + |x| ==> BreakAt(s, j) == 0
  {
    forall j | a <= j < a + |x| ensures BreakAt(s, j) == 0 {
      assert s[j] == x[j - a];
      if j + 1 < a + |x| {
        assert s[j + 1] == x[j + 1 - a];
      }
    }
  }

  /** Plain sentences written on lines of their own split back into the
      same sentences. */
  lemma SentencesOfLines(xs: seq<string>)
    requires xs != []
    requires forall k :: 0 <= k < |xs| ==> Plain(xs[k])
    ensures Sentences(Join("\n", xs)) == xs
  {
    AllPlainOf(xs);
    SplitLinesAt(Join("\n", xs), 0, xs);
  }

  predicate AllPlain(xs: seq<string>) {
    xs == [] || (Plain(xs[0]) && AllPlain(xs[1..]))
  }

  lemma {:induction false} AllPlainOf(xs: seq<string>)
    requires forall k :: 0 <= k < |xs| ==> Plain(xs[k])
    ensures AllPlain(xs)
    decreases |xs|
  {
    if xs != [] {
      AllPlainOf(xs[1..]);
    }
  }

  lemma {:induction false} SplitLinesAt(s: string, a: nat, xs: seq<string>)
    requires xs != [] && AllPlain(xs)
    requires a <= |s| && s[a..] == Join("\n", xs)
    ensures SplitFrom(s, a, a) == xs
    decreases |xs|
  {
    if |xs| == 1 {
      LastLine(s, a, xs[0]);
    } else {
      LinesSlices(s, a, xs);
      LineThenRest(s, a, xs[0], xs[1]);
      SplitLinesAt(s, a + |xs[0]| + 1, xs[1..]);
      assert xs == [xs[0]] + xs[1..];
    }
  }

  /** Where the first two lines of a joined text sit in `s`. */
  lemma LinesSlices(s: string, a: nat, xs: seq<string>)
    requires |xs| > 1
    requires a <= |s| && s[a..] == Join("\n", xs)
    ensures a + |xs[0]| < |s| && s[a..a + |xs[0]|] == xs[0] && s[a + |xs[0]|] == '\n'
    ensures s[a + |xs[0]| + 1..] == Join("\n", xs[1..])
    ensures a + |xs[0]| + 1 + |xs[1]| <= |s| && s[a + |xs[0]| + 1..a + |xs[0]| + 1 + |xs[1]|] == xs[1]
  {
    var rest := Join("\n", xs[1..]);
    SliceParts(s, a, xs[0], rest);
    JoinStarts(xs[1..]);
    SliceStarts(s, a + |xs[0]| + 1, rest, xs[1]);
  }

  lemma SliceParts(s: string, a: nat, x: string, rest: string)
    requires a <= |s| && s[a..] == x + "\n" + rest
    ensures a + |x| < |s| && s[a..a + |x|] == x && s[a + |x|] == '\n' && s[a + |x| + 1..] == rest
  {
    assert s[a..][..|x|] == x;
    assert s[a..][|x|] == '\n';
    assert s[a..][|x| + 1..] == rest;
  }

  lemma SliceStarts(s: string, b: nat, rest: string, y: string)
    requires b <= |s| && s[b..] == rest && |y| <= |rest| && rest[..|y|] == y
    ensures b + |y| <= |s| && s[b..b + |y|] == y
  {
    assert s[b..][..|y|] == s[b..b + |y|];
  }

  /** A joined text begins with its first part. */
  lemma JoinStarts(xs: seq<string>)
    requires xs != []
    ensures |xs[0]| <= |Join("\n", xs)| && Join("\n", xs)[..|xs[0]|] == xs[0]
  {
  }

  /** The last line is the last piece. */
  lemma LastLine(s: string, a: nat, x: string)
    requires Plain(x) && a <= |s| && s[a..] == x
    ensures SplitFrom(s, a, a) == [x]
  {
    assert s[a..a + |x|] == x;
    PlainQuiet(s, a, x);
    ScanQuiet(s, a, a, |s|);
  }

  /** A plain line followed by a line end and another plain line is a
      piece of its own; the scan resumes after the line end. */
  lemma LineThenRest(s: string, a: nat, x: string, y: string)
    requires Plain(x) && Plain(y)
    requires a + |x| < |s| && s[a..a + |x|] == x && s[a + |x|] == '\n'
    requires a + |x| + 1 + |y| <= |s| && s[a + |x| + 1..a + |x| + 1 + |y|] == y
    ensures SplitFrom(s, a, a) == [x] + SplitFrom(s, a + |x| + 1, a + |x| + 1)
  {
    var e := a + |x|;
    PlainQuiet(s, a, x);
    ScanQuiet(s, a, a, e);
    LineBreakAt(s, e, y);
    SplitBreak(s, a, e);
  }

  lemma SplitBreak(s: string, start: nat, i: nat)
    requires start <= i < |s| && BreakAt(s, i) > 0
    ensures SplitFrom(s, start, i) == [s[start..i]] + SplitFrom(s, i + BreakAt(s, i), i + BreakAt(s, i))
  {
  }

  /** The line end between two plain sentences is a separator of length
      one. */
  lemma LineBreakAt(s: string, e: nat, y: string)
    requires Plain(y)
    requires e + 1 + |y| <= |s| && s[e] == '\n' && s[e + 1..e + 1 + |y|] == y
    ensures BreakAt(s, e) == 1
  {
    assert s[e + 1] == y[0];
  }

  // --------------------------------------------------------------- scenes

  function Min(a: real, b: real): real {
    if b < a then b else a
  }

  function Max(a: real, b: real): real {
    if b > a then b else a
  }

  /** The words of a long sentence in runs of ten; the last run holds the
      rest. */
  function Chunks(ws: seq<string>): (r: seq<seq<string>>)
    ensures forall k :: 0 <= k < |r| ==> 1 <= |r[k]| <= ChunkWords
    ensures Wrap.Flatten(r) == ws
    ensures forall k, x :: 0 <= k < |r| && x in r[k] ==> x in ws
    decreases |ws|
  {
    if ws == [] then []
    else if |ws| <= ChunkWords then [ws]
    else
      var rest := Chunks(ws[ChunkWords..]);
      assert ws == ws[..ChunkWords] + ws[ChunkWords..];
      [ws[..ChunkWords]] + rest
  }

  /** The texts of the chunks. */
  function ChunkTexts(cs: seq<seq<string>>): (r: seq<string>)
    ensures |r| == |cs|
  {
    seq(|cs|, k requires 0 <= k < |cs| => Join(" ", cs[k]))
  }

  /** The scene texts of a section's sentence pieces: an empty piece gives
      none, a sentence of more than ten words one per chunk, any other
      sentence itself. */
  function SceneTexts(pieces: seq<string>): seq<string>
    decreases |pieces|
  {
    if pieces == [] then []
    else
      var p := Strip(pieces[0]);
      if p == "" then SceneTexts(pieces[1..])
      else
        var ws := Words(p);
        (if |ws| > ChunkWords then ChunkTexts(Chunks(ws)) else [p]) + SceneTexts(pieces[1..])
  }

  /** A scene with the given text, start and duration. */
  function MakeScene(kind: string, text: string, start: real, duration: real): Scene {
    Scene(kind, text, start, duration, Words(text), start + duration)
  }

  /** The texts as scenes of `d` seconds each, the first from `t`, each
      later one from where the previous ended. */
  function Cumulate(kind: string, texts: seq<string>, t: real, d: real): (r: seq<Scene>)
    ensures |r| == |texts|
    decreases |texts|
  {
    if texts == [] then [] else [MakeScene(kind, texts[0], t, d)] + Cumulate(kind, texts[1..], t + d, d)
  }

  /** The length of a section shared among its pieces, empty ones
      included. */
  function Share(sec: ScriptTiming.TimedSection): real {
    (sec.end - sec.start) as real / (if |Sentences(sec.text)| > 1 then |Sentences(sec.text)| else 1) as real
  }

  function SectionScenes(sec: ScriptTiming.TimedSection): seq<Scene> {
    Cumulate(ScriptTiming.Name(sec.kind), SceneTexts(Sentences(sec.text)), sec.start as real, Min(MaxTimedDuration, Share(sec)))
  }

  function AllSectionScenes(secs: seq<ScriptTiming.TimedSection>): seq<Scene> {
    if secs == [] then [] else SectionScenes(secs[0]) + AllSectionScenes(secs[1..])
  }

  /** A fallback scene's length: 0.3 s a word, between 2 and 4 seconds. */
  function FallbackDuration(wordCount: nat): (d: real)
    ensures 2.0 <= d <= 4.0
  {
    Max(2.0, Min(wordCount as real * 0.3, 4.0))
  }

  /** The sentences of a script without timed sections, from `t`. */
  function FallbackFrom(pieces: seq<string>, t: real): seq<Scene>
    decreases |pieces|
  {
    if pieces == [] then []
    else
      var p := Strip(pieces[0]);
      if p == "" then FallbackFrom(pieces[1..], t)
      else
        var sc := MainScene(p, t);
        [sc] + FallbackFrom(pieces[1..], sc.end)
  }

  /** The scene of one sentence of a script without timed sections. */
  function MainScene(p: string, t: real): Scene {
    MakeScene("main", p, t, FallbackDuration(|Words(p)|))
  }

  /** `parse_script_competitor_style`. */
  /** `parse_script_competitor_style`: with timed sections, every scene is
      at most three seconds and ten words; without, the scenes are "main"
      scenes of two to four seconds following one another from zero. */
  function ParseScript(script: string): (r: seq<Scene>)
    ensures ScriptTiming.Sections(script) != [] ==> ShortScenes(r)
    ensures ScriptTiming.Sections(script) == [] ==> Contiguous(r, 0.0) && MainScenes(r)
    ensures forall k :: 0 <= k < |r| ==> r[k].duration <= 4.0 && r[k].end == r[k].start + r[k].duration
  {
    var secs := ScriptTiming.Sections(script);
    if secs != [] then
      AllSectionsShort(secs);
      AllSectionScenes(secs)
    else
      FallbackTimed(Sentences(script), 0.0);
      FallbackFrom(Sentences(script), 0.0)
  }

  // ----------------------------------------------------------- properties

  /** Scenes that follow one another from `t`, each ending `duration`
      after its start. */
  predicate Contiguous(r: seq<Scene>, t: real) {
    && (r != [] ==> r[0].start == t)
    && (forall k :: 0 < k < |r| ==> r[k].start == r[k - 1].end)
    && (forall k :: 0 <= k < |r| ==> r[k].end == r[k].start + r[k].duration)
  }

  /** Where a run of contiguous scenes from `t` ends. */
  function EndOf(r: seq<Scene>, t: real): real {
    if r == [] then t else r[|r| - 1].end
  }

  lemma ContiguousAppend(a: seq<Scene>, b: seq<Scene>, t: real)
    requires Contiguous(a, t) && Contiguous(b, EndOf(a, t))
    ensures Contiguous(a + b, t)
  {
  }

  /** Scenes made by `Cumulate` follow one another from `t`, each lasting
      `d`. */
  lemma {:induction false} CumulateTimed(kind: string, texts: seq<string>, t: real, d: real)
    ensures Contiguous(Cumulate(kind, texts, t, d), t)
    ensures forall k :: 0 <= k < |texts| ==>
              Cumulate(kind, texts, t, d)[k].duration == d && Cumulate(kind, texts, t, d)[k].words == Words(texts[k])
    decreases |texts|
  {
    if texts != [] {
      CumulateTimed(kind, texts[1..], t + d, d);
      ContiguousAppend([MakeScene(kind, texts[0], t, d)], Cumulate(kind, texts[1..], t + d, d), t);
    }
  }

  /** Every scene text holds at most ten words. */
  lemma {:induction false} TextsShort(pieces: seq<string>)
    ensures forall k :: 0 <= k < |SceneTexts(pieces)| ==> |Words(SceneTexts(pieces)[k])| <= ChunkWords
    decreases |pieces|
  {
    if pieces != [] {
      TextsShort(pieces[1..]);
      var p := Strip(pieces[0]);
      if p != "" && |Words(p)| > ChunkWords {
        ChunkTextsShort(Words(p));
      }
    }
  }

  /** A chunk's text splits back into the chunk. */
  lemma ChunkTextsShort(ws: seq<string>)
    requires forall i :: 0 <= i < |ws| ==> IsWord(ws[i])
    ensures forall k :: 0 <= k < |Chunks(ws)| ==> Words(ChunkTexts(Chunks(ws))[k]) == Chunks(ws)[k]
    ensures forall k :: 0 <= k < |Chunks(ws)| ==> |Words(ChunkTexts(Chunks(ws))[k])| <= ChunkWords
  {
    var cs := Chunks(ws);
    forall k | 0 <= k < |cs| ensures Words(ChunkTexts(cs)[k]) == cs[k] {
      ChunkWordsAreWords(ws, cs[k]);
      WordsJoin(cs[k]);
    }
  }

  lemma ChunkWordsAreWords(ws: seq<string>, c: seq<string>)
    requires forall i :: 0 <= i < |ws| ==> IsWord(ws[i])
    requires forall x :: x in c ==> x in ws
    ensures forall i :: 0 <= i < |c| ==> IsWord(c[i])
  {
    forall i | 0 <= i < |c| ensures IsWord(c[i]) {
      assert c[i] in ws;
    }
  }

  /** The scenes of a section's pieces, `d` seconds each from `t`, follow
      one another and hold at most ten words each. */
  lemma PiecesTimed(kind: string, pieces: seq<string>, t: real, d: real)
    ensures var r := Cumulate(kind, SceneTexts(pieces), t, d);
            && Contiguous(r, t)
            && forall k :: 0 <= k < |r| ==> r[k].duration == d && |r[k].words| <= ChunkWords
  {
    CumulateTimed(kind, SceneTexts(pieces), t, d);
    TextsShort(pieces);
  }

  /** Every scene of a timed section starts where the previous one ended,
      the first at the section's start; each lasts the section's share, at
      most three seconds, and holds at most ten words. */
  lemma SectionTimed(sec: ScriptTiming.TimedSection)
    ensures var r := SectionScenes(sec);
            && Contiguous(r, sec.start as real)
            && forall k :: 0 <= k < |r| ==>
                 r[k].duration == Min(MaxTimedDuration, Share(sec)) && r[k].duration <= MaxTimedDuration
                 && |r[k].words| <= ChunkWords
  {
    PiecesTimed(ScriptTiming.Name(sec.kind), Sentences(sec.text), sec.start as real, Min(MaxTimedDuration, Share(sec)));
  }

  /** Every scene lasts at most three seconds, holds at most ten words and
      ends its duration after its start. */
  predicate ShortScenes(r: seq<Scene>) {
    forall k :: 0 <= k < |r| ==>
      r[k].duration <= MaxTimedDuration && |r[k].words| <= ChunkWords && r[k].end == r[k].start + r[k].duration
  }

  lemma ShortScenesAppend(a: seq<Scene>, b: seq<Scene>)
    requires ShortScenes(a) && ShortScenes(b)
    ensures ShortScenes(a + b)
  {
    assert forall k :: |a| <= k < |a| + |b| ==> (a + b)[k] == b[k - |a|];
  }

  /** The scenes of all timed sections, each section's from its own start. */
  lemma {:induction false} AllSectionsShort(secs: seq<ScriptTiming.TimedSection>)
    ensures ShortScenes(AllSectionScenes(secs))
    decreases |secs|
  {
    if secs != [] {
      SectionTimed(secs[0]);
      AllSectionsShort(secs[1..]);
      ShortScenesAppend(SectionScenes(secs[0]), AllSectionScenes(secs[1..]));
    }
  }

  /** Every scene is a "main" scene of two to four seconds, 0.3 s a word. */
  predicate MainScenes(r: seq<Scene>) {
    forall k :: 0 <= k < |r| ==>
      r[k].kind == "main" && r[k].duration == FallbackDuration(|r[k].words|) && 2.0 <= r[k].duration <= 4.0
  }

  /** Without timed sections every scene is a "main" scene of two to four
      seconds, 0.3 s a word, and the scenes follow one another from `t`. */
  lemma {:induction false} FallbackTimed(pieces: seq<string>, t: real)
    ensures var r := FallbackFrom(pieces, t);
            && Contiguous(r, t)
            && MainScenes(r)
    decreases |pieces|
  {
    if pieces != [] {
      var p := Strip(pieces[0]);
      if p == "" {
        FallbackTimed(pieces[1..], t);
        assert FallbackFrom(pieces, t) == FallbackFrom(pieces[1..], t);
      } else {
        var sc := MainScene(p, t);
        FallbackTimed(pieces[1..], sc.end);
        MainSceneFirst(sc, FallbackFrom(pieces[1..], sc.end), t);
        assert FallbackFrom(pieces, t) == [sc] + FallbackFrom(pieces[1..], sc.end);
      }
    }
  }

  /** A "main" scene from `t` put before fallback scenes that start where it
      ends. */
  lemma MainSceneFirst(sc: Scene, rest: seq<Scene>, t: real)
    requires sc == MainScene(sc.text, t)
    requires Contiguous(rest, sc.end) && MainScenes(rest)
    ensures Contiguous([sc] + rest, t) && MainScenes([sc] + rest)
  {
    var r := [sc] + rest;
    ContiguousAppend([sc], rest, t);
    assert forall k :: 1 <= k < |r| ==> r[k] == rest[k - 1];
  }

  /** `use_word_by_word and len(words) <= 8 and duration <= 4`. */
  predicate WordByWord(enabled: bool, sc: Scene) {
    enabled && |sc.words| <= 8 && sc.duration <= 4.0
  }

  /** No parsed scene lasts more than four seconds, so the word-by-word
      layout is chosen exactly for the scenes of at most eight words when
      it is enabled. */
  lemma WordByWordChoice(script: string, enabled: bool)
    ensures forall k :: 0 <= k < |ParseScript(script)| ==>
              (WordByWord(enabled, ParseScript(script)[k]) <==> enabled && |ParseScript(script)[k].words| <= 8)
  {
    var secs := ScriptTiming.Sections(script);
    if secs != [] {
      AllSectionsShort(secs);
    } else {
      FallbackTimed(Sentences(script), 0.0);
    }
  }
}

=== FILE: video_production.dfy ===
/**
  The plain video renderer's script parser and stock-footage keyword
  choice.

  A script is first scanned for timed sections (`Hook (0-3s): ...`); each
  one becomes a scene with the section's own times. When there is none,
  the script is read line by line: a line starting with a label opens a
  scene, later unlabelled lines join it, and the scenes get three seconds
  each, back to back from zero. Times are `real` seconds.
 */
module VideoProduction {
  import opened Text
  import ScriptTiming

  /** Seconds given to each scene of the line-by-line reading. */
  const DefaultSceneDuration: real := 3.0

  /** A scene: its type ("hook", "main", ...), its text and its timing. */
  datatype Scene = Scene(kind: string, text: string, start: real, end: real, duration: real)

  // ------------------------------------------------------------ timed path

  /** The scene of one timed section; the duration is `end - start`, which
      nothing keeps from being negative. */
  function TimedScene(sec: ScriptTiming.TimedSection): Scene {
    Scene(ScriptTiming.Name(sec.kind), sec.text, sec.start as real, sec.end as real, (sec.end - sec.start) as real)
  }

  function TimedScenes(secs: seq<ScriptTiming.TimedSection>): (r: seq<Scene>)
    ensures |r| == |secs|
  {
    seq(|secs|, k requires 0 <= k < |secs| => TimedScene(secs[k]))
  }

  // ------------------------------------------------------ line-by-line path

  /** The openings that make a (lower-cased, stripped) line a label line. */
  const LabelOpenings: seq<string> := ["hook:", "hook ", "main:", "main ", "why:", "why ", "cta:", "cta "]

  predicate IsLabelLine(line: string) {
    StartsWithAny(Lower(line), LabelOpenings)
  }

  /** The scene type a label line names: the text before its first ':'
      (all of it when there is none), stripped and lower-cased. */
  function LabelOf(line: string): string {
    Lower(Strip(Before(line, ':')))
  }

  /** The first piece of a scene's text: what follows the first ':',
      stripped, or the whole line when it has no ':'. */
  function FirstPart(line: string): string {
    if ':' in line then Strip(After(line, ':')) else line
  }

  /** A scene of the line-by-line reading before timing: its type and the
      lines of its text. */
  datatype Draft = Draft(kind: string, parts: seq<string>)

  /** The scene flushed when a label line or the end of the script is
      reached: one only if a scene is open and has text. */
  function Flush(scene: Option<string>, parts: seq<string>): seq<Draft> {
    if Truthy(scene) && parts != [] then [Draft(scene.value, parts)] else []
  }

  /** The loop over the lines, with `scene` and `parts` the open scene. */
  function Collect(lines: seq<string>, scene: Option<string>, parts: seq<string>): seq<Draft>
    decreases |lines|
  {
    if lines == [] then Flush(scene, parts)
    else
      var line := Strip(lines[0]);
      if line == "" then Collect(lines[1..], scene, parts)
      else if IsLabelLine(line) then
        Flush(scene, parts) + Collect(lines[1..], Some(LabelOf(line)), [FirstPart(line)])
      else if parts != [] then Collect(lines[1..], scene, parts + [line])
      else Collect(lines[1..], scene, parts)
  }

  /** The drafts timed back to back from zero, three seconds each. */
  function Timed(drafts: seq<Draft>): (r: seq<Scene>)
    ensures |r| == |drafts|
  {
    seq(|drafts|, k requires 0 <= k < |drafts| =>
      Scene(drafts[k].kind, Join(" ", drafts[k].parts),
            k as real * DefaultSceneDuration, k as real * DefaultSceneDuration + DefaultSceneDuration,
            DefaultSceneDuration))
  }

  function FallbackScenes(script: string): seq<Scene> {
    Timed(Collect(Split(script, '\n'), None, []))
  }

  /** `parse_script_with_timing`: the timed sections, or the line-by-line
      reading when the script has none. */
  function ParseScript(script: string): (r: seq<Scene>)
    ensures ScriptTiming.Sections(script) != [] ==> |r| == |ScriptTiming.Sections(script)|
  {
    var secs := ScriptTiming.Sections(script);
    if secs != [] then TimedScenes(secs) else FallbackScenes(script)
  }

  /** A script written as timed sections parses to one scene per section,
      with the section's label, times and text, and a duration of `end -
      start`. */
  lemma ParseRendered(secs: seq<ScriptTiming.TimedSection>)
    requires secs != []
    requires forall k :: 0 <= k < |secs| ==> ScriptTiming.Renderable(secs[k])
    ensures var r := ParseScript(ScriptTiming.RenderAll(secs));
            && |r| == |secs|
            && forall k :: 0 <= k < |r| ==>
                 && r[k].kind == ScriptTiming.Name(secs[k].kind)
                 && r[k].text == secs[k].text
                 && r[k].start == secs[k].start as real && r[k].end == secs[k].end as real
                 && r[k].duration == r[k].end - r[k].start
  {
    ScriptTiming.SectionsOfRendered(secs);
  }

  /** The line-by-line reading is used only without timed sections, and its
      scenes last three seconds each and follow one another from zero. */
  lemma FallbackContiguous(script: string)
    requires ScriptTiming.Sections(script) == []
    ensures var r := ParseScript(script);
            && (r != [] ==> r[0].start == 0.0)
            && (forall k :: 0 < k < |r| ==> r[k].start == r[k - 1].end)
            && (forall k :: 0 <= k < |r| ==> r[k].duration == DefaultSceneDuration && r[k].end == r[k].start + r[k].duration)
  {
  }

  /** The number of label lines among the lines. */
  function LabelLines(lines: seq<string>): nat {
    if lines == [] then 0
    else (if Strip(lines[0]) != "" && IsLabelLine(Strip(lines[0])) then 1 else 0) + LabelLines(lines[1..])
  }

  /** A label line names a scene type: the type is never empty. */
  lemma LabelNamed(line: string)
    requires line != [] && !IsSpace(line[0]) && IsLabelLine(line)
    ensures LabelOf(line) != ""
  {
    var k :| 0 <= k < |LabelOpenings| && StartsWith(Lower(line), LabelOpenings[k]);
    assert Lower(line)[0] == LabelOpenings[k][0];
    assert line[0] != ':';
    var b := Before(line, ':');
    assert b != [] && b[0] == line[0];
    StripKeepsFirst(b);
  }

  lemma StripKeepsFirst(s: string)
    requires s != [] && !IsSpace(s[0])
    ensures Strip(s) != []
  {
    if RStrip(s) == [] {
      RStripEmpty(s);
    }
  }

  /** Every label line opens exactly one scene: the line-by-line reading
      has as many scenes as the script has label lines. */
  lemma {:induction false} CollectCount(lines: seq<string>, scene: Option<string>, parts: seq<string>)
    requires Truthy(scene) <==> parts != []
    ensures |Collect(lines, scene, parts)| == LabelLines(lines) + (if parts != [] then 1 else 0)
    decreases |lines|
  {
    if lines != [] {
      var line := Strip(lines[0]);
      if line == "" {
        CollectCount(lines[1..], scene, parts);
      } else if IsLabelLine(line) {
        LabelNamed(line);
        CollectCount(lines[1..], Some(LabelOf(line)), [FirstPart(line)]);
      } else if parts != [] {
        CollectCount(lines[1..], scene, parts + [line]);
      } else {
        CollectCount(lines[1..], scene, parts);
      }
    }
  }

  lemma FallbackCount(script: string)
    requires ScriptTiming.Sections(script) == []
    ensures |ParseScript(script)| == LabelLines(Split(script, '\n'))
  {
    CollectCount(Split(script, '\n'), None, []);
  }

  /** Lines before the first label line are dropped. */
  lemma {:induction false} PreambleIgnored(pre: seq<string>, rest: seq<string>)
    requires forall k :: 0 <= k < |pre| ==> !IsLabelLine(Strip(pre[k]))
    ensures Collect(pre + rest, None, []) == Collect(rest, None, [])
    decreases |pre|
  {
    if pre == [] {
      assert pre + rest == rest;
    } else {
      assert (pre + rest)[0] == pre[0] && (pre + rest)[1..] == pre[1..] + rest;
      PreambleIgnored(pre[1..], rest);
    }
  }

  /** Unlabelled lines after a label line join its scene, in order. */
  lemma {:induction false} BodyAppended(body: seq<string>, kind: string, parts: seq<string>)
    requires kind != "" && parts != []
    requires forall k :: 0 <= k < |body| ==> Strip(body[k]) != "" && !IsLabelLine(Strip(body[k]))
    ensures Collect(body, Some(kind), parts) == [Draft(kind, parts + Stripped(body))]
    decreases |body|
  {
    if body == [] {
      CollectEnd(kind, parts);
    } else {
      var line := Strip(body[0]);
      CollectBodyLine(body, kind, parts);
      BodyTail(body);
      BodyAppended(body[1..], kind, parts + [line]);
      StrippedCons(body, parts);
    }
  }

  /** At the end of the lines the open scene is closed. */
  lemma CollectEnd(kind: string, parts: seq<string>)
    requires kind != "" && parts != []
    ensures Collect([], Some(kind), parts) == [Draft(kind, parts + Stripped([]))]
  {
    assert parts + Stripped([]) == parts;
  }

  /** An unlabelled, non-blank line joins the open scene. */
  lemma CollectBodyLine(body: seq<string>, kind: string, parts: seq<string>)
    requires body != [] && parts != []
    requires Strip(body[0]) != "" && !IsLabelLine(Strip(body[0]))
    ensures Collect(body, Some(kind), parts) == Collect(body[1..], Some(kind), parts + [Strip(body[0])])
  {
  }

  lemma BodyTail(body: seq<string>)
    requires body != []
    requires forall k :: 0 <= k < |body| ==> Strip(body[k]) != "" && !IsLabelLine(Strip(body[k]))
    ensures Strip(body[0]) != "" && !IsLabelLine(Strip(body[0]))
    ensures forall k :: 0 <= k < |body[1..]| ==> Strip(body[1..][k]) != "" && !IsLabelLine(Strip(body[1..][k]))
  {
    assert forall k :: 0 <= k < |body| - 1 ==> body[1..][k] == body[k + 1];
  }

  lemma StrippedCons(lines: seq<string>, parts: seq<string>)
    requires lines != []
    ensures (parts + [Strip(lines[0])]) + Stripped(lines[1..]) == parts + Stripped(lines)
  {
    assert forall k :: 1 <= k < |lines| ==> Stripped(lines)[k] == Stripped(lines[1..])[k - 1];
    assert Stripped(lines) == [Strip(lines[0])] + Stripped(lines[1..]);
  }

  /** A script of one label line and its body is one scene whose text is
      the label line's text and the body's stripped lines, joined by
      spaces. */
  lemma OneScene(head: string, body: seq<string>)
    requires Strip(head) != "" && IsLabelLine(Strip(head))
    requires forall k :: 0 <= k < |body| ==> Strip(body[k]) != "" && !IsLabelLine(Strip(body[k]))
    ensures Collect([head] + body, None, []) == [Draft(LabelOf(Strip(head)), [FirstPart(Strip(head))] + Stripped(body))]
  {
    var line := Strip(head);
    LabelNamed(line);
    assert ([head] + body)[1..] == body;
    BodyAppended(body, LabelOf(line), [FirstPart(line)]);
  }

  // ------------------------------------------------------ footage keywords

  /** Words that, found anywhere in the scene text, are searched for. */
  const ImportantWords: seq<string> := ["ai", "technology", "business", "data", "innovation", "future", "success"]

  /** The first keyword listed for each scene type; "business" for other
      types. */
  function BaseKeyword(kind: string): (r: string)
    ensures r != ""
  {
    if kind == "hook" then "technology"
    else if kind == "main" then "business"
    else if kind == "why" then "success"
    else if kind == "cta" then "social media"
    else "business"
  }

  /** The first of `words` that occurs in `s`. */
  function FirstFound(s: string, words: seq<string>): (r: Option<nat>)
    ensures r.None? <==> forall k :: 0 <= k < |words| ==> !Contains(s, words[k])
    ensures r.Some? ==> r.value < |words| && Contains(s, words[r.value])
    ensures r.Some? ==> forall j :: 0 <= j < r.value ==> !Contains(s, words[j])
  {
    if words == [] then None
    else if HasSubstring(s, words[0]) then Some(0)
    else match FirstFound(s, words[1..])
      case None => None
      case Some(k) => Some(k + 1)
  }

  /** `get_scene_keywords`: the first important word occurring in the
      lower-cased text, else the scene type's base keyword. */
  function SceneKeyword(kind: string, text: string): (r: string)
    ensures r != ""
  {
    match FirstFound(Lower(text), ImportantWords)
    case Some(k) => ImportantWords[k]
    case None => BaseKeyword(kind)
  }

  /** The keyword is the earliest important word found in the text, and the
      type's keyword only when none is. */
  lemma SceneKeywordChoice(kind: string, text: string)
    ensures (forall k :: 0 <= k < |ImportantWords| ==> !Contains(Lower(text), ImportantWords[k]))
            ==> SceneKeyword(kind, text) == BaseKeyword(kind)
    ensures forall k :: 0 <= k < |ImportantWords| && Contains(Lower(text), ImportantWords[k]) ==>
              exists j :: 0 <= j <= k && SceneKeyword(kind, text) == ImportantWords[j]
                && Contains(Lower(text), ImportantWords[j])
  {
  }
}

=== FILE: voice_selector.dfy ===
/**
  The voice recommender: a script is read for news, technology and
  business words, which decide a style, a preferred gender and a preferred
  accent; each of the six catalogue voices is scored against them and the
  voices are listed from the highest score down.
 */
module VoiceSelector {
  import opened Text
  import Sorting

  /** A catalogue voice, with the attributes scoring reads. */
  datatype Voice = Voice(key: string, id: string, name: string, gender: string, accent: string,
                         style: string, useCase: string)

  const Adam := Voice("adam", "pNInz6obpgDQGcFmaJgB", "Adam", "Male", "American", "Deep, narrator", "News, documentaries")
  const Antoni := Voice("antoni", "ErXwobaYiN019PkySvjV", "Antoni", "Male", "American", "Well-rounded, neutral", "General narration, news")
  const Joseph := Voice("joseph", "Zlb1dXrM653N07WRdFW3", "Joseph", "Male", "British", "Professional, news anchor", "News, professional content")
  const Rachel := Voice("rachel", "21m00Tcm4TlvDq8ikWAM", "Rachel", "Female", "American", "Professional, calm", "News, narration")
  const Charlotte := Voice("charlotte", "XB0fDUnXU5powFXDhCwa", "Charlotte", "Female", "British", "Professional, clear", "News, educational")
  const Daniel := Voice("daniel", "onwK4e9ZLuTAKqWW03F9", "Daniel", "Male", "British", "Deep, authoritative", "News, documentaries")

  /** The six voices, in the catalogue's order. */
  const Catalogue: seq<Voice> := [Adam, Antoni, Joseph, Rachel, Charlotte, Daniel]

  const NewsWords: seq<string> := ["breaking", "news", "reported", "according to", "announced"]
  const TechWords: seq<string> := ["ai", "technology", "app", "software", "tech", "digital"]
  const BusinessWords: seq<string> := ["company", "market", "business", "revenue", "ceo"]

  /** What the script reading decides. */
  datatype Analysis = Analysis(style: string, tone: string, gender: string, accent: string,
                               isNews: bool, isTech: bool, isBusiness: bool)

  /** `analyze_script_style`: the three kinds of word are looked for in the
      lower-cased script; news wins over technology, technology over
      business; news or business asks for a male voice, business for a
      British accent. */
  function AnalyzeStyle(script: string): (r: Analysis)
    ensures r.isNews <==> exists k :: 0 <= k < |NewsWords| && Contains(Lower(script), NewsWords[k])
    ensures r.isTech <==> exists k :: 0 <= k < |TechWords| && Contains(Lower(script), TechWords[k])
    ensures r.isBusiness <==> exists k :: 0 <= k < |BusinessWords| && Contains(Lower(script), BusinessWords[k])
  {
    var lower := Lower(script);
    var news := AnyContained(lower, NewsWords);
    var tech := AnyContained(lower, TechWords);
    var business := AnyContained(lower, BusinessWords);
    var style := if news then "news-anchor" else if tech then "tech-narrator"
                 else if business then "business-professional" else "neutral-narrator";
    var tone := if news then "professional, authoritative" else if tech then "clear, engaging"
                else if business then "confident, clear" else "balanced, informative";
    Analysis(style, tone, if news || business then "male" else "either",
             if business then "British" else "American/British", news, tech, business)
  }

  /** The style follows the priority news, technology, business; the
      preferences follow the flags. */
  lemma StylePriority(script: string)
    ensures var a := AnalyzeStyle(script);
            && (a.style == "news-anchor" <==> a.isNews)
            && (a.style == "tech-narrator" <==> !a.isNews && a.isTech)
            && (a.style == "business-professional" <==> !a.isNews && !a.isTech && a.isBusiness)
            && (a.style == "neutral-narrator" <==> !a.isNews && !a.isTech && !a.isBusiness)
            && (a.gender == "male" <==> a.isNews || a.isBusiness)
            && (a.gender == "either" <==> !a.isNews && !a.isBusiness)
            && (Contains(a.accent, "American") <==> !a.isBusiness)
            && Contains(a.accent, "British")
  {
    var a := AnalyzeStyle(script);
    if !a.isBusiness {
      assert OccursAt(a.accent, "American", 0);
      assert OccursAt(a.accent, "British", 9);
    } else {
      assert OccursAt(a.accent, "British", 0);
    }
  }

  /** A scored voice with the reasons for its score. */
  datatype Recommendation = Recommendation(voice: Voice, score: int, reasons: seq<string>)

  /** The points a voice gets from the analysis. */
  function Score(a: Analysis, v: Voice): (r: int)
    ensures 0 <= r <= 46
  {
    (if a.gender == "either" then 5 else if Lower(a.gender) == Lower(v.gender) then 10 else 0)
    + (if HasSubstring(a.accent, v.accent) then 8 else 0)
    + (if a.isNews && HasSubstring(Lower(v.useCase), "news") then 10 else 0)
    + (if a.isTech && (HasSubstring(Lower(v.style), "clear") || HasSubstring(Lower(v.style), "engaging")) then 8 else 0)
    + (if a.isBusiness && HasSubstring(Lower(v.style), "professional") then 10 else 0)
  }

  /** The reasons shown with the score, one per matched rule other than
      the neutral gender points. */
  function Reasons(a: Analysis, v: Voice): (r: seq<string>)
    ensures |r| <= 5
  {
    (if a.gender != "either" && Lower(a.gender) == Lower(v.gender) then ["Matches recommended gender (" + v.gender + ")"] else [])
    + (if HasSubstring(a.accent, v.accent) then ["Matches recommended accent (" + v.accent + ")"] else [])
    + (if a.isNews && HasSubstring(Lower(v.useCase), "news") then ["Perfect for news content"] else [])
    + (if a.isTech && (HasSubstring(Lower(v.style), "clear") || HasSubstring(Lower(v.style), "engaging")) then ["Great for tech content"] else [])
    + (if a.isBusiness && HasSubstring(Lower(v.style), "professional") then ["Professional tone for business"] else [])
  }

  function Scored(a: Analysis, voices: seq<Voice>): (r: seq<Recommendation>)
    ensures |r| == |voices|
    ensures forall k :: 0 <= k < |r| ==> r[k].voice == voices[k]
  {
    seq(|voices|, k requires 0 <= k < |voices| => Recommendation(voices[k], Score(a, voices[k]), Reasons(a, voices[k])))
  }

  function ByScore(r: Recommendation): Sorting.Rank {
    Sorting.ByScore(r.score as real)
  }

  /** The voices scored and listed from the highest score down: each voice
      once, voices with equal scores in their given order. */
  function Recommend(a: Analysis, voices: seq<Voice>): (r: seq<Recommendation>)
    ensures multiset(r) == multiset(Scored(a, voices))
    ensures |r| == |voices|
    ensures forall i, j :: 0 <= i < j < |r| ==> r[i].score >= r[j].score
    ensures forall k :: Sorting.WithKey(ByScore, r, k) == Sorting.WithKey(ByScore, Scored(a, voices), k)
  {
    var scored := Scored(a, voices);
    var r := Sorting.SortDesc(ByScore, scored);
    forall k {
      Sorting.SortStable(ByScore, scored, k);
    }
    assert forall i, j :: 0 <= i < j < |r| ==> !Sorting.Outranks(ByScore(r[j]), ByScore(r[i]));
    r
  }

  /** The ranking lists every voice with its score and nothing else,
      highest score first. */
  predicate ListsScored(r: seq<Recommendation>, a: Analysis, voices: seq<Voice>) {
    && |r| == |voices|
    && (forall i, j :: 0 <= i < j < |r| ==> r[i].score >= r[j].score)
    && (forall k :: 0 <= k < |r| ==> r[k].voice in voices && r[k].score == Score(a, r[k].voice))
    && (forall i :: 0 <= i < |voices| ==>
          exists k :: 0 <= k < |r| && r[k].voice == voices[i] && r[k].score == Score(a, voices[i]))
  }

  lemma RecommendLists(a: Analysis, voices: seq<Voice>)
    ensures ListsScored(Recommend(a, voices), a, voices)
  {
    var r := Recommend(a, voices);
    var scored := Scored(a, voices);
    forall k | 0 <= k < |r|
      ensures r[k].voice in voices && r[k].score == Score(a, r[k].voice)
    {
      assert r[k] in multiset(scored);
      var i :| 0 <= i < |scored| && scored[i] == r[k];
    }
    forall i | 0 <= i < |voices|
      ensures exists k :: 0 <= k < |r| && r[k].voice == voices[i] && r[k].score == Score(a, voices[i])
    {
      EachVoiceOnce(a, voices, i);
    }
  }

  /** `get_voice_recommendations`: the catalogue ranked for the script.
      Every catalogue voice is listed with the score the script's analysis
      gives it, and nothing else is, highest score first. */
  function Recommendations(script: string): (r: seq<Recommendation>)
    ensures ListsScored(r, AnalyzeStyle(script), Catalogue)
  {
    RecommendLists(AnalyzeStyle(script), Catalogue);
    Recommend(AnalyzeStyle(script), Catalogue)
  }

  /** Each voice appears in the ranking with its score. */
  lemma EachVoiceOnce(a: Analysis, voices: seq<Voice>, i: nat)
    requires i < |voices|
    ensures exists k :: 0 <= k < |Recommend(a, voices)| && Recommend(a, voices)[k].voice == voices[i]
              && Recommend(a, voices)[k].score == Score(a, voices[i])
  {
    var scored := Scored(a, voices);
    assert scored[i] in multiset(Recommend(a, voices));
    var k :| 0 <= k < |Recommend(a, voices)| && Recommend(a, voices)[k] == scored[i];
  }

  /** The analysis' accent contains the accent of every catalogue voice
      unless it asks for a British one. */
  lemma AccentsMatch(a: Analysis, k: nat)
    requires k < |Catalogue| && a.accent == "American/British"
    ensures HasSubstring(a.accent, Catalogue[k].accent)
  {
    assert OccursAt(a.accent, "American", 0);
    assert OccursAt(a.accent, "British", 9);
  }

  /** A script with no news, technology or business word scores every
      voice 13 (5 for either gender, 8 for the accent), so the voices keep
      the catalogue's order. */
  lemma NeutralScript(script: string)
    requires var a := AnalyzeStyle(script); !a.isNews && !a.isTech && !a.isBusiness
    ensures forall k :: 0 <= k < |Catalogue| ==>
              Recommendations(script)[k].voice == Catalogue[k] && Recommendations(script)[k].score == 13
  {
    var a := AnalyzeStyle(script);
    assert a.gender == "either" && a.accent == "American/British";
    var scored := Scored(a, Catalogue);
    forall k | 0 <= k < |Catalogue|
      ensures scored[k].score == 13
    {
      AccentsMatch(a, k);
    }
    Sorting.SortOfSorted(ByScore, scored);
  }

  /** `sub` occurs at `i` once `s` is lower-cased. */
  lemma LowerOccurs(s: string, sub: string, i: nat)
    requires i + |sub| <= |s| && forall j :: 0 <= j < |sub| ==> LowerChar(s[i + j]) == sub[j]
    ensures HasSubstring(Lower(s), sub)
  {
    assert OccursAt(Lower(s), sub, i);
  }

  /** A voice of the catalogue: male or female, American or British, and
      for news. */
  predicate Cataloguelike(v: Voice) {
    && (v.gender == "Male" || v.gender == "Female")
    && (v.accent == "American" || v.accent == "British")
    && HasSubstring(Lower(v.useCase), "news")
  }

  /** The rule behind a news script's ranking: without business words,
      every male voice of the catalogue's kind scores above every female
      one, whatever technology words add. */
  lemma MaleFirst(a: Analysis, m: Voice, f: Voice)
    requires a.isNews && !a.isBusiness && a.gender == "male" && a.accent == "American/British"
    requires Cataloguelike(m) && Cataloguelike(f) && m.gender == "Male" && f.gender == "Female"
    ensures Score(a, m) > Score(a, f)
  {
    assert OccursAt(a.accent, "American", 0);
    assert OccursAt(a.accent, "British", 9);
    assert Lower("Male") == "male";
    assert |Lower("Female")| != |"male"|;
  }
}

=== FILE: wrap.dfy ===
/**
  The greedy word wrap both video renderers apply before drawing a caption:
  the words of the text are added to the current line one at a time; when
  the joined line grows past the width, the last word moves to a new line,
  unless it is the only word on the line, in which case the over-long word
  becomes a line of its own. The narrow renderer uses a width of 25
  characters, the bold one a width of 20.

  A line is kept as the group of words it joins with single spaces.
 */
module Wrap {
  import opened Text

  /** The caption width of the plain renderer. */
  const PlainWidth: nat := 25

  /** The caption width of the bold renderer. */
  const BoldWidth: nat := 20

  /** The words of the groups, in order. */
  function Flatten(groups: seq<seq<string>>): seq<string> {
    if groups == [] then [] else groups[0] + Flatten(groups[1..])
  }

  lemma FlattenSnoc(groups: seq<seq<string>>, g: seq<string>)
    ensures Flatten(groups + [g]) == Flatten(groups) + g
  {
    if groups != [] {
      assert (groups + [g])[1..] == groups[1..] + [g];
    }
  }

  /** The text of a line. */
  function LineText(g: seq<string>): string {
    Join(" ", g)
  }

  lemma JoinSnoc(g: seq<string>, w: string)
    requires g != []
    ensures Join(" ", g + [w]) == Join(" ", g) + " " + w
  {
    if |g| > 1 {
      assert (g + [w])[1..] == g[1..] + [w];
      JoinSnoc(g[1..], w);
    }
  }

  /** A line fits when its text is within the width, or it is a single word
      that is too long to share a line. */
  predicate Fits(g: seq<string>, width: nat) {
    g != [] && (|LineText(g)| <= width || |g| == 1)
  }

  /** Line `g` could not have taken the next line's first word `w`. */
  predicate Full(g: seq<string>, w: string, width: nat) {
    |LineText(g + [w])| > width
  }

  /** A line already past the width cannot take another word. */
  lemma LongStaysLong(g: seq<string>, x: string, width: nat)
    requires g != [] && |LineText(g)| > width
    ensures Full(g, x, width)
  {
    JoinSnoc(g, x);
  }

  /** Consecutive lines are full: each could not have taken the first word
      of the next one. */
  predicate Greedy(groups: seq<seq<string>>, width: nat) {
    forall k :: 0 < k < |groups| ==> groups[k] != [] && Full(groups[k - 1], groups[k][0], width)
  }

  /** What holds after the loop has taken `done`: the emitted lines and the
      open line together hold those words, and the open line is full if
      another line follows it. */
  predicate Wrapping(done: seq<string>, groups: seq<seq<string>>, current: seq<string>, width: nat) {
    && Flatten(groups) + current == done
    && (forall k :: 0 <= k < |groups| ==> Fits(groups[k], width))
    && Greedy(groups, width)
    && (current != [] ==> |LineText(current)| <= width || |current| == 1)
    && (groups != [] && current != [] ==> Full(groups[|groups| - 1], current[0], width))
    && (groups != [] && current == [] ==> |LineText(groups[|groups| - 1])| > width)
  }

  /** One turn of the loop: the word joins the open line, or moves to a new
      one, or, alone and too long, becomes a line of its own. */
  function Step(groups: seq<seq<string>>, current: seq<string>, word: string, width: nat)
    : (r: (seq<seq<string>>, seq<string>))
  {
    var line := current + [word];
    if |LineText(line)| > width then
      if |line| > 1 then (groups + [current], [word]) else (groups + [line], [])
    else (groups, line)
  }

  lemma StepWraps(done: seq<string>, groups: seq<seq<string>>, current: seq<string>, word: string, width: nat)
    requires Wrapping(done, groups, current, width)
    ensures Wrapping(done + [word], Step(groups, current, word, width).0, Step(groups, current, word, width).1, width)
  {
    if |LineText(current + [word])| > width {
      if current != [] {
        BreakWraps(done, groups, current, word, width);
      } else {
        assert current + [word] == [word];
        AloneWraps(done, groups, word, width);
      }
    } else {
      JoinWraps(done, groups, current, word, width);
    }
  }

  /** The word moves to a new line. */
  lemma BreakWraps(done: seq<string>, groups: seq<seq<string>>, current: seq<string>, word: string, width: nat)
    requires Wrapping(done, groups, current, width)
    requires current != [] && |LineText(current + [word])| > width
    ensures Wrapping(done + [word], groups + [current], [word], width)
  {
    FlattenSnoc(groups, current);
  }

  /** A word too long for the width, with no open line, is a line alone. */
  lemma AloneWraps(done: seq<string>, groups: seq<seq<string>>, word: string, width: nat)
    requires Wrapping(done, groups, [], width)
    requires |LineText([word])| > width
    ensures Wrapping(done + [word], groups + [[word]], [], width)
  {
    if groups != [] {
      LongStaysLong(groups[|groups| - 1], word, width);
    }
    FlattenSnoc(groups, [word]);
  }

  /** The word joins the open line. */
  lemma JoinWraps(done: seq<string>, groups: seq<seq<string>>, current: seq<string>, word: string, width: nat)
    requires Wrapping(done, groups, current, width)
    requires |LineText(current + [word])| <= width
    ensures Wrapping(done + [word], groups, current + [word], width)
  {
    if groups != [] && current == [] {
      LongStaysLong(groups[|groups| - 1], word, width);
    }
  }

  /** The last open line closes the wrap. */
  lemma CloseWraps(words: seq<string>, groups: seq<seq<string>>, current: seq<string>, width: nat)
    requires Wrapping(words, groups, current, width)
    ensures var out := if current != [] then groups + [current] else groups;
            Flatten(out) == words && (forall k :: 0 <= k < |out| ==> Fits(out[k], width)) && Greedy(out, width)
  {
    if current != [] {
      FlattenSnoc(groups, current);
    }
  }

  lemma TakeOneMore(words: seq<string>, i: nat)
    requires i < |words|
    ensures words[..i + 1] == words[..i] + [words[i]]
  {
  }

  lemma TakeAll(words: seq<string>)
    ensures words[..|words|] == words
  {
  }

  /** The lines of the wrap of `words` at `width`: together they hold the
      words in order, each fits, and none could have taken the next line's
      first word. */
  method WrapWords(words: seq<string>, width: nat) returns (groups: seq<seq<string>>)
    ensures Flatten(groups) == words
    ensures forall k :: 0 <= k < |groups| ==> Fits(groups[k], width)
    ensures Greedy(groups, width)
  {
    groups := [];
    var current: seq<string> := [];
    var i := 0;
    while i < |words|
      invariant 0 <= i <= |words|
      invariant Wrapping(words[..i], groups, current, width)
    {
      StepWraps(words[..i], groups, current, words[i], width);
      TakeOneMore(words, i);
      var next := Step(groups, current, words[i], width);
      groups, current := next.0, next.1;
      i := i + 1;
    }
    TakeAll(words);
    CloseWraps(words, groups, current, width);
    groups := if current != [] then groups + [current] else groups;
  }

  /** The texts of the lines. */
  function LineTexts(groups: seq<seq<string>>): (r: seq<string>)
    ensures |r| == |groups|
  {
    seq(|groups|, k requires 0 <= k < |groups| => LineText(groups[k]))
  }

  /** A line of words followed by a line break and more text splits into
      the line's words and the rest's. */
  lemma {:induction false} LineThen(g: seq<string>, rest: string)
    requires g != [] && forall k :: 0 <= k < |g| ==> IsWord(g[k])
    ensures Words(LineText(g) + "\n" + rest) == g + Words(rest)
    decreases |g|
  {
    if |g| == 1 {
      WordsBreak(g[0], rest);
    } else {
      assert LineText(g) == g[0] + " " + LineText(g[1..]);
      LineThen(g[1..], rest);
      WordThenLine(g[0], LineText(g[1..]), rest, g[1..]);
      assert g == [g[0]] + g[1..];
    }
  }

  /** One more word in front of a line. */
  lemma WordThenLine(w: string, tail: string, rest: string, ws: seq<string>)
    requires IsWord(w) && Words(tail + "\n" + rest) == ws + Words(rest)
    ensures Words(w + " " + tail + "\n" + rest) == [w] + ws + Words(rest)
  {
    assert w + " " + tail + "\n" + rest == w + " " + (tail + "\n" + rest);
    WordsCons(w, tail + "\n" + rest);
  }

  /** A word followed by a line break. */
  lemma WordsBreak(w: string, rest: string)
    requires IsWord(w)
    ensures Words(w + "\n" + rest) == [w] + Words(rest)
  {
    var s := w + "\n" + rest;
    assert s == w + ("\n" + rest);
    WordLengthOf(w, "\n" + rest);
    assert s[..|w|] == w && s[|w|..] == "\n" + rest;
    assert ("\n" + rest)[1..] == rest;
  }

  /** The caption's lines, split into words, give the words back. */
  lemma {:induction false} CaptionWords(groups: seq<seq<string>>)
    requires forall k :: 0 <= k < |groups| ==> groups[k] != []
    requires forall w :: w in Flatten(groups) ==> IsWord(w)
    ensures Words(Join("\n", LineTexts(groups))) == Flatten(groups)
    decreases |groups|
  {
    if groups == [] {
    } else {
      FlattenCons(groups);
      var g := groups[0];
      assert forall k :: 0 <= k < |g| ==> g[k] in Flatten(groups);
      if |groups| == 1 {
        WordsJoin(g);
        assert Flatten(groups[1..]) == [];
      } else {
        assert LineTexts(groups)[1..] == LineTexts(groups[1..]);
        LineThen(g, Join("\n", LineTexts(groups[1..])));
        CaptionWords(groups[1..]);
      }
    }
  }

  lemma FlattenCons(groups: seq<seq<string>>)
    requires groups != []
    ensures Flatten(groups) == groups[0] + Flatten(groups[1..])
    ensures forall w :: w in Flatten(groups[1..]) ==> w in Flatten(groups)
  {
  }

  /** The caption of `text` at `width`: its lines and their text joined by
      line breaks. The caption holds exactly the words of the text, in
      order; each line is within the width or is a single word. */
  method Caption(text: string, width: nat) returns (lines: seq<string>, caption: string)
    ensures caption == Join("\n", lines)
    ensures Words(caption) == Words(text)
    ensures forall k :: 0 <= k < |lines| ==> |lines[k]| <= width || IsWord(lines[k])
    ensures forall k :: 0 <= k < |lines| ==> '\n' !in lines[k]
  {
    var words := Words(text);
    var groups := WrapWords(words, width);
    lines := LineTexts(groups);
    caption := Join("\n", lines);
    forall w | w in Flatten(groups)
      ensures IsWord(w)
    {
      var j :| 0 <= j < |words| && words[j] == w;
    }
    forall k | 0 <= k < |groups|
      ensures (|lines[k]| <= width || IsWord(lines[k])) && '\n' !in lines[k]
    {
      FlattenHolds(groups, k);
      NoBreak(groups[k]);
      if |groups[k]| == 1 {
        assert IsWord(groups[k][0]);
      }
    }
    CaptionWords(groups);
  }

  /** The words of one line are among the flattened words. */
  lemma {:induction false} FlattenHolds(groups: seq<seq<string>>, k: nat)
    requires k < |groups|
    ensures forall j :: 0 <= j < |groups[k]| ==> groups[k][j] in Flatten(groups)
    decreases k
  {
    FlattenCons(groups);
    if k > 0 {
      FlattenHolds(groups[1..], k - 1);
    }
  }

  /** The plain renderer's caption, 25 characters wide: split at its line
      breaks it gives lines within the width or of a single word. */
  method PlainCaption(text: string) returns (caption: string)
    ensures Words(caption) == Words(text)
    ensures forall k :: 0 <= k < |Split(caption, '\n')| ==>
              |Split(caption, '\n')[k]| <= PlainWidth || IsWord(Split(caption, '\n')[k])
  {
    var lines;
    lines, caption := Caption(text, PlainWidth);
    LinesBack(lines);
  }

  /** The bold renderer's caption, 20 characters wide. */
  method BoldCaption(text: string) returns (caption: string)
    ensures Words(caption) == Words(text)
    ensures forall k :: 0 <= k < |Split(caption, '\n')| ==>
              |Split(caption, '\n')[k]| <= BoldWidth || IsWord(Split(caption, '\n')[k])
  {
    var lines;
    lines, caption := Caption(text, BoldWidth);
    LinesBack(lines);
  }

  /** Lines without a line break are what their join splits back into; no
      line at all splits into one empty line. */
  lemma LinesBack(lines: seq<string>)
    requires forall k :: 0 <= k < |lines| ==> '\n' !in lines[k]
    ensures lines != [] ==> Split(Join("\n", lines), '\n') == lines
    ensures lines == [] ==> Split(Join("\n", lines), '\n') == [""]
  {
    if lines != [] {
      SplitJoin(lines, '\n');
    }
  }

  /** The words of a line joined by spaces hold no line break. */
  lemma {:induction false} NoBreak(g: seq<string>)
    requires forall k :: 0 <= k < |g| ==> IsWord(g[k])
    ensures '\n' !in LineText(g)
    decreases |g|
  {
    if |g| >= 1 {
      if |g| > 1 {
        NoBreak(g[1..]);
      }
    }
  }
}
